=== FILE: README.md ===
# NVMe controller emulation core, modelled in Dafny

This project models the core of the QEMU NVMe controller with Open-Channel
SSD 2.0 ("LightNVM") support, `hw/block/nvme.c`, and proves properties of
that model. The model covers these parts:

- **The queue engine.** Submission queues are fetched in bursts. Each
  fetched command takes a request from its queue's fixed pool.
  Completions go into completion queues, with a FIFO backlog for when a
  queue is full. Interrupts are raised at once or left to the coalescing
  timer. The proofs cover the ring arithmetic and phase tags, no request
  lost or duplicated, FIFO drains, and the burst bound.
  - Files: `ring.dfy`, `queues.dfy` (specification functions on a state
    value), `engine.dfy` (class `Controller`, whose methods are proved to
    produce exactly the specified state).
- **Doorbells and shadow doorbells.** A write in the doorbell region is
  decoded and checked, then applied. `nvme_set_db_memory` lays out the
  shadow doorbells and event indexes. File: `doorbell.dfy`.
- **PRP transfers.** `nvme_map_prp`, `nvme_setup_discontig` and
  `nvme_discontig`. File: `prp.dfy`.
- **Asynchronous events and the error log.** The event queue, the event
  mask, the waiting Asynchronous Event Requests, and the error-information
  ring. Files: `aer.dfy`, `errlog.dfy`.
- **Enable and shutdown.** Writes to the CC register, and the checks
  `nvme_start_ctrl` makes. File: `enable.dfy`.
- **The Open-Channel chunk logic.**
  - Address packing (`lnvm_addr.dfy`).
  - The chunk state machine and its read and write checks (`chunk.dfy`).
  - Vector-write admission (`chunk_write_req.dfy`).
  - `nvme_rw` admission (`rw.dfy`).
  - The chunk-table text format, with its `strstr`/`sscanf` line parsers
    (`chunk_text.dfy`).
- **Shared definitions.** Status codes are in `status.dfy`, unsigned bit
  arithmetic in `bits.dfy`, and Option/Result in `wrappers.dfy`.

Some defects have both an as-written and a corrected definition. There the
corrected one is used by the rest of the model, and a lemma about the
as-written one exhibits the defect (see "## Findings").

## Model

| member | source | states |
|---|---|---|
| Status.WithDnr | hw/block/nvme.c:452 | setting Do Not Retry keeps the status code and never yields success |
| Ring.IncCqTail | hw/block/nvme.c:317-324 | the completion-queue tail moves one slot; a wrap to slot 0 flips the phase tag |
| Ring.IncSqHead | hw/block/nvme.c:333-336 | the submission-queue head moves one slot, wrapping after the last |
| Ring.EmptyAndFull | hw/block/nvme.c:345-354 | a queue is empty exactly when head and tail meet and full exactly when one slot short of its size is in use |
| Ring.IncUsesOneMore | hw/block/nvme.c:317-324 | posting into a completion queue that is not full uses exactly one more entry |
| Ring.IncHeadUsesOneFewer | hw/block/nvme.c:333-336 | consuming from a submission queue that is not empty uses exactly one fewer entry |
| Ring.PendingIsFreeSlots | hw/block/nvme.c:326-331 | nvme_cqes_pending counts the free slots of a queue holding entries, and gives 0 for an empty queue |
| Ring.PendingNegative | hw/block/nvme.c:326-331 | the 32-bit count returned as an int is negative for a head 2^31 or more past the tail, as a shadow doorbell can give |
| Ring.AdvanceCqPosition | hw/block/nvme.c:317-324 | after k posts the tail is k slots on, and the phase tag is the starting tag exactly when an even number of wraps happened |
| Ring.AdvanceSqPosition | hw/block/nvme.c:333-336 | consuming n entries moves the head n slots round the ring |
| Ring.AdvanceSqNext | hw/block/nvme.c:333-336 | consuming one more entry applies nvme_inc_sq_head once more |
| Queues.Interrupt | hw/block/nvme.c:694-706 | after a post, either the interrupt is raised and a pending coalescing timer cancelled, or the coalescing timer is armed unless already pending |
| Queues.Drain | hw/block/nvme.c:660-674 | the backlog is posted from the front until it is empty or the queue, its head refreshed, is full |
| Queues.FetchOne | hw/block/nvme.c:3039-3064 | one fetch advances the head and keeps every queue's identity, size and links, the tail and the completed count |
| Queues.FetchOneMoves | hw/block/nvme.c:3039-3064 | an aborted entry only advances the head; otherwise exactly the first free request moves to the outstanding list, and one that completes at once leaves it again, to the free list when posted or to the end of the backlog |
| Queues.EnqueueMoves | hw/block/nvme.c:677-692 | the request leaves the outstanding list and returns to the free list when posted, or joins the end of the backlog; request data is untouched |
| Queues.Taken | hw/block/nvme.c:3051-3064 | the first free request moves to the outstanding list; an immediate status is kept in it, a deferred command keeps the earlier status |
| Queues.Burst | hw/block/nvme.c:3037-3038 | the fetch loop runs while the queue is non-empty, a request is free and the post-incremented count is below the burst |
| Queues.Finish | hw/block/nvme.c:3066-3072 | the event index is published, the tail refreshed, the count added to the completed total, and the timer re-armed when entries remain |
| Queues.PostCqeKeeps | hw/block/nvme.c:635-658 | posting a completion changes no queue's identity, size or links |
| Queues.EnqueueWf | hw/block/nvme.c:676-707 | enqueueing a completion keeps the queue tables well formed |
| Queues.DrainWf | hw/block/nvme.c:660-674 | draining the backlog keeps the queue tables well formed |
| Queues.ProcessWf | hw/block/nvme.c:3024-3073 | processing a submission queue keeps the queue tables well formed |
| Queues.PostCqeEntry | hw/block/nvme.c:635-658 | the entry is written at the old tail with the phase tag in bit 0 and the request's status above it, with its command id, queue id and head |
| Queues.EnqueuePostsIff | hw/block/nvme.c:676-707 | a completion is posted at once exactly when the queue, its head refreshed, is not full and has no backlog; otherwise it joins the backlog |
| Queues.EnqueueHeld | hw/block/nvme.c:676-707 | no request is lost or duplicated: it leaves the outstanding list for the backlog or for the free list |
| Queues.DrainFifo | hw/block/nvme.c:660-674 | the backlog drains in FIFO order, leaving a suffix, and stops only on an empty backlog or a full queue |
| Queues.DrainTail | hw/block/nvme.c:660-674 | the tail and phase tag advance one post for each request drained |
| Queues.DrainHeld | hw/block/nvme.c:660-674 | draining moves requests from the backlog to their free lists, losing and duplicating none |
| Queues.BurstHead | hw/block/nvme.c:3037-3046 | the head moves one slot per fetched entry, capped by the burst |
| Queues.ProcessFetches | hw/block/nvme.c:3024-3073 | at most arb_burst entries are fetched and the head moves by exactly that many; completed grows by the loop count, one more than fetched when the burst ran out |
| Queues.ProcessHeld | hw/block/nvme.c:3024-3073 | processing a submission queue loses and duplicates no request of any queue |
| Engine.Controller.PostCqe | hw/block/nvme.c:635-658 | the new state is the posting function applied to the old one |
| Engine.Controller.EnqueueReqCompletion | hw/block/nvme.c:676-707 | the new state is the enqueue function applied to the old one |
| Engine.Controller.NotifyCq | hw/block/nvme.c:694-706 | the new state is the interrupt decision applied to the old one |
| Engine.Controller.PostCqes | hw/block/nvme.c:660-674 | the new state is the drain followed by the interrupt, as the loop runs it |
| Engine.Controller.CqFull | hw/block/nvme.c:345-349 | answers fullness after refreshing the head from the shadow doorbell, and changes only that head |
| Engine.Controller.ProcessSq | hw/block/nvme.c:3024-3073 | the new state is the burst loop and its epilogue applied to the old one |
| Engine.Controller.FetchEntry | hw/block/nvme.c:3039-3064 | the new state is one fetch applied to the old one |
| Engine.Controller.ProcessDb | hw/block/nvme.c:3368-3465 | the new state is the doorbell decoding and update, or unchanged with the error event returned |
| Engine.Controller.CqDoorbell | hw/block/nvme.c:3383-3432 | the new state is the completion-queue head write of the doorbell function |
| Engine.Controller.ArmSqTimers | hw/block/nvme.c:3419-3426 | every linked submission-queue timer not yet pending is armed |
| Engine.Controller.SetDbMemory | hw/block/nvme.c:2933-2965 | refuses bad buffer addresses leaving everything unchanged, else gives every I/O queue its shadow doorbell and event index |
| Doorbell.DecodeOffset | hw/block/nvme.c:3374-3434 | for CAP.DSTRD up to 10, the tail doorbell of every queue decodes to that queue's submission queue and the head doorbell to its completion queue |
| Doorbell.OffsetOfDecode | hw/block/nvme.c:3374-3434 | for CAP.DSTRD up to 10, every aligned address of the doorbell region is exactly one queue's doorbell |
| Doorbell.WideStrideMisaligned | hw/block/nvme.c:3374-3381 | for CAP.DSTRD 11 and above, which the constraint check lets through up to 12, every doorbell at its place in the layout is refused as misaligned |
| Doorbell.WideStrideShifted | hw/block/nvme.c:3374-3434 | at CAP.DSTRD 11 a write at 0x2000 is taken for submission queue 0's tail, whose doorbell is at 0x1000 |
| Doorbell.DbWriteRefuses | hw/block/nvme.c:3368-3465 | a write is refused with an error event exactly when it is not accepted, and then leaves the queues alone |
| Doorbell.DbShadowIgnoresValue | hw/block/nvme.c:3416-3418 | with a shadow doorbell set, any two accepted writes to the same doorbell have the same effect |
| Doorbell.DbSetsTail | hw/block/nvme.c:3444-3463 | an accepted tail write sets the tail, changes nothing else and arms the timer exactly when it is not pending |
| Doorbell.DbSetsHead | hw/block/nvme.c:3399-3432 | an accepted head write to a queue that was not full sets the head, posts nothing, and deasserts the interrupt exactly when the queue is left empty |
| Doorbell.ShadowLayoutSq | hw/block/nvme.c:2933-2965 | each I/O submission queue's shadow doorbell and event index sit at its tail doorbell's offset in the two buffers |
| Doorbell.ShadowLayoutCq | hw/block/nvme.c:2933-2965 | each I/O completion queue's shadow doorbell and event index sit at its head doorbell's offset in the two buffers |
| Doorbell.SetDbMemoryRefuses | hw/block/nvme.c:2933-2965 | a refused shadow-doorbell setup changes nothing |
| ErrorPage.RingKeepsLatest | hw/block/nvme.c:709-724 | the ring keeps the last elpe errors, the k-th before the newest in slot (count - 1 - k) mod elpe |
| ErrorPage.RingUnwritten | hw/block/nvme.c:709-724 | slots no error reached yet, and the spare slot, stay blank |
| ErrorPage.ErrorLog.SetErrorPage | hw/block/nvme.c:709-724 | the entry is recorded at the index stamped with the count before its increment; the index advances round the ring; counters wrap at 256 |
| Aer.HeldSet | hw/block/nvme.c:758 | setting a type's mask bit adds exactly that type to the held-back set |
| Aer.HeldClear | hw/block/nvme.c:2577 | clearing a type's mask bit removes exactly that type from the held-back set |
| Aer.DeliverConserves | hw/block/nvme.c:742-771 | no event is lost or reported twice: the queue keeps exactly the events not reported |
| Aer.DeliverMasks | hw/block/nvme.c:753-758 | each reported event was of a type not held back, which is held back afterwards, and no two reports share a type |
| Aer.DeliverStops | hw/block/nvme.c:749-752 | the loop stops only when no request waits or every queued event is held back |
| Aer.DeliverFifo | hw/block/nvme.c:742-771 | with no type held back or repeated, events are reported first in, first out, as many as requests wait |
| Aer.AsWrittenLosesMaskedEvent | hw/block/nvme.c:749-770 | as written, a held-back event at the head is removed in place of the event reported behind it |
| Aer.AsyncReqOverrun | hw/block/nvme.c:2683-2692 | as written, with all aerl + 1 slots taken a further command is stored one past the end, and with aerl 255 no command is ever refused |
| Aer.AsyncEvents.EnqueueEvent | hw/block/nvme.c:726-740 | an event is queued and the timer armed only while CSTS.RDY is set |
| Aer.AsyncEvents.AsyncReq | hw/block/nvme.c:2683-2692 | a command is refused once all aerl + 1 slots are taken; otherwise it takes the next slot and waits, the 8-bit count wrapping as in the code |
| Aer.AsyncEvents.ProcessCb | hw/block/nvme.c:742-771 | the queue, mask and waiting requests become what Deliver gives, each report answering the latest waiting request |
| Aer.AsyncEvents.ClearMask | hw/block/nvme.c:2570-2582 | reading a log page clears that type's mask bit and re-arms the timer when events are queued |
| Aer.AsyncEvents.Clear | hw/block/nvme.c:3091-3104 | a reset empties the event queue and the waiting requests and keeps the mask |
| Prp.MapPrpRejects | hw/block/nvme.c:443-528 | a zero PRP1, a zero PRP2 with bytes left, and a misaligned single PRP2 are refused |
| Prp.WalkCovers | hw/block/nvme.c:468-506 | an accepted list walk yields valid fragments of at most a page, all in one memory, covering exactly the bytes left |
| Prp.WalkAccepts | hw/block/nvme.c:468-506 | the walk accepts exactly when every word it reads, data entries and next-list pointers, is non-zero and page aligned |
| Prp.WalkReadsPage | hw/block/nvme.c:474-491 | within a list page the walk reads the slots in order, the last slot included |
| Prp.MapPrpRejectsList | hw/block/nvme.c:474-491 | a zero or misaligned list entry the walk reaches, the next-list pointer in the last slot included, is refused |
| Prp.MapPrpCovers | hw/block/nvme.c:443-528 | an accepted transfer starts with the fragment from PRP1 to its page end and its fragments cover exactly len bytes |
| Prp.MapPrpAsWrittenAgrees | hw/block/nvme.c:507-517 | the code and the intended mapping differ only for a second fragment in the controller memory buffer |
| Prp.CmbSecondFragmentShort | hw/block/nvme.c:512-516 | as written, a 4 KiB buffer transfer crossing a page maps only 1 KiB |
| Prp.MapPrpLoop | hw/block/nvme.c:443-528 | the loop returns what the mapping function gives |
| Prp.WalkList | hw/block/nvme.c:468-506 | the list-walk loop returns what the walk function gives |
| Prp.SetupDiscontig | hw/block/nvme.c:406-431 | the loop returns the list the intended page-by-page read gives, or failure where the code returns NULL, for queues of any number of pages |
| Prp.SetupFromShape | hw/block/nvme.c:406-431 | the list is total_prps long, every entry non-zero and page aligned, and guest memory is left as it was |
| Prp.SetupReadsFirstPage | hw/block/nvme.c:406-431 | read as intended, the first list page's entries are the guest's words at prp1 + 8k, one-page queues included |
| Prp.SetupReadsList | hw/block/nvme.c:406-431 | read as intended, entry k is slot k mod ppp of the list page reached by following the chain k div ppp times |
| Prp.SetupAsWrittenIgnoresMemory | hw/block/nvme.c:415-424 | as written, the list does not depend on guest memory |
| Prp.SetupAsWrittenClobbers | hw/block/nvme.c:415-424 | as written, a guest's two-page list is replaced by stale buffer contents, which overwrite its list page |
| Prp.DiscontigFirstSlotFails | hw/block/nvme.c:3042-3043 | as called, slot 0 of a non-contiguous queue divides by zero |
| Prp.DiscontigSlot | hw/block/nvme.c:433-441 | with the intended argument order, slot idx is at byte offset idx * entry_size across the listed pages |
| LnvmAddr.LbafOf | hw/block/nvme.c:3750-3761 | each field is the narrowest width holding its count, packed from bit 0 up |
| LnvmAddr.LbaToChunkNo | hw/block/nvme.c:212-230 | an address maps to its linear chunk number, or -1 when a component is out of range |
| LnvmAddr.GetChunkMetaIndex | hw/block/nvme.c:1836-1854 | a triple maps to -1 exactly when a component is out of range, otherwise to its chunk number below total_chks |
| LnvmAddr.LbaAddrRoundTrip | hw/block/nvme.c:167-189 | decoding a built address gives back its components, its chunk number equals the table index, and its offset is linear |
| LnvmAddr.ChunkNoRoundTrip | hw/block/nvme.c:232-240 | every chunk number's start address decodes to that chunk and sector 0 |
| LnvmAddr.LbaToOffLinear | hw/block/nvme.c:204-210 | with one channel, an address's offset is its chunk number times the chunk size plus its sector |
| LnvmAddr.UnionMembersFit | hw/block/nvme.c:167-176 | a valid configuration's counts and sector field fit the address union's members |
| Chunk.Advance | hw/block/nvme.c:253-282 | a FREE chunk opens, a non-OPEN chunk is refused unchanged, and otherwise the pointer advances, closing the chunk at its size |
| Chunk.FillChunk | hw/block/nvme.c:253-282 | writes that first reach the chunk size close it with the pointer at the size, and later writes are refused |
| Chunk.ResetThenWrite | hw/block/nvme.c:1187-1238 | a successful reset admits a write of up to the whole chunk at sector 0; a failed reset refuses every write |
| Chunk.WriteCheck | hw/block/nvme.c:858-894 | refuses OFFLINE and CLOSED chunks, writes past the sector count, then writes not at the pointer |
| Chunk.AdmittedWriteAdvances | hw/block/nvme.c:858-894 | an admitted write always advances the pointer to its end within the chunk, closing it exactly at the size |
| Chunk.ReadCheck | hw/block/nvme.c:1012-1040 | only an OPEN or CLOSED chunk with at least mw_cunits written is readable, and only below its limit |
| Chunk.FilledIsReadable | hw/block/nvme.c:1012-1040 | a filled chunk is readable below its size; a reset chunk is readable nowhere |
| Chunk.InitialChunkWritable | hw/block/nvme.c:1688-1701 | every initial chunk is FREE and empty, starts at its own address, and admits a first write of up to a whole chunk |
| Chunk.Namespace.ChunkMetaInit | hw/block/nvme.c:1688-1701 | every descriptor becomes FREE, sequential, unworn, empty and sec_per_chk long at its start address |
| Chunk.Namespace.AdvanceWp | hw/block/nvme.c:253-282 | -1 and an unchanged table for a missing or unwritable chunk; otherwise only that chunk advances |
| Chunk.Namespace.SetFree | hw/block/nvme.c:1187-1238 | -EINVAL and an unchanged table for a missing chunk; otherwise only that chunk is reset, with injected failure reported |
| Chunk.Namespace.CheckReadReq | hw/block/nvme.c:1042-1052 | each LBA of a vector read gets its readability, one sector at a time |
| ChunkWriteReq.ScanGroups | hw/block/nvme.c:930-979 | a table built without failure has one slot per chunk, counting its LBAs, which follow each other from its first LBA |
| ChunkWriteReq.ScanBound | hw/block/nvme.c:926-979 | the table uses at most cap - 1 slots as written and cap as intended |
| ChunkWriteReq.ScanFailSticks | hw/block/nvme.c:930-979 | a failure in the first loop is final |
| ChunkWriteReq.VerdictSuccess | hw/block/nvme.c:983-1005 | every slot of an admitted table passed the minimum-size and single-chunk checks |
| ChunkWriteReq.CorrectedAdmission | hw/block/nvme.c:896-1010 | as intended, an admitted write touches at most 64 / ws_min chunks, each with a positive multiple of ws_min consecutive LBAs that the chunk admits |
| ChunkWriteReq.AlignmentNotChecked | hw/block/nvme.c:988 | as written, a chunk count above ws_min that is not a multiple of it passes |
| ChunkWriteReq.LastSlotUnusable | hw/block/nvme.c:963-971 | as written, two LBAs of two chunks in a two-slot table are refused |
| ChunkWriteReq.EmptyTableAdmitsAll | hw/block/nvme.c:926-942 | as written, a ws_min above 64 leaves no slot and every request is admitted |
| ChunkWriteReq.FillTable | hw/block/nvme.c:926-979 | the loop's table is the scan function's result |
| ChunkWriteReq.TableStep | hw/block/nvme.c:942-978 | one LBA's inner search gives the step function's result |
| ChunkWriteReq.CheckSlots | hw/block/nvme.c:983-1005 | the second loop's verdict is the verdict function's |
| ChunkWriteReq.CheckWriteReq | hw/block/nvme.c:896-1010 | the result is the as-written scan followed by the verdict |
| Rw.CheckReq | hw/block/nvme.c:840-856 | success exactly when the transfer fits the 32-bit MDTS limit and protection is available when asked; otherwise an invalid field with DNR |
| Rw.CheckReqNoWrap | hw/block/nvme.c:843 | while page size times 2^mdts fits in 32 bits, the limit is that product |
| Rw.CheckReqMdtsWraps | hw/block/nvme.c:843 | with 4 KiB pages and mdts 20 the limit wraps to 0 and every non-empty transfer is refused |
| Rw.RwWriteInChunk | hw/block/nvme.c:1352-1509 | an admitted write lies in one chunk at its write pointer, within its size, advances only that chunk |
| Rw.RwWriteInNamespace | hw/block/nvme.c:1352-1509 | an admitted write touches only sectors below total_chks * sec_per_chk |
| Rw.RwReadOutcome | hw/block/nvme.c:1352-1509 | a readable read proceeds; an unreadable one is refused with DULB when DULBE is set and served predefined data otherwise |
| Enable.StartCheckSpec | hw/block/nvme.c:3107-3201 | the start succeeds exactly when every check passes, and then sets the page geometry (with `page_size / 8` narrowed to 16 bits as the PRP entry count), entry sizes and admin queues from the registers |
| Enable.StartedPrpCtx | hw/block/nvme.c:3187-3189 | with `page_size / 8` entries per list page, a started controller's page geometry is a valid PRP context, for every page size the start accepts |
| Enable.StartedPrpEnts | hw/block/nvme.c:3187-3189 | the 16-bit `max_prp_ents` holds `page_size / 8` up to CC.MPS 6 and is 0 from CC.MPS 7 on |
| Enable.IdentifyEntrySizes | hw/block/nvme.c:3865-3866 | the start accepts IOSQES from 6 to max_sqes and IOCQES from 4 to max_cqes |
| Enable.Ctrl.Clear | hw/block/nvme.c:3075-3105 | a reset deletes every queue and empties the events |
| Enable.Ctrl.Start | hw/block/nvme.c:3107-3201 | a successful start records the configuration and creates the admin queues and the AER timer |
| Enable.Ctrl.WriteCc | hw/block/nvme.c:3248-3282 | a CC write starts, resets or shuts down the controller, leaving CSTS.RDY to follow EN |
| Enable.EnableStarts | hw/block/nvme.c:3257-3265 | setting EN on a disabled controller gives CSTS READY exactly when the start checks pass, and FAILED otherwise |
| Enable.DisableResets | hw/block/nvme.c:3266-3270 | clearing EN resets the controller and clears CSTS.RDY |
| Enable.ShutdownResets | hw/block/nvme.c:3271-3275 | a shutdown request resets the controller and reports shutdown complete; CSTS.RDY is cleared only when EN is cleared too |
| Enable.QuietWrite | hw/block/nvme.c:3248-3282 | a write changing neither EN nor SHN changes only an idle controller's CC |
| Enable.ShutdownReleased | hw/block/nvme.c:3276-3280 | clearing SHN clears the shutdown status and changes nothing else |
| Enable.WriteKeepsArmed | hw/block/nvme.c:3248-3282 | every CC write keeps queued events only while the AER timer exists |
| Enable.EnqueueKeepsArmed | hw/block/nvme.c:726-740 | corrected, an event is queued exactly when CSTS.RDY is set and the timer exists, so queued events always have a live timer |
| Enable.ShutdownKeepsReadyAsWritten | hw/block/nvme.c:3271-3275 | as written, a shutdown frees the AER timer but leaves CSTS.RDY set, and the next event calls `timer_mod` on the NULL timer pointer |
| ChunkText.GetStateId | hw/block/nvme.c:1796-1815 | a name reads as a chunk state or as -1 |
| ChunkText.StateNamesInverse | hw/block/nvme.c:1703-1712 | names and ids are inverse on the four states, and UNDEFINED reads as no state |
| ChunkText.DecRoundTrip | hw/block/nvme.c:1746-1748 | a number printed in decimal reads back as itself |
| ChunkText.Find | hw/block/nvme.c:1770-1773 | the first occurrence of the key, or none when it does not occur |
| ChunkText.ScanUnsigned | hw/block/nvme.c:1774 | the conversion is EOF exactly when only white space remains |
| ChunkText.ScanDec | hw/block/nvme.c:1774 | a decimal number followed by a non-digit converts to its low 32 bits |
| ChunkText.ScanWordOf | hw/block/nvme.c:1791-1793 | a word without spaces, within the width and followed by a space, is read whole |
| ChunkText.GetUnsigned | hw/block/nvme.c:1767-1775 | 1 exactly on a conversion, EOF exactly on end of input after the key, and the variable kept unless converted |
| ChunkText.GetStr | hw/block/nvme.c:1777-1794 | 1 exactly when a word is read, shorter than the buffer, and the buffer kept otherwise |
| ChunkText.GetChLunChk | hw/block/nvme.c:1818-1834 | succeeds exactly when all three getters are accepted |
| ChunkText.UpdateChangesOneChunk | hw/block/nvme.c:1856-1908 | a loaded line changes exactly one in-range descriptor, only its state, wear index and pointer, to a valid state, OFFLINE with pointer 0xffff |
| ChunkText.UpdateKeepsStates | hw/block/nvme.c:1856-1908 | loading keeps every chunk in one of the four states |
| ChunkText.ResetfailBounded | hw/block/nvme.c:1940-1965 | a loaded line changes only its chunk's percentage, and every percentage stays at most 100 |
| ChunkText.SavedLineReloads | hw/block/nvme.c:1741-1751 | a saved line loads back into the same descriptor, pointer to 32 bits, and an UNDEFINED line does not load |
| ChunkText.MissingValueLoadsJunk | hw/block/nvme.c:1869-1871 | as written, a line ending in "wi=" loads the uninitialised wear index; the strict test rejects it |
| ChunkText.StrictIgnoresJunk | hw/block/nvme.c:1818-1834 | with the strict test, both loaders never depend on uninitialised variables |

## Left out

- Timers, the clock and interrupts are not modelled as time.
  - A timer that is armed becomes an effect recorded in the state, or a
    pending flag.
  - `timer_mod` delays are kept as numbers only.
  - MSI-X and pin interrupts are one "interrupt raised" flag per completion
    queue.
- DMA and backends are not modelled.
  - Guest memory is a map from addresses to 64-bit words.
  - The command executors (`nvme_io_cmd`, `nvme_admin_cmd`) are a
    parameter (`exec`), which returns a status or "completes later".
  - `blk_flush` and block-backend calls are out.
  - The metadata and PRP transfers of `nvme_rw` and `lnvm_rw` after
    admission are out.
- File I/O of the chunk-table loaders is not modelled.
  - `lnvm_chunk_meta_load`, `lnvm_resetfail_load` and the `fprintf` loop of
    `lnvm_chunk_meta_save` are out.
  - Each line is modelled by the per-line functions: `UpdateChunk`,
    `SetResetfailChunk` and `SaveLine`.
  - The 256-byte `fgets` line limit is not modelled.
- `set_writefail_sector` and `lnvm_writefail_load` are not modelled. They
  range-check only the sector and index the write-fail table with an
  unchecked group, LUN and chunk.
- `lightnvm.h` and `include/block/nvme.h` are not part of this model. Their
  constants were taken from the NVMe 1.2 and Open-Channel SSD 2.0
  specifications, and `status.dfy` lists them.
- `nvme_clear_ctrl` is modelled by its effect rather than its loops:
  - every queue is deleted;
  - the event queue is emptied;
  - the AER timer is released;
  - CC is set to 0.
- `nvme_cq_full` and `nvme_update_sq_tail` read the shadow doorbells. That
  guest memory is a parameter (`mem`).
- The `sq_list` of a completion queue and the pending state of the
  submission-queue timers are not modelled. `sqList` (the queue's
  `sq_list`, filled in creation order at hw/block/nvme.c:2249 and walked
  at 3421) and `pending` (the submission-queue timers already pending)
  are parameters that the caller supplies to Doorbell.DbWrite,
  Doorbell.CqDoorbell, Doorbell.SqDoorbell (`pending` only) and the
  Engine.Controller methods ProcessDb, CqDoorbell, RestartSqs and
  ArmSqTimers. Neither is derived from the
  queue tables, so the model does not promise that the timers armed are
  exactly those of the submission queues bound to that completion queue.
- Doorbell.DecodeOffset: proved for CAP.DSTRD up to 10 only.
  `nvme_check_constraints` accepts up to `NVME_MAX_STRIDE`, 12
  (hw/block/nvme.c:133 and 3519); at 11 and 12 every doorbell is refused
  (see Findings).
- Doorbell.OffsetOfDecode: proved for CAP.DSTRD up to 10 only; at 11 and 12
  aligned addresses decode to queues whose doorbells are elsewhere.
- Doorbell.DbSetsTail: stated for CAP.DSTRD up to 10 only, where the
  doorbell of the queue decodes to it.
- Doorbell.DbSetsHead: stated for CAP.DSTRD up to 10 only, for the same
  reason.
- Doorbell.ShadowLayoutSq: the tie to the decoding is stated for CAP.DSTRD
  up to 10 only.
- Doorbell.ShadowLayoutCq: the tie to the decoding is stated for CAP.DSTRD
  up to 10 only.
- Prp.Discontig: a divisor of 0, and a page index past the list, are
  undefined behaviour in C. The model returns None for both.
- Prp.SetupDiscontig: the uninitialised stack buffer is a parameter
  (`stale`). A page size that leaves no entries per page in 16 bits is
  excluded: `i % prps_per_page` then divides by 0, which is undefined in C.
  nvme_start_ctrl sets such a page size for CC.MPS 7 to 15.
- Prp.ValidCtx: the PRP lemmas take `page_size / 8` entries per list page.
  For CC.MPS 7 to 15 the code's 16-bit `max_prp_ents` is 0, and
  nvme_map_prp then reads past a list buffer of no entries
  (hw/block/nvme.c:469-479); that undefined behaviour is not modelled
  (see Findings).
- Queues.PostCqe: the write-fault injection that `nvme_post_cqe` runs
  first (`lnvm_post_cqe` and `lnvm_inject_w_err`, hw/block/nvme.c:582-633)
  is not modelled. With a write-fail table loaded it can rewrite the status
  to 0x40ff, move the chunk's write pointer back and set its reset-failure
  percentage to 100; the model posts the request's status unchanged.
- Prp.SetupFrom: both versions take the last slot of a list page as a
  queue page as well as the address of the next list page, as the code
  does; PRP lists proper (section 4.3 of NVMe 1.2) use that slot only for
  the next list page when more entries follow.
- Rw.CheckReq: for an MDTS of 31 or more, `1 << mdts` is undefined
  behaviour in C. The model takes `2^mdts` and reduces the product to 32
  bits for every value.
- Rw.CheckReq: both refusals also record an error-log entry
  (nvme_set_error_page at hw/block/nvme.c:844-845 and 850-851). The model
  returns the status only; ErrorPage.ErrorLog.SetErrorPage models the
  recording itself.
- ErrorPage.ErrorLog.constructor: requires `elpe` of at least 1. The
  `elpe` property accepts 0 (hw/block/nvme.c:4072, not checked by
  nvme_check_constraints), and nvme_set_error_page then takes a remainder
  by 0 (hw/block/nvme.c:722), which is undefined in C; an error log of no
  entries is not modelled.
- Ring.CqesPending: the conversion of a 32-bit value of 2^31 or more to
  `int` is implementation-defined in C; the model takes the two's
  complement value.
- The `nvme_write_bar` cases other than CC are not modelled: interrupt
  masks, AQA/ASQ/ACQ, and CMB registers.
- ScanUnsigned: a sign followed by the end of the input counts as a
  matching failure. sscanf would return EOF there only when nothing but
  white space follows the key.
- ScanWord: a width of 0 is read as no width, as the GNU C library does.
  `get_str` never asks for one with its 16-byte buffers.
- GetChLunChk: every uninitialised variable of one call is given the same
  value, `junk`. The as-written lemmas need only that some value is
  there.
- Aer.Deliver: events of a held-back type are kept queued. They are never
  reported until the log page is read.

## Findings

| source | as written | input that shows it | evidently intended | confidence | as-written member | corrected member |
|---|---|---|---|---|---|---|
| hw/block/nvme.c:3042-3043 | `nvme_discontig(sq->prp_list, sq->head, n->page_size, n->sqe_size)` passes the slot where the page size is expected | with the `cqr=0` property (the default `cqr=1` makes queue creation refuse non-contiguous queues, hw/block/nvme.c:2285 and 2398), a queue that is not physically contiguous, slot 0: `0 / sqe_size` entries per page, then a division by 0 | pass the page size, then the slot | high (not executed) | Prp.DiscontigFirstSlotFails | Prp.DiscontigSlot |
| hw/block/nvme.c:512-516 | a second fragment in the controller memory buffer is added with `trans_len`, the length of the first | page 4 KiB, PRP1 512 bytes before a page end in the CMB, len 4096: 512 + 512 bytes are mapped | add `len`, the bytes left | high (not executed) | Prp.CmbSecondFragmentShort | Prp.MapPrpCovers |
| hw/block/nvme.c:963-971 | a new chunk at slot `max_chunks_per_req - 1` is refused, so that slot is never used | ws_min 32 (two slots), two LBAs in two different chunks: INVALID_FIELD | every slot usable | medium (not executed) | ChunkWriteReq.LastSlotUnusable | ChunkWriteReq.CorrectedAdmission |
| hw/block/nvme.c:421 | `nvme_addr_write` copies the uninitialised stack buffer to the guest's list page instead of reading it | with the `cqr=0` property (the default `cqr=1` refuses non-contiguous queues, hw/block/nvme.c:2285 and 2398), a list page at 0x1000 naming pages 0x2000 and 0x3000 for a two-page queue: stale pages are used and the list page is overwritten; a one-page queue never loads its page at all | `nvme_addr_read` of every list page the loop enters | high (not executed) | Prp.SetupAsWrittenClobbers | Prp.SetupReadsList |
| hw/block/nvme.c:753-757 | after skipping a held-back event the loop removes the head of the queue, which is not the event it reports | an ERROR event held back at the head, a SMART event behind it, one request waiting: the SMART event is reported, the ERROR event is lost, and the reported event stays queued | remove the reported event | high (not executed) | Aer.AsWrittenLosesMaskedEvent | Aer.DeliverConserves |
| hw/block/nvme.c:2685 | `outstanding_aers > aerl + 1` lets a command through with all `aerl + 1` slots of `aer_reqs` taken | aerl 3 and 4 waiting requests: a fifth is stored at `aer_reqs[4]`, past the allocation made at 4001 | refuse at `>= aerl + 1` | high (not executed) | Aer.AsyncReqOverrun | Aer.AsyncEvents.AsyncReq |
| hw/block/nvme.c:3271-3275 | a shutdown while EN stays set runs `nvme_clear_ctrl`, which frees the AER timer and sets its pointer to NULL (3090-3093), but CSTS.RDY stays set, and `nvme_enqueue_event` (730-739) tests only RDY | CC written with EN=1 and SHN=01b on a running controller, then any doorbell error: the event is queued and `timer_mod` called on the NULL timer | `nvme_enqueue_event` does nothing without a timer, so queued events always have one | medium (not executed) | Enable.ShutdownKeepsReadyAsWritten | Enable.EnqueueKeepsArmed |
| hw/block/nvme.c:1767-1775 | `get_unsigned` returns sscanf's EOF (-1) as a non-zero `unsigned`, which callers take as success | the line `grp=0 pu=0 chk=0 state=FREE wp=0 type=W_SEQ wi=` loads chunk 0 with the uninitialised `wi` as its wear index | accept only a result of 1 | high (not executed) | ChunkText.MissingValueLoadsJunk | ChunkText.StrictIgnoresJunk |
| hw/block/nvme.c:988 | the write-size test is `ws < ws_min && ws % ws_min != 0`, so a count above `ws_min` is never tested for alignment | ws_min 4, five consecutive LBAs of one chunk: admitted | refuse when `ws < ws_min \|\| ws % ws_min != 0`, as the comment at 981-982 says | medium (not executed) | ChunkWriteReq.AlignmentNotChecked | ChunkWriteReq.CorrectedAdmission |
| hw/block/nvme.c:3374-3388 | the alignment test masks the address itself, not its offset from 0x1000, while `nvme_check_constraints` accepts a CAP.DSTRD up to `NVME_MAX_STRIDE`, 12 (hw/block/nvme.c:133 and 3519) | the `stride=11` property: the doorbell of submission queue 0 at 0x1000 is refused as misaligned, and a write at 0x2000 is taken as that queue's tail | a stride bound of 10, so that every doorbell is a whole number of widths above 0x1000 | high (not executed) | Doorbell.WideStrideMisaligned | Doorbell.OffsetOfDecode |
| hw/block/nvme.c:3189 | `max_prp_ents` is a `uint16_t`, so `page_size / 8` is 0 for CC.MPS 7 to 15 | the properties `mpsmin=7` and `mpsmax=7`, which `nvme_check_constraints` accepts (hw/block/nvme.c:3536), and CC.MPS 7: `prp_list[0]` is declared and `prp_list[i]` read past it (hw/block/nvme.c:469-479) | a list page holds `page_size / 8` entries | high (not executed) | Enable.StartedPrpEnts | Enable.StartedPrpCtx |

=== FILE: aer.dfy ===
/**
 * Asynchronous events (NVMe 1.2 section 5.2): the controller's queue of
 * pending events, the per-type mask that holds back an event type once one
 * event of that type was reported (until the host reads the matching log
 * page), and the Asynchronous Event Request commands waiting for an event.
 */
module Aer {
  import opened Bits
  import opened Status
  import opened Wrappers
  import Queues

  /** An event type with a bit in the one-byte mask (`1 << event_type`). */
  type EventType = t: nat | t < 8

  const TYPE_ERROR: EventType := 0
  const TYPE_SMART: EventType := 1
  const INFO_ERR_INVALID_SQ: U8 := 0
  const INFO_ERR_INVALID_DB: U8 := 1
  const LOG_ERROR_INFO: U8 := 1
  const LOG_SMART_INFO: U8 := 2

  /** The event's part of the completion entry (`NvmeAerResult`). */
  datatype Event = Event(etype: EventType, info: U8, logPage: U8)

  function Bit(t: EventType): bv8
  {
    (1 as bv8) << t
  }

  /** The types whose bit is set in the mask: the types held back. */
  function Held(mask: bv8): set<EventType>
  {
    set t: EventType | 0 <= t < 8 && mask & Bit(t) != 0
  }

  /** A type is held back exactly when its bit is set. */
  lemma HeldBit(mask: bv8, t: EventType)
    ensures t in Held(mask) <==> mask & Bit(t) != 0
  {
  }

  /** `aer_mask |= 1 << t` */
  lemma {:induction false} HeldSet(mask: bv8, t: EventType)
    ensures Held(mask | Bit(t)) == Held(mask) + {t}
  {
    forall u: EventType
      ensures u in Held(mask | Bit(t)) <==> u in Held(mask) + {t}
    {
      assert (mask | Bit(t)) & Bit(u) == (mask & Bit(u)) | (Bit(t) & Bit(u));
      if u != t {
        BitsApart(t, u);
      }
    }
  }

  /** `aer_mask &= ~(1 << t)` */
  lemma {:induction false} HeldClear(mask: bv8, t: EventType)
    ensures Held(mask & !Bit(t)) == Held(mask) - {t}
  {
    forall u: EventType
      ensures u in Held(mask & !Bit(t)) <==> u in Held(mask) - {t}
    {
      if u != t {
        assert (mask & !Bit(t)) & Bit(u) == mask & (Bit(u) & !Bit(t));
        BitsApart(t, u);
      } else {
        assert (mask & !Bit(t)) & Bit(t) == 0;
      }
    }
  }

  /** Distinct types have distinct bits. */
  lemma BitsApart(t: EventType, u: EventType)
    requires t != u
    ensures Bit(u) & !Bit(t) == Bit(u) && Bit(t) & Bit(u) == 0
  {
  }

  /**
   * One run of the delivery loop: the events still queued, the types held
   * back, the number of requests still waiting, and the events reported, in
   * the order they were reported.
   */
  datatype Delivery = Delivery(queue: seq<Event>, held: set<EventType>, outstanding: nat, reported: seq<Event>)

  /**
   * The delivery loop of nvme_aer_process_cb as evidently intended: walk the
   * queue in order while a request waits; an event of a held-back type stays
   * queued, any other is taken off the queue, its type held back from then
   * on, and reported on one waiting request.
   */
  function Deliver(q: seq<Event>, held: set<EventType>, outstanding: nat): (d: Delivery)
    ensures d.outstanding <= outstanding && |d.reported| == outstanding - d.outstanding
    decreases |q|
  {
    if q == [] || outstanding == 0 then Delivery(q, held, outstanding, [])
    else if q[0].etype in held then
      var d := Deliver(q[1..], held, outstanding);
      d.(queue := [q[0]] + d.queue)
    else
      var d := Deliver(q[1..], held + {q[0].etype}, outstanding - 1);
      d.(reported := [q[0]] + d.reported)
  }

  /** The events left queued and those reported are, together, the events `q` held. */
  ghost predicate Conserved(q: seq<Event>, d: Delivery)
  {
    multiset(d.queue) + multiset(d.reported) == multiset(q)
  }

  /** No event is lost or reported twice: the queue keeps exactly the events not reported. */
  lemma {:induction false} DeliverConserves(q: seq<Event>, held: set<EventType>, outstanding: nat)
    ensures Conserved(q, Deliver(q, held, outstanding))
    decreases |q|
  {
    if q != [] && outstanding != 0 {
      var e := q[0];
      if e.etype in held {
        DeliverConserves(q[1..], held, outstanding);
        ConsStep(q, Deliver(q[1..], held, outstanding), Deliver(q, held, outstanding), true);
      } else {
        DeliverConserves(q[1..], held + {e.etype}, outstanding - 1);
        ConsStep(q, Deliver(q[1..], held + {e.etype}, outstanding - 1), Deliver(q, held, outstanding), false);
      }
    }
  }

  /** Conservation is kept when the head is passed over (`kept`) or reported. */
  lemma ConsStep(q: seq<Event>, d': Delivery, d: Delivery, kept: bool)
    requires q != [] && Conserved(q[1..], d')
    requires kept ==> d.queue == [q[0]] + d'.queue && d.reported == d'.reported
    requires !kept ==> d.queue == d'.queue && d.reported == [q[0]] + d'.reported
    ensures Conserved(q, d)
  {
    assert q == [q[0]] + q[1..];
  }

  /**
   * Each reported event was of a type not held back when the loop started,
   * and is held back afterwards; no two reported events share a type; the
   * loop only adds held-back types.
   */
  lemma {:induction false} DeliverMasks(q: seq<Event>, held: set<EventType>, outstanding: nat)
    ensures var d := Deliver(q, held, outstanding);
      (forall i :: 0 <= i < |d.reported| ==> d.reported[i].etype !in held && d.reported[i].etype in d.held)
      && (forall i, j :: 0 <= i < j < |d.reported| ==> d.reported[i].etype != d.reported[j].etype)
      && held <= d.held
    decreases |q|
  {
    if q != [] && outstanding != 0 {
      if q[0].etype in held {
        DeliverMasks(q[1..], held, outstanding);
      } else {
        DeliverMasks(q[1..], held + {q[0].etype}, outstanding - 1);
      }
    }
  }

  /** The loop stops only when no request waits or every event left is held back. */
  lemma {:induction false} DeliverStops(q: seq<Event>, held: set<EventType>, outstanding: nat)
    ensures var d := Deliver(q, held, outstanding);
      d.outstanding == 0 || forall i :: 0 <= i < |d.queue| ==> d.queue[i].etype in d.held
    decreases |q|
  {
    if q != [] && outstanding != 0 {
      if q[0].etype in held {
        DeliverStops(q[1..], held, outstanding);
        DeliverMasks(q[1..], held, outstanding);
      } else {
        DeliverStops(q[1..], held + {q[0].etype}, outstanding - 1);
      }
    }
  }

  /**
   * With no queued type held back and no type queued twice, events are
   * reported first in, first out, as many as requests wait for them.
   */
  lemma {:induction false} DeliverFifo(q: seq<Event>, held: set<EventType>, outstanding: nat)
    requires forall i :: 0 <= i < |q| ==> q[i].etype !in held
    requires forall i, j :: 0 <= i < j < |q| ==> q[i].etype != q[j].etype
    ensures var n := if |q| < outstanding then |q| else outstanding;
      var d := Deliver(q, held, outstanding);
      d.reported == q[..n] && d.queue == q[n..]
    decreases |q|
  {
    if q != [] && outstanding != 0 {
      assert forall i :: 1 <= i < |q| ==> q[i].etype != q[0].etype;
      DeliverFifo(q[1..], held + {q[0].etype}, outstanding - 1);
    }
  }

  /**
   * nvme_aer_process_cb as written: the walk follows the original list, and
   * each report removes the head of the queue (QSIMPLEQ_REMOVE_HEAD),
   * whichever event that is. `q` is the queue as the walk leaves it.
   */
  function DeliverAsWritten(walk: seq<Event>, q: seq<Event>, held: set<EventType>, outstanding: nat): (d: Delivery)
    ensures |d.reported| == outstanding - d.outstanding
    decreases |walk|
  {
    if walk == [] || outstanding == 0 then Delivery(q, held, outstanding, [])
    else if walk[0].etype in held then DeliverAsWritten(walk[1..], q, held, outstanding)
    else
      var d := DeliverAsWritten(walk[1..], if q == [] then q else q[1..], held + {walk[0].etype}, outstanding - 1);
      d.(reported := [walk[0]] + d.reported)
  }

  /**
   * A held-back error event at the head and a SMART event behind it, one
   * request waiting: the code reports the SMART event but removes the error
   * event, which is lost, and leaves the reported (and freed) SMART event
   * queued. The intended loop keeps the error event queued instead.
   */
  lemma AsWrittenLosesMaskedEvent()
    ensures var e0, e1 := Event(TYPE_ERROR, INFO_ERR_INVALID_DB, LOG_ERROR_INFO), Event(TYPE_SMART, 0, LOG_SMART_INFO);
      DeliverAsWritten([e0, e1], [e0, e1], {TYPE_ERROR}, 1) == Delivery([e1], {TYPE_ERROR, TYPE_SMART}, 0, [e1])
      && Deliver([e0, e1], {TYPE_ERROR}, 1) == Delivery([e0], {TYPE_ERROR, TYPE_SMART}, 0, [e1])
  {
    var e0, e1 := Event(TYPE_ERROR, INFO_ERR_INVALID_DB, LOG_ERROR_INFO), Event(TYPE_SMART, 0, LOG_SMART_INFO);
    assert [e0, e1][1..] == [e1] && [e1][1..] == [];
    assert DeliverAsWritten([], [e1], {TYPE_ERROR, TYPE_SMART}, 0) == Delivery([e1], {TYPE_ERROR, TYPE_SMART}, 0, []);
    assert DeliverAsWritten([e1], [e0, e1], {TYPE_ERROR}, 1) == Delivery([e1], {TYPE_ERROR, TYPE_SMART}, 0, [e1]);
    assert Deliver([e1], {TYPE_ERROR}, 1) == Delivery([], {TYPE_ERROR, TYPE_SMART}, 0, [e1]);
  }

  /**
   * The completions of a run that reported `evs` with `n` requests waiting:
   * the k-th report answers `aer_reqs[n - 1 - k]`, the request that arrived
   * last first.
   */
  function Answers(slots: seq<Queues.Req>, n: nat, evs: seq<Event>): (a: seq<(Queues.Req, Event)>)
    requires |evs| <= n <= |slots|
    ensures |a| == |evs|
    ensures forall k :: 0 <= k < |evs| ==> a[k] == (slots[n - 1 - k], evs[k])
    decreases |evs|
  {
    if evs == [] then [] else [(slots[n - 1], evs[0])] + Answers(slots, n - 1, evs[1..])
  }

  /**
   * nvme_async_req as written: the slot of `aer_reqs` the command is stored
   * in, or None when it is refused. The count is a `uint8_t`; `aerl + 1` is
   * computed in `int`.
   */
  function AsyncReqSlotAsWritten(outstanding: U8, aerl: U8): Option<nat>
  {
    if outstanding > aerl + 1 then None else Some(outstanding)
  }

  /** `outstanding_aers++` on a `uint8_t`. */
  function Inc8(x: U8): (y: U8)
    ensures y == (x + 1) % 0x100
  {
    if x == 0xff then 0 else x + 1
  }

  /**
   * `aer_reqs` has `aerl + 1` slots, yet with all of them taken the code
   * still accepts a command and stores it one past the end. With an `aerl`
   * of 255 the test never refuses at all, since the 8-bit count cannot
   * exceed 256.
   */
  lemma AsyncReqOverrun(aerl: U8)
    ensures aerl < 0xff ==> AsyncReqSlotAsWritten(aerl + 1, aerl) == Some(aerl + 1)
    ensures aerl == 0xff ==> forall o: U8 :: AsyncReqSlotAsWritten(o, aerl) == Some(o)
  {
  }

  /**
   * The controller's asynchronous event state. `answered` records the
   * requests handed to nvme_enqueue_req_completion on the admin completion
   * queue with the event each reports; `timer` records each re-arming of
   * `aer_timer` by its delay in nanoseconds.
   */
  class AsyncEvents {
    var queue: seq<Event>
    var mask: bv8
    /** `outstanding_aers`, an 8-bit count. */
    var outstanding: U8
    const aerl: U8
    /** `aer_reqs`: the waiting requests, `aerl + 1` slots. */
    const reqs: array<Queues.Req>
    var answered: seq<(Queues.Req, Event)>
    var timer: seq<nat>

    predicate Valid()
      reads this
    {
      reqs.Length == aerl + 1 && outstanding <= reqs.Length
    }

    /** The state nvme_realize leaves: nothing queued, masked or waiting. */
    constructor (aerl: U8, blank: Queues.Req)
      ensures Valid() && this.aerl == aerl
      ensures queue == [] && mask == 0 && outstanding == 0 && answered == [] && timer == []
    {
      this.aerl := aerl;
      reqs := new Queues.Req[aerl + 1](_ => blank);
      queue, mask, outstanding, answered, timer := [], 0, 0, [], [];
    }

    /**
     * nvme_enqueue_event: an event is queued, and the timer armed, only while
     * CSTS.RDY is set. This is the event machinery's side (queue and timer
     * deadlines); Enable.EnqueueEvent is the same call seen from the CC
     * register, where it matters whether the timer still exists.
     */
    method EnqueueEvent(csts: U32, e: Event)
      modifies this
      ensures csts % 2 == 1 ==> queue == old(queue) + [e] && timer == old(timer) + [500]
      ensures csts % 2 == 0 ==> queue == old(queue) && timer == old(timer)
      ensures mask == old(mask) && outstanding == old(outstanding) && answered == old(answered)
    {
      if csts % 2 == 0 {
        return;
      }
      queue := queue + [e];
      timer := timer + [500];
    }

    /**
     * nvme_async_req, corrected to refuse a command once all `aerl + 1`
     * slots hold one: otherwise the command takes the next slot, the timer
     * is armed, and it completes later. The count wraps as the `uint8_t`
     * does: with an `aerl` of 255, filling the last slot takes it back to 0.
     */
    method AsyncReq(r: Queues.Req) returns (status: U16)
      requires Valid()
      modifies this, reqs
      ensures Valid()
      ensures old(outstanding) > aerl ==>
        status == AER_LIMIT_EXCEEDED && outstanding == old(outstanding) && reqs[..] == old(reqs[..]) && timer == old(timer)
      ensures old(outstanding) <= aerl ==>
        status == NO_COMPLETE && outstanding == (old(outstanding) + 1) % 0x100
        && reqs[..] == old(reqs[..])[old(outstanding) := r] && timer == old(timer) + [500]
      ensures queue == old(queue) && mask == old(mask) && answered == old(answered)
    {
      if outstanding > aerl {
        return AER_LIMIT_EXCEEDED;
      }
      reqs[outstanding] := r;
      timer := timer + [500];
      outstanding := Inc8(outstanding);
      return NO_COMPLETE;
    }

    /**
     * nvme_aer_process_cb, corrected to take the reported event itself off
     * the queue: the run Deliver describes, each report answering the request
     * that arrived last.
     */
    method ProcessCb()
      requires Valid()
      modifies this
      ensures Valid()
      ensures var d := Deliver(old(queue), Held(old(mask)), old(outstanding));
        queue == d.queue && Held(mask) == d.held && outstanding == d.outstanding
        && answered == old(answered) + Answers(reqs[..], old(outstanding), d.reported)
      ensures timer == old(timer)
    {
      ghost var d0 := Deliver(queue, Held(mask), outstanding);
      ghost var o0 := outstanding;
      ghost var slots := reqs[..];
      ghost var a0 := answered;
      var q0 := queue;
      var kept: seq<Event> := [];
      ghost var rep: seq<Event> := [];
      var i := 0;
      while i < |q0| && outstanding > 0
        invariant 0 <= i <= |q0| && Valid() && slots == reqs[..] && o0 <= reqs.Length
        invariant Walked(d0, o0, a0, q0, i, kept, rep)
        invariant timer == old(timer)
        decreases |q0| - i
      {
        kept, rep := VisitNext(d0, o0, a0, q0, i, kept, rep);
        i := i + 1;
      }
      RestEnd(d0, kept, rep, q0[i..], Held(mask), outstanding);
      queue := kept + q0[i..];
    }

    /** The loop of ProcessCb after `i` events of `q0`: `kept` passed over, `rep` reported, the rest of the run still to come. */
    ghost predicate Walked(d0: Delivery, o0: nat, a0: seq<(Queues.Req, Event)>, q0: seq<Event>, i: nat,
                           kept: seq<Event>, rep: seq<Event>)
      reads this, reqs
      requires i <= |q0|
    {
      outstanding <= o0 <= reqs.Length && |rep| == o0 - outstanding
      && Rest(d0, kept, rep, Deliver(q0[i..], Held(mask), outstanding))
      && answered == a0 + Answers(reqs[..], o0, rep)
    }

    /** The body of the loop of ProcessCb: visit event `i`, keeping Walked. */
    method VisitNext(ghost d0: Delivery, ghost o0: nat, ghost a0: seq<(Queues.Req, Event)>, q0: seq<Event>, i: nat,
                     kept: seq<Event>, ghost rep: seq<Event>) returns (kept': seq<Event>, ghost rep': seq<Event>)
      requires Valid() && i < |q0| && outstanding > 0 && Walked(d0, o0, a0, q0, i, kept, rep)
      modifies this
      ensures Valid() && Walked(d0, o0, a0, q0, i + 1, kept', rep')
      ensures timer == old(timer)
    {
      var e := q0[i];
      ghost var held := Held(mask);
      ghost var o := outstanding;
      var reported := Visit(e);
      RestAfter(d0, kept, rep, q0, i, held, o, reported);
      if reported {
        AnswersSplit(reqs[..], o0, rep, e);
        kept', rep' := kept, rep + [e];
      } else {
        kept', rep' := kept + [e], rep;
      }
    }

    /**
     * One event of the loop of nvme_aer_process_cb: an event of a held-back
     * type is passed over; any other has its type held back and is reported
     * on the request that arrived last.
     */
    method Visit(e: Event) returns (reported: bool)
      requires Valid() && outstanding > 0
      modifies this
      ensures Valid() && reported == (e.etype !in Held(old(mask)))
      ensures reported ==>
        Held(mask) == Held(old(mask)) + {e.etype} && outstanding == old(outstanding) - 1
        && answered == old(answered) + [(reqs[outstanding], e)]
      ensures !reported ==> mask == old(mask) && outstanding == old(outstanding) && answered == old(answered)
      ensures queue == old(queue) && timer == old(timer)
    {
      ghost var h0 := Held(mask);
      HeldBit(mask, e.etype);
      reported := mask & Bit(e.etype) == 0;
      assert reported == (e.etype !in h0);
      if reported {
        HeldSet(mask, e.etype);
        mask := mask | Bit(e.etype);
        assert Held(mask) == h0 + {e.etype};
        outstanding := outstanding - 1;
        answered := answered + [(reqs[outstanding], e)];
      }
    }

    /**
     * The log-page reads (nvme_error_log_info, nvme_smart_info): the type's
     * mask bit is cleared, and the timer re-armed with `delay` if events are
     * queued.
     */
    method ClearMask(t: EventType, delay: nat)
      modifies this
      ensures Held(mask) == Held(old(mask)) - {t}
      ensures timer == if old(queue) == [] then old(timer) else old(timer) + [delay]
      ensures queue == old(queue) && outstanding == old(outstanding) && answered == old(answered)
    {
      HeldClear(mask, t);
      mask := mask & !Bit(t);
      if queue != [] {
        timer := timer + [delay];
      }
    }

    /** The part of nvme_clear_ctrl that concerns events: the queue emptied and no request waiting; the mask is kept. */
    method Clear()
      requires Valid()
      modifies this
      ensures Valid() && queue == [] && outstanding == 0
      ensures mask == old(mask) && answered == old(answered) && timer == old(timer)
    {
      queue := [];
      outstanding := 0;
    }
  }

  /** What is left of the run `d0` once `kept` was passed over and `rep` reported: the run `d`. */
  ghost predicate Rest(d0: Delivery, kept: seq<Event>, rep: seq<Event>, d: Delivery)
  {
    d0.queue == kept + d.queue && d0.held == d.held && d0.outstanding == d.outstanding
    && d0.reported == rep + d.reported
  }

  /** One step of Deliver on a non-empty queue with a request waiting, seen from the run it belongs to. */
  lemma RestStep(d0: Delivery, kept: seq<Event>, rep: seq<Event>, q: seq<Event>, held: set<EventType>, outstanding: nat)
    requires q != [] && outstanding > 0 && Rest(d0, kept, rep, Deliver(q, held, outstanding))
    ensures q[0].etype in held ==> Rest(d0, kept + [q[0]], rep, Deliver(q[1..], held, outstanding))
    ensures q[0].etype !in held ==> Rest(d0, kept, rep + [q[0]], Deliver(q[1..], held + {q[0].etype}, outstanding - 1))
  {
  }

  /** RestStep for the event at `q[i]`, with `reported` telling which way the loop went. */
  lemma RestAfter(d0: Delivery, kept: seq<Event>, rep: seq<Event>, q: seq<Event>, i: nat, held: set<EventType>,
                  outstanding: nat, reported: bool)
    requires i < |q| && outstanding > 0 && Rest(d0, kept, rep, Deliver(q[i..], held, outstanding))
    requires reported == (q[i].etype !in held)
    ensures Rest(d0, if reported then kept else kept + [q[i]], if reported then rep + [q[i]] else rep,
                 Deliver(q[i + 1..], if reported then held + {q[i].etype} else held,
                         if reported then outstanding - 1 else outstanding))
  {
    assert q[i..][1..] == q[i + 1..];
    RestStep(d0, kept, rep, q[i..], held, outstanding);
  }

  /** A run with no event left, or no request left, reports nothing more: what was kept and reported is the whole run. */
  lemma RestEnd(d0: Delivery, kept: seq<Event>, rep: seq<Event>, q: seq<Event>, held: set<EventType>, outstanding: nat)
    requires q == [] || outstanding == 0
    requires Rest(d0, kept, rep, Deliver(q, held, outstanding))
    ensures d0.queue == kept + q && d0.held == held && d0.outstanding == outstanding && d0.reported == rep
  {
  }

  lemma {:induction false} AnswersSplit(slots: seq<Queues.Req>, n: nat, rep: seq<Event>, e: Event)
    requires |rep| < n <= |slots|
    ensures Answers(slots, n, rep + [e]) == Answers(slots, n, rep) + [(slots[n - 1 - |rep|], e)]
  {
  }
}

=== FILE: bits.dfy ===
/**
 * Unsigned bit arithmetic on unbounded naturals.
 *
 * The controller packs and unpacks Open-Channel addresses with shifts, masks and
 * `|`. On unsigned values `(x & (((1 << len) - 1) << off)) >> off` is
 * `(x / 2^off) % 2^len` and `x << off` is `x * 2^off`; `|` is modelled by `Or`,
 * which agrees with `+` on operands whose set bits do not overlap.
 */
module Bits {

  /** Unsigned C integer types of the controller's registers and structures. */
  type U8 = x: nat | x < 0x100
  type U16 = x: nat | x < 0x1_0000
  type U32 = x: nat | x < 0x1_0000_0000
  type U64 = x: nat | x < 0x1_0000_0000_0000_0000

  function Pow2(n: nat): (r: nat)
    ensures r >= 1
  {
    if n == 0 then 1 else 2 * Pow2(n - 1)
  }

  lemma {:induction false} Pow2Add(a: nat, b: nat)
    ensures Pow2(a + b) == Pow2(a) * Pow2(b)
  {
    if a > 0 {
      Pow2Add(a - 1, b);
      assert Pow2(a + b) == 2 * Pow2(a - 1 + b);
    }
  }

  lemma {:induction false} Pow2Monotone(a: nat, b: nat)
    requires a <= b
    ensures Pow2(a) <= Pow2(b)
  {
    if a < b {
      Pow2Monotone(a, b - 1);
    }
  }

  /** Number of significant bits of `x` (0 for 0). */
  function BitLength(x: nat): (w: nat)
    ensures x < Pow2(w)
    ensures x > 0 ==> Pow2(w - 1) <= x
  {
    if x == 0 then 0 else 1 + BitLength(x / 2)
  }

  /**
   * `32 - clz32(count - 1)`: the field width lnvm_init gives a component that
   * takes `count` distinct values. The subtraction is done in 32 bits, so a count
   * of 0 gives `clz32(0xffffffff) == 0`, a width of 32.
   */
  function FieldWidth(count: nat): (w: nat)
    requires count <= 0x1_0000_0000
    ensures 1 <= count ==> count <= Pow2(w)
    ensures 1 <= count ==> w <= 32
  {
    if count == 0 then 32
    else
      BitLengthBound(count - 1);
      BitLength(count - 1)
  }

  lemma {:induction false} BitLengthBound(x: nat)
    requires x < 0x1_0000_0000
    ensures BitLength(x) <= 32
  {
    Pow2_32();
    BitLengthAtMost(x, 32);
  }

  lemma {:induction false} Pow2_32()
    ensures Pow2(32) == 0x1_0000_0000
  {
    assert Pow2(8) == 256;
    Pow2Add(8, 8);
    Pow2Add(16, 16);
  }

  lemma {:induction false} Pow2_31()
    ensures Pow2(31) == 0x8000_0000
  {
    Pow2_32();
    assert Pow2(32) == 2 * Pow2(31);
  }

  lemma {:induction false} BitLengthAtMost(x: nat, n: nat)
    requires x < Pow2(n)
    ensures BitLength(x) <= n
  {
    if x > 0 {
      BitLengthAtMost(x / 2, n - 1);
    }
  }

  /** `(x & (((1 << len) - 1) << off)) >> off`. */
  function Field(x: nat, off: nat, len: nat): (r: nat)
    ensures r < Pow2(len)
  {
    (x / Pow2(off)) % Pow2(len)
  }

  /** Bitwise or of two unsigned values. */
  function Or(a: nat, b: nat): nat
    decreases a + b
  {
    if a == 0 then b
    else if b == 0 then a
    else 2 * Or(a / 2, b / 2) + (if a % 2 == 1 || b % 2 == 1 then 1 else 0)
  }

  /** `v << off` on a 32-bit unsigned operand: bits shifted past bit 31 are lost. */
  function Shl32(v: nat, off: nat): (r: nat)
    ensures r < 0x1_0000_0000
  {
    (v * Pow2(off)) % 0x1_0000_0000
  }

  /** `v << off` on a 64-bit unsigned operand. */
  function Shl64(v: nat, off: nat): (r: nat)
    ensures r < 0x1_0000_0000_0000_0000
  {
    (v * Pow2(off)) % 0x1_0000_0000_0000_0000
  }

  /** A value below `2^len` shifted by `off` stays below `2^32` when `off + len <= 32`. */
  lemma {:induction false} ShiftedFits32(v: nat, len: nat, off: nat)
    requires v < Pow2(len) && off + len <= 32
    ensures v * Pow2(off) < 0x1_0000_0000
  {
    PlacedBound(v, len, 0, off);
    Pow2Monotone(off + len, 32);
    Pow2_32();
  }

  /** A 32-bit shift loses nothing when the shifted value still fits. */
  lemma {:induction false} Shl32Exact(v: nat, len: nat, off: nat)
    requires v < Pow2(len) && off + len <= 32
    ensures Shl32(v, off) == v * Pow2(off)
  {
    ShiftedFits32(v, len, off);
    var x := v * Pow2(off);
    ModSmall(x, 0x1_0000_0000);
  }

  /** A 64-bit shift loses nothing when the shifted value fits 32 bits. */
  lemma {:induction false} Shl64Exact(v: nat, len: nat, off: nat)
    requires v < Pow2(len) && off + len <= 32
    ensures Shl64(v, off) == v * Pow2(off)
  {
    ShiftedFits32(v, len, off);
    var x := v * Pow2(off);
    ModSmall(x, 0x1_0000_0000_0000_0000);
  }

  /** `(hi << k) + lo`: a value whose bits from `k` up are `hi` and below `k` are `lo`. */
  function Place(hi: nat, lo: nat, k: nat): nat
  {
    hi * Pow2(k) + lo
  }

  /** Shifting a placed value shifts both of its parts. */
  lemma {:induction false} PlaceMul(hi: nat, lo: nat, j: nat, k: nat)
    ensures Place(hi, lo, j) * Pow2(k) == hi * Pow2(k + j) + lo * Pow2(k)
  {
    Pow2Add(k, j);
    var pj, pk := Pow2(j), Pow2(k);
    Distrib(hi, pj, lo, pk);
  }

  lemma {:induction false} Distrib(a: nat, p: nat, b: nat, q: nat)
    ensures (a * p + b) * q == a * (q * p) + b * q
  {
  }

  /** `lo | (hi << k)` is `(hi << k) + lo` when `lo` fits below bit `k`. */
  lemma {:induction false} OrHigh(lo: nat, x: nat, hi: nat, k: nat)
    requires lo < Pow2(k) && x == hi * Pow2(k)
    ensures Or(lo, x) == Place(hi, lo, k)
  {
    OrComm(lo, x);
    OrPlaced(hi, k, lo);
  }

  /** `(hi << (k + j)) | (lo << k)` is `((hi << j) + lo) << k` when `lo` fits below bit `j`. */
  lemma {:induction false} OrTwoFields(a: nat, b: nat, hi: nat, lo: nat, j: nat, k: nat)
    requires lo < Pow2(j) && a == hi * Pow2(k + j) && b == lo * Pow2(k)
    ensures Or(a, b) == Place(hi, lo, j) * Pow2(k)
  {
    PlacedBound(lo, j, 0, k);
    OrPlaced(hi, k + j, b);
    PlaceMul(hi, lo, j, k);
  }

  /** Fields at or above bit `k` of a placed value are fields of its high part. */
  lemma {:induction false} FieldAbove(hi: nat, lo: nat, k: nat, m: nat, len: nat)
    requires lo < Pow2(k)
    ensures Field(Place(hi, lo, k), k + m, len) == Field(hi, m, len)
  {
    var x := Place(hi, lo, k);
    DivModPlaced(hi, k, lo);
    Pow2Add(k, m);
    DivDiv(x, Pow2(k), Pow2(m));
  }

  /** The field of width `k` at bit 0 of a placed value is its low part. */
  lemma {:induction false} FieldBelow(hi: nat, lo: nat, k: nat)
    requires lo < Pow2(k)
    ensures Field(Place(hi, lo, k), 0, k) == lo
  {
    DivModPlaced(hi, k, lo);
  }

  /** `x / (a * b) == (x / a) / b`. */
  lemma {:induction false} DivDiv(x: nat, a: nat, b: nat)
    requires a > 0 && b > 0
    ensures x / (a * b) == (x / a) / b
  {
    var q, r := x / a, x % a;
    var q2, r2 := q / b, q % b;
    MixedRadixBound(r, a, r2, b);
    assert x == q2 * (a * b) + (r + r2 * a) by {
      assert x == q * a + r;
      assert q == q2 * b + r2;
      assert q * a == q2 * b * a + r2 * a;
    }
    DivModUnique(x, a * b, q2, r + r2 * a);
  }

  lemma {:induction false} OrComm(a: nat, b: nat)
    ensures Or(a, b) == Or(b, a)
    decreases a + b
  {
    if a != 0 && b != 0 {
      OrComm(a / 2, b / 2);
    }
  }

  /** A value built from a high part and a low part that fits below bit `k`. */
  lemma {:induction false} PlacedBound(q: nat, m: nat, r: nat, k: nat)
    requires q < Pow2(m) && r < Pow2(k)
    ensures q * Pow2(k) + r < Pow2(k + m)
  {
    Pow2Add(k, m);
    MulMonotone(q, Pow2(m) - 1, Pow2(k));
    assert (Pow2(m) - 1) * Pow2(k) == Pow2(m) * Pow2(k) - Pow2(k);
  }

  lemma {:induction false} MulMonotone(a: nat, b: nat, c: nat)
    requires a <= b
    ensures a * c <= b * c
  {
  }

  lemma {:induction false} MulPositive(a: nat, b: nat)
    requires a > 0 && b > 0
    ensures a * b > 0
  {
  }

  /** `(a << k) | b` is `a * 2^k + b` when `b` fits below bit `k`. */
  lemma {:induction false} OrPlaced(a: nat, k: nat, b: nat)
    requires b < Pow2(k)
    ensures Or(a * Pow2(k), b) == a * Pow2(k) + b
  {
    if a == 0 || b == 0 || k == 0 {
      if k == 0 { assert b == 0; }
    } else {
      var x := a * Pow2(k);
      assert x == 2 * (a * Pow2(k - 1));
      assert x / 2 == a * Pow2(k - 1) && x % 2 == 0;
      OrPlaced(a, k - 1, b / 2);
      assert Or(x, b) == 2 * Or(x / 2, b / 2) + (if b % 2 == 1 then 1 else 0);
    }
  }

  /** `(q * 2^k + r) / 2^k == q` and `% 2^k == r` for `r < 2^k`. */
  lemma {:induction false} DivModPlaced(q: nat, k: nat, r: nat)
    requires r < Pow2(k)
    ensures (q * Pow2(k) + r) / Pow2(k) == q
    ensures (q * Pow2(k) + r) % Pow2(k) == r
  {
    DivModUnique(q * Pow2(k) + r, Pow2(k), q, r);
  }

  /** Euclidean division has a single quotient and remainder. */
  lemma {:induction false} DivModUnique(x: int, d: int, q: int, r: int)
    requires d > 0 && 0 <= r < d && x == q * d + r
    ensures x / d == q && x % d == r
  {
    var q', r' := x / d, x % d;
    assert (q - q') * d == r' - r;
    if q > q' {
      assert (q - q') * d >= d by { MulAtLeast(q - q', d); }
    } else if q < q' {
      assert (q' - q) * d >= d by { MulAtLeast(q' - q, d); }
    }
  }

  lemma {:induction false} MulAtLeast(a: int, d: int)
    requires a >= 1 && d > 0
    ensures a * d >= d
  {
  }

  /** The field at `off` of a value whose bits above `off` are `hi`. */
  lemma {:induction false} FieldOf(x: nat, hi: nat, lo: nat, off: nat, len: nat)
    requires x == hi * Pow2(off) + lo && lo < Pow2(off)
    ensures Field(x, off, len) == hi % Pow2(len)
  {
    DivModPlaced(hi, off, lo);
  }

  /** `x / d < n` when `x < d * n`. */
  lemma {:induction false} DivBelow(x: nat, d: nat, n: nat)
    requires d > 0 && x < d * n
    ensures x / d < n
  {
    if x / d >= n {
      MulMonotone(n, x / d, d);
    }
  }

  /** Mixed-radix index bound: `a + b * A < A * B` for `a < A`, `b < B`. */
  lemma {:induction false} MixedRadixBound(a: nat, A: nat, b: nat, B: nat)
    requires a < A && b < B
    ensures a + b * A < A * B
  {
    MulMonotone(b, B - 1, A);
    assert (B - 1) * A == A * B - A;
  }

  /** A value below the modulus is its own remainder. */
  lemma {:induction false} ModSmall(x: nat, m: nat)
    requires x < m
    ensures x % m == x && x / m == 0
  {
    DivModUnique(x, m, 0, x);
  }

  /** `(x % (a * b)) % a == x % a`. */
  lemma {:induction false} ModOfMod(x: nat, a: nat, b: nat)
    requires a > 0 && b > 0
    ensures (x % (a * b)) % a == x % a
  {
    var q, r := x / (a * b), x % (a * b);
    assert x == (q * b) * a + r;
    DivModUnique(x, a, q * b + r / a, r % a);
  }

  /** `((a % m) + b) % m == (a + b) % m`. */
  lemma {:induction false} ModAddLeft(a: nat, b: nat, m: nat)
    requires m > 0
    ensures ((a % m) + b) % m == (a + b) % m
  {
    var q, r := a / m, a % m;
    var q2, r2 := (r + b) / m, (r + b) % m;
    assert a + b == (q + q2) * m + r2;
    DivModUnique(a + b, m, q + q2, r2);
  }
}

=== FILE: chunk.dfy ===
/**
 * The Open-Channel chunk table: one descriptor per chunk, the write-pointer
 * state machine that writes and resets drive, and the per-chunk admission
 * checks for reads and writes.
 *
 * Chunk states are single bits of a byte (Open-Channel SSD 2.0, chunk
 * information log page): FREE, CLOSED, OPEN and OFFLINE ("BAD" in the code).
 */
module Chunk {
  import opened Bits
  import opened Wrappers
  import opened Status
  import opened LnvmAddr

  const FREE: bv8 := 0x01
  const CLOSED: bv8 := 0x02
  const OPEN: bv8 := 0x04
  const BAD: bv8 := 0x08
  /** Chunk type "sequential write required". */
  const TYPE_SEQ: bv8 := 0x01
  const EINVAL: int := 22
  const TWO_POW_64: nat := 0x1_0000_0000_0000_0000

  /** A chunk descriptor (`LnvmCS`). */
  datatype ChunkDesc = ChunkDesc(state: bv8, ctype: bv8, wearIndex: U8, slba: U64, cnlb: U64, wp: U64)

  /** The states the state machine itself produces: exactly one state bit set. */
  predicate IsState(s: bv8)
  {
    s == FREE || s == CLOSED || s == OPEN || s == BAD
  }

  /**
   * lnvm_chunk_advance_wp on the chunk an LBA lies in: a FREE chunk becomes
   * OPEN; a chunk that is then not OPEN is refused (None, the -1 return) and
   * left as it was; otherwise `nlb` is added to the 64-bit write pointer and
   * the chunk turns CLOSED when the pointer reaches the chunk size.
   */
  function Advance(c: ChunkDesc, nlb: U32, secPerChk: nat): (r: Option<ChunkDesc>)
    ensures r.None? <==> c.state & (FREE | OPEN) == 0
    ensures r.Some? ==> r.value.wp == (c.wp + nlb) % TWO_POW_64
    ensures r.Some? ==> r.value == c.(state := r.value.state, wp := r.value.wp)
    ensures r.Some? && IsState(c.state) ==> r.value.state == if r.value.wp == secPerChk then CLOSED else OPEN
  {
    var s := if c.state & FREE != 0 then (c.state & !FREE) | OPEN else c.state;
    if s & OPEN == 0 then None
    else
      var wp := (c.wp + nlb) % TWO_POW_64;
      Some(c.(state := if wp == secPerChk then (s & !OPEN) | CLOSED else s, wp := wp))
  }

  /** Several writes to the same chunk, one after the other; None once one is refused. */
  function AdvanceAll(c: ChunkDesc, nlbs: seq<U32>, secPerChk: nat): Option<ChunkDesc>
    decreases |nlbs|
  {
    if |nlbs| == 0 then Some(c)
    else
      match Advance(c, nlbs[0], secPerChk)
      case None => None
      case Some(c') => AdvanceAll(c', nlbs[1..], secPerChk)
  }

  function Sum(s: seq<U32>): nat
  {
    if |s| == 0 then 0 else s[0] + Sum(s[1..])
  }

  /**
   * Filling a chunk: writes that start on a FREE or OPEN chunk and whose
   * running total first reaches the chunk size with the last one leave the
   * chunk CLOSED with its write pointer at the chunk size, and every later
   * write is refused.
   */
  lemma {:induction false} FillChunk(c: ChunkDesc, nlbs: seq<U32>, secPerChk: nat)
    requires c.state == FREE || c.state == OPEN
    requires |nlbs| > 0 && secPerChk < TWO_POW_64 && c.wp + Sum(nlbs) == secPerChk
    requires forall k :: 0 < k < |nlbs| ==> c.wp + Sum(nlbs[..k]) < secPerChk
    ensures AdvanceAll(c, nlbs, secPerChk) == Some(c.(state := CLOSED, wp := secPerChk))
    ensures forall nlb: U32 :: Advance(c.(state := CLOSED, wp := secPerChk), nlb, secPerChk).None?
    decreases |nlbs|
  {
    var c' := Advance(c, nlbs[0], secPerChk).value;
    var rest := nlbs[1..];
    if |nlbs| == 1 {
      assert Sum(nlbs) == nlbs[0] + Sum(rest);
      assert c'.wp == secPerChk;
    } else {
      assert nlbs[..1] == [nlbs[0]];
      assert Sum(nlbs[..1]) == nlbs[0] + Sum(nlbs[..1][1..]);
      assert c'.wp == c.wp + nlbs[0];
      assert Sum(nlbs) == nlbs[0] + Sum(rest);
      forall k | 0 < k < |rest|
        ensures c'.wp + Sum(rest[..k]) < secPerChk
      {
        assert nlbs[..k + 1][1..] == rest[..k];
        assert Sum(nlbs[..k + 1]) == nlbs[0] + Sum(rest[..k]);
      }
      FillChunk(c', rest, secPerChk);
    }
  }

  /**
   * lnvm_chunk_set_free on the chunk an LBA lies in, given whether an injected
   * reset failure fires: a failure leaves the chunk OFFLINE with write pointer
   * 0xffff; otherwise, whatever its state, the chunk becomes FREE, rewound to
   * sector 0, with one more erase on its 8-bit wear index.
   */
  function Reset(c: ChunkDesc, fail: bool): ChunkDesc
  {
    if fail then c.(state := BAD, wp := 0xffff)
    else c.(state := FREE, wearIndex := (c.wearIndex + 1) % 0x100, wp := 0)
  }

  /** The outcome of a reset does not depend on the chunk's state or write pointer. */
  lemma {:induction false} ResetIgnoresState(c: ChunkDesc, state: bv8, wp: U64, fail: bool)
    ensures Reset(c.(state := state, wp := wp), fail) == Reset(c, fail)
  {
  }

  /**
   * A chunk reset without failure accepts a write at its first sector of up to
   * its whole size, and a chunk whose reset failed refuses every write.
   */
  lemma {:induction false} ResetThenWrite(c: ChunkDesc, nlba: U32, secPerChk: nat)
    requires 1 <= nlba <= c.cnlb
    ensures WriteCheck(Reset(c, false), 0, nlba) == SUCCESS
    ensures Advance(Reset(c, false), nlba, secPerChk).Some?
    ensures forall start: U32, n: U32 :: WriteCheck(Reset(c, true), start, n) == WithDnr(WRITE_FAULT)
    ensures forall n: U32 :: Advance(Reset(c, true), n, secPerChk).None?
  {
  }

  /** The reset-failure draw: a configured per-chunk probability in percent against `rand() % 100`. */
  predicate ResetFails(resetfail: Option<seq<U8>>, cno: nat, draw: nat)
  {
    resetfail.Some? && cno < |resetfail.value| && resetfail.value[cno] != 0 && draw < resetfail.value[cno]
  }

  /** The sector within the chunk, as the `uint32_t start_sectr` of the write check. */
  function StartSector(ln: Lnvm, slba: nat): U32
  {
    Sector(ln.lbaf, slba) % 0x1_0000_0000
  }

  /**
   * lnvm_rw_check_chunk_write on one chunk descriptor: refuse a write to an
   * OFFLINE or CLOSED chunk or one running past the chunk's sector count, then
   * one that does not start at the write pointer. The end sector is a
   * `uint32_t` sum.
   */
  function WriteCheck(c: ChunkDesc, start: U32, nlba: U32): (s: U16)
    ensures s == SUCCESS <==>
      c.state & (BAD | CLOSED) == 0 && (start + nlba) % 0x1_0000_0000 <= c.cnlb && start == c.wp
    ensures s == WithDnr(WRITE_FAULT) <==>
      c.state & (BAD | CLOSED) != 0 || (start + nlba) % 0x1_0000_0000 > c.cnlb
    ensures s in {SUCCESS, WithDnr(WRITE_FAULT), WithDnr(OUT_OF_ORDER_WRITE)}
  {
    var end := (start + nlba) % 0x1_0000_0000;
    if c.state & BAD != 0 || c.state & CLOSED != 0 then WithDnr(WRITE_FAULT)
    else if end > c.cnlb then WithDnr(WRITE_FAULT)
    else if start != c.wp then WithDnr(OUT_OF_ORDER_WRITE)
    else SUCCESS
  }

  /** lnvm_rw_check_chunk_write: a write to an LBA whose chunk does not exist is a write fault. */
  function CheckChunkWrite(ln: Lnvm, chunks: seq<ChunkDesc>, slba: U64, nlba: U32): (s: U16)
    requires |chunks| == ln.totalChks && ln.Derived()
    ensures LbaToChunkNo(ln, slba) == -1 ==> s == WithDnr(WRITE_FAULT)
    ensures LbaToChunkNo(ln, slba) != -1 ==>
      s == WriteCheck(chunks[LbaToChunkNo(ln, slba)], StartSector(ln, slba), nlba)
  {
    var cno := LbaToChunkNo(ln, slba);
    if cno == -1 then WithDnr(WRITE_FAULT)
    else WriteCheck(chunks[cno], StartSector(ln, slba), nlba)
  }

  /**
   * A write the check admits (of at most 65536 sectors, the most any command
   * carries) always advances the write pointer: it ends exactly at the start
   * sector plus the length, within the chunk, and the chunk is CLOSED exactly
   * when that is the chunk's end.
   */
  lemma {:induction false} AdmittedWriteAdvances(c: ChunkDesc, start: U32, nlba: U32, secPerChk: nat)
    requires IsState(c.state) && c.cnlb == secPerChk && start < 0x8000_0000 && nlba <= 0x1_0000
    requires WriteCheck(c, start, nlba) == SUCCESS
    ensures Advance(c, nlba, secPerChk).Some?
    ensures Advance(c, nlba, secPerChk).value.wp == start + nlba <= c.cnlb
    ensures Advance(c, nlba, secPerChk).value.state == if start + nlba == c.cnlb then CLOSED else OPEN
  {
    assert (start + nlba) % 0x1_0000_0000 == start + nlba;
  }

  /**
   * lnvm_rw_check_chunk_read on one chunk descriptor, 0 meaning readable and 1
   * meaning "predefined data": only an OPEN or CLOSED chunk with at least
   * `mw_cunits` sectors written is readable, a CLOSED one below its write
   * pointer and an OPEN one below its write pointer less `mw_cunits`.
   */
  function ReadCheck(c: ChunkDesc, end: nat, mwCunits: U32): (r: U16)
    ensures r == 0 <==>
      c.wp >= mwCunits && ((c.state == OPEN && end + mwCunits < c.wp) || (c.state == CLOSED && end < c.wp))
    ensures r == 0 || r == 1
  {
    if c.state == OPEN || c.state == CLOSED then
      var wpp := if c.wp < mwCunits then 0 else c.wp;
      var wpp' := if c.state == OPEN && wpp != 0 then c.wp - mwCunits else wpp;
      if end < wpp' then 0 else 1
    else 1
  }

  /** The last sector a read touches: the `uint64_t` sum of the start sector and `nlba - 1` taken in 32 bits. */
  function ReadEnd(ln: Lnvm, slba: nat, nlba: U32): nat
  {
    (Sector(ln.lbaf, slba) + (nlba + 0xffff_ffff) % 0x1_0000_0000) % TWO_POW_64
  }

  /** lnvm_rw_check_chunk_read: an LBA whose chunk does not exist reads as predefined data. */
  function CheckChunkRead(ln: Lnvm, chunks: seq<ChunkDesc>, slba: U64, nlba: U32, mwCunits: U32): (r: U16)
    requires |chunks| == ln.totalChks && ln.Derived()
    ensures LbaToChunkNo(ln, slba) == -1 ==> r == 1
    ensures LbaToChunkNo(ln, slba) != -1 ==>
      r == ReadCheck(chunks[LbaToChunkNo(ln, slba)], ReadEnd(ln, slba, nlba), mwCunits)
  {
    var cno := LbaToChunkNo(ln, slba);
    if cno == -1 then 1 else ReadCheck(chunks[cno], ReadEnd(ln, slba, nlba), mwCunits)
  }

  /**
   * Filling a chunk makes it readable: once the writes of FillChunk have
   * closed it, every sector below the chunk size is readable, provided the
   * chunk is at least `mw_cunits` long; a reset chunk is readable nowhere.
   */
  lemma {:induction false} FilledIsReadable(c: ChunkDesc, secPerChk: nat, mwCunits: U32, end: nat)
    requires mwCunits <= secPerChk < TWO_POW_64
    ensures end < secPerChk ==> ReadCheck(c.(state := CLOSED, wp := secPerChk), end, mwCunits) == 0
    ensures ReadCheck(Reset(c, false), end, mwCunits) == 1
  {
  }

  /** The descriptor lnvm_chunk_meta_init gives chunk `i`. */
  function InitialChunk(ln: Lnvm, i: nat): ChunkDesc
    requires ln.Valid() && i < ln.totalChks
  {
    ChunkNoRoundTrip(ln, i);
    ChunkDesc(FREE, TYPE_SEQ, 0, ChunkNoToLba(ln, i), ln.geo.secPerChk, 0)
  }

  /**
   * Every initial descriptor is FREE and empty, its start LBA decodes to its
   * own index at sector 0, and it admits a first write of up to a whole chunk
   * at that LBA.
   */
  lemma {:induction false} InitialChunkWritable(ln: Lnvm, chunks: seq<ChunkDesc>, i: nat, nlba: U32)
    requires ln.Valid() && |chunks| == ln.totalChks && i < |chunks|
    requires chunks[i] == InitialChunk(ln, i) && 1 <= nlba <= ln.geo.secPerChk
    ensures LbaToChunkNo(ln, chunks[i].slba) == i && Sector(ln.lbaf, chunks[i].slba) == 0
    ensures CheckChunkWrite(ln, chunks, chunks[i].slba, nlba) == SUCCESS
  {
    ChunkNoRoundTrip(ln, i);
    WriteAtChunkStart(ln, chunks, chunks[i].slba, i, nlba);
  }

  /** A FREE, empty chunk admits a write starting at its sector 0 that fits in it. */
  lemma {:induction false} WriteAtChunkStart(ln: Lnvm, chunks: seq<ChunkDesc>, slba: U64, i: nat, nlba: U32)
    requires ln.Derived() && |chunks| == ln.totalChks && i < |chunks|
    requires LbaToChunkNo(ln, slba) == i && Sector(ln.lbaf, slba) == 0
    requires chunks[i].state == FREE && chunks[i].wp == 0 && nlba <= chunks[i].cnlb
    ensures CheckChunkWrite(ln, chunks, slba, nlba) == SUCCESS
  {
    assert StartSector(ln, slba) == 0;
  }

  /** The namespace's chunk table and reset-failure table (`NvmeNamespace`). */
  class Namespace {
    const ln: Lnvm
    const chunkMeta: array<ChunkDesc>
    /** Per-chunk reset-failure probabilities in percent; None when none were configured. */
    var resetfail: Option<seq<U8>>

    predicate Valid()
      reads this
    {
      ln.Valid() && chunkMeta.Length == ln.totalChks
      && (resetfail.Some? ==> |resetfail.value| == ln.totalChks)
    }

    constructor(ln: Lnvm, resetfail: Option<seq<U8>>)
      requires ln.Valid() && (resetfail.Some? ==> |resetfail.value| == ln.totalChks)
      ensures Valid() && this.ln == ln && this.resetfail == resetfail && fresh(chunkMeta)
    {
      this.ln := ln;
      this.chunkMeta := new ChunkDesc[ln.totalChks];
      this.resetfail := resetfail;
    }

    /**
     * lnvm_chunk_meta_init: every chunk FREE, sequential, unworn, starting at
     * the LBA of its first sector, `sec_per_chk` long and empty.
     */
    method ChunkMetaInit()
      requires Valid()
      modifies chunkMeta
      ensures forall i :: 0 <= i < chunkMeta.Length ==> chunkMeta[i] == InitialChunk(ln, i)
    {
      var i := 0;
      while i < chunkMeta.Length
        invariant 0 <= i <= chunkMeta.Length
        invariant forall j :: 0 <= j < i ==> chunkMeta[j] == InitialChunk(ln, j)
      {
        chunkMeta[i] := InitialChunk(ln, i);
        i := i + 1;
      }
    }

    /**
     * lnvm_chunk_advance_wp: -1 for an LBA outside every chunk or a chunk that
     * is not writable, the table unchanged; otherwise 0 and only that chunk
     * advanced.
     */
    method AdvanceWp(lba: U64, nlb: U32) returns (r: int)
      requires Valid()
      modifies chunkMeta
      ensures var cno := LbaToChunkNo(ln, lba);
        if cno == -1 || Advance(old(chunkMeta[cno]), nlb, ln.geo.secPerChk).None? then
          r == -1 && chunkMeta[..] == old(chunkMeta[..])
        else
          r == 0 && chunkMeta[..] == old(chunkMeta[..])[cno := Advance(old(chunkMeta[cno]), nlb, ln.geo.secPerChk).value]
    {
      var cno := LbaToChunkNo(ln, lba);
      if cno == -1 {
        return -1;
      }
      var next := Advance(chunkMeta[cno], nlb, ln.geo.secPerChk);
      if next.None? {
        return -1;
      }
      chunkMeta[cno] := next.value;
      return 0;
    }

    /**
     * lnvm_chunk_set_free, with `draw` standing for `rand() % 100`: -EINVAL
     * for an LBA outside every chunk, the table unchanged; otherwise only that
     * chunk is reset, and -EINVAL reports an injected failure.
     */
    method SetFree(lba: U64, draw: nat) returns (r: int)
      requires Valid() && draw < 100
      modifies chunkMeta
      ensures var cno := LbaToChunkNo(ln, lba);
        if cno == -1 then
          r == -EINVAL && chunkMeta[..] == old(chunkMeta[..])
        else
          var fail := ResetFails(resetfail, cno, draw);
          r == (if fail then -EINVAL else 0)
          && chunkMeta[..] == old(chunkMeta[..])[cno := Reset(old(chunkMeta[cno]), fail)]
    {
      var cno := LbaToChunkNo(ln, lba);
      if cno == -1 {
        return -EINVAL;
      }
      var prob := 0;
      if resetfail.Some? {
        prob := resetfail.value[cno];
      }
      if prob != 0 && draw < prob {
        chunkMeta[cno] := Reset(chunkMeta[cno], true);
        return -EINVAL;
      }
      chunkMeta[cno] := Reset(chunkMeta[cno], false);
      return 0;
    }

    /**
     * lnvm_rw_check_read_req: for each LBA of a vector read, whether it reads
     * as predefined data, one sector at a time.
     */
    method CheckReadReq(psl: seq<U64>, mwCunits: U32) returns (predefined: seq<U16>)
      requires Valid()
      ensures |predefined| == |psl|
      ensures forall i :: 0 <= i < |psl| ==> predefined[i] == CheckChunkRead(ln, chunkMeta[..], psl[i], 1, mwCunits)
    {
      predefined := [];
      var i := 0;
      while i < |psl|
        invariant 0 <= i <= |psl| && |predefined| == i
        invariant forall j :: 0 <= j < i ==> predefined[j] == CheckChunkRead(ln, chunkMeta[..], psl[j], 1, mwCunits)
      {
        predefined := predefined + [CheckChunkRead(ln, chunkMeta[..], psl[i], 1, mwCunits)];
        i := i + 1;
      }
    }
  }
}

=== FILE: chunk_text.dfy ===
/**
 * The chunk-table text format: one line per chunk,
 *
 *   grp=<ch> pu=<lun> chk=<chk> state=<name> wp=<wp> type=W_SEQ wi=<wear index>
 *
 * as lnvm_chunk_meta_save prints it, and the per-line parsers
 * lnvm_chunk_meta_load and lnvm_resetfail_load apply to each line. A key is
 * looked up with strstr and its value read with sscanf's "%u" or "%<w>s"
 * conversions. Those follow section 7.21.6.2 of the C11 standard (fscanf)
 * with section 7.22.1.4 (strtoul) for "%u", on a host whose `unsigned long`
 * is 64 bits wide.
 */
module ChunkText {
  import opened Bits
  import opened Wrappers
  import opened LnvmAddr
  import opened Chunk

  // ---------------------------------------------------------------- state names

  /** state_id_to_str: the name a chunk state is saved under. */
  function StateName(state: bv8): string
  {
    if state == FREE then "FREE"
    else if state == OPEN then "OPEN"
    else if state == CLOSED then "CLOSED"
    else if state == BAD then "OFFLINE"
    else "UNDEFINED"
  }

  /** get_state_id: the state a saved name stands for, -1 for any other string. */
  function GetStateId(name: string): (id: int)
    ensures id == -1 || (0 <= id < 0x100 && IsState(id as bv8))
  {
    if name == "FREE" then FREE as int
    else if name == "OFFLINE" then BAD as int
    else if name == "OPEN" then OPEN as int
    else if name == "CLOSED" then CLOSED as int
    else -1
  }

  /**
   * The two are inverse on the four chunk states: a state's name reads back
   * as that state, a name that reads as a state is that state's name, and
   * the name of anything else ("UNDEFINED") reads as no state.
   */
  lemma {:induction false} StateNamesInverse(state: bv8, name: string)
    ensures IsState(state) ==> GetStateId(StateName(state)) == state as int
    ensures !IsState(state) ==> GetStateId(StateName(state)) == -1
    ensures GetStateId(name) != -1 ==> StateName(GetStateId(name) as bv8) == name
  {
  }

  // ---------------------------------------------------------------- characters

  /** isspace in the "C" locale: space, \t, \n, \v, \f and \r. */
  predicate IsSpace(c: char)
  {
    c == ' ' || 9 <= c as int <= 13
  }

  predicate IsDigit(c: char)
  {
    '0' <= c <= '9'
  }

  predicate AllDigits(s: string)
  {
    forall i :: 0 <= i < |s| ==> IsDigit(s[i])
  }

  /** Digits and capital letters only: no space, no '=' and no lower-case letter of a key. */
  predicate Plain(s: string)
  {
    forall i :: 0 <= i < |s| ==> IsDigit(s[i]) || 'A' <= s[i] <= 'Z'
  }

  function DigitChar(d: nat): (c: char)
    requires d < 10
    ensures IsDigit(c)
  {
    (48 + d) as char
  }

  function DigitValue(c: char): (d: nat)
    requires IsDigit(c)
    ensures d < 10
  {
    c as int - 48
  }

  /** "%d" / "%lu" of a non-negative value: its decimal digits, most significant first. */
  function Dec(n: nat): (s: string)
    ensures |s| >= 1 && AllDigits(s)
  {
    if n < 10 then [DigitChar(n)] else Dec(n / 10) + [DigitChar(n % 10)]
  }

  /** The value of a string of decimal digits. */
  function DecValue(s: string): nat
    requires AllDigits(s)
  {
    if s == [] then 0 else DecValue(s[..|s| - 1]) * 10 + DigitValue(s[|s| - 1])
  }

  /** Printing a value in decimal and reading the digits back gives the value. */
  lemma {:induction false} DecRoundTrip(n: nat)
    ensures DecValue(Dec(n)) == n
  {
    if n >= 10 {
      var s := Dec(n);
      assert s[..|s| - 1] == Dec(n / 10);
      DecRoundTrip(n / 10);
    }
  }

  // ---------------------------------------------------------------- strstr

  /** `key` occurs in `s` at position `j`. */
  predicate Occurs(s: string, key: string, j: nat)
  {
    j + |key| <= |s| && s[j..j + |key|] == key
  }

  /** strstr from position `i` on. */
  function FindFrom(s: string, key: string, i: nat): (r: Option<nat>)
    requires i <= |s|
    ensures r.Some? ==> i <= r.value && Occurs(s, key, r.value)
    ensures r.Some? ==> forall j :: i <= j < r.value ==> !Occurs(s, key, j)
    ensures r.None? ==> forall j :: i <= j ==> !Occurs(s, key, j)
    decreases |s| - i
  {
    if i + |key| > |s| then None
    else if s[i..i + |key|] == key then Some(i)
    else FindFrom(s, key, i + 1)
  }

  /** strstr: the first position at which `key` occurs in `s`, if any. */
  function Find(s: string, key: string): (r: Option<nat>)
    ensures r.Some? ==> Occurs(s, key, r.value) && forall j :: 0 <= j < r.value ==> !Occurs(s, key, j)
    ensures r.None? ==> forall j :: 0 <= j ==> !Occurs(s, key, j)
  {
    FindFrom(s, key, 0)
  }

  /** What follows the first occurrence of `key` (`keyvalue + strlen(key)`), if it occurs. */
  function ValueAt(s: string, key: string): Option<string>
  {
    match Find(s, key)
    case None => None
    case Some(p) => Some(s[p + |key|..])
  }

  // ---------------------------------------------------------------- sscanf

  /** What one "%u" conversion does: store a value, fail to match, or meet the end of the input. */
  datatype Scan = Converted(value: U32) | NoMatch | Eof

  /** The input after the leading white space the conversion skips. */
  function SkipSpace(s: string): (t: string)
    ensures |t| <= |s| && t == s[|s| - |t|..]
    ensures t == [] || !IsSpace(t[0])
    ensures forall i :: 0 <= i < |s| - |t| ==> IsSpace(s[i])
  {
    if s != [] && IsSpace(s[0]) then SkipSpace(s[1..]) else s
  }

  /** The length of the run of digits `s` starts with. */
  function DigitRun(s: string): (n: nat)
    ensures n <= |s| && AllDigits(s[..n]) && (n < |s| ==> !IsDigit(s[n]))
  {
    if s == [] || !IsDigit(s[0]) then 0
    else
      var n := 1 + DigitRun(s[1..]);
      assert s[..n] == [s[0]] + s[1..][..n - 1];
      n
  }

  const ULONG_MAX: nat := 0xFFFF_FFFF_FFFF_FFFF

  /**
   * strtoul on a magnitude and a sign: an out-of-range magnitude gives
   * ULONG_MAX, a minus sign negates in the 64-bit type; "%u" then keeps the
   * low 32 bits.
   */
  function StoreUnsigned(mag: nat, negative: bool): U32
  {
    var ul := if mag > ULONG_MAX then ULONG_MAX else if negative then (ULONG_MAX + 1 - mag) % (ULONG_MAX + 1) else mag;
    ul % 0x1_0000_0000
  }

  /**
   * sscanf(s, "%u", &v): skip white space; at the end of the input the
   * result is EOF; otherwise an optional sign and at least one digit must
   * follow, or the conversion fails to match.
   */
  function ScanUnsigned(s: string): (r: Scan)
    ensures r.Eof? <==> forall i :: 0 <= i < |s| ==> IsSpace(s[i])
  {
    var t := SkipSpace(s);
    if t == [] then Eof
    else
      var signed := t[0] == '-' || t[0] == '+';
      var u := if signed then t[1..] else t;
      var n := DigitRun(u);
      if n == 0 then NoMatch
      else Converted(StoreUnsigned(DecValue(u[..n]), t[0] == '-'))
  }

  /** A decimal number followed by anything but a digit converts to the number's low 32 bits. */
  lemma {:induction false} ScanDec(n: nat, rest: string)
    requires n <= ULONG_MAX && (rest == [] || !IsDigit(rest[0]))
    ensures ScanUnsigned(Dec(n) + rest) == Converted(n % 0x1_0000_0000)
  {
    var d := Dec(n);
    var s := d + rest;
    assert s[0] == d[0];
    assert SkipSpace(s) == s;
    var k := DigitRun(s);
    assert forall i :: 0 <= i < |d| ==> s[i] == d[i];
    if rest != [] {
      assert s[|d|] == rest[0];
    }
    assert s[..k] == d;
    DecRoundTrip(n);
  }

  /** What one "%<w>s" conversion does: store a word, or meet the end of the input. */
  datatype ScanStr = StrEof | Str(word: string)

  /** The length of the run of non-space characters `s` starts with, at most `width` when it is not 0. */
  function WordRun(s: string, width: nat): (n: nat)
    ensures n <= |s| && (width > 0 ==> n <= width)
    ensures forall i :: 0 <= i < n ==> !IsSpace(s[i])
    ensures n < |s| && (width == 0 || n < width) ==> IsSpace(s[n])
  {
    if s == [] || IsSpace(s[0]) then 0
    else if width == 1 then 1
    else 1 + WordRun(s[1..], if width == 0 then 0 else width - 1)
  }

  /**
   * sscanf(s, "%<w>s", buf): skip white space; at the end of the input the
   * result is EOF; otherwise the word is the following non-space characters,
   * at most `w` of them. A width of 0 is read as no width, as the GNU C
   * library does.
   */
  function ScanWord(s: string, width: nat): (r: ScanStr)
    ensures r.StrEof? <==> forall i :: 0 <= i < |s| ==> IsSpace(s[i])
    ensures r.Str? ==> 1 <= |r.word| && (width > 0 ==> |r.word| <= width)
  {
    var t := SkipSpace(s);
    if t == [] then StrEof else Str(t[..WordRun(t, width)])
  }

  /** A word without spaces, no longer than the width and followed by a space, is read whole. */
  lemma {:induction false} ScanWordOf(w: string, rest: string, width: nat)
    requires 1 <= |w| <= width && (forall i :: 0 <= i < |w| ==> !IsSpace(w[i]))
    requires rest != [] && IsSpace(rest[0])
    ensures ScanWord(w + rest, width) == Str(w)
  {
    var s := w + rest;
    assert s[0] == w[0];
    assert SkipSpace(s) == s;
    var k := WordRun(s, width);
    assert forall i :: 0 <= i < |w| ==> s[i] == w[i];
    assert s[|w|] == rest[0];
    assert s[..k] == w;
  }

  // ---------------------------------------------------------------- get_unsigned, get_str

  /** The C `EOF` (-1) returned through an `unsigned`. */
  const UINT_EOF: U32 := 0xFFFF_FFFF

  /** A getter's return value and its output variable afterwards. */
  datatype Got<T> = Got(count: U32, value: T)

  /**
   * get_unsigned: 0 when the key does not occur; otherwise sscanf's result
   * ("%u" after the key) as an `unsigned`. The output variable keeps what it
   * held (`prior`) unless a value was converted.
   */
  function GetUnsigned(line: string, key: string, prior: U32): (g: Got<U32>)
    ensures g.count == 1 <==> ValueAt(line, key).Some? && ScanUnsigned(ValueAt(line, key).value).Converted?
    ensures g.count == UINT_EOF <==> ValueAt(line, key).Some? && ScanUnsigned(ValueAt(line, key).value).Eof?
    ensures g.count != 1 ==> g.value == prior
  {
    match ValueAt(line, key)
    case None => Got(0, prior)
    case Some(v) =>
      match ScanUnsigned(v)
      case Converted(x) => Got(1, x)
      case NoMatch => Got(0, prior)
      case Eof => Got(UINT_EOF, prior)
  }

  /**
   * get_str with a buffer of `len` bytes: 0 when the key does not occur or
   * `len` is 0; otherwise sscanf's result ("%<len - 1>s" after the key) as an
   * `unsigned`.
   */
  function GetStr(line: string, key: string, len: nat, prior: string): (g: Got<string>)
    ensures g.count == 1 <==> len > 0 && ValueAt(line, key).Some? && ScanWord(ValueAt(line, key).value, len - 1).Str?
    ensures g.count != 1 ==> g.value == prior
    ensures g.count == 1 && len > 1 ==> |g.value| < len
  {
    match ValueAt(line, key)
    case None => Got(0, prior)
    case Some(v) =>
      if len == 0 then Got(0, prior)
      else
        match ScanWord(v, len - 1)
        case StrEof => Got(UINT_EOF, prior)
        case Str(w) => Got(1, w)
  }

  /**
   * Whether a getter's result is taken as success: as written, any non-zero
   * result (`!get_unsigned(...)` fails only on 0), which lets EOF through;
   * `strict` takes only a completed conversion.
   */
  predicate Accepted(count: U32, strict: bool)
  {
    if strict then count == 1 else count != 0
  }

  /**
   * get_ch_lun_chk: the "grp=", "pu=" and "chk=" values, or None when one of
   * them is not accepted. `junk` is what the uninitialised variables hold.
   */
  function GetChLunChk(line: string, junk: U32, strict: bool): (r: Option<(U32, U32, U32)>)
    ensures r.Some? <==> (Accepted(GetUnsigned(line, "grp=", junk).count, strict)
                          && Accepted(GetUnsigned(line, "pu=", junk).count, strict)
                          && Accepted(GetUnsigned(line, "chk=", junk).count, strict))
  {
    var ch := GetUnsigned(line, "grp=", junk);
    var lun := GetUnsigned(line, "pu=", junk);
    var chk := GetUnsigned(line, "chk=", junk);
    if !Accepted(ch.count, strict) || !Accepted(lun.count, strict) || !Accepted(chk.count, strict) then None
    else Some((ch.value, lun.value, chk.value))
  }

  // ---------------------------------------------------------------- update_chunk

  /** A chunk after update_chunk loaded it: state and wear index as read (the index kept to a byte); an OFFLINE chunk's write pointer is 0xffff. */
  function Loaded(c: ChunkDesc, state: bv8, wi: U32, wp: U32): ChunkDesc
  {
    c.(state := state, wearIndex := wi % 0x100, wp := if state == BAD then 0xffff else wp)
  }

  /**
   * update_chunk on one line: the chunk the line names, in a table of
   * `total_chks` descriptors, takes the line's state, wear index and write
   * pointer. None (update_chunk returns 1) when a value is missing, the type
   * is not W_SEQ, the state name is unknown or the chunk is out of range;
   * the table is then unchanged.
   */
  function UpdateChunk(line: string, ln: Lnvm, table: seq<ChunkDesc>, junk: U32, strict: bool): (r: Option<seq<ChunkDesc>>)
    requires |table| == ln.totalChks && ln.Derived()
  {
    Load(GetChLunChk(line, junk, strict), GetUnsigned(line, "wi=", junk), GetUnsigned(line, "wp=", junk),
         GetStr(line, "state=", 16, ""), GetStr(line, "type=", 16, ""), ln, table, strict)
  }

  /** The checks update_chunk applies to what the getters read, in its order. */
  function Load(pos: Option<(U32, U32, U32)>, wi: Got<U32>, wp: Got<U32>, status: Got<string>, ty: Got<string>,
                ln: Lnvm, table: seq<ChunkDesc>, strict: bool): Option<seq<ChunkDesc>>
    requires |table| == ln.totalChks && ln.Derived()
  {
    match pos
    case None => None
    case Some(pos) =>
      if !Accepted(wi.count, strict) || !Accepted(wp.count, strict) then None
      else if status.count == 0 then None
      else if ty.count == 0 || ty.value != "W_SEQ" then None
      else
        var id := GetStateId(status.value);
        if id < 0 then None
        else
          var i := GetChunkMetaIndex(ln, pos.0, pos.1, pos.2);
          if i < 0 then None
          else Some(table[i := Loaded(table[i], id as bv8, wi.value, wp.value)])
  }

  /**
   * A line that loads changes exactly one descriptor, that of an in-range
   * chunk, and only its state, wear index and write pointer; the new state
   * is one of the four, and an OFFLINE chunk's write pointer is 0xffff.
   */
  lemma {:induction false} UpdateChangesOneChunk(line: string, ln: Lnvm, table: seq<ChunkDesc>, junk: U32, strict: bool)
    requires |table| == ln.totalChks && ln.Derived()
    requires UpdateChunk(line, ln, table, junk, strict).Some?
    ensures var t := UpdateChunk(line, ln, table, junk, strict).value;
      var pos := GetChLunChk(line, junk, strict).value;
      var i := GetChunkMetaIndex(ln, pos.0, pos.1, pos.2);
      0 <= i < |table| && |t| == |table| && t == table[i := t[i]] && OneLoaded(table[i], t[i])
  {
    var pos := GetChLunChk(line, junk, strict).value;
    var wi := GetUnsigned(line, "wi=", junk);
    var wp := GetUnsigned(line, "wp=", junk);
    var status := GetStr(line, "state=", 16, "");
    var id := GetStateId(status.value);
    var i := GetChunkMetaIndex(ln, pos.0, pos.1, pos.2);
    var c := Loaded(table[i], id as bv8, wi.value, wp.value);
    assert UpdateChunk(line, ln, table, junk, strict) == Some(table[i := c]);
  }

  /** `d` is `c` loaded from a line: a valid state, 0xffff as an OFFLINE chunk's write pointer, the rest of `c` kept. */
  predicate OneLoaded(c: ChunkDesc, d: ChunkDesc)
  {
    IsState(d.state) && (d.state == BAD ==> d.wp == 0xffff) && d.slba == c.slba && d.cnlb == c.cnlb && d.ctype == c.ctype
  }

  /** Loading lines keeps every chunk of the table in one of the four states. */
  lemma {:induction false} UpdateKeepsStates(line: string, ln: Lnvm, table: seq<ChunkDesc>, junk: U32, strict: bool)
    requires |table| == ln.totalChks && ln.Derived()
    requires forall j :: 0 <= j < |table| ==> IsState(table[j].state)
    ensures var r := UpdateChunk(line, ln, table, junk, strict);
      r.Some? ==> forall j :: 0 <= j < |r.value| ==> IsState(r.value[j].state)
  {
    var r := UpdateChunk(line, ln, table, junk, strict);
    if r.Some? {
      UpdateChangesOneChunk(line, ln, table, junk, strict);
      forall j | 0 <= j < |r.value|
        ensures IsState(r.value[j].state)
      {
        assert r.value[j] == table[j] || OneLoaded(table[j], r.value[j]);
      }
    }
  }

  // ---------------------------------------------------------------- set_resetfail_chunk

  /**
   * set_resetfail_chunk on one line of the reset-failure file: the chunk the
   * line names gets the "resetfail_prob=" value as its reset-failure
   * percentage. None (the function returns 1) when a value is missing, the
   * percentage is over 100 or the chunk is out of range.
   */
  function SetResetfailChunk(line: string, ln: Lnvm, resetfail: seq<U8>, junk: U32, strict: bool): (r: Option<seq<U8>>)
    requires |resetfail| == ln.totalChks && ln.Derived()
  {
    SetResetfail(GetChLunChk(line, junk, strict), GetUnsigned(line, "resetfail_prob=", junk), ln, resetfail, strict)
  }

  /** The checks set_resetfail_chunk applies to what the getters read, in its order. */
  function SetResetfail(pos: Option<(U32, U32, U32)>, prob: Got<U32>, ln: Lnvm, resetfail: seq<U8>, strict: bool): Option<seq<U8>>
    requires |resetfail| == ln.totalChks && ln.Derived()
  {
    match pos
    case None => None
    case Some(pos) =>
      if !Accepted(prob.count, strict) || prob.value > 100 then None
      else
        var i := GetChunkMetaIndex(ln, pos.0, pos.1, pos.2);
        if i < 0 then None else Some(resetfail[i := prob.value])
  }

  /** A loaded line changes only the percentage of the chunk it names, and every percentage stays at most 100. */
  lemma {:induction false} ResetfailBounded(line: string, ln: Lnvm, resetfail: seq<U8>, junk: U32, strict: bool)
    requires |resetfail| == ln.totalChks && ln.Derived()
    requires forall j :: 0 <= j < |resetfail| ==> resetfail[j] <= 100
    requires SetResetfailChunk(line, ln, resetfail, junk, strict).Some?
    ensures var r := SetResetfailChunk(line, ln, resetfail, junk, strict).value;
      var pos := GetChLunChk(line, junk, strict).value;
      var i := GetChunkMetaIndex(ln, pos.0, pos.1, pos.2);
      0 <= i < |resetfail| && r == resetfail[i := r[i]] && forall j :: 0 <= j < |r| ==> r[j] <= 100
  {
    var pos := GetChLunChk(line, junk, strict).value;
    var prob := GetUnsigned(line, "resetfail_prob=", junk);
    var i := GetChunkMetaIndex(ln, pos.0, pos.1, pos.2);
    assert SetResetfailChunk(line, ln, resetfail, junk, strict) == Some(resetfail[i := prob.value]);
  }

  // ---------------------------------------------------------------- the saved line

  /**
   * A line of the format with the given values in place, one part per key;
   * lnvm_chunk_meta_save prints SaveLine.
   */
  function Line(ch: string, lun: string, chk: string, state: string, wp: string, wi: string): string
  {
    "grp=" + ch + " " + AtPu(lun, chk, state, wp, wi)
  }

  function AtPu(lun: string, chk: string, state: string, wp: string, wi: string): string
  {
    "pu=" + lun + " " + AtChk(chk, state, wp, wi)
  }

  function AtChk(chk: string, state: string, wp: string, wi: string): string
  {
    "chk=" + chk + " " + AtState(state, wp, wi)
  }

  function AtState(state: string, wp: string, wi: string): string
  {
    "state=" + state + " " + AtWp(wp, wi)
  }

  function AtWp(wp: string, wi: string): string
  {
    "wp=" + wp + " " + AtType(wi)
  }

  function AtType(wi: string): string
  {
    "type=" + "W_SEQ" + " " + AtWi(wi)
  }

  function AtWi(wi: string): string
  {
    "wi=" + wi + "\n"
  }

  /** The line lnvm_chunk_meta_save writes for chunk (`ch`, `lun`, `chk`) with descriptor `c`. */
  function SaveLine(ch: nat, lun: nat, chk: nat, c: ChunkDesc): string
  {
    Line(Dec(ch), Dec(lun), Dec(chk), StateName(c.state), Dec(c.wp), Dec(c.wearIndex))
  }

  /** The value after a key that starts the string. */
  lemma {:induction false} HeadKey(key: string, v: string)
    ensures ValueAt(key + v, key) == Some(v)
  {
    var s := key + v;
    assert s[0..|key|] == key;
    assert Occurs(s, key, 0);
    assert s[|key|..] == v;
  }

  /**
   * No occurrence of `key` starts in `x` when `x` lacks the key's `t`-th
   * character and its last `t` characters lack the key's first: the value
   * after the key in `x + s` is the one in `s`.
   */
  lemma {:induction false} Skip(x: string, s: string, key: string, t: nat)
    requires t < |key| && t <= |x| && key[t] !in x && key[0] !in x[|x| - t..]
    ensures ValueAt(x + s, key) == ValueAt(s, key)
  {
    var u := x + s;
    NoOccurrenceIn(x, s, key, t);
    forall j | 0 <= j
      ensures Occurs(u, key, |x| + j) <==> Occurs(s, key, j)
    {
      if j + |key| <= |s| {
        assert u[|x| + j..|x| + j + |key|] == s[j..j + |key|];
      }
    }
    match Find(s, key)
    case None =>
      forall j | 0 <= j
        ensures !Occurs(u, key, j)
      {
        if j >= |x| {
          assert !Occurs(s, key, j - |x|);
        }
      }
    case Some(p) =>
      assert Occurs(u, key, |x| + p);
      forall j | 0 <= j < |x| + p
        ensures !Occurs(u, key, j)
      {
        if j >= |x| {
          assert !Occurs(s, key, j - |x|);
        }
      }
      assert u[|x| + p + |key|..] == s[p + |key|..];
  }

  /** The condition of Skip rules out an occurrence of `key` starting in `x`. */
  lemma {:induction false} NoOccurrenceIn(x: string, s: string, key: string, t: nat)
    requires t < |key| && t <= |x| && key[t] !in x && key[0] !in x[|x| - t..]
    ensures forall j :: 0 <= j < |x| ==> !Occurs(x + s, key, j)
  {
    var u := x + s;
    forall j | 0 <= j < |x|
      ensures !Occurs(u, key, j)
    {
      if j + |key| <= |u| {
        var m := u[j..j + |key|];
        if j + t < |x| {
          assert m[t] == x[j + t];
        } else {
          assert m[0] == x[|x| - t..][j - (|x| - t)];
        }
      }
    }
  }

  lemma {:induction false} ValueOfGrp(ch: string, lun: string, chk: string, state: string, wp: string, wi: string)
    ensures ValueAt(Line(ch, lun, chk, state, wp, wi), "grp=") == Some(ch + (" " + AtPu(lun, chk, state, wp, wi)))
  {
    var pu := AtPu(lun, chk, state, wp, wi);
    assert Line(ch, lun, chk, state, wp, wi) == "grp=" + (ch + (" " + pu));
    HeadKey("grp=", ch + (" " + pu));
  }

  lemma {:induction false} ValueOfPu(ch: string, lun: string, chk: string, state: string, wp: string, wi: string)
    requires Plain(ch)
    ensures ValueAt(Line(ch, lun, chk, state, wp, wi), "pu=") == Some(lun + (" " + AtChk(chk, state, wp, wi)))
  {
    var pu, ck := AtPu(lun, chk, state, wp, wi), AtChk(chk, state, wp, wi);
    assert ValueAt(Line(ch, lun, chk, state, wp, wi), "pu=") == ValueAt(pu, "pu=") by {
      Skip("grp=" + ch + " ", pu, "pu=", 1);
    }
    assert ValueAt(pu, "pu=") == Some(lun + (" " + ck)) by {
      assert pu == "pu=" + (lun + (" " + ck));
      HeadKey("pu=", lun + (" " + ck));
    }
  }

  /** The value after a key in the line is the one in the part from "pu=" on, for keys past it. */
  lemma {:induction false} ValueAfterGrp(ch: string, lun: string, chk: string, state: string, wp: string, wi: string, key: string)
    requires Plain(ch) && (key == "chk=" || key == "state=" || key == "wp=" || key == "type=" || key == "wi=")
    ensures ValueAt(Line(ch, lun, chk, state, wp, wi), key) == ValueAt(AtPu(lun, chk, state, wp, wi), key)
  {
    Skip("grp=" + ch + " ", AtPu(lun, chk, state, wp, wi), key, if key == "type=" || key == "wi=" then 1 else 0);
  }

  /** The value after a key in the part from "pu=" on is the one in the part from "chk=" on, for keys past it. */
  lemma {:induction false} ValueAfterPu(lun: string, chk: string, state: string, wp: string, wi: string, key: string)
    requires Plain(lun) && (key == "chk=" || key == "state=" || key == "wp=" || key == "type=" || key == "wi=")
    ensures ValueAt(AtPu(lun, chk, state, wp, wi), key) == ValueAt(AtChk(chk, state, wp, wi), key)
  {
    Skip("pu=" + lun + " ", AtChk(chk, state, wp, wi), key, if key == "type=" || key == "wi=" then 1 else 0);
  }

  /** The value after a key in the part from "chk=" on is the one in the part from "state=" on, for keys past it. */
  lemma {:induction false} ValueAfterChk(chk: string, state: string, wp: string, wi: string, key: string)
    requires Plain(chk) && (key == "state=" || key == "wp=" || key == "type=" || key == "wi=")
    ensures ValueAt(AtChk(chk, state, wp, wi), key) == ValueAt(AtState(state, wp, wi), key)
  {
    Skip("chk=" + chk + " ", AtState(state, wp, wi), key, if key == "type=" || key == "wi=" then 1 else 0);
  }

  /** The value after a key in the part from "state=" on is the one in the part from "wp=" on, for keys past it. */
  lemma {:induction false} ValueAfterState(state: string, wp: string, wi: string, key: string)
    requires Plain(state) && (key == "wp=" || key == "type=" || key == "wi=")
    ensures ValueAt(AtState(state, wp, wi), key) == ValueAt(AtWp(wp, wi), key)
  {
    Skip("state=" + state + " ", AtWp(wp, wi), key, if key == "wp=" then 0 else 1);
  }

  /** The value after a key in the part from "wp=" on is the one in the part from "type=" on, for keys past it. */
  lemma {:induction false} ValueAfterWp(wp: string, wi: string, key: string)
    requires Plain(wp) && (key == "type=" || key == "wi=")
    ensures ValueAt(AtWp(wp, wi), key) == ValueAt(AtType(wi), key)
  {
    Skip("wp=" + wp + " ", AtType(wi), key, 1);
  }

  lemma {:induction false} ValueOfChk(ch: string, lun: string, chk: string, state: string, wp: string, wi: string)
    requires Plain(ch) && Plain(lun)
    ensures ValueAt(Line(ch, lun, chk, state, wp, wi), "chk=") == Some(chk + (" " + AtState(state, wp, wi)))
  {
    ValueAfterGrp(ch, lun, chk, state, wp, wi, "chk=");
    ValueAfterPu(lun, chk, state, wp, wi, "chk=");
    assert AtChk(chk, state, wp, wi) == "chk=" + (chk + (" " + AtState(state, wp, wi)));
    HeadKey("chk=", chk + (" " + AtState(state, wp, wi)));
  }

  lemma {:induction false} ValueOfState(ch: string, lun: string, chk: string, state: string, wp: string, wi: string)
    requires Plain(ch) && Plain(lun) && Plain(chk)
    ensures ValueAt(Line(ch, lun, chk, state, wp, wi), "state=") == Some(state + (" " + AtWp(wp, wi)))
  {
    ValueAfterGrp(ch, lun, chk, state, wp, wi, "state=");
    ValueAfterPu(lun, chk, state, wp, wi, "state=");
    ValueAfterChk(chk, state, wp, wi, "state=");
    assert AtState(state, wp, wi) == "state=" + (state + (" " + AtWp(wp, wi)));
    HeadKey("state=", state + (" " + AtWp(wp, wi)));
  }

  lemma {:induction false} ValueOfWp(ch: string, lun: string, chk: string, state: string, wp: string, wi: string)
    requires Plain(ch) && Plain(lun) && Plain(chk) && Plain(state)
    ensures ValueAt(Line(ch, lun, chk, state, wp, wi), "wp=") == Some(wp + (" " + AtType(wi)))
  {
    assert ValueAt(Line(ch, lun, chk, state, wp, wi), "wp=") == ValueAt(AtWp(wp, wi), "wp=") by {
      ValueAfterGrp(ch, lun, chk, state, wp, wi, "wp=");
      ValueAfterPu(lun, chk, state, wp, wi, "wp=");
      ValueAfterChk(chk, state, wp, wi, "wp=");
      ValueAfterState(state, wp, wi, "wp=");
    }
    assert ValueAt(AtWp(wp, wi), "wp=") == Some(wp + (" " + AtType(wi))) by {
      assert AtWp(wp, wi) == "wp=" + (wp + (" " + AtType(wi)));
      HeadKey("wp=", wp + (" " + AtType(wi)));
    }
  }

  lemma {:induction false} ValueOfType(ch: string, lun: string, chk: string, state: string, wp: string, wi: string)
    requires Plain(ch) && Plain(lun) && Plain(chk) && Plain(state) && Plain(wp)
    ensures ValueAt(Line(ch, lun, chk, state, wp, wi), "type=") == Some("W_SEQ" + (" " + AtWi(wi)))
  {
    ValueAfterGrp(ch, lun, chk, state, wp, wi, "type=");
    ValueAfterPu(lun, chk, state, wp, wi, "type=");
    ValueAfterChk(chk, state, wp, wi, "type=");
    ValueAfterState(state, wp, wi, "type=");
    ValueAfterWp(wp, wi, "type=");
    assert AtType(wi) == "type=" + ("W_SEQ" + (" " + AtWi(wi)));
    HeadKey("type=", "W_SEQ" + (" " + AtWi(wi)));
  }

  lemma {:induction false} ValueOfWi(ch: string, lun: string, chk: string, state: string, wp: string, wi: string)
    requires Plain(ch) && Plain(lun) && Plain(chk) && Plain(state) && Plain(wp)
    ensures ValueAt(Line(ch, lun, chk, state, wp, wi), "wi=") == Some(wi + "\n")
  {
    assert ValueAt(Line(ch, lun, chk, state, wp, wi), "wi=") == ValueAt(AtType(wi), "wi=") by {
      ValueAfterGrp(ch, lun, chk, state, wp, wi, "wi=");
      ValueAfterPu(lun, chk, state, wp, wi, "wi=");
      ValueAfterChk(chk, state, wp, wi, "wi=");
      ValueAfterState(state, wp, wi, "wi=");
      ValueAfterWp(wp, wi, "wi=");
    }
    ValueInType(wi);
  }

  lemma {:induction false} ValueInType(wi: string)
    ensures ValueAt(AtType(wi), "wi=") == Some(wi + "\n")
  {
    Skip("type=" + "W_SEQ" + " ", AtWi(wi), "wi=", 1);
    assert AtWi(wi) == "wi=" + (wi + "\n");
    HeadKey("wi=", wi + "\n");
  }

  // ---------------------------------------------------------------- reading a saved line back

  /** A number read after a key. */
  lemma {:induction false} ReadsNumber(l: string, key: string, n: nat, rest: string, junk: U32)
    requires n <= ULONG_MAX && rest != [] && !IsDigit(rest[0])
    requires ValueAt(l, key) == Some(Dec(n) + rest)
    ensures GetUnsigned(l, key, junk) == Got(1, n % 0x1_0000_0000)
    ensures n < 0x1_0000_0000 ==> GetUnsigned(l, key, junk) == Got(1, n)
  {
    ScanDec(n, rest);
    if n < 0x1_0000_0000 {
      DivModUnique(n, 0x1_0000_0000, 0, n);
    }
  }

  /** A word read after a key into a buffer of 16 bytes. */
  lemma {:induction false} ReadsWord(l: string, key: string, w: string, rest: string)
    requires 1 <= |w| <= 15 && (forall i :: 0 <= i < |w| ==> !IsSpace(w[i]))
    requires rest != [] && IsSpace(rest[0])
    requires ValueAt(l, key) == Some(w + rest)
    ensures GetStr(l, key, 16, "") == Got(1, w)
  {
    ScanWordOf(w, rest, 15);
  }

  /** Every state name is a plain word of at most 15 characters. */
  lemma {:induction false} StateNamePlain(state: bv8)
    ensures var n := StateName(state);
      Plain(n) && 1 <= |n| <= 15 && forall i :: 0 <= i < |n| ==> !IsSpace(n[i])
  {
  }

  /** The type name is a word of 5 characters. */
  lemma {:induction false} TypeNameWord()
    ensures |"W_SEQ"| == 5 && forall i :: 0 <= i < 5 ==> !IsSpace("W_SEQ"[i])
  {
  }

  lemma {:induction false} DecPlain(n: nat)
    ensures Plain(Dec(n))
  {
  }

  /** What the getters read from a line with decimal numbers, a state name and any wear-index text. */
  lemma {:induction false} LineReads(ch: nat, lun: nat, chk: nat, state: bv8, wp: U64, wi: string, junk: U32)
    requires ch < 0x1_0000_0000 && lun < 0x1_0000_0000 && chk < 0x1_0000_0000
    ensures var l := Line(Dec(ch), Dec(lun), Dec(chk), StateName(state), Dec(wp), wi);
      && GetUnsigned(l, "grp=", junk) == Got(1, ch)
      && GetUnsigned(l, "pu=", junk) == Got(1, lun)
      && GetUnsigned(l, "chk=", junk) == Got(1, chk)
      && GetUnsigned(l, "wp=", junk) == Got(1, wp % 0x1_0000_0000)
      && GetStr(l, "state=", 16, "") == Got(1, StateName(state))
      && GetStr(l, "type=", 16, "") == Got(1, "W_SEQ")
  {
    var sc, sl, sk, sn, sw := Dec(ch), Dec(lun), Dec(chk), StateName(state), Dec(wp);
    var l := Line(sc, sl, sk, sn, sw, wi);
    DecPlain(ch);
    DecPlain(lun);
    DecPlain(chk);
    DecPlain(wp);
    StateNamePlain(state);
    assert GetUnsigned(l, "grp=", junk) == Got(1, ch) by {
      ValueOfGrp(sc, sl, sk, sn, sw, wi);
      ReadsNumber(l, "grp=", ch, " " + AtPu(sl, sk, sn, sw, wi), junk);
    }
    assert GetUnsigned(l, "pu=", junk) == Got(1, lun) by {
      ValueOfPu(sc, sl, sk, sn, sw, wi);
      ReadsNumber(l, "pu=", lun, " " + AtChk(sk, sn, sw, wi), junk);
    }
    assert GetUnsigned(l, "chk=", junk) == Got(1, chk) by {
      ValueOfChk(sc, sl, sk, sn, sw, wi);
      ReadsNumber(l, "chk=", chk, " " + AtState(sn, sw, wi), junk);
    }
    assert GetUnsigned(l, "wp=", junk) == Got(1, wp % 0x1_0000_0000) by {
      ValueOfWp(sc, sl, sk, sn, sw, wi);
      ReadsNumber(l, "wp=", wp, " " + AtType(wi), junk);
    }
    assert GetStr(l, "state=", 16, "") == Got(1, sn) by {
      ValueOfState(sc, sl, sk, sn, sw, wi);
      ReadsWord(l, "state=", sn, " " + AtWp(sw, wi));
    }
    assert GetStr(l, "type=", 16, "") == Got(1, "W_SEQ") by {
      ValueOfType(sc, sl, sk, sn, sw, wi);
      TypeNameWord();
      ReadsWord(l, "type=", "W_SEQ", " " + AtWi(wi));
    }
  }

  /** The wear index of a saved line reads back. */
  lemma {:induction false} SavedWearIndex(ch: nat, lun: nat, chk: nat, c: ChunkDesc, junk: U32)
    ensures GetUnsigned(SaveLine(ch, lun, chk, c), "wi=", junk) == Got(1, c.wearIndex)
  {
    var sc, sl, sk, sn, sw, sv := Dec(ch), Dec(lun), Dec(chk), StateName(c.state), Dec(c.wp), Dec(c.wearIndex);
    DecPlain(ch);
    DecPlain(lun);
    DecPlain(chk);
    DecPlain(c.wp);
    StateNamePlain(c.state);
    ValueOfWi(sc, sl, sk, sn, sw, sv);
    ReadsNumber(SaveLine(ch, lun, chk, c), "wi=", c.wearIndex, "\n", junk);
  }

  /**
   * Saving and loading round-trip: the line lnvm_chunk_meta_save writes for
   * a chunk loads back into the same descriptor, the write pointer kept to
   * the 32 bits "%u" reads (and 0xffff for an OFFLINE chunk), with either
   * acceptance test; a chunk in none of the four states is saved as
   * "UNDEFINED", and that line does not load.
   */
  lemma {:induction false} SavedLineReloads(ln: Lnvm, table: seq<ChunkDesc>, ch: nat, lun: nat, chk: nat, junk: U32, strict: bool)
    requires |table| == ln.totalChks && ln.Derived() && ln.geo.InTypes()
    requires ch < ln.geo.numCh && lun < ln.geo.numLun && chk < ln.geo.numChk
    ensures var i := GetChunkMetaIndex(ln, ch, lun, chk);
      0 <= i < |table|
      && UpdateChunk(SaveLine(ch, lun, chk, table[i]), ln, table, junk, strict)
         == if IsState(table[i].state)
            then Some(table[i := table[i].(wp := if table[i].state == BAD then 0xffff else table[i].wp % 0x1_0000_0000)])
            else None
  {
    var i := GetChunkMetaIndex(ln, ch, lun, chk);
    var c := table[i];
    var l := SaveLine(ch, lun, chk, c);
    var read := Load(Some((ch, lun, chk)), Got(1, c.wearIndex), Got(1, c.wp % 0x1_0000_0000),
                     Got(1, StateName(c.state)), Got(1, "W_SEQ"), ln, table, strict);
    assert UpdateChunk(l, ln, table, junk, strict) == read by {
      LineReads(ch, lun, chk, c.state, c.wp, Dec(c.wearIndex), junk);
      SavedWearIndex(ch, lun, chk, c, junk);
    }
    StateNamesInverse(c.state, StateName(c.state));
    DivModUnique(c.wearIndex, 0x100, 0, c.wearIndex);
    if IsState(c.state) {
      assert GetStateId(StateName(c.state)) as bv8 == c.state;
    }
  }

  // ---------------------------------------------------------------- a value missing at the end of a line

  /**
   * A saved-format line whose "wi=" has no value, such as
   * "grp=0 pu=0 chk=0 state=FREE wp=0 type=W_SEQ wi=" and the newline.
   */
  function MissingWearIndex(ch: nat, lun: nat, chk: nat, state: bv8, wp: U64): string
  {
    Line(Dec(ch), Dec(lun), Dec(chk), StateName(state), Dec(wp), "")
  }

  /**
   * As written, update_chunk loads such a line: the "%u" after "wi=" meets
   * the end of the input, sscanf returns EOF, get_unsigned returns it as a
   * non-zero `unsigned`, and the chunk's wear index becomes whatever the
   * uninitialised `wi` held. Taking only a completed conversion rejects
   * the line.
   */
  lemma {:induction false} MissingValueLoadsJunk(ln: Lnvm, table: seq<ChunkDesc>, ch: nat, lun: nat, chk: nat,
                                                 state: bv8, wp: U64, junk: U32)
    requires |table| == ln.totalChks && ln.Derived() && ln.geo.InTypes()
    requires ch < ln.geo.numCh && lun < ln.geo.numLun && chk < ln.geo.numChk && IsState(state)
    ensures var i := GetChunkMetaIndex(ln, ch, lun, chk);
      && 0 <= i < |table|
      && UpdateChunk(MissingWearIndex(ch, lun, chk, state, wp), ln, table, junk, false)
         == Some(table[i := Loaded(table[i], state, junk, wp % 0x1_0000_0000)])
      && UpdateChunk(MissingWearIndex(ch, lun, chk, state, wp), ln, table, junk, true) == None
  {
    var l := MissingWearIndex(ch, lun, chk, state, wp);
    MissingReads(ch, lun, chk, state, wp, junk);
    LoadsMissing(ln, table, ch, lun, chk, state, wp, junk);
    assert UpdateChunk(l, ln, table, junk, false) == Load(Some((ch, lun, chk)), Got(UINT_EOF, junk), Got(1, wp % 0x1_0000_0000),
                                                           Got(1, StateName(state)), Got(1, "W_SEQ"), ln, table, false);
    assert UpdateChunk(l, ln, table, junk, true) == Load(None, Got(UINT_EOF, junk), Got(1, wp % 0x1_0000_0000),
                                                          Got(1, StateName(state)), Got(1, "W_SEQ"), ln, table, true);
  }

  /** What the getters read from such a line: every value, and EOF after "wi=". */
  lemma {:induction false} MissingReads(ch: nat, lun: nat, chk: nat, state: bv8, wp: U64, junk: U32)
    requires ch < 0x1_0000_0000 && lun < 0x1_0000_0000 && chk < 0x1_0000_0000
    ensures var l := MissingWearIndex(ch, lun, chk, state, wp);
      && GetUnsigned(l, "grp=", junk) == Got(1, ch)
      && GetUnsigned(l, "pu=", junk) == Got(1, lun)
      && GetUnsigned(l, "chk=", junk) == Got(1, chk)
      && GetUnsigned(l, "wp=", junk) == Got(1, wp % 0x1_0000_0000)
      && GetUnsigned(l, "wi=", junk) == Got(UINT_EOF, junk)
      && GetStr(l, "state=", 16, "") == Got(1, StateName(state))
      && GetStr(l, "type=", 16, "") == Got(1, "W_SEQ")
  {
    var l := MissingWearIndex(ch, lun, chk, state, wp);
    LineReads(ch, lun, chk, state, wp, "", junk);
    assert ValueAt(l, "wi=") == Some("" + "\n") by {
      DecPlain(ch);
      DecPlain(lun);
      DecPlain(chk);
      DecPlain(wp);
      StateNamePlain(state);
      ValueOfWi(Dec(ch), Dec(lun), Dec(chk), StateName(state), Dec(wp), "");
    }
    ReadsEnd(l, "wi=", junk);
  }

  /** A key at the end of the line reads EOF. */
  lemma {:induction false} ReadsEnd(l: string, key: string, junk: U32)
    requires ValueAt(l, key) == Some("" + "\n")
    ensures GetUnsigned(l, key, junk) == Got(UINT_EOF, junk)
  {
    assert ScanUnsigned("" + "\n") == Eof;
  }

  /** Load on what such a line reads: the chunk loaded with the junk wear index as written, nothing with the strict test. */
  lemma {:induction false} LoadsMissing(ln: Lnvm, table: seq<ChunkDesc>, ch: nat, lun: nat, chk: nat,
                                        state: bv8, wp: U64, junk: U32)
    requires |table| == ln.totalChks && ln.Derived() && ln.geo.InTypes()
    requires ch < ln.geo.numCh && lun < ln.geo.numLun && chk < ln.geo.numChk && IsState(state)
    ensures var i := GetChunkMetaIndex(ln, ch, lun, chk);
      && 0 <= i < |table|
      && Load(Some((ch, lun, chk)), Got(UINT_EOF, junk), Got(1, wp % 0x1_0000_0000), Got(1, StateName(state)), Got(1, "W_SEQ"),
              ln, table, false)
         == Some(table[i := Loaded(table[i], state, junk, wp % 0x1_0000_0000)])
      && Load(None, Got(UINT_EOF, junk), Got(1, wp % 0x1_0000_0000), Got(1, StateName(state)), Got(1, "W_SEQ"),
              ln, table, true) == None
  {
    StateNamesInverse(state, StateName(state));
    assert GetStateId(StateName(state)) as bv8 == state;
  }

  /** Under the strict test a getter's result never depends on what its output variable held. */
  lemma {:induction false} GetUnsignedIgnoresPrior(line: string, key: string, j1: U32, j2: U32)
    ensures GetUnsigned(line, key, j1).count == GetUnsigned(line, key, j2).count
    ensures GetUnsigned(line, key, j1).count == 1 ==> GetUnsigned(line, key, j1) == GetUnsigned(line, key, j2)
  {
  }

  /**
   * With the strict test, loading a line depends only on the line and the
   * table, never on uninitialised memory; the same holds for a line of the
   * reset-failure file.
   */
  lemma {:induction false} StrictIgnoresJunk(line: string, ln: Lnvm, table: seq<ChunkDesc>, resetfail: seq<U8>, j1: U32, j2: U32)
    requires |table| == ln.totalChks && |resetfail| == ln.totalChks && ln.Derived()
    ensures UpdateChunk(line, ln, table, j1, true) == UpdateChunk(line, ln, table, j2, true)
    ensures SetResetfailChunk(line, ln, resetfail, j1, true) == SetResetfailChunk(line, ln, resetfail, j2, true)
  {
    PositionIgnoresJunk(line, j1, j2);
    GetUnsignedIgnoresPrior(line, "wi=", j1, j2);
    GetUnsignedIgnoresPrior(line, "wp=", j1, j2);
    GetUnsignedIgnoresPrior(line, "resetfail_prob=", j1, j2);
    LoadStrict(GetChLunChk(line, j1, true), GetUnsigned(line, "wi=", j1), GetUnsigned(line, "wi=", j2),
               GetUnsigned(line, "wp=", j1), GetUnsigned(line, "wp=", j2),
               GetStr(line, "state=", 16, ""), GetStr(line, "type=", 16, ""), ln, table);
  }

  /** With the strict test, get_ch_lun_chk never depends on what its variables held. */
  lemma {:induction false} PositionIgnoresJunk(line: string, j1: U32, j2: U32)
    ensures GetChLunChk(line, j1, true) == GetChLunChk(line, j2, true)
  {
    GetUnsignedIgnoresPrior(line, "grp=", j1, j2);
    GetUnsignedIgnoresPrior(line, "pu=", j1, j2);
    GetUnsignedIgnoresPrior(line, "chk=", j1, j2);
  }

  /** With the strict test, Load looks at a value only when its conversion completed. */
  lemma {:induction false} LoadStrict(pos: Option<(U32, U32, U32)>, wi1: Got<U32>, wi2: Got<U32>, wp1: Got<U32>, wp2: Got<U32>,
                                      status: Got<string>, ty: Got<string>, ln: Lnvm, table: seq<ChunkDesc>)
    requires |table| == ln.totalChks && ln.Derived()
    requires wi1.count == wi2.count && (wi1.count == 1 ==> wi1 == wi2)
    requires wp1.count == wp2.count && (wp1.count == 1 ==> wp1 == wp2)
    ensures Load(pos, wi1, wp1, status, ty, ln, table, true) == Load(pos, wi2, wp2, status, ty, ln, table, true)
  {
  }
}

=== FILE: chunk_write_req.dfy ===
/**
 * Admission of an Open-Channel vector write (lnvm_rw_check_write_req).
 *
 * The LBAs of the request are grouped by the chunk they lie in, in order of
 * first appearance, in a table of `64 / ws_min` slots. Within a chunk the LBAs
 * must follow each other one by one; each chunk must then receive at least
 * `ws_min` sectors and pass the single-chunk write check.
 *
 * Scan and Verdict are the reference definitions, parameterised by `asWritten`:
 * true gives the behaviour of the code, false the evidently intended one (the
 * last slot of the table usable, and the chunk's sector count a multiple of
 * `ws_min`).
 */
module ChunkWriteReq {
  import opened Bits
  import opened Status
  import opened LnvmAddr
  import opened Chunk

  /** One entry of the per-request table: the chunk, its LBA count, its first and last LBA. */
  datatype Slot = Slot(key: Addr, ws: U8, slba: U64, lbap: U64)

  /** An LBA of the request with the chunk it lies in. */
  datatype Entry = Entry(key: Addr, lba: U64)

  datatype ScanResult = Fail(status: U16) | Groups(slots: seq<Slot>)

  /** The chunk an LBA lies in: its address with the sector member cleared. */
  function ChunkKey(f: Lbaf, lba: nat): Addr
  {
    LbaToAddr(f, lba).(sectr := 0)
  }

  /** The LBAs of the request, each with its chunk. */
  function Entries(f: Lbaf, psl: seq<U64>): (es: seq<Entry>)
    ensures |es| == |psl|
    decreases |psl|
  {
    if |psl| == 0 then []
    else Entries(f, psl[..|psl| - 1]) + [Entry(ChunkKey(f, psl[|psl| - 1]), psl[|psl| - 1])]
  }

  /** Entry `i` is LBA `i` with its chunk. */
  lemma {:induction false} EntryAt(f: Lbaf, psl: seq<U64>, i: nat)
    requires i < |psl|
    ensures Entries(f, psl)[i] == Entry(ChunkKey(f, psl[i]), psl[i])
    decreases |psl|
  {
    var n := |psl| - 1;
    if i < n {
      EntryAt(f, psl[..n], i);
    }
  }

  /** The first slot holding `key`, or -1. */
  function IndexOf(slots: seq<Slot>, key: Addr): (j: int)
    ensures -1 <= j < |slots|
    ensures j >= 0 ==> slots[j].key == key
    ensures j == -1 ==> forall k :: 0 <= k < |slots| ==> slots[k].key != key
  {
    if |slots| == 0 then -1
    else if slots[0].key == key then 0
    else
      var j := IndexOf(slots[1..], key);
      if j == -1 then -1 else j + 1
  }

  /**
   * One LBA of the request: a chunk already in the table must continue at its
   * last LBA plus one; a new chunk takes the next free slot. As written, the
   * last slot can never be taken and an empty table ignores every LBA.
   */
  function Step(slots: seq<Slot>, e: Entry, cap: nat, asWritten: bool): (r: ScanResult)
    ensures r.Fail? ==> r.status != SUCCESS
  {
    var j := IndexOf(slots, e.key);
    if j >= 0 then
      var next := (slots[j].lbap + 1) % TWO_POW_64;
      if next != e.lba then Fail(WithDnr(OUT_OF_ORDER_WRITE))
      else Groups(slots[j := slots[j].(ws := (slots[j].ws + 1) % 0x100, lbap := next)])
    else if asWritten && cap == 0 then Groups(slots)
    else if |slots| >= (if asWritten then cap - 1 else cap) then Fail(WithDnr(INVALID_FIELD))
    else Groups(slots + [Slot(e.key, 1, e.lba, e.lba)])
  }

  /** The first loop of lnvm_rw_check_write_req over the LBAs of the request. */
  function Scan(es: seq<Entry>, cap: nat, asWritten: bool): (r: ScanResult)
    ensures r.Fail? ==> r.status != SUCCESS
    decreases |es|
  {
    if |es| == 0 then Groups([])
    else
      match Scan(es[..|es| - 1], cap, asWritten)
      case Fail(s) => Fail(s)
      case Groups(slots) => Step(slots, es[|es| - 1], cap, asWritten)
  }

  /** As written the test is `ws < ws_min && ws % ws_min != 0`; the intended one rejects either. */
  predicate WsRejected(ws: nat, wsMin: nat, asWritten: bool)
    requires wsMin >= 1
  {
    if asWritten then ws < wsMin && ws % wsMin != 0 else ws < wsMin || ws % wsMin != 0
  }

  /**
   * The second loop: the first chunk that breaks the minimum write size, with
   * the flag saying an error-log entry is recorded, or the first single-chunk
   * write check that fails.
   */
  function Verdict(ln: Lnvm, chunks: seq<ChunkDesc>, slots: seq<Slot>, wsMin: nat, asWritten: bool): (U16, bool)
    requires |chunks| == ln.totalChks && ln.Derived() && wsMin >= 1
    decreases |slots|
  {
    if |slots| == 0 then (SUCCESS, false)
    else if WsRejected(slots[0].ws, wsMin, asWritten) then (WithDnr(INVALID_FIELD), true)
    else
      var e := CheckChunkWrite(ln, chunks, slots[0].slba, slots[0].ws);
      if e != SUCCESS then (e, false) else Verdict(ln, chunks, slots[1..], wsMin, asWritten)
  }

  /** The whole check: the status and whether nvme_set_error_page is called. */
  function WriteReq(ln: Lnvm, chunks: seq<ChunkDesc>, psl: seq<U64>, wsMin: U8, asWritten: bool): (U16, bool)
    requires |chunks| == ln.totalChks && ln.Derived() && wsMin >= 1
  {
    match Scan(Entries(ln.lbaf, psl), 64 / wsMin, asWritten)
    case Fail(s) => (s, false)
    case Groups(slots) => Verdict(ln, chunks, slots, wsMin, asWritten)
  }

  /** How many entries of `es` lie in chunk `key`. */
  function CountKey(es: seq<Entry>, key: Addr): nat
    decreases |es|
  {
    if |es| == 0 then 0
    else CountKey(es[..|es| - 1], key) + (if es[|es| - 1].key == key then 1 else 0)
  }

  /** The slot of a chunk that has one. */
  function SlotOf(slots: seq<Slot>, key: Addr): Slot
    requires IndexOf(slots, key) >= 0
  {
    slots[IndexOf(slots, key)]
  }

  /** What a table built without failure says about the entries it was built from. */
  ghost predicate Grouped(es: seq<Entry>, slots: seq<Slot>)
  {
    DistinctKeys(slots) && Counted(es, slots) && Runs(es, slots)
  }

  /** One slot per chunk. */
  predicate DistinctKeys(slots: seq<Slot>)
  {
    forall a, b :: 0 <= a < b < |slots| ==> slots[a].key != slots[b].key
  }

  /** Every slot counts the LBAs of its chunk. */
  ghost predicate Counted(es: seq<Entry>, slots: seq<Slot>)
  {
    forall k :: 0 <= k < |slots| ==> SlotCounts(es, slots, k)
  }

  /** Slot `k` counts the LBAs of its chunk, and its last LBA is its first plus the count less one. */
  ghost predicate SlotCounts(es: seq<Entry>, slots: seq<Slot>, k: nat)
    requires k < |slots|
  {
    slots[k].ws == CountKey(es, slots[k].key) >= 1
    && slots[k].lbap == (slots[k].slba + slots[k].ws - 1) % TWO_POW_64
  }

  /** Every LBA lies in a chunk that has a slot, at its place in the chunk's run. */
  ghost predicate Runs(es: seq<Entry>, slots: seq<Slot>)
  {
    forall i :: 0 <= i < |es| ==> InRun(es, slots, i)
  }

  /**
   * The chunk of LBA `i` has a slot, and the LBA is the slot's first LBA plus
   * the number of earlier LBAs of the same chunk (in 64 bits).
   */
  ghost predicate InRun(es: seq<Entry>, slots: seq<Slot>, i: nat)
    requires i < |es|
  {
    IndexOf(slots, es[i].key) >= 0
    && es[i].lba == (SlotOf(slots, es[i].key).slba + CountKey(es[..i], es[i].key)) % TWO_POW_64
  }

  /**
   * A table the first loop builds without failure groups the request by
   * chunk: one slot per chunk, each counting the chunk's LBAs, and the LBAs of
   * each chunk are its first LBA, that plus one, plus two, and so on (in 64
   * bits). As written this needs a table of at least one slot: an empty one
   * ignores every LBA.
   */
  lemma {:induction false} ScanGroups(es: seq<Entry>, cap: nat, asWritten: bool)
    requires |es| < 0x100 && Scan(es, cap, asWritten).Groups?
    requires !asWritten || cap >= 1
    ensures Grouped(es, Scan(es, cap, asWritten).slots)
    decreases |es|
  {
    if |es| == 0 {
      return;
    }
    var n := |es| - 1;
    var pre := es[..n];
    ScanGroups(pre, cap, asWritten);
    var slots := Scan(pre, cap, asWritten).slots;
    assert pre + [es[n]] == es;
    assert Scan(es, cap, asWritten) == Step(slots, es[n], cap, asWritten);
    if IndexOf(slots, es[n].key) >= 0 {
      CountKeyBound(pre, es[n].key);
      assert SlotCounts(pre, slots, IndexOf(slots, es[n].key));
      UpdateKeepsGrouped(pre, slots, es[n]);
    } else {
      AppendKeepsGrouped(pre, slots, es[n]);
    }
  }

  /**
   * A table the first loop builds without failure has at most `cap - 1`
   * slots as written (which needs a table of at least one slot) and `cap` as
   * intended.
   */
  lemma {:induction false} ScanBound(es: seq<Entry>, cap: nat, asWritten: bool)
    requires Scan(es, cap, asWritten).Groups?
    requires !asWritten || cap >= 1
    ensures |Scan(es, cap, asWritten).slots| <= if asWritten then cap - 1 else cap
    decreases |es|
  {
    if |es| > 0 {
      ScanBound(es[..|es| - 1], cap, asWritten);
    }
  }

  /** A further LBA of a chunk that has a slot, continuing it, keeps the table grouped. */
  lemma {:induction false} UpdateKeepsGrouped(pre: seq<Entry>, slots: seq<Slot>, e: Entry)
    requires Grouped(pre, slots) && IndexOf(slots, e.key) >= 0
    requires SlotOf(slots, e.key).ws < 0xff
    requires (SlotOf(slots, e.key).lbap + 1) % TWO_POW_64 == e.lba
    ensures var j := IndexOf(slots, e.key);
      Grouped(pre + [e], slots[j := slots[j].(ws := (slots[j].ws + 1) % 0x100, lbap := e.lba)])
  {
    var j := IndexOf(slots, e.key);
    var x := slots[j].(ws := slots[j].ws + 1, lbap := e.lba);
    assert x == slots[j].(ws := (slots[j].ws + 1) % 0x100, lbap := e.lba);
    assert DistinctKeys(slots[j := x]) by {
      assert forall k :: 0 <= k < |slots| ==> slots[j := x][k].key == slots[k].key;
    }
    assert SlotCounts(pre, slots, j);
    UpdateCounted(pre, slots, e, j);
    UpdateRuns(pre, slots, e, j);
  }

  lemma {:induction false} UpdateCounted(pre: seq<Entry>, slots: seq<Slot>, e: Entry, j: nat)
    requires DistinctKeys(slots) && Counted(pre, slots)
    requires j < |slots| && slots[j].key == e.key && slots[j].ws < 0xff
    requires (slots[j].lbap + 1) % TWO_POW_64 == e.lba
    ensures Counted(pre + [e], slots[j := slots[j].(ws := slots[j].ws + 1, lbap := e.lba)])
  {
    var slots' := slots[j := slots[j].(ws := slots[j].ws + 1, lbap := e.lba)];
    CountKeySnoc(pre, e);
    forall k | 0 <= k < |slots'|
      ensures SlotCounts(pre + [e], slots', k)
    {
      assert SlotCounts(pre, slots, k);
      if k != j {
        assert slots'[k] == slots[k] && slots[k].key != e.key;
      } else {
        NextOfLast(slots[j].slba, slots[j].ws);
      }
    }
  }

  lemma {:induction false} UpdateRuns(pre: seq<Entry>, slots: seq<Slot>, e: Entry, j: nat)
    requires Runs(pre, slots)
    requires j < |slots| && IndexOf(slots, e.key) == j && slots[j].ws < 0xff
    requires SlotCounts(pre, slots, j)
    requires (slots[j].lbap + 1) % TWO_POW_64 == e.lba
    ensures Runs(pre + [e], slots[j := slots[j].(ws := slots[j].ws + 1, lbap := e.lba)])
  {
    var es, slots' := pre + [e], slots[j := slots[j].(ws := slots[j].ws + 1, lbap := e.lba)];
    forall i | 0 <= i < |es|
      ensures InRun(es, slots', i)
    {
      if i < |pre| {
        assert InRun(pre, slots, i);
        UpdateInRunOld(pre, slots, e, j, i);
      } else {
        UpdateInRunNew(pre, slots, e, j);
      }
    }
  }

  /** An earlier LBA keeps its place in its chunk's run. */
  lemma {:induction false} UpdateInRunOld(pre: seq<Entry>, slots: seq<Slot>, e: Entry, j: nat, i: nat)
    requires j < |slots| && slots[j].key == e.key && slots[j].ws < 0xff
    requires i < |pre| && InRun(pre, slots, i)
    ensures InRun(pre + [e], slots[j := slots[j].(ws := slots[j].ws + 1, lbap := e.lba)], i)
  {
    assert (pre + [e])[i] == pre[i] && (pre + [e])[..i] == pre[..i];
    IndexOfUpdate(slots, j, slots[j].(ws := slots[j].ws + 1, lbap := e.lba), pre[i].key);
  }

  /** The new LBA is the one after the chunk's last. */
  lemma {:induction false} UpdateInRunNew(pre: seq<Entry>, slots: seq<Slot>, e: Entry, j: nat)
    requires j < |slots| && IndexOf(slots, e.key) == j && slots[j].ws < 0xff
    requires SlotCounts(pre, slots, j)
    requires (slots[j].lbap + 1) % TWO_POW_64 == e.lba
    ensures InRun(pre + [e], slots[j := slots[j].(ws := slots[j].ws + 1, lbap := e.lba)], |pre|)
  {
    assert (pre + [e])[..|pre|] == pre && (pre + [e])[|pre|] == e;
    IndexOfUpdate(slots, j, slots[j].(ws := slots[j].ws + 1, lbap := e.lba), e.key);
    NextOfLast(slots[j].slba, slots[j].ws);
  }

  /** `((s + w - 1) % 2^64 + 1) % 2^64 == (s + w) % 2^64`. */
  lemma {:induction false} NextOfLast(s: U64, w: nat)
    requires w >= 1
    ensures ((s + w - 1) % TWO_POW_64 + 1) % TWO_POW_64 == (s + w) % TWO_POW_64
  {
  }

  /** The first LBA of a chunk without a slot, in a new slot, keeps the table grouped. */
  lemma {:induction false} AppendKeepsGrouped(pre: seq<Entry>, slots: seq<Slot>, e: Entry)
    requires Grouped(pre, slots) && IndexOf(slots, e.key) == -1
    ensures Grouped(pre + [e], slots + [Slot(e.key, 1, e.lba, e.lba)])
  {
    forall i | 0 <= i < |pre|
      ensures pre[i].key != e.key
    {
      assert InRun(pre, slots, i);
    }
    CountKeyZero(pre, e.key);
    AppendCounted(pre, slots, e);
    AppendRuns(pre, slots, e);
  }

  lemma {:induction false} AppendCounted(pre: seq<Entry>, slots: seq<Slot>, e: Entry)
    requires Counted(pre, slots) && IndexOf(slots, e.key) == -1 && CountKey(pre, e.key) == 0
    ensures Counted(pre + [e], slots + [Slot(e.key, 1, e.lba, e.lba)])
  {
    var slots' := slots + [Slot(e.key, 1, e.lba, e.lba)];
    CountKeySnoc(pre, e);
    forall k | 0 <= k < |slots'|
      ensures SlotCounts(pre + [e], slots', k)
    {
      if k < |slots| {
        assert SlotCounts(pre, slots, k);
        assert slots'[k] == slots[k] && slots[k].key != e.key;
      }
    }
  }

  lemma {:induction false} AppendRuns(pre: seq<Entry>, slots: seq<Slot>, e: Entry)
    requires Runs(pre, slots)
    requires IndexOf(slots, e.key) == -1 && CountKey(pre, e.key) == 0
    ensures Runs(pre + [e], slots + [Slot(e.key, 1, e.lba, e.lba)])
  {
    var es, slots' := pre + [e], slots + [Slot(e.key, 1, e.lba, e.lba)];
    forall i | 0 <= i < |es|
      ensures InRun(es, slots', i)
    {
      if i < |pre| {
        assert InRun(pre, slots, i);
        AppendInRunOld(pre, slots, e, i);
      } else {
        AppendInRunNew(pre, slots, e);
      }
    }
  }

  /** An earlier LBA keeps its place in its chunk's run. */
  lemma {:induction false} AppendInRunOld(pre: seq<Entry>, slots: seq<Slot>, e: Entry, i: nat)
    requires i < |pre| && IndexOf(slots, e.key) == -1 && InRun(pre, slots, i)
    ensures InRun(pre + [e], slots + [Slot(e.key, 1, e.lba, e.lba)], i)
  {
    assert (pre + [e])[i] == pre[i] && (pre + [e])[..i] == pre[..i];
    IndexOfAppend(slots, Slot(e.key, 1, e.lba, e.lba), pre[i].key);
  }

  /** The new LBA opens its chunk's run. */
  lemma {:induction false} AppendInRunNew(pre: seq<Entry>, slots: seq<Slot>, e: Entry)
    requires IndexOf(slots, e.key) == -1 && CountKey(pre, e.key) == 0
    ensures InRun(pre + [e], slots + [Slot(e.key, 1, e.lba, e.lba)], |pre|)
  {
    assert (pre + [e])[..|pre|] == pre && (pre + [e])[|pre|] == e;
    IndexOfAppend(slots, Slot(e.key, 1, e.lba, e.lba), e.key);
  }

  /** Counting over one more entry. */
  lemma {:induction false} CountKeySnoc(pre: seq<Entry>, e: Entry)
    ensures forall key :: CountKey(pre + [e], key) == CountKey(pre, key) + (if e.key == key then 1 else 0)
  {
    assert (pre + [e])[..|pre|] == pre;
  }

  lemma {:induction false} CountKeyBound(es: seq<Entry>, key: Addr)
    ensures CountKey(es, key) <= |es|
    decreases |es|
  {
    if |es| > 0 {
      CountKeyBound(es[..|es| - 1], key);
    }
  }

  /** A chunk no entry lies in counts zero entries. */
  lemma {:induction false} CountKeyZero(es: seq<Entry>, key: Addr)
    requires forall i :: 0 <= i < |es| ==> es[i].key != key
    ensures CountKey(es, key) == 0
    decreases |es|
  {
    if |es| > 0 {
      CountKeyZero(es[..|es| - 1], key);
    }
  }

  lemma {:induction false} IndexOfAppend(slots: seq<Slot>, x: Slot, key: Addr)
    requires IndexOf(slots, x.key) == -1
    ensures IndexOf(slots + [x], key) == if key == x.key then |slots| else IndexOf(slots, key)
    decreases |slots|
  {
    if |slots| > 0 {
      assert (slots + [x])[1..] == slots[1..] + [x];
      if slots[0].key != key {
        IndexOfAppend(slots[1..], x, key);
      }
    }
  }

  lemma {:induction false} IndexOfUpdate(slots: seq<Slot>, j: nat, x: Slot, key: Addr)
    requires j < |slots| && x.key == slots[j].key
    ensures IndexOf(slots[j := x], key) == IndexOf(slots, key)
    decreases |slots|
  {
    if j > 0 && slots[0].key != key {
      assert slots[j := x][1..] == slots[1..][j - 1 := x];
      IndexOfUpdate(slots[1..], j - 1, x, key);
    }
  }

  /** A slot holding `key` is found, at it or before it. */
  lemma {:induction false} IndexOfFound(slots: seq<Slot>, j: nat, key: Addr)
    requires j < |slots| && slots[j].key == key
    ensures 0 <= IndexOf(slots, key) <= j
    decreases |slots|
  {
    if slots[0].key != key {
      IndexOfFound(slots[1..], j - 1, key);
    }
  }

  /** A key no slot holds is not found. */
  lemma {:induction false} IndexOfAbsent(slots: seq<Slot>, key: Addr)
    requires forall k :: 0 <= k < |slots| ==> slots[k].key != key
    ensures IndexOf(slots, key) == -1
    decreases |slots|
  {
    if |slots| > 0 {
      IndexOfAbsent(slots[1..], key);
    }
  }

  /** The first slot holding `key` is the one IndexOf finds. */
  lemma {:induction false} IndexOfFirst(slots: seq<Slot>, j: nat, key: Addr)
    requires j < |slots| && slots[j].key == key
    requires forall k :: 0 <= k < j ==> slots[k].key != key
    ensures IndexOf(slots, key) == j
    decreases |slots|
  {
    if j > 0 {
      IndexOfFirst(slots[1..], j - 1, key);
    }
  }

  /** A failure in the first loop is final: later LBAs are never looked at. */
  lemma {:induction false} ScanFailSticks(es: seq<Entry>, i: nat, cap: nat, asWritten: bool)
    requires i <= |es| && Scan(es[..i], cap, asWritten).Fail?
    ensures Scan(es, cap, asWritten) == Scan(es[..i], cap, asWritten)
    decreases |es| - i
  {
    if i < |es| {
      assert es[..i + 1][..i] == es[..i];
      ScanFailSticks(es, i + 1, cap, asWritten);
    } else {
      assert es[..i] == es;
    }
  }

  /** Every slot of an admitted table passed the minimum-size test and the single-chunk check. */
  lemma {:induction false} VerdictSuccess(ln: Lnvm, chunks: seq<ChunkDesc>, slots: seq<Slot>, wsMin: nat, asWritten: bool)
    requires |chunks| == ln.totalChks && ln.Derived() && wsMin >= 1
    requires Verdict(ln, chunks, slots, wsMin, asWritten).0 == SUCCESS
    ensures forall k :: 0 <= k < |slots| ==>
      !WsRejected(slots[k].ws, wsMin, asWritten) && CheckChunkWrite(ln, chunks, slots[k].slba, slots[k].ws) == SUCCESS
    decreases |slots|
  {
    if |slots| > 0 {
      VerdictSuccess(ln, chunks, slots[1..], wsMin, asWritten);
      forall k | 1 <= k < |slots|
        ensures slots[k] == slots[1..][k - 1]
      {
      }
    }
  }

  /**
   * With the intended tests, an admitted vector write touches at most
   * `64 / ws_min` chunks; in each it writes a positive multiple of `ws_min`
   * LBAs, one after the other from the chunk's first LBA in the request, and
   * the chunk admits a write of that many sectors at that LBA.
   */
  lemma {:induction false} CorrectedAdmission(ln: Lnvm, chunks: seq<ChunkDesc>, psl: seq<U64>, wsMin: U8)
    requires |chunks| == ln.totalChks && ln.Derived() && wsMin >= 1 && |psl| < 0x100
    requires WriteReq(ln, chunks, psl, wsMin, false).0 == SUCCESS
    ensures Scan(Entries(ln.lbaf, psl), 64 / wsMin, false).Groups?
    ensures var slots := Scan(Entries(ln.lbaf, psl), 64 / wsMin, false).slots;
      Grouped(Entries(ln.lbaf, psl), slots) && |slots| <= 64 / wsMin
      && forall k :: 0 <= k < |slots| ==>
           slots[k].ws >= wsMin && slots[k].ws % wsMin == 0
           && CheckChunkWrite(ln, chunks, slots[k].slba, slots[k].ws) == SUCCESS
  {
    var es := Entries(ln.lbaf, psl);
    var cap := 64 / wsMin;
    if Scan(es, cap, false).Groups? {
      ScanGroups(es, cap, false);
      ScanBound(es, cap, false);
      VerdictSuccess(ln, chunks, Scan(es, cap, false).slots, wsMin, false);
    }
  }

  /**
   * As written, the minimum-size test only rejects a chunk receiving fewer
   * than `ws_min` LBAs: a count above `ws_min` that is not a multiple of it
   * passes, for example 5 LBAs with `ws_min` 4.
   */
  lemma {:induction false} AlignmentNotChecked(ws: nat, wsMin: nat)
    requires wsMin >= 1 && ws >= 1
    ensures WsRejected(ws, wsMin, true) <==> ws < wsMin
    ensures !WsRejected(5, 4, true) && WsRejected(5, 4, false)
  {
  }

  /**
   * As written, the last slot of the table is never used: two LBAs in two
   * different chunks with `ws_min` 32 (a table of two slots) are refused with
   * INVALID_FIELD, where the intended table groups them.
   */
  lemma {:induction false} LastSlotUnusable()
    ensures var es := Entries(Lbaf(1, 1, 0, 0, 1, 2, 2), [0, 2]);
      es[0].key != es[1].key
      && Scan(es, 64 / 32, true) == Fail(WithDnr(INVALID_FIELD))
      && Scan(es, 64 / 32, false).Groups? && |Scan(es, 64 / 32, false).slots| == 2
  {
    var f := Lbaf(1, 1, 0, 0, 1, 2, 2);
    var psl: seq<U64> := [0, 2];
    EntryAt(f, psl, 0);
    EntryAt(f, psl, 1);
    var es := Entries(f, psl);
    assert es == [es[0], es[1]];
    assert Pow2(1) == 2;
    assert ChunkField(f, 0) == 0 && ChunkField(f, 2) == 1;
    TwoChunksInTwoSlots(es[0], es[1]);
  }

  /** Two LBAs of two chunks in a table of two slots. */
  lemma {:induction false} TwoChunksInTwoSlots(e0: Entry, e1: Entry)
    requires e0.key != e1.key
    ensures Scan([e0, e1], 2, true) == Fail(WithDnr(INVALID_FIELD))
    ensures Scan([e0, e1], 2, false) == Groups([Slot(e0.key, 1, e0.lba, e0.lba), Slot(e1.key, 1, e1.lba, e1.lba)])
  {
    var s0 := Slot(e0.key, 1, e0.lba, e0.lba);
    assert [e0, e1][..1] == [e0] && [e0][..0] == [];
    assert IndexOf([], e0.key) == -1;
    assert Scan([e0], 2, true) == Groups([s0]) && Scan([e0], 2, false) == Groups([s0]);
    assert [s0][1..] == [] && IndexOf([s0], e1.key) == -1;
  }

  /**
   * As written, a `ws_min` above 64 leaves a table of no slots, and then no
   * LBA is looked at: the request is admitted whatever its chunks' states.
   */
  lemma {:induction false} EmptyTableAdmitsAll(ln: Lnvm, chunks: seq<ChunkDesc>, psl: seq<U64>, wsMin: U8)
    requires |chunks| == ln.totalChks && ln.Derived() && wsMin > 64
    ensures WriteReq(ln, chunks, psl, wsMin, true) == (SUCCESS, false)
  {
    ModSmall(64, wsMin);
    EmptyScan(Entries(ln.lbaf, psl));
  }

  lemma {:induction false} EmptyScan(es: seq<Entry>)
    ensures Scan(es, 0, true) == Groups([])
    decreases |es|
  {
    if |es| > 0 {
      EmptyScan(es[..|es| - 1]);
    }
  }

  /** Every slot counts at least one and at most `n` LBAs. */
  predicate WsWithin(slots: seq<Slot>, n: nat)
  {
    forall k :: 0 <= k < |slots| ==> 1 <= slots[k].ws <= n
  }

  /** One more LBA raises the bound by one; below 255 no count wraps to zero. */
  lemma {:induction false} StepKeepsWsWithin(slots: seq<Slot>, e: Entry, cap: nat, n: nat)
    requires WsWithin(slots, n) && n < 0xff
    ensures Step(slots, e, cap, true).Groups? ==> WsWithin(Step(slots, e, cap, true).slots, n + 1)
  {
    var j := IndexOf(slots, e.key);
    if j >= 0 {
      var x := slots[j].(ws := (slots[j].ws + 1) % 0x100, lbap := (slots[j].lbap + 1) % TWO_POW_64);
      assert forall k :: 0 <= k < |slots| ==> slots[j := x][k] == if k == j then x else slots[k];
    } else {
      var x := Slot(e.key, 1, e.lba, e.lba);
      assert forall k :: 0 <= k < |slots| ==> (slots + [x])[k] == slots[k];
    }
  }

  /** Scanning one more entry is one more step, and keeps the counts within the entries seen. */
  lemma {:induction false} ScanExtends(es: seq<Entry>, i: nat, cap: nat, slots: seq<Slot>)
    requires i < |es| && i < 0xff && Scan(es[..i], cap, true) == Groups(slots) && WsWithin(slots, i)
    ensures Scan(es[..i + 1], cap, true) == Step(slots, es[i], cap, true)
    ensures Step(slots, es[i], cap, true).Groups? ==> WsWithin(Step(slots, es[i], cap, true).slots, i + 1)
    ensures WsWithin(slots, 0xff)
  {
    assert es[..i + 1][..i] == es[..i];
    StepKeepsWsWithin(slots, es[i], cap, i);
  }

  /** The table `m` holds `slots` in its first cells; every later cell is empty. */
  ghost predicate TableHolds(m: array<Slot>, slots: seq<Slot>)
    reads m
  {
    |slots| <= m.Length && m[..|slots|] == slots
    && forall k :: |slots| <= k < m.Length ==> m[k].ws == 0
  }

  /**
   * The inner loop of lnvm_rw_check_write_req for one LBA: search the filled
   * slots for its chunk, continue that slot or take the first empty one.
   */
  method TableStep(m: array<Slot>, ghost slots: seq<Slot>, e: Entry) returns (st: U16)
    requires TableHolds(m, slots) && WsWithin(slots, 0xff)
    requires m.Length == 0 || |slots| < m.Length
    modifies m
    ensures Step(slots, e, m.Length, true).Fail? ==> st == Step(slots, e, m.Length, true).status
    ensures Step(slots, e, m.Length, true).Groups? ==>
      st == SUCCESS && TableHolds(m, Step(slots, e, m.Length, true).slots)
  {
    ghost var next := Step(slots, e, m.Length, true);
    var j := 0;
    while j < m.Length
      invariant 0 <= j <= m.Length && j <= |slots|
      invariant forall k :: 0 <= k < j ==> slots[k].key != e.key
      invariant TableHolds(m, slots)
    {
      assert j < |slots| ==> m[j] == slots[j];
      if m[j].ws != 0 {
        if m[j].key == e.key {
          IndexOfFirst(slots, j, e.key);
          m[j] := m[j].(lbap := (m[j].lbap + 1) % TWO_POW_64);
          if m[j].lbap != e.lba {
            return WithDnr(OUT_OF_ORDER_WRITE);
          }
          m[j] := m[j].(ws := (m[j].ws + 1) % 0x100);
          assert m[..|next.slots|] == next.slots;
          return SUCCESS;
        }
        j := j + 1;
        continue;
      }
      assert j == |slots|;
      IndexOfAbsent(slots, e.key);
      if j == m.Length - 1 {
        return WithDnr(INVALID_FIELD);
      }
      m[j] := Slot(e.key, 1, e.lba, e.lba);
      assert m[..|next.slots|] == next.slots;
      return SUCCESS;
    }
    IndexOfAbsent(slots, e.key);
    return SUCCESS;
  }

  /**
   * The first loop of lnvm_rw_check_write_req: a zero-filled table of `cap`
   * slots and, LBA by LBA, the inner search of it.
   */
  method FillTable(f: Lbaf, psl: seq<U64>, cap: nat) returns (st: U16, m: array<Slot>, ghost slots: seq<Slot>)
    requires |psl| < 0x100
    ensures fresh(m) && m.Length == cap
    ensures Scan(Entries(f, psl), cap, true).Fail? ==> st == Scan(Entries(f, psl), cap, true).status
    ensures Scan(Entries(f, psl), cap, true).Groups? ==>
      st == SUCCESS && slots == Scan(Entries(f, psl), cap, true).slots
      && TableHolds(m, slots) && WsWithin(slots, 0xff) && (cap == 0 || |slots| < cap)
  {
    ghost var es := Entries(f, psl);
    m := new Slot[cap](_ => Slot(Addr(0, 0, 0, 0), 0, 0, 0));
    slots := [];
    var i := 0;
    while i < |psl|
      invariant 0 <= i <= |psl|
      invariant Scan(es[..i], cap, true) == Groups(slots)
      invariant cap == 0 || |slots| < cap
      invariant TableHolds(m, slots) && WsWithin(slots, i)
    {
      ScanExtends(es, i, cap, slots);
      EntryAt(f, psl, i);
      st := TableStep(m, slots, Entry(ChunkKey(f, psl[i]), psl[i]));
      if st != SUCCESS {
        ScanFailSticks(es, i + 1, cap, true);
        return;
      }
      slots := Step(slots, es[i], cap, true).slots;
      i := i + 1;
    }
    assert es[..i] == es;
    st := SUCCESS;
  }

  /**
   * lnvm_rw_check_write_req as the code runs it: the table is filled, then
   * the filled slots are checked in order until the first empty one. The
   * request carries at most 255 LBAs (`max_sec_per_rq` is a byte).
   */
  method CheckWriteReq(ln: Lnvm, chunks: seq<ChunkDesc>, psl: seq<U64>, wsMin: U8) returns (err: U16, logged: bool)
    requires |chunks| == ln.totalChks && ln.Derived() && 1 <= wsMin && |psl| < 0x100
    ensures (err, logged) == WriteReq(ln, chunks, psl, wsMin, true)
  {
    var st, m, slots := FillTable(ln.lbaf, psl, 64 / wsMin);
    if st != SUCCESS {
      return st, false;
    }
    err, logged := CheckSlots(ln, chunks, m, slots, wsMin);
  }

  /**
   * The second loop of lnvm_rw_check_write_req: each filled slot in turn is
   * checked for its write size and then against its chunk, stopping at the
   * first empty slot or the first refusal.
   */
  method CheckSlots(ln: Lnvm, chunks: seq<ChunkDesc>, m: array<Slot>, ghost slots: seq<Slot>, wsMin: U8)
    returns (err: U16, logged: bool)
    requires |chunks| == ln.totalChks && ln.Derived() && 1 <= wsMin
    requires TableHolds(m, slots) && WsWithin(slots, 0xff)
    ensures (err, logged) == Verdict(ln, chunks, slots, wsMin, true)
  {
    var k := 0;
    while k < m.Length
      invariant 0 <= k <= |slots|
      invariant Verdict(ln, chunks, slots, wsMin, true) == Verdict(ln, chunks, slots[k..], wsMin, true)
    {
      if m[k].ws == 0 {
        break;
      }
      assert m[k] == slots[k] && slots[k..][1..] == slots[k + 1..];
      if m[k].ws < wsMin && m[k].ws % wsMin != 0 {
        return WithDnr(INVALID_FIELD), true;
      }
      err := CheckChunkWrite(ln, chunks, m[k].slba, m[k].ws);
      if err != SUCCESS {
        return err, false;
      }
      k := k + 1;
    }
    assert slots[k..] == [];
    return SUCCESS, false;
  }
}

=== FILE: doorbell.dfy ===
/**
 * Doorbells (NVMe 1.2 section 3.1): the Submission Queue y Tail Doorbell sits
 * at 0x1000 + 2y * (4 << CAP.DSTRD) and the Completion Queue y Head Doorbell
 * at 0x1000 + (2y + 1) * (4 << CAP.DSTRD). nvme_process_db decodes a write
 * there; nvme_set_db_memory lays out the shadow doorbells and event indexes
 * in guest memory the same way.
 */
module Doorbell {
  import opened Bits
  import opened Wrappers
  import opened Status
  import opened Queues
  import Aer

  /** Where a write into the doorbell region lands. */
  datatype DbTarget = Misaligned | SqTail(qid: nat) | CqHead(qid: nat)

  /** The width of one doorbell, `1 << (2 + db_stride)`. */
  function DbWidth(stride: nat): (w: nat)
    ensures w >= 4
  {
    Pow2Monotone(2, 2 + stride);
    Pow2(2 + stride)
  }

  /**
   * The decoding in nvme_process_db of a write at `addr` (at least 0x1000):
   * an address not aligned to the doorbell width is refused; an odd
   * doorbell number is a completion queue's head doorbell, an even one a
   * submission queue's tail doorbell, of queue number/2.
   */
  function DecodeDb(addr: nat, stride: nat): DbTarget
    requires addr >= 0x1000
  {
    var w := DbWidth(stride);
    var k := Quot(addr - 0x1000, w);
    if addr % w != 0 then Misaligned
    else if k % 2 == 1 then
      DivAtLeastOne(addr - 0x1000, w);
      CqHead(Quot(addr - (0x1000 + w), 2 * w))
    else SqTail(Quot(addr - 0x1000, 2 * w))
  }

  /** `x >> s` with `d == 1 << s`. */
  function Quot(x: nat, d: nat): nat
    requires d >= 1
  {
    x / d
  }

  lemma {:induction false} DivAtLeastOne(x: nat, w: nat)
    requires w >= 1 && (x / w) % 2 == 1
    ensures x >= w
  {
    assert x == (x / w) * w + x % w;
    MulAtLeast(x / w, w);
  }

  /** The offset of the doorbell of queue `qid`: its submission queue's tail, or its completion queue's head. */
  function DbOffset(qid: nat, isCq: bool, stride: nat): (o: nat)
    ensures o >= 0x1000
  {
    0x1000 + (2 * qid + (if isCq then 1 else 0)) * DbWidth(stride)
  }

  /**
   * The largest CAP.DSTRD for which the decoding finds every doorbell: beyond
   * 10 a doorbell is wider than the 4 KiB below the region. nvme_check_constraints
   * accepts up to `NVME_MAX_STRIDE`, 12 (see WideStrideMisaligned).
   */
  const MAX_STRIDE := 10

  /** While the doorbell width divides 0x1000 (DSTRD at most 10), 0x1000 is a whole number of doorbells. */
  lemma {:induction false} BaseAligned(stride: nat)
    requires stride <= MAX_STRIDE
    ensures 0x1000 % DbWidth(stride) == 0
  {
    Pow2Add(2 + stride, 10 - stride);
    assert Pow2(12) == 0x1000 by { Pow2_32(); Pow2Add(12, 20); }
    DivModUnique(0x1000, Pow2(2 + stride), Pow2(10 - stride), 0);
  }

  /**
   * The arithmetic of the decoding: at `base + n * w`, with `base` a
   * multiple of `w`, the address is aligned, doorbell number `n`, and
   * `n / 2` is found from either formula.
   */
  lemma {:induction false} SlotArith(base: nat, n: nat, w: nat)
    requires w >= 1 && base % w == 0
    ensures (base + n * w) % w == 0 && (base + n * w - base) / w == n
    ensures n % 2 == 1 ==> n * w >= w && (n * w - w) / (2 * w) == n / 2
    ensures n % 2 == 0 ==> (n * w) / (2 * w) == n / 2
  {
    var q := base / w;
    assert base == q * w;
    assert base + n * w == (q + n) * w;
    DivModUnique(base + n * w, w, q + n, 0);
    DivModUnique(n * w, w, n, 0);
    var h := n / 2;
    if n % 2 == 1 {
      assert n == 2 * h + 1;
      assert n * w - w == h * (2 * w);
      DivModUnique(n * w - w, 2 * w, h, 0);
    } else {
      assert n == 2 * h;
      assert n * w == h * (2 * w);
      DivModUnique(n * w, 2 * w, h, 0);
    }
  }

  /** Every queue's doorbells decode back to that queue. */
  lemma {:induction false} DecodeOffset(qid: nat, isCq: bool, stride: nat)
    requires stride <= MAX_STRIDE
    ensures DecodeDb(DbOffset(qid, isCq, stride), stride) == if isCq then CqHead(qid) else SqTail(qid)
  {
    var w := DbWidth(stride);
    var n := 2 * qid + (if isCq then 1 else 0);
    BaseAligned(stride);
    SlotArith(0x1000, n, w);
    DivModUnique(n, 2, qid, if isCq then 1 else 0);
  }

  /** Every aligned address of the region is exactly one queue's doorbell. */
  lemma {:induction false} OffsetOfDecode(addr: nat, stride: nat)
    requires addr >= 0x1000 && stride <= MAX_STRIDE
    ensures match DecodeDb(addr, stride)
      case Misaligned => addr % DbWidth(stride) != 0
      case SqTail(q) => addr == DbOffset(q, false, stride)
      case CqHead(q) => addr == DbOffset(q, true, stride)
  {
    var w := DbWidth(stride);
    if addr % w == 0 {
      BaseAligned(stride);
      var n := (addr - 0x1000) / w;
      AlignedOffset(addr, w);
      SlotArith(0x1000, n, w);
      assert n == 2 * (n / 2) + n % 2;
    }
  }

  /**
   * As written, with a CAP.DSTRD of 11 or more, which nvme_check_constraints
   * lets through up to 12: the alignment test is on the address itself, not
   * on its offset from 0x1000, so every doorbell at its place in the layout
   * is refused as misaligned.
   */
  lemma {:induction false} WideStrideMisaligned(qid: nat, isCq: bool, stride: nat)
    requires MAX_STRIDE < stride
    ensures DecodeDb(DbOffset(qid, isCq, stride), stride) == Misaligned
  {
    var w := DbWidth(stride);
    var n := 2 * qid + (if isCq then 1 else 0);
    Pow2Monotone(13, 2 + stride);
    Pow2_13();
    DivModUnique(0x1000 + n * w, w, n, 0x1000);
  }

  /** As written, at CAP.DSTRD 11 a write at 0x2000 is taken for submission queue 0's tail, whose doorbell is at 0x1000. */
  lemma {:induction false} WideStrideShifted()
    ensures DecodeDb(0x2000, 11) == SqTail(0) && DbOffset(0, false, 11) == 0x1000
  {
    Pow2_13();
    assert DbWidth(11) == 0x2000;
  }

  lemma {:induction false} Pow2_13()
    ensures Pow2(13) == 0x2000
  {
    assert Pow2(8) == 256;
    Pow2Add(8, 5);
  }

  /** An aligned address above an aligned base is a whole number of widths above it. */
  lemma {:induction false} AlignedOffset(addr: nat, w: nat)
    requires addr >= 0x1000 && w >= 1 && addr % w == 0 && 0x1000 % w == 0
    ensures addr == 0x1000 + ((addr - 0x1000) / w) * w
  {
    var a, b := addr / w, 0x1000 / w;
    assert addr == a * w && 0x1000 == b * w;
    assert addr - 0x1000 == (a - b) * w;
    DivModUnique(addr - 0x1000, w, a - b, 0);
  }

  /** The event nvme_process_db queues for a refused write. */
  const InvalidDb := Aer.Event(Aer.TYPE_ERROR, Aer.INFO_ERR_INVALID_DB, Aer.LOG_ERROR_INFO)
  const InvalidSq := Aer.Event(Aer.TYPE_ERROR, Aer.INFO_ERR_INVALID_SQ, Aer.LOG_ERROR_INFO)

  /** The queue state after a doorbell write, and the asynchronous event it raises, if any. */
  datatype DbResult = DbResult(st: QState, event: Option<Aer.Event>)

  /** `sq_list` of a completion queue: its submission queue timers not yet pending are armed. */
  function ArmTimers(sqList: seq<nat>, pending: set<nat>): (es: seq<Effect>)
    ensures forall i :: 0 <= i < |es| ==> es[i].ArmSqTimer? && es[i].sqid in sqList && es[i].sqid !in pending
    decreases |sqList|
  {
    if sqList == [] then []
    else (if sqList[0] in pending then [] else [ArmSqTimer(sqList[0])]) + ArmTimers(sqList[1..], pending)
  }

  /** Arming the timers from position `i` on, after effects `e`: the timer of `sqList[i]` unless pending, then the rest. */
  lemma {:induction false} ArmTimersStep(e: seq<Effect>, sqList: seq<nat>, i: nat, pending: set<nat>)
    requires i < |sqList|
    ensures e + ArmTimers(sqList[i..], pending)
      == (if sqList[i] in pending then e else e + [ArmSqTimer(sqList[i])]) + ArmTimers(sqList[i + 1..], pending)
  {
    assert sqList[i..][1..] == sqList[i + 1..];
    if sqList[i] !in pending {
      assert e + ([ArmSqTimer(sqList[i])] + ArmTimers(sqList[i + 1..], pending))
        == (e + [ArmSqTimer(sqList[i])]) + ArmTimers(sqList[i + 1..], pending);
    } else {
      assert [] + ArmTimers(sqList[i + 1..], pending) == ArmTimers(sqList[i + 1..], pending);
    }
  }

  /**
   * The write is accepted: it is aligned, names a queue below `num_queues`
   * that exists (the id narrowed to 16 bits, as nvme_check_sqid and
   * nvme_check_cqid take it), and its value, narrowed to 16 bits, is below
   * the queue's size.
   */
  predicate DbAccepted(st: QState, addr: nat, data: U64, stride: nat, numQueues: nat)
    requires addr >= 0x1000
  {
    var v := data % 0x1_0000;
    match DecodeDb(addr, stride)
    case Misaligned => false
    case CqHead(q) => q % 0x1_0000 < numQueues && q % 0x1_0000 in st.cq && v < st.cq[q % 0x1_0000].size
    case SqTail(q) => q % 0x1_0000 < numQueues && q % 0x1_0000 in st.sq && v < st.sq[q % 0x1_0000].size
  }

  /**
   * nvme_process_db for a write of `data` at `addr`. A completion queue
   * head write refreshes the head from the shadow doorbell (nvme_cq_full);
   * without a shadow it takes the written value; if the queue was full, the
   * timers of its submission queues (`sqList`, with `pending` those already
   * armed) are armed and the backlog posted; the interrupt is deasserted
   * when the queue is left empty. A submission queue tail write takes the
   * value unless there is a shadow, and arms the queue's timer unless it is
   * pending. A refused write changes nothing and raises an error event.
   */
  function DbWrite(st: QState, mem: Shadow, addr: nat, data: U64, stride: nat, numQueues: nat, sqList: seq<nat>, pending: set<nat>): DbResult
    requires addr >= 0x1000 && Wf(st)
  {
    var v := data % 0x1_0000;
    match DecodeDb(addr, stride)
    case Misaligned => DbResult(st, Some(InvalidDb))
    case CqHead(q) =>
      var qid := q % 0x1_0000;
      if !(qid < numQueues && qid in st.cq) || v >= st.cq[qid].size then DbResult(st, Some(InvalidDb))
      else DbResult(CqDoorbell(st, mem, qid, v, sqList, pending), None)
    case SqTail(q) =>
      var qid := q % 0x1_0000;
      if !(qid < numQueues && qid in st.sq) then DbResult(st, Some(InvalidSq))
      else if v >= st.sq[qid].size then DbResult(st, Some(InvalidDb))
      else DbResult(SqDoorbell(st, qid, v, pending), None)
  }

  /** An accepted completion queue head write. */
  function CqDoorbell(st: QState, mem: Shadow, qid: nat, v: nat, sqList: seq<nat>, pending: set<nat>): (st': QState)
    requires Wf(st) && qid in st.cq
    ensures Wf(st')
  {
    var c := RefreshHead(st.cq[qid], mem);
    var startSqs := Full(c);
    var st1 := st.(cq := st.cq[qid := if c.dbAddr == 0 then c.(head := v) else c]);
    WfSetCqSuffix(st, qid, st1.cq[qid], 0);
    var st2 := if startSqs then Posted(st1.(effects := st1.effects + ArmTimers(sqList, pending)), mem, qid) else st1;
    var c2 := st2.cq[qid];
    if c2.tail == c2.head then st2.(effects := st2.effects + [IrqDeassert(qid)]) else st2
  }

  /** nvme_post_cqes on a well-formed state. */
  function Posted(st: QState, mem: Shadow, qid: nat): (st': QState)
    requires Wf(st) && qid in st.cq
    ensures Wf(st') && qid in st'.cq
  {
    WfBacklogOk(st, qid);
    DrainWf(st, mem, qid);
    PostBacklog(st, mem, qid)
  }

  /** In well-formed tables every backlog belongs to existing submission queues. */
  lemma {:induction false} WfBacklogOk(st: QState, cqid: nat)
    requires Wf(st) && cqid in st.cq
    ensures CqOk(st, cqid) && BacklogOk(st, cqid)
  {
    forall i | 0 <= i < |st.cq[cqid].backlog|
      ensures SqOk(st, st.cq[cqid].backlog[i].sqid)
    {
      assert Owned(st.sq, st.cq[cqid].backlog[i], cqid);
    }
  }

  /** An accepted submission queue tail write. */
  function SqDoorbell(st: QState, qid: nat, v: nat, pending: set<nat>): (st': QState)
    requires Wf(st) && qid in st.sq
    ensures Wf(st')
  {
    var s := st.sq[qid];
    var st1 := st.(sq := st.sq[qid := if s.dbAddr == 0 then s.(tail := v) else s]);
    WfSetSq(st, qid, st1.sq[qid]);
    if qid in pending then st1 else st1.(effects := st1.effects + [ArmSqTimer(qid)])
  }

  /**
   * A write is refused, with an error event, exactly when it is not
   * accepted; a refused write leaves the queues alone. A write to a
   * submission queue that does not exist raises the Invalid Submission Queue
   * event, every other refusal the Invalid Doorbell Write event.
   */
  lemma {:induction false} DbWriteRefuses(st: QState, mem: Shadow, addr: nat, data: U64, stride: nat, numQueues: nat, sqList: seq<nat>, pending: set<nat>)
    requires addr >= 0x1000 && Wf(st)
    ensures var r := DbWrite(st, mem, addr, data, stride, numQueues, sqList, pending);
      (r.event.None? <==> DbAccepted(st, addr, data, stride, numQueues))
      && (r.event.Some? ==> r.st == st)
      && (r.event == Some(InvalidSq) <==>
            DecodeDb(addr, stride).SqTail? && !(DecodeDb(addr, stride).qid % 0x1_0000 < numQueues && DecodeDb(addr, stride).qid % 0x1_0000 in st.sq))
  {
  }

  /**
   * With a shadow doorbell set, the value written does not matter: any two
   * accepted writes to the same doorbell have the same effect.
   */
  lemma {:induction false} DbShadowIgnoresValue(st: QState, mem: Shadow, addr: nat, d1: U64, d2: U64, stride: nat, numQueues: nat, sqList: seq<nat>, pending: set<nat>)
    requires addr >= 0x1000 && Wf(st)
    requires DbAccepted(st, addr, d1, stride, numQueues) && DbAccepted(st, addr, d2, stride, numQueues)
    requires match DecodeDb(addr, stride)
      case Misaligned => true
      case CqHead(q) => st.cq[q % 0x1_0000].dbAddr != 0
      case SqTail(q) => st.sq[q % 0x1_0000].dbAddr != 0
    ensures DbWrite(st, mem, addr, d1, stride, numQueues, sqList, pending) == DbWrite(st, mem, addr, d2, stride, numQueues, sqList, pending)
  {
  }

  /**
   * An accepted tail write to a submission queue without a shadow sets its
   * tail to the value, changes nothing else of the queues, and arms the
   * queue's timer exactly when it is not pending.
   */
  lemma {:induction false} DbSetsTail(st: QState, mem: Shadow, qid: nat, data: U64, stride: nat, numQueues: nat, sqList: seq<nat>, pending: set<nat>)
    requires Wf(st) && stride <= MAX_STRIDE && qid < 0x1_0000 && qid in st.sq
    requires DbAccepted(st, DbOffset(qid, false, stride), data, stride, numQueues) && st.sq[qid].dbAddr == 0
    ensures var r := DbWrite(st, mem, DbOffset(qid, false, stride), data, stride, numQueues, sqList, pending);
      r.event.None? && r.st.sq == st.sq[qid := st.sq[qid].(tail := data % 0x1_0000)] && r.st.cq == st.cq
      && r.st.effects == st.effects + (if qid in pending then [] else [ArmSqTimer(qid)])
  {
    DecodeOffset(qid, false, stride);
  }

  /**
   * An accepted head write to a completion queue without a shadow that was
   * not full sets its head to the value and posts nothing; the interrupt is
   * deasserted exactly when the queue is left empty.
   */
  lemma {:induction false} DbSetsHead(st: QState, mem: Shadow, qid: nat, data: U64, stride: nat, numQueues: nat, sqList: seq<nat>, pending: set<nat>)
    requires Wf(st) && stride <= MAX_STRIDE && qid < 0x1_0000 && qid in st.cq
    requires DbAccepted(st, DbOffset(qid, true, stride), data, stride, numQueues)
    requires st.cq[qid].dbAddr == 0 && !Full(st.cq[qid])
    ensures var r := DbWrite(st, mem, DbOffset(qid, true, stride), data, stride, numQueues, sqList, pending);
      r.event.None? && r.st.cq == st.cq[qid := st.cq[qid].(head := data % 0x1_0000)] && r.st.sq == st.sq
      && r.st.effects == st.effects + (if st.cq[qid].tail == data % 0x1_0000 then [IrqDeassert(qid)] else [])
  {
    DecodeOffset(qid, true, stride);
  }

  // ----- nvme_set_db_memory -----

  /** `uint64_t` addition. */
  function Add64(a: nat, b: nat): U64
  {
    (a + b) % 0x1_0000_0000_0000_0000
  }

  /**
   * The submission queues after nvme_set_db_memory has visited queue ids
   * 1 to `upto - 1`: each has its shadow doorbell at `db + 2i * width` and
   * its event index at `ei + 2i * width`.
   */
  function ShadowSqs(sq: map<nat, SQueue>, db: nat, ei: nat, stride: nat, upto: nat): map<nat, SQueue>
  {
    map id | id in sq :: if 1 <= id < upto
      then sq[id].(dbAddr := Add64(db, 2 * id * DbWidth(stride)), eventIdxAddr := Add64(ei, 2 * id * DbWidth(stride)))
      else sq[id]
  }

  /** The same for completion queues, at `(2i + 1) * width`. */
  function ShadowCqs(cq: map<nat, CQueue>, db: nat, ei: nat, stride: nat, upto: nat): map<nat, CQueue>
  {
    map id | id in cq :: if 1 <= id < upto
      then cq[id].(dbAddr := Add64(db, (2 * id + 1) * DbWidth(stride)), eventIdxAddr := Add64(ei, (2 * id + 1) * DbWidth(stride)))
      else cq[id]
  }

  /** Visiting queue id `i` updates that one submission queue. */
  lemma {:induction false} ShadowStepSq(sq: map<nat, SQueue>, db: nat, ei: nat, stride: nat, i: nat)
    requires i >= 1
    ensures ShadowSqs(sq, db, ei, stride, i + 1) == if i in sq
      then ShadowSqs(sq, db, ei, stride, i)[i := sq[i].(dbAddr := Add64(db, 2 * i * DbWidth(stride)), eventIdxAddr := Add64(ei, 2 * i * DbWidth(stride)))]
      else ShadowSqs(sq, db, ei, stride, i)
  {
  }

  /** Visiting queue id `i` updates that one completion queue. */
  lemma {:induction false} ShadowStepCq(cq: map<nat, CQueue>, db: nat, ei: nat, stride: nat, i: nat)
    requires i >= 1
    ensures ShadowCqs(cq, db, ei, stride, i + 1) == if i in cq
      then ShadowCqs(cq, db, ei, stride, i)[i := cq[i].(dbAddr := Add64(db, (2 * i + 1) * DbWidth(stride)), eventIdxAddr := Add64(ei, (2 * i + 1) * DbWidth(stride)))]
      else ShadowCqs(cq, db, ei, stride, i)
  {
  }

  /** With no I/O queue ids to visit, nothing changes. */
  lemma {:induction false} ShadowNone(sq: map<nat, SQueue>, cq: map<nat, CQueue>, db: nat, ei: nat, stride: nat, upto: nat)
    requires upto <= 1
    ensures ShadowSqs(sq, db, ei, stride, upto) == sq && ShadowCqs(cq, db, ei, stride, upto) == cq
  {
  }

  /** Both shadow areas must be non-zero and page aligned. */
  predicate ShadowAddrsOk(db: U64, ei: U64, pageSize: nat)
    requires pageSize >= 1
  {
    db != 0 && db % pageSize == 0 && ei != 0 && ei % pageSize == 0
  }

  /**
   * nvme_set_db_memory: with `db` or `ei` zero or not page aligned the
   * command fails with Invalid Memory Address and Do Not Retry and nothing
   * changes; otherwise every I/O queue (ids 1 to `num_queues - 1`) gets its
   * shadow doorbell and event index at the offset of its doorbell in the
   * register file, less 0x1000; the admin queues are left alone.
   */
  function SetDbMemory(st: QState, db: U64, ei: U64, pageSize: nat, stride: nat, numQueues: nat): (r: (QState, U16))
    requires pageSize >= 1
  {
    if !ShadowAddrsOk(db, ei, pageSize) then (st, WithDnr(INVALID_MEMORY_ADDRESS))
    else (st.(sq := ShadowSqs(st.sq, db, ei, stride, numQueues), cq := ShadowCqs(st.cq, db, ei, stride, numQueues)), SUCCESS)
  }

  /**
   * After a successful nvme_set_db_memory, the shadow doorbell of every I/O
   * submission queue sits at the same offset from `db` as its tail doorbell
   * register from 0x1000 (an offset that decodes to that queue), and its
   * event index at the same offset from `ei`; the admin queue keeps its own.
   */
  lemma {:induction false} ShadowLayoutSq(st: QState, db: U64, ei: U64, pageSize: nat, stride: nat, numQueues: nat, qid: nat)
    requires pageSize >= 1 && ShadowAddrsOk(db, ei, pageSize) && stride <= MAX_STRIDE
    requires db + DbOffset(qid, false, stride) < 0x1_0000_0000_0000_0000 && ei + DbOffset(qid, false, stride) < 0x1_0000_0000_0000_0000
    ensures var r := SetDbMemory(st, db, ei, pageSize, stride, numQueues);
      r.1 == SUCCESS
      && (qid in st.sq && 1 <= qid < numQueues ==>
            r.0.sq[qid].dbAddr == db + (DbOffset(qid, false, stride) - 0x1000)
            && r.0.sq[qid].eventIdxAddr == ei + (DbOffset(qid, false, stride) - 0x1000)
            && DecodeDb(DbOffset(qid, false, stride), stride) == SqTail(qid))
      && (0 in st.sq ==> r.0.sq[0] == st.sq[0])
  {
    DecodeOffset(qid, false, stride);
    var o := 2 * qid * DbWidth(stride);
    assert DbOffset(qid, false, stride) == 0x1000 + o;
    assert Add64(db, o) == db + o && Add64(ei, o) == ei + o;
  }

  /** The same for completion queues, whose head doorbells are the odd ones. */
  lemma {:induction false} ShadowLayoutCq(st: QState, db: U64, ei: U64, pageSize: nat, stride: nat, numQueues: nat, qid: nat)
    requires pageSize >= 1 && ShadowAddrsOk(db, ei, pageSize) && stride <= MAX_STRIDE
    requires db + DbOffset(qid, true, stride) < 0x1_0000_0000_0000_0000 && ei + DbOffset(qid, true, stride) < 0x1_0000_0000_0000_0000
    ensures var r := SetDbMemory(st, db, ei, pageSize, stride, numQueues);
      r.1 == SUCCESS
      && (qid in st.cq && 1 <= qid < numQueues ==>
            r.0.cq[qid].dbAddr == db + (DbOffset(qid, true, stride) - 0x1000)
            && r.0.cq[qid].eventIdxAddr == ei + (DbOffset(qid, true, stride) - 0x1000)
            && DecodeDb(DbOffset(qid, true, stride), stride) == CqHead(qid))
      && (0 in st.cq ==> r.0.cq[0] == st.cq[0])
  {
    DecodeOffset(qid, true, stride);
    var o := (2 * qid + 1) * DbWidth(stride);
    assert DbOffset(qid, true, stride) == 0x1000 + o;
    assert Add64(db, o) == db + o && Add64(ei, o) == ei + o;
  }

  /** A refused nvme_set_db_memory changes nothing. */
  lemma {:induction false} SetDbMemoryRefuses(st: QState, db: U64, ei: U64, pageSize: nat, stride: nat, numQueues: nat)
    requires pageSize >= 1
    ensures var r := SetDbMemory(st, db, ei, pageSize, stride, numQueues);
      (r.1 == SUCCESS <==> ShadowAddrsOk(db, ei, pageSize))
      && (r.1 != SUCCESS ==> r.0 == st && r.1 == INVALID_MEMORY_ADDRESS + DNR)
      && r.0.effects == st.effects && r.0.sq.Keys == st.sq.Keys && r.0.cq.Keys == st.cq.Keys
  {
  }
}

=== FILE: enable.dfy ===
/**
 * Controller enable and shutdown: the writes to the Controller Configuration
 * register (CC, NVMe 1.2 section 3.1.5) that start, reset and shut down the
 * controller, and the checks nvme_start_ctrl makes before it creates the
 * admin queues.
 *
 * The register fields follow the NVMe 1.2 layout: CC.EN is bit 0, CC.MPS bits
 * 7-10, CC.SHN bits 14-15, CC.IOSQES bits 16-19, CC.IOCQES bits 20-23; AQA.ASQS
 * is bits 0-11 and AQA.ACQS bits 16-27; CAP.MPSMIN is bits 48-51 and CAP.MPSMAX
 * bits 52-55; the Identify SQES/CQES bytes hold the minimum entry size in the
 * low nibble and the maximum in the high one.
 */
module Enable {
  import opened Bits
  import opened Wrappers
  import Aer
  import Prp

  /**
   * The CSTS bits this code sets: RDY (bit 0), CFS (bit 1) and the
   * "shutdown complete" value 10b of SHST (bits 2-3).
   */
  datatype Csts = Csts(ready: bool, failed: bool, shstComplete: bool)
  {
    /** The register value. */
    function Value(): (v: U32)
      ensures v % 2 == 1 <==> ready
    {
      (if ready then 1 else 0) + (if failed then 2 else 0) + (if shstComplete then 8 else 0)
    }
  }

  /** `csts = NVME_CSTS_READY` */
  const CSTS_READY := Csts(true, false, false)
  /** `csts = NVME_CSTS_FAILED` */
  const CSTS_FAILED := Csts(false, true, false)

  /** The register fields, as `(x >> off) & mask`. */
  predicate En(cc: nat) { cc % 2 == 1 }
  function Mps(cc: nat): nat { (cc / 0x80) % 0x10 }
  function Shn(cc: nat): nat { (cc / 0x4000) % 4 }
  function Iosqes(cc: nat): nat { (cc / 0x1_0000) % 0x10 }
  function Iocqes(cc: nat): nat { (cc / 0x10_0000) % 0x10 }
  function Asqs(aqa: nat): nat { aqa % 0x1000 }
  function Acqs(aqa: nat): nat { (aqa / 0x1_0000) % 0x1000 }
  function MpsMin(cap: nat): nat { (cap / 0x1_0000_0000_0000) % 0x10 }
  function MpsMax(cap: nat): nat { (cap / 0x10_0000_0000_0000) % 0x10 }
  function EsMin(es: nat): nat { es % 0x10 }
  function EsMax(es: nat): nat { (es / 0x10) % 0x10 }

  /** The registers and Identify bytes nvme_start_ctrl reads besides CC. */
  datatype Regs = Regs(cap: U64, aqa: U32, asq: U64, acq: U64, cqes: U8, sqes: U8)

  /** What a successful start sets up: page geometry, entry sizes and the admin queues. */
  datatype Config = Config(pageBits: nat, pageSize: nat, maxPrpEnts: nat, cqeSize: nat, sqeSize: nat,
                           asq: U64, asqSize: nat, acq: U64, acqSize: nat)

  /** Why nvme_start_ctrl refused, one reason per check, in the order it makes them. */
  datatype StartFail =
    | CqExists | SqExists | NoAsq | NoAcq | AsqMisaligned | AcqMisaligned
    | PageTooSmall | PageTooLarge | CqentTooSmall | CqentTooLarge | SqentTooSmall | SqentTooLarge
    | AsqsZero | AcqsZero

  datatype Start = Fail(why: StartFail) | Ok(cfg: Config)

  /**
   * The checks of nvme_start_ctrl on CC and the admin queue registers, given
   * whether admin queues `cq[0]`/`sq[0]` still exist. `x & (page_size - 1)`
   * is `x % page_size` because the page size is a power of two.
   */
  function StartCheck(cc: U32, r: Regs, cq0: bool, sq0: bool): Start
  {
    var pageBits := Mps(cc) + 12;
    var pageSize := Pow2(pageBits);
    if cq0 then Fail(CqExists)
    else if sq0 then Fail(SqExists)
    else if r.asq == 0 then Fail(NoAsq)
    else if r.acq == 0 then Fail(NoAcq)
    else if r.asq % pageSize != 0 then Fail(AsqMisaligned)
    else if r.acq % pageSize != 0 then Fail(AcqMisaligned)
    else if Mps(cc) < MpsMin(r.cap) then Fail(PageTooSmall)
    else if Mps(cc) > MpsMax(r.cap) then Fail(PageTooLarge)
    else if Iocqes(cc) < EsMin(r.cqes) then Fail(CqentTooSmall)
    else if Iocqes(cc) > EsMax(r.cqes) then Fail(CqentTooLarge)
    else if Iosqes(cc) < EsMin(r.sqes) then Fail(SqentTooSmall)
    else if Iosqes(cc) > EsMax(r.sqes) then Fail(SqentTooLarge)
    else if Asqs(r.aqa) == 0 then Fail(AsqsZero)
    else if Acqs(r.aqa) == 0 then Fail(AcqsZero)
    else Ok(Config(pageBits, pageSize, Prp.PrpsPerPage(pageSize), Pow2(Iocqes(cc)), Pow2(Iosqes(cc)),
                   r.asq, Asqs(r.aqa) + 1, r.acq, Acqs(r.aqa) + 1))
  }

  /** Every condition nvme_start_ctrl demands, as one predicate. */
  predicate StartAllowed(cc: U32, r: Regs, cq0: bool, sq0: bool)
  {
    var pageSize := Pow2(Mps(cc) + 12);
    !cq0 && !sq0 && r.asq != 0 && r.acq != 0
    && r.asq % pageSize == 0 && r.acq % pageSize == 0
    && MpsMin(r.cap) <= Mps(cc) <= MpsMax(r.cap)
    && EsMin(r.cqes) <= Iocqes(cc) <= EsMax(r.cqes)
    && EsMin(r.sqes) <= Iosqes(cc) <= EsMax(r.sqes)
    && Asqs(r.aqa) != 0 && Acqs(r.aqa) != 0
  }

  /**
   * The start succeeds exactly when every check passes, and then the page
   * size is `2^(MPS + 12)` with `page_size / 8` PRP entries per list page,
   * kept in a `uint16_t` (`max_prp_ents`, see StartedPrpEnts), the
   * entry sizes are `2^IOCQES` and `2^IOSQES`, and the admin queues sit at
   * ASQ/ACQ with ASQS + 1 and ACQS + 1 entries, at least two each.
   */
  lemma StartCheckSpec(cc: U32, r: Regs, cq0: bool, sq0: bool)
    ensures StartCheck(cc, r, cq0, sq0).Ok? <==> StartAllowed(cc, r, cq0, sq0)
    ensures StartCheck(cc, r, cq0, sq0).Ok? ==>
      var c := StartCheck(cc, r, cq0, sq0).cfg;
      c.pageBits == Mps(cc) + 12 && c.pageSize == Pow2(c.pageBits) && c.maxPrpEnts == (c.pageSize / 8) % 0x1_0000
      && c.cqeSize == Pow2(Iocqes(cc)) && c.sqeSize == Pow2(Iosqes(cc))
      && c.asq == r.asq && c.acq == r.acq && c.asqSize >= 2 && c.acqSize >= 2
      && c.asq % c.pageSize == 0 && c.acq % c.pageSize == 0
  {
  }

  /**
   * As written, `max_prp_ents` is a `uint16_t`: it holds `page_size / 8` up to
   * CC.MPS 6, and 0 for CC.MPS 7 to 15 (pages of 512 KiB and more), where
   * nvme_map_prp then reads past a list buffer of no entries.
   */
  lemma {:induction false} StartedPrpEnts(cc: U32, r: Regs, cq0: bool, sq0: bool)
    requires StartCheck(cc, r, cq0, sq0).Ok?
    ensures var c := StartCheck(cc, r, cq0, sq0).cfg;
      (Mps(cc) <= 6 ==> c.maxPrpEnts == c.pageSize / 8 && c.maxPrpEnts >= 512)
      && (Mps(cc) >= 7 ==> c.maxPrpEnts == 0)
  {
    PageGeometry(Mps(cc));
    PrpEntsWidth(Mps(cc));
  }

  /**
   * With `page_size / 8` entries per list page, the page geometry a start
   * sets up is a valid PRP context, with pages of at least 4 KiB and at least
   * 512 entries per list page, for every CC.MPS the start accepts.
   */
  lemma {:induction false} StartedPrpCtx(cc: U32, r: Regs, cq0: bool, sq0: bool)
    requires StartCheck(cc, r, cq0, sq0).Ok?
    ensures var c := StartCheck(cc, r, cq0, sq0).cfg;
      Prp.ValidCtx(Prp.PrpCtx(c.pageBits, c.pageSize, c.pageSize / 8, false, 0, 0))
      && c.pageSize >= 4096 && c.pageSize / 8 >= 512
  {
    PageGeometry(Mps(cc));
  }

  /** `page_size / 8` for a page of `2^(mps + 12)` bytes, and what is left of it in 16 bits. */
  lemma {:induction false} PrpEntsWidth(mps: nat)
    ensures Pow2(mps + 12) / 8 == Pow2(mps + 9)
    ensures mps <= 6 ==> Prp.PrpsPerPage(Pow2(mps + 12)) == Pow2(mps + 9)
    ensures mps >= 7 ==> Prp.PrpsPerPage(Pow2(mps + 12)) == 0
  {
    Pow2Add(3, mps + 9);
    assert Pow2(3) == 8;
    DivModUnique(Pow2(mps + 12), 8, Pow2(mps + 9), 0);
    assert Pow2(16) == 0x1_0000 by { assert Pow2(8) == 256; Pow2Add(8, 8); }
    if mps <= 6 {
      Pow2Monotone(mps + 9, 15);
      assert Pow2(16) == 2 * Pow2(15);
      ModSmall(Pow2(mps + 9), 0x1_0000);
    } else {
      Pow2Add(16, mps - 7);
      DivModUnique(Pow2(mps + 9), 0x1_0000, Pow2(mps - 7), 0);
    }
  }

  /** A page of `2^(mps + 12)` bytes is at least 4 KiB and holds at least 512 eight-byte entries. */
  lemma {:induction false} PageGeometry(mps: nat)
    ensures Pow2(mps + 12) >= 4096 && Pow2(mps + 12) / 8 >= 512
  {
    var p := Pow2(mps);
    Pow2Add(12, mps);
    assert Pow2(12) == 4096 by { assert Pow2(6) == 64; Pow2Add(6, 6); }
    DivModUnique(4096 * p, 8, 512 * p, 0);
    MulAtLeast(p, 512);
  }

  /**
   * nvme_realize advertises `sqes = (max_sqes << 4) | 6` and
   * `cqes = (max_cqes << 4) | 4`: the start accepts IOSQES from 6 to max_sqes
   * and IOCQES from 4 to max_cqes.
   */
  lemma {:induction false} IdentifyEntrySizes(maxSqes: nat, maxCqes: nat)
    requires maxSqes < 16 && maxCqes < 16
    ensures EsMin(maxSqes * 16 + 6) == 6 && EsMax(maxSqes * 16 + 6) == maxSqes
    ensures EsMin(maxCqes * 16 + 4) == 4 && EsMax(maxCqes * 16 + 4) == maxCqes
  {
    DivModUnique(maxSqes * 16 + 6, 16, maxSqes, 6);
    DivModUnique(maxCqes * 16 + 4, 16, maxCqes, 4);
    DivModUnique(maxSqes, 16, 0, maxSqes);
    DivModUnique(maxCqes, 16, 0, maxCqes);
  }

  /**
   * The controller state a CC write reads and changes: CC and CSTS, the other
   * registers the start checks, the ids of the queues that exist (`n->sq[i]`
   * and `n->cq[i]` not NULL), the AER queue, whether the AER timer exists and
   * the count of outstanding AER commands, the temperature threshold feature
   * and its warning flag, and the configuration of the last successful start.
   */
  datatype CtrlState = CtrlState(cc: U32, csts: Csts, regs: Regs, sqs: set<nat>, cqs: set<nat>,
                                 aerQueue: seq<Aer.Event>, aerTimer: bool, outstandingAers: nat,
                                 tempThresh: U16, tempWarnIssued: bool, cfg: Option<Config>)

  /**
   * nvme_clear_ctrl: free every queue, delete the AER timer, drop the queued
   * events, and reset CC, the temperature threshold, the warning flag and the
   * count of outstanding AER commands.
   */
  function ClearCtrl(s: CtrlState): CtrlState
  {
    s.(sqs := {}, cqs := {}, aerTimer := false, aerQueue := [], cc := 0,
       tempThresh := 0x14d, tempWarnIssued := false, outstandingAers := 0)
  }

  /**
   * CC.EN going from 0 to 1, once CC holds the new value: nvme_start_ctrl,
   * which on success records the configuration, creates both admin queues
   * and the AER timer and starts an empty event queue, then CSTS set to
   * READY, or to FAILED when a check refused.
   */
  function Enabled(s: CtrlState): CtrlState
  {
    match StartCheck(s.cc, s.regs, 0 in s.cqs, 0 in s.sqs)
    case Fail(_) => s.(csts := CSTS_FAILED)
    case Ok(c) =>
      s.(cfg := Some(c), sqs := s.sqs + {0}, cqs := s.cqs + {0}, aerTimer := true, aerQueue := [],
         csts := CSTS_READY)
  }

  /** CC is a 32-bit register: the write keeps the low half of the value. */
  function Low32(data: U64): U32
  {
    data % 0x1_0000_0000
  }

  /**
   * A write of `data` to CC (the 0x14 case of nvme_write_bar), in its three
   * steps: a controller that is neither enabled nor shutting down takes the
   * value; then EN going 0 to 1 starts the controller and EN going 1 to 0
   * resets it and clears CSTS.RDY; then SHN going from 0 to non-zero resets
   * it, takes the value and sets CSTS.SHST to complete (CSTS.RDY follows
   * CC.EN, so it stays set while EN does), and SHN going back to 0 clears
   * SHST and takes the value. The EN and SHN fields lie in the low half, so
   * they are tested on the 32-bit value.
   */
  function CcWrite(s: CtrlState, data: U64): CtrlState
  {
    var d := Low32(data);
    ShnStep(EnStep(TakeIdle(s, d), d), d)
  }

  /** The first step: a controller neither enabled nor shutting down takes the value. */
  function TakeIdle(s: CtrlState, d: U32): CtrlState
  {
    if !En(d) && !En(s.cc) && Shn(d) == 0 && Shn(s.cc) == 0 then s.(cc := d) else s
  }

  /** The second step: start on EN going 0 to 1, reset on EN going 1 to 0. */
  function EnStep(s: CtrlState, d: U32): CtrlState
  {
    if En(d) && !En(s.cc) then Enabled(s.(cc := d))
    else if !En(d) && En(s.cc) then ClearCtrl(s).(csts := s.csts.(ready := false))
    else s
  }

  /** The third step: shut down on SHN leaving 0, release on SHN returning to 0. */
  function ShnStep(s: CtrlState, d: U32): CtrlState
  {
    if Shn(d) != 0 && Shn(s.cc) == 0 then
      var c := ClearCtrl(s);
      c.(cc := d, csts := c.csts.(shstComplete := true))
    else if Shn(d) == 0 && Shn(s.cc) != 0 then
      s.(csts := s.csts.(shstComplete := false), cc := d)
    else s
  }

  /**
   * The controller fields a CC write touches, updated in place as
   * nvme_write_bar, nvme_clear_ctrl and nvme_start_ctrl do.
   */
  class Ctrl {
    var cc: U32
    var csts: Csts
    var regs: Regs
    var sqs: set<nat>
    var cqs: set<nat>
    var aerQueue: seq<Aer.Event>
    var aerTimer: bool
    var outstandingAers: nat
    var tempThresh: U16
    var tempWarnIssued: bool
    var cfg: Option<Config>

    function State(): CtrlState
      reads this
    {
      CtrlState(cc, csts, regs, sqs, cqs, aerQueue, aerTimer, outstandingAers, tempThresh, tempWarnIssued, cfg)
    }

    /** nvme_clear_ctrl. */
    method Clear()
      modifies this
      ensures State() == ClearCtrl(old(State()))
    {
      sqs, cqs := {}, {};
      aerTimer := false;
      aerQueue := [];
      cc := 0;
      tempThresh := 0x14d;
      tempWarnIssued := false;
      outstandingAers := 0;
    }

    /**
     * nvme_start_ctrl: on success record the configuration and create the
     * admin queues, the AER timer and an empty event queue; CSTS is left to
     * the caller.
     */
    method Start() returns (ok: bool)
      modifies this
      ensures ok == StartCheck(old(cc), old(regs), 0 in old(cqs), 0 in old(sqs)).Ok?
      ensures State() == if ok then Enabled(old(State())).(csts := old(csts)) else old(State())
    {
      var r := StartCheck(cc, regs, 0 in cqs, 0 in sqs);
      if r.Fail? {
        return false;
      }
      cfg := Some(r.cfg);
      cqs := cqs + {0};
      sqs := sqs + {0};
      aerTimer := true;
      aerQueue := [];
      return true;
    }

    /** The CC case of nvme_write_bar. */
    method WriteCc(data: U64)
      modifies this
      ensures State() == CcWrite(old(State()), data)
    {
      var d := Low32(data);
      if !En(d) && !En(cc) && Shn(d) == 0 && Shn(cc) == 0 {
        cc := d;
      }
      ghost var s1 := State();
      assert s1 == TakeIdle(old(State()), d);
      if En(d) && !En(cc) {
        cc := d;
        var ok := Start();
        if ok {
          csts := CSTS_READY;
        } else {
          csts := CSTS_FAILED;
        }
      } else if !En(d) && En(cc) {
        Clear();
        csts := csts.(ready := false);
      }
      ghost var s2 := State();
      assert s2 == EnStep(s1, d);
      if Shn(d) != 0 && Shn(cc) == 0 {
        Clear();
        cc := d;
        csts := csts.(shstComplete := true);
      } else if Shn(d) == 0 && Shn(cc) != 0 {
        csts := csts.(shstComplete := false);
        cc := d;
      }
    }
  }

  /** The state nvme_clear_ctrl leaves, apart from CC and CSTS. */
  predicate Cleared(s: CtrlState, r: CtrlState)
  {
    r.sqs == {} && r.cqs == {} && r.aerQueue == [] && !r.aerTimer && r.outstandingAers == 0
    && r.tempThresh == 0x14d && !r.tempWarnIssued && r.regs == s.regs && r.cfg == s.cfg
  }

  /**
   * Setting EN on a disabled controller takes the value and starts the
   * controller: CSTS becomes exactly READY when every start check passes,
   * with both admin queues and the AER timer created and the configuration
   * recorded, and exactly FAILED with nothing else changed otherwise.
   */
  lemma {:induction false} EnableStarts(s: CtrlState, data: U64)
    requires En(Low32(data)) && !En(s.cc)
    ensures var r := CcWrite(s, data);
      var ok := StartAllowed(Low32(data), s.regs, 0 in s.cqs, 0 in s.sqs);
      r.cc == Low32(data)
      && (ok ==> r.csts == CSTS_READY && 0 in r.sqs && 0 in r.cqs && r.aerTimer && r.aerQueue == []
                 && r.cfg == Some(StartCheck(Low32(data), s.regs, false, false).cfg))
      && (!ok ==> r == s.(cc := Low32(data), csts := CSTS_FAILED))
  {
    StartCheckSpec(Low32(data), s.regs, 0 in s.cqs, 0 in s.sqs);
  }

  /**
   * Clearing EN on an enabled controller resets it and clears CSTS.RDY; CC
   * ends 0, or the written value when that also requests a shutdown, which
   * then sets CSTS.SHST to complete.
   */
  lemma {:induction false} DisableResets(s: CtrlState, data: U64)
    requires !En(Low32(data)) && En(s.cc)
    ensures var r := CcWrite(s, data);
      Cleared(s, r) && !r.csts.ready
      && r.cc == (if Shn(Low32(data)) != 0 then Low32(data) else 0)
      && (r.csts.shstComplete <==> Shn(Low32(data)) != 0 || s.csts.shstComplete)
  {
    assert Shn(0) == 0 && !En(0);
  }

  /**
   * A shutdown request (SHN going from 0 to non-zero, other than on a write
   * that starts the controller) resets the controller, takes the value and
   * sets CSTS.SHST to complete. CSTS.RDY is cleared only when the same write
   * clears EN; otherwise it survives the reset.
   */
  lemma {:induction false} ShutdownResets(s: CtrlState, data: U64)
    requires Shn(Low32(data)) != 0 && Shn(s.cc) == 0 && !(En(Low32(data)) && !En(s.cc))
    ensures var r := CcWrite(s, data);
      Cleared(s, r) && r.cc == Low32(data) && r.csts.shstComplete
      && (En(s.cc) && !En(Low32(data)) ==> !r.csts.ready)
      && (!(En(s.cc) && !En(Low32(data))) ==> r.csts.ready == s.csts.ready)
  {
    var d := Low32(data);
    var s1 := TakeIdle(s, d);
    assert s1 == s;
    var s2 := EnStep(s1, d);
    assert Shn(s2.cc) == 0 by { assert Shn(0) == 0; }
    assert !En(s.cc) ==> s2 == s;
  }

  /**
   * Writes that change neither EN nor whether a shutdown is requested: a
   * running or shut-down controller ignores them entirely; an idle one takes
   * the new value.
   */
  lemma {:induction false} QuietWrite(s: CtrlState, data: U64)
    requires En(Low32(data)) == En(s.cc) && (Shn(Low32(data)) == 0 <==> Shn(s.cc) == 0)
    ensures En(s.cc) || Shn(s.cc) != 0 ==> CcWrite(s, data) == s
    ensures !En(s.cc) && Shn(s.cc) == 0 ==> CcWrite(s, data) == s.(cc := Low32(data))
  {
    var d := Low32(data);
    var s1 := TakeIdle(s, d);
    assert EnStep(s1, d) == s1;
    assert ShnStep(s1, d) == s1;
  }

  /**
   * Clearing SHN (with EN unchanged) clears CSTS.SHST and takes the value,
   * and changes nothing else.
   */
  lemma {:induction false} ShutdownReleased(s: CtrlState, data: U64)
    requires En(Low32(data)) == En(s.cc) && Shn(Low32(data)) == 0 && Shn(s.cc) != 0
    ensures CcWrite(s, data) == s.(cc := Low32(data), csts := s.csts.(shstComplete := false))
  {
    var d := Low32(data);
    assert TakeIdle(s, d) == s;
    assert EnStep(s, d) == s;
  }

  /**
   * nvme_enqueue_event at the controller: while CSTS.RDY is set the event is
   * queued and the AER timer armed. As written that is all it tests; the
   * corrected version also requires the timer to exist, as it does not
   * after a shutdown reset that left CSTS.RDY set. It is the controller-level
   * view of Aer.AsyncEvents.EnqueueEvent, which models the queue and the
   * timer deadlines themselves.
   */
  function EnqueueEvent(s: CtrlState, e: Aer.Event, asWritten: bool): CtrlState
  {
    if !s.csts.ready || (!asWritten && !s.aerTimer) then s else s.(aerQueue := s.aerQueue + [e])
  }

  /** As written, nvme_enqueue_event in this state arms the freed (NULL) AER timer. */
  predicate ArmsFreedTimer(s: CtrlState)
  {
    s.csts.ready && !s.aerTimer
  }

  /** Queued events imply a live AER timer to deliver them. */
  predicate Armed(s: CtrlState)
  {
    s.aerQueue != [] ==> s.aerTimer
  }

  /** Every CC write keeps `Armed`. */
  lemma {:induction false} WriteKeepsArmed(s: CtrlState, data: U64)
    requires Armed(s)
    ensures Armed(CcWrite(s, data))
  {
    var d := Low32(data);
    var r := CcWrite(s, data);
    if En(d) && !En(s.cc) {
      EnableStarts(s, data);
    } else if !En(d) && En(s.cc) {
      DisableResets(s, data);
    } else if Shn(d) != 0 && Shn(s.cc) == 0 {
      ShutdownResets(s, data);
    } else if Shn(d) == 0 && Shn(s.cc) != 0 {
      ShutdownReleased(s, data);
    } else {
      QuietWrite(s, data);
    }
  }

  /**
   * The corrected nvme_enqueue_event queues the event exactly when CSTS.RDY
   * is set and the timer exists, never arms a timer that is gone, and keeps
   * `Armed`.
   */
  lemma {:induction false} EnqueueKeepsArmed(s: CtrlState, e: Aer.Event)
    requires Armed(s)
    ensures var r := EnqueueEvent(s, e, false);
      Armed(r)
      && (s.csts.ready && s.aerTimer ==> r.aerQueue == s.aerQueue + [e])
      && (!(s.csts.ready && s.aerTimer) ==> r == s)
  {
  }

  /**
   * As written, a shutdown request on a running controller frees the AER
   * timer but leaves CSTS.RDY set, so the next event nvme_enqueue_event
   * queues arms a timer that no longer exists and waits with no timer to
   * deliver it.
   */
  lemma {:induction false} ShutdownKeepsReadyAsWritten(s: CtrlState, data: U64, e: Aer.Event)
    requires s.csts.ready && En(s.cc) && Shn(s.cc) == 0
    requires En(Low32(data)) && Shn(Low32(data)) != 0
    ensures var r := CcWrite(s, data);
      r.csts.ready && ArmsFreedTimer(r) && !Armed(EnqueueEvent(r, e, true))
      && EnqueueEvent(r, e, false) == r
  {
    ShutdownResets(s, data);
  }
}

=== FILE: engine.dfy ===
/**
 * The queue engine as the emulator runs it: NvmeCtrl's queue tables, request
 * data and outside effects are fields updated in place, and every method is
 * proved to leave exactly the state the matching function of `Queues` gives.
 */
module Engine {
  import opened Bits
  import opened Status
  import opened Queues
  import opened Wrappers
  import Ring
  import Aer
  import Doorbell

  class Controller {
    /** `n->sq[]`, `n->cq[]`, the requests' data, and what the engine has asked of the rest of the emulator. */
    var sq: map<nat, SQueue>
    var cq: map<nat, CQueue>
    var reqs: map<Req, ReqData>
    var effects: seq<Effect>

    /** The controller's fields as a value. */
    function State(): QState
      reads this
    {
      QState(sq, cq, reqs, effects)
    }

    constructor (st: QState)
      ensures State() == st
    {
      sq, cq, reqs, effects := st.sq, st.cq, st.reqs, st.effects;
    }

    /**
     * nvme_post_cqe: write the request's entry at the tail, advance the tail
     * (flipping the phase on a wrap) and put the request back on its
     * submission queue's free list.
     */
    method PostCqe(cqid: nat, r: Req)
      requires CqOk(State(), cqid) && SqOk(State(), r.sqid)
      modifies this
      ensures State() == Queues.PostCqe(old(State()), cqid, r)
    {
      var c := cq[cqid];
      var s := sq[r.sqid];
      var e := CqeFor(ReqOf(State(), r), r.sqid, s.head, c.phase);
      var t := Ring.IncCqTail(c.tail, c.phase, c.size);
      cq := cq[cqid := c.(entries := c.entries[c.tail := e], tail := t.0, phase := t.1)];
      sq := sq[r.sqid := s.(free := s.free + [r.slot])];
    }

    /**
     * nvme_enqueue_req_completion: the request leaves `out_req_list`; it
     * joins the backlog if the completion queue is full or already has one;
     * otherwise it is posted and the interrupt is raised at once or left to
     * the coalescing timer.
     */
    method EnqueueReqCompletion(f: Features, mem: Shadow, cqid: nat, r: Req)
      requires CqOk(State(), cqid) && SqOk(State(), r.sqid) && sq[r.sqid].cqid == cqid
      modifies this
      ensures State() == Enqueue(old(State()), f, mem, cqid, r)
    {
      var s := sq[r.sqid];
      sq := sq[r.sqid := s.(out := Remove(s.out, r.slot))];
      var c := RefreshHead(cq[cqid], mem);
      if Full(c) || c.backlog != [] {
        cq := cq[cqid := c.(backlog := c.backlog + [r])];
        return;
      }
      cq := cq[cqid := c];
      PostCqe(cqid, r);
      NotifyCq(f, cqid, r.sqid, ReqOf(State(), r).status);
    }

    /**
     * The end of nvme_enqueue_req_completion: raise the interrupt at once,
     * cancelling a pending coalescing timer, or leave it to the timer.
     */
    method NotifyCq(f: Features, cqid: nat, sqid: nat, status: U16)
      requires cqid in cq
      modifies this
      ensures State() == Interrupt(old(State()), f, cqid, sqid, status)
    {
      var c := cq[cqid];
      var notify := Notify(f, c.vector, sqid, status, Ring.CqesPending(c.head, c.tail, c.size));
      if !notify {
        if !c.timerPending {
          cq := cq[cqid := c.(timerPending := true)];
          effects := effects + [ArmCqTimer(cqid)];
        }
      } else {
        effects := effects + [IrqAssert(cqid)];
        if c.timerPending {
          cq := cq[cqid := c.(timerPending := false)];
          effects := effects + [CancelCqTimer(cqid)];
          assert effects == old(effects) + [IrqAssert(cqid), CancelCqTimer(cqid)];
        }
      }
    }

    /**
     * nvme_post_cqes: post the backlog from the front while the completion
     * queue, its head refreshed, has room; then raise the queue's interrupt.
     */
    method PostCqes(mem: Shadow, cqid: nat)
      requires CqOk(State(), cqid) && BacklogOk(State(), cqid)
      modifies this
      ensures State() == PostBacklog(old(State()), mem, cqid)
    {
      ghost var st0 := State();
      while cq[cqid].backlog != []
        invariant CqOk(State(), cqid) && BacklogOk(State(), cqid)
        invariant Drain(State(), mem, cqid) == Drain(st0, mem, cqid)
        decreases |cq[cqid].backlog|
      {
        var full := PostFront(mem, cqid);
        if full {
          break;
        }
      }
      effects := effects + [IrqAssert(cqid)];
    }

    /**
     * nvme_cq_full: refresh the head from the shadow doorbell, then test
     * whether one more entry would reach it.
     */
    method CqFull(mem: Shadow, cqid: nat) returns (full: bool)
      requires CqOk(State(), cqid)
      modifies this
      ensures State() == old(State()).(cq := old(cq)[cqid := RefreshHead(old(cq)[cqid], mem)])
      ensures full == Full(cq[cqid])
    {
      cq := cq[cqid := RefreshHead(cq[cqid], mem)];
      full := Full(cq[cqid]);
    }

    /**
     * One iteration of the loop of nvme_post_cqes: unless the queue, its head
     * refreshed, is full, the front of the backlog is posted.
     */
    method PostFront(mem: Shadow, cqid: nat) returns (full: bool)
      requires CqOk(State(), cqid) && BacklogOk(State(), cqid) && cq[cqid].backlog != []
      modifies this
      ensures CqOk(State(), cqid) && BacklogOk(State(), cqid)
      ensures full ==> State() == Drain(old(State()), mem, cqid)
      ensures !full ==> Drain(State(), mem, cqid) == Drain(old(State()), mem, cqid)
      ensures !full ==> |cq[cqid].backlog| < old(|cq[cqid].backlog|)
    {
      full := Full(RefreshHead(cq[cqid], mem));
      if full {
        var _ := CqFull(mem, cqid);
        return;
      }
      PostNext(mem, cqid);
    }

    /** The front of the backlog leaves it and is posted, the head refreshed first. */
    method PostNext(mem: Shadow, cqid: nat)
      requires CqOk(State(), cqid) && BacklogOk(State(), cqid) && cq[cqid].backlog != []
      modifies this
      ensures State() == DrainStep(old(State()), mem, cqid)
    {
      ghost var before := State();
      var r := cq[cqid].backlog[0];
      cq := cq[cqid := RefreshHead(cq[cqid], mem).(backlog := cq[cqid].backlog[1..])];
      assert State() == Popped(before, mem, cqid);
      PostCqe(cqid, r);
    }

    /**
     * nvme_process_sq: refresh the tail, then fetch entries while the queue
     * is not empty, a request is free and `processed++ < arb_burst`; then
     * publish the event index, refresh the tail, add the count to
     * `completed` and re-arm the queue's timer if entries remain. `exec`
     * stands for nvme_admin_cmd and nvme_io_cmd.
     */
    method ProcessSq(f: Features, mem: Shadow, sqid: nat, ring: seq<Cmd>, exec: Cmd -> U16)
      requires SqOk(State(), sqid) && CqOk(State(), sq[sqid].cqid) && |ring| == sq[sqid].size
      modifies this
      ensures State() == Process(old(State()), f, mem, sqid, ring, exec)
    {
      sq := sq[sqid := RefreshTail(sq[sqid], mem)];
      ghost var st0 := State();
      var burst: nat := sq[sqid].arbBurst;
      var processed: nat := 0;
      while !(Ring.SqEmpty(sq[sqid].head, sq[sqid].tail) || sq[sqid].free == []) && processed < burst
        invariant SqOk(State(), sqid) && CqOk(State(), sq[sqid].cqid) && |ring| == sq[sqid].size
        invariant processed <= burst
        invariant Burst(State(), f, mem, sqid, ring, exec, processed, burst) == Burst(st0, f, mem, sqid, ring, exec, 0, burst)
        decreases burst - processed
      {
        BurstStep(State(), f, mem, sqid, ring, exec, processed, burst);
        processed := processed + 1;
        FetchEntry(f, mem, sqid, ring, exec);
      }
      BurstStop(State(), f, mem, sqid, ring, exec, processed, burst);
      if !(Ring.SqEmpty(sq[sqid].head, sq[sqid].tail) || sq[sqid].free == []) {
        // the test that ended the loop bumped the count as well
        processed := processed + 1;
      }
      FinishSq(mem, sqid, processed);
    }

    /**
     * The end of nvme_process_sq: publish the tail as the event index,
     * refresh the tail, add the loop's count to `completed`, and re-arm the
     * queue's timer if entries remain.
     */
    method FinishSq(mem: Shadow, sqid: nat, processed: nat)
      requires sqid in sq
      modifies this
      ensures State() == Finish(old(State()), mem, sqid, processed)
    {
      var s := sq[sqid];
      if s.eventIdxAddr != 0 {
        effects := effects + [WriteEventIdx(s.eventIdxAddr, s.tail)];
      }
      s := RefreshTail(s, mem).(completed := s.completed + processed);
      sq := sq[sqid := s];
      if !Ring.SqEmpty(s.head, s.tail) {
        effects := effects + [ArmSqTimer(sqid)];
      }
    }

    /**
     * The body of the loop of nvme_process_sq: read the entry at the head
     * and advance the head; skip an aborted entry; otherwise move the first
     * free request to `out_req_list`, execute the command, and enqueue the
     * completion of one that completes at once.
     */
    method FetchEntry(f: Features, mem: Shadow, sqid: nat, ring: seq<Cmd>, exec: Cmd -> U16)
      requires SqOk(State(), sqid) && CqOk(State(), sq[sqid].cqid) && |ring| == sq[sqid].size && sq[sqid].free != []
      modifies this
      ensures State() == FetchOne(old(State()), f, mem, sqid, ring, exec)
    {
      var s := sq[sqid];
      var cmd := ring[s.head];
      s := s.(head := Ring.IncSqHead(s.head, s.size));
      sq := sq[sqid := s];
      if cmd.opcode == OP_ABORTED {
        return;
      }
      ghost var st0 := State();
      var r := Req(sqid, s.free[0]);
      var status := exec(cmd);
      var d := ReqData(if status == NO_COMPLETE then ReqOf(State(), r).status else status, cmd.cid, cmd.opcode, 0);
      sq := sq[sqid := s.(free := s.free[1..], out := s.out + [r.slot])];
      reqs := reqs[r := d];
      assert State() == Taken(st0, sqid, cmd, status);
      if status != NO_COMPLETE {
        EnqueueReqCompletion(f, mem, s.cqid, r);
      }
    }

    /**
     * nvme_process_db: decode the write, refuse it (returning the error
     * event to queue) or update the queue's head or tail.
     */
    method ProcessDb(mem: Shadow, addr: nat, data: U64, stride: nat, numQueues: nat, sqList: seq<nat>, pending: set<nat>)
      returns (event: Option<Aer.Event>)
      requires addr >= 0x1000 && Wf(State())
      modifies this
      ensures var r := Doorbell.DbWrite(old(State()), mem, addr, data, stride, numQueues, sqList, pending);
        State() == r.st && event == r.event
    {
      var v := data % 0x1_0000;
      match Doorbell.DecodeDb(addr, stride)
      case Misaligned =>
        return Some(Doorbell.InvalidDb);
      case CqHead(q) =>
        var qid := q % 0x1_0000;
        if !(qid < numQueues && qid in cq) || v >= cq[qid].size {
          return Some(Doorbell.InvalidDb);
        }
        CqDoorbell(mem, qid, v, sqList, pending);
        return None;
      case SqTail(q) =>
        var qid := q % 0x1_0000;
        if !(qid < numQueues && qid in sq) {
          return Some(Doorbell.InvalidSq);
        }
        if v >= sq[qid].size {
          return Some(Doorbell.InvalidDb);
        }
        var s := sq[qid];
        if s.dbAddr == 0 {
          sq := sq[qid := s.(tail := v)];
        }
        if qid !in pending {
          effects := effects + [ArmSqTimer(qid)];
        }
        return None;
    }

    /**
     * The completion queue branch of nvme_process_db: test fullness (which
     * refreshes the head from the shadow), take the written head unless
     * there is a shadow, restart the submission queues and post the backlog
     * if the queue was full, and deassert the interrupt if it is now empty.
     */
    method CqDoorbell(mem: Shadow, qid: nat, v: nat, sqList: seq<nat>, pending: set<nat>)
      requires Wf(State()) && qid in cq
      modifies this
      ensures State() == Doorbell.CqDoorbell(old(State()), mem, qid, v, sqList, pending)
    {
      ghost var st0 := State();
      ghost var c := RefreshHead(st0.cq[qid], mem);
      var startSqs := TakeHead(mem, qid, v);
      ghost var st1 := State();
      WfSetCqSuffix(st0, qid, st1.cq[qid], 0);
      if startSqs {
        RestartSqs(mem, qid, sqList, pending);
      }
      if cq[qid].tail == cq[qid].head {
        effects := effects + [IrqDeassert(qid)];
      }
    }

    /** nvme_cq_full, then the written head taken unless the queue has a shadow doorbell. */
    method TakeHead(mem: Shadow, qid: nat, v: nat) returns (full: bool)
      requires CqOk(State(), qid)
      modifies this
      ensures var c := RefreshHead(old(cq)[qid], mem);
        State() == old(State()).(cq := old(cq)[qid := if c.dbAddr == 0 then c.(head := v) else c])
        && full == Full(c)
    {
      full := CqFull(mem, qid);
      if cq[qid].dbAddr == 0 {
        cq := cq[qid := cq[qid].(head := v)];
      }
    }

    /** A completion queue that was full: arm its submission queues' timers, then post its backlog. */
    method RestartSqs(mem: Shadow, qid: nat, sqList: seq<nat>, pending: set<nat>)
      requires Wf(State()) && qid in cq
      modifies this
      ensures State() == Doorbell.Posted(old(State()).(effects := old(effects) + Doorbell.ArmTimers(sqList, pending)), mem, qid)
    {
      ArmSqTimers(sqList, pending);
      Doorbell.WfBacklogOk(State(), qid);
      PostCqes(mem, qid);
    }

    /** The loop over `cq->sq_list`: arm each submission queue's timer that is not pending. */
    method ArmSqTimers(sqList: seq<nat>, pending: set<nat>)
      modifies this
      ensures State() == old(State()).(effects := old(effects) + Doorbell.ArmTimers(sqList, pending))
    {
      ghost var goal := old(effects) + Doorbell.ArmTimers(sqList, pending);
      assert sqList[0..] == sqList;
      var i := 0;
      while i < |sqList|
        invariant i <= |sqList| && sq == old(sq) && cq == old(cq) && reqs == old(reqs)
        invariant effects + Doorbell.ArmTimers(sqList[i..], pending) == goal
        decreases |sqList| - i
      {
        Doorbell.ArmTimersStep(effects, sqList, i, pending);
        if sqList[i] !in pending {
          effects := effects + [ArmSqTimer(sqList[i])];
        }
        i := i + 1;
      }
      assert sqList[i..] == [] && effects + [] == effects;
    }

    /** One iteration of the loop of nvme_set_db_memory: give queue id `i`, of either kind, its shadow doorbell and event index. */
    method ShadowQueue(db: U64, ei: U64, stride: nat, i: nat, ghost sq0: map<nat, SQueue>, ghost cq0: map<nat, CQueue>)
      requires i >= 1 && sq == Doorbell.ShadowSqs(sq0, db, ei, stride, i) && cq == Doorbell.ShadowCqs(cq0, db, ei, stride, i)
      modifies this
      ensures sq == Doorbell.ShadowSqs(sq0, db, ei, stride, i + 1) && cq == Doorbell.ShadowCqs(cq0, db, ei, stride, i + 1)
      ensures reqs == old(reqs) && effects == old(effects)
    {
      ShadowSq(db, ei, stride, i, sq0);
      ShadowCq(db, ei, stride, i, cq0);
    }

    /** The submission queue half of ShadowQueue. */
    method ShadowSq(db: U64, ei: U64, stride: nat, i: nat, ghost sq0: map<nat, SQueue>)
      requires i >= 1 && sq == Doorbell.ShadowSqs(sq0, db, ei, stride, i)
      modifies this
      ensures sq == Doorbell.ShadowSqs(sq0, db, ei, stride, i + 1)
      ensures cq == old(cq) && reqs == old(reqs) && effects == old(effects)
    {
      var w := Doorbell.DbWidth(stride);
      Doorbell.ShadowStepSq(sq0, db, ei, stride, i);
      assert (i in sq <==> i in sq0) && (i in sq ==> sq[i] == sq0[i]);
      if i in sq {
        sq := sq[i := sq[i].(dbAddr := Doorbell.Add64(db, 2 * i * w), eventIdxAddr := Doorbell.Add64(ei, 2 * i * w))];
      }
    }

    /** The completion queue half of ShadowQueue. */
    method ShadowCq(db: U64, ei: U64, stride: nat, i: nat, ghost cq0: map<nat, CQueue>)
      requires i >= 1 && cq == Doorbell.ShadowCqs(cq0, db, ei, stride, i)
      modifies this
      ensures cq == Doorbell.ShadowCqs(cq0, db, ei, stride, i + 1)
      ensures sq == old(sq) && reqs == old(reqs) && effects == old(effects)
    {
      var w := Doorbell.DbWidth(stride);
      Doorbell.ShadowStepCq(cq0, db, ei, stride, i);
      assert (i in cq <==> i in cq0) && (i in cq ==> cq[i] == cq0[i]);
      if i in cq {
        cq := cq[i := cq[i].(dbAddr := Doorbell.Add64(db, (2 * i + 1) * w), eventIdxAddr := Doorbell.Add64(ei, (2 * i + 1) * w))];
      }
    }

    /**
     * nvme_set_db_memory: check both buffer addresses, then give every I/O
     * queue id from 1 to `num_queues - 1` its shadow doorbell and event
     * index.
     */
    method SetDbMemory(db: U64, ei: U64, pageSize: nat, stride: nat, numQueues: nat) returns (status: U16)
      requires pageSize >= 1
      modifies this
      ensures var r := Doorbell.SetDbMemory(old(State()), db, ei, pageSize, stride, numQueues);
        State() == r.0 && status == r.1
    {
      if !Doorbell.ShadowAddrsOk(db, ei, pageSize) {
        return WithDnr(INVALID_MEMORY_ADDRESS);
      }
      ghost var sq0, cq0 := sq, cq;
      Doorbell.ShadowNone(sq0, cq0, db, ei, stride, 1);
      var i := 1;
      while i < numQueues
        invariant 1 <= i <= if numQueues < 1 then 1 else numQueues
        invariant sq == Doorbell.ShadowSqs(sq0, db, ei, stride, i) && cq == Doorbell.ShadowCqs(cq0, db, ei, stride, i)
        invariant reqs == old(reqs) && effects == old(effects) && sq0 == old(sq) && cq0 == old(cq)
        decreases numQueues - i
      {
        ShadowQueue(db, ei, stride, i, sq0, cq0);
        i := i + 1;
      }
      if numQueues < 1 {
        Doorbell.ShadowNone(sq0, cq0, db, ei, stride, numQueues);
      }
      status := SUCCESS;
    }
  }
}

=== FILE: errlog.dfy ===
/**
 * The Error Information log (NVMe 1.2 section 5.10.1.1): nvme_set_error_page
 * records each error in a ring of `elpe` entries, stamping it with a running
 * one-byte error count, and counts the errors for the SMART log.
 */
module ErrorPage {
  import opened Bits

  /** One `NvmeErrorLog` entry. */
  datatype ErrorEntry = ErrorEntry(errorCount: nat, sqid: U16, cid: U16, status: U16, location: U16, lba: U64, nsid: U32)

  /** An entry never written: `elpes` comes from g_malloc0. */
  const Blank := ErrorEntry(0, 0, 0, 0, 0, 0, 0)

  /**
   * The entries after the errors of `h` were recorded in order into a ring
   * of `elpe` slots (plus the spare slot nvme_realize allocates): error `k`
   * goes to slot `k % elpe`.
   */
  function RingOf(h: seq<ErrorEntry>, elpe: nat): (r: seq<ErrorEntry>)
    requires elpe >= 1
    ensures |r| == elpe + 1
    decreases |h|
  {
    if h == [] then seq(elpe + 1, _ => Blank)
    else RingOf(h[..|h| - 1], elpe)[(|h| - 1) % elpe := h[|h| - 1]]
  }

  /**
   * The ring keeps the last `elpe` errors (all of them while fewer were
   * recorded): the error `k` places before the newest is in slot
   * `(|h| - 1 - k) % elpe`.
   */
  lemma {:induction false} RingKeepsLatest(h: seq<ErrorEntry>, elpe: nat, k: nat)
    requires elpe >= 1 && k < |h| && k < elpe
    ensures RingOf(h, elpe)[(|h| - 1 - k) % elpe] == h[|h| - 1 - k]
    decreases |h|
  {
    var n := |h|;
    var h' := h[..n - 1];
    if k > 0 {
      RingKeepsLatest(h', elpe, k - 1);
      assert h'[|h'| - 1 - (k - 1)] == h[n - 1 - k];
      ModApart(n - 1, k, elpe);
    }
  }

  /** Slots that no error reached yet are blank, and so is the spare slot. */
  lemma {:induction false} RingUnwritten(h: seq<ErrorEntry>, elpe: nat, j: nat)
    requires elpe >= 1 && |h| <= j <= elpe
    ensures RingOf(h, elpe)[j] == Blank
    decreases |h|
  {
    if h != [] {
      RingUnwritten(h[..|h| - 1], elpe, j);
      assert (|h| - 1) % elpe == |h| - 1 || (|h| - 1) % elpe < j by {
        if |h| - 1 < elpe {
          DivModUnique(|h| - 1, elpe, 0, |h| - 1);
        }
      }
    }
  }

  /** Two values fewer than `m` apart fall in different slots of a ring of `m`. */
  lemma {:induction false} ModApart(a: nat, k: nat, m: nat)
    requires 0 < k < m && k <= a
    ensures (a - k) % m != a % m
  {
    var q, r := (a - k) / m, (a - k) % m;
    if r + k < m {
      DivModUnique(a, m, q, r + k);
    } else {
      DivModUnique(a, m, q + 1, r + k - m);
    }
  }

  /**
   * The controller fields nvme_set_error_page updates: `elpes` (allocated
   * with `elpe + 1` entries), `elp_index`, `error_count` and `num_errors`,
   * all one byte wide. `history` is every error recorded since the
   * controller was created.
   */
  class ErrorLog {
    const elpe: U8
    const entries: array<ErrorEntry>
    var index: U8
    var errorCount: U8
    var numErrors: U8
    ghost var history: seq<ErrorEntry>

    /**
     * The ring holds RingOf(history); the next slot is the history's length
     * modulo `elpe`; both counters are the history's length modulo 256, and
     * each recorded error carries the count at the time it was recorded.
     */
    ghost predicate Valid()
      reads this, entries
    {
      elpe >= 1 && entries.Length == elpe + 1
      && entries[..] == RingOf(history, elpe)
      && index == |history| % elpe
      && errorCount == |history| % 256 && numErrors == |history| % 256
      && forall k :: 0 <= k < |history| ==> history[k].errorCount == k % 256
    }

    /** The controller as created: blank entries, counters at 0. The code divides by `elpe`, so it must not be 0. */
    constructor (elpe: U8)
      requires elpe >= 1
      ensures Valid() && this.elpe == elpe && history == []
    {
      this.elpe := elpe;
      entries := new ErrorEntry[elpe + 1](_ => Blank);
      index, errorCount, numErrors := 0, 0, 0;
      history := [];
      new;
      assert entries[..] == RingOf([], elpe);
    }

    /**
     * nvme_set_error_page: fill the entry at `elp_index` with the error,
     * stamped with `error_count` before its increment; advance the index
     * around the ring of `elpe`; count the error. Counters wrap at 256.
     */
    method SetErrorPage(sqid: U16, cid: U16, status: U16, location: U16, lba: U64, nsid: U32)
      requires Valid()
      modifies this, entries
      ensures Valid()
      ensures history == old(history) + [ErrorEntry(old(errorCount), sqid, cid, status, location, lba, nsid)]
      ensures entries[..] == old(entries[..])[old(index) := ErrorEntry(old(errorCount), sqid, cid, status, location, lba, nsid)]
      ensures index == (old(index) + 1) % elpe
      ensures errorCount == (old(errorCount) + 1) % 256 && numErrors == (old(numErrors) + 1) % 256
    {
      var e := ErrorEntry(errorCount, sqid, cid, status, location, lba, nsid);
      entries[index] := e;
      errorCount := (errorCount + 1) % 256;
      index := (index + 1) % elpe;
      numErrors := (numErrors + 1) % 256;
      history := history + [e];
      assert history[..|history| - 1] == old(history);
      ModNext(|old(history)|, elpe);
      ModNext(|old(history)|, 256);
    }
  }

  /** `(n % m + 1) % m == (n + 1) % m` */
  lemma {:induction false} ModNext(n: nat, m: nat)
    requires m >= 1
    ensures (n % m + 1) % m == (n + 1) % m
  {
    var q, r := n / m, n % m;
    if r + 1 < m {
      DivModUnique(n + 1, m, q, r + 1);
      DivModUnique(r + 1, m, 0, r + 1);
    } else {
      DivModUnique(n + 1, m, q + 1, 0);
      DivModUnique(r + 1, m, 1, 0);
    }
  }
}

=== FILE: lnvm_addr.dfy ===
/**
 * Open-Channel SSD 2.0 physical addresses.
 *
 * An LBA packs four components, low bits first: sector within a chunk, chunk
 * within a parallel unit (LUN), LUN within a group (channel), and group. Each
 * component gets the narrowest field that holds its count (lnvm_init), and
 * chunks are numbered linearly, LUN-major within a channel.
 */
module LnvmAddr {
  import opened Bits

  /** The configured geometry: groups, LUNs per group, chunks per LUN, sectors per chunk. */
  datatype Geometry = Geometry(numCh: nat, numLun: nat, numChk: nat, secPerChk: nat)
  {
    /** The identify structure holds the group and LUN counts in 16 bits, the others in 32. */
    predicate InTypes()
    {
      numCh < 0x1_0000 && numLun < 0x1_0000 && numChk < 0x1_0000_0000 && secPerChk < 0x1_0000_0000
    }
  }

  /**
   * The address format: the width of each field (`ln->id_ctrl.lbaf`) and the
   * offset of each field above the sector field (`ln->lbaf`), which starts at
   * bit 0.
   */
  datatype Lbaf = Lbaf(secLen: nat, chkLen: nat, lunLen: nat, chLen: nat, chkOff: nat, lunOff: nat, chOff: nat)
  {
    /** Each field starts where the one below it ends, as lnvm_init places them. */
    predicate Packed()
    {
      chkOff == secLen && lunOff == secLen + chkLen && chOff == secLen + chkLen + lunLen
    }
  }

  /**
   * lnvm_init: each component gets the narrowest field that holds every value
   * below its count, and the fields are packed from bit 0 up.
   */
  function LbafOf(g: Geometry): (f: Lbaf)
    requires g.InTypes()
    ensures f.Packed()
    ensures 1 <= g.secPerChk ==> g.secPerChk <= Pow2(f.secLen)
    ensures 1 <= g.numChk ==> g.numChk <= Pow2(f.chkLen)
    ensures 1 <= g.numLun ==> g.numLun <= Pow2(f.lunLen)
    ensures 1 <= g.numCh ==> g.numCh <= Pow2(f.chLen)
  {
    var s, c, l, h := FieldWidth(g.secPerChk), FieldWidth(g.numChk), FieldWidth(g.numLun), FieldWidth(g.numCh);
    Lbaf(s, c, l, h, s, s + c, s + c + l)
  }

  /**
   * The Open-Channel part of the controller: geometry, address format, and
   * the counts lnvm_init derives from the geometry (`ln->params`).
   */
  datatype Lnvm = Lnvm(geo: Geometry, lbaf: Lbaf, chkPerLun: nat, chkPerCh: nat, totalChks: nat, chkUnits: nat, lunUnits: nat)
  {
    /** The derived counts are the products lnvm_init computes. */
    predicate Derived()
    {
      chkPerLun == geo.numChk && chkPerCh == geo.numChk * geo.numLun && totalChks == chkPerCh * geo.numCh
      && chkUnits == geo.secPerChk && lunUnits == chkUnits * geo.numChk
    }

    /**
     * The address format and the counts are the ones lnvm_init derives, every
     * count is at least one, the components fit the members of the address
     * union, and a whole address fits the 31 value bits of the `int` in which
     * the masks are built.
     */
    predicate Valid()
    {
      geo.InTypes() && lbaf == LbafOf(geo) && Derived()
      && 1 <= geo.numCh && 1 <= geo.numLun && 1 <= geo.numChk && 1 <= geo.secPerChk
      && lbaf.chLen <= 8 && lbaf.lunLen <= 8 && lbaf.chkLen <= 16 && lbaf.chOff + lbaf.chLen <= 31
    }
  }

  /** What a valid configuration guarantees about field widths. */
  lemma {:induction false} ValidWidths(ln: Lnvm)
    requires ln.Valid()
    ensures ln.geo.numCh <= Pow2(ln.lbaf.chLen) && ln.geo.numLun <= Pow2(ln.lbaf.lunLen)
    ensures ln.geo.numChk <= Pow2(ln.lbaf.chkLen) && ln.geo.secPerChk <= Pow2(ln.lbaf.secLen)
  {
  }

  /** The address union with its four members filled in (`union lnvm_addr`). */
  datatype Addr = Addr(sectr: U32, chunk: U16, punit: U8, pugrp: U8)

  function Sector(f: Lbaf, lba: nat): nat { Field(lba, 0, f.secLen) }
  function ChunkField(f: Lbaf, lba: nat): nat { Field(lba, f.chkOff, f.chkLen) }
  function LunField(f: Lbaf, lba: nat): nat { Field(lba, f.lunOff, f.lunLen) }
  function ChField(f: Lbaf, lba: nat): nat { Field(lba, f.chOff, f.chLen) }

  /** lnvm_lba_to_addr: each field is masked out and truncated to its union member. */
  function LbaToAddr(f: Lbaf, lba: nat): Addr
  {
    Addr(Sector(f, lba) % 0x1_0000_0000, ChunkField(f, lba) % 0x1_0000,
         LunField(f, lba) % 0x100, ChField(f, lba) % 0x100)
  }

  /**
   * lnvm_lba_addr: the components are `unsigned int`, so each is shifted in
   * 32 bits before it is or-ed into the result, sector first.
   */
  function LbaAddr(f: Lbaf, ch: U32, lun: U32, chk: U32, sec: U32): nat
  {
    Or(Or(Or(Shl32(sec, 0), Shl32(chk, f.chkOff)), Shl32(lun, f.lunOff)), Shl32(ch, f.chOff))
  }

  /** lnvm_lba_to_off: the linear sector offset of an address (the group is ignored). */
  function LbaToOff(ln: Lnvm, lba: nat): int
  {
    var a := LbaToAddr(ln.lbaf, lba);
    a.sectr + a.chunk * ln.chkUnits + a.punit * ln.lunUnits
  }

  predicate ChunkInRange(ln: Lnvm, ch: nat, lun: nat, chk: nat)
  {
    chk < ln.chkPerLun && lun < ln.geo.numLun && ch < ln.geo.numCh
  }

  /**
   * lnvm_lba_to_chunk_no: the linear number of the chunk an address lies in,
   * or -1 when a decoded component is out of range.
   */
  function LbaToChunkNo(ln: Lnvm, lba: nat): (cno: int)
    ensures cno == -1 <==> !ChunkInRange(ln, ChField(ln.lbaf, lba), LunField(ln.lbaf, lba), ChunkField(ln.lbaf, lba))
    ensures cno != -1 ==> 0 <= cno && (ln.Derived() ==> cno < ln.totalChks)
  {
    var ch, lun, chk := ChField(ln.lbaf, lba), LunField(ln.lbaf, lba), ChunkField(ln.lbaf, lba);
    if !ChunkInRange(ln, ch, lun, chk) then -1
    else
      ChunkNoBound(ln, ch, lun, chk);
      ChunkNo(ln, ch, lun, chk)
  }

  /** `chk + lun * chk_per_lun + ch * chk_per_ch`. */
  function ChunkNo(ln: Lnvm, ch: nat, lun: nat, chk: nat): nat
  {
    chk + lun * ln.chkPerLun + ch * ln.chkPerCh
  }

  /** With the derived counts, an in-range triple numbers a chunk of the table. */
  lemma {:induction false} ChunkNoBound(ln: Lnvm, ch: nat, lun: nat, chk: nat)
    requires ChunkInRange(ln, ch, lun, chk)
    ensures ln.Derived() ==> ChunkNo(ln, ch, lun, chk) < ln.totalChks
  {
    if ln.Derived() {
      ChunkIndexBound(chk, ln.geo.numChk, lun, ln.geo.numLun, ch, ln.geo.numCh);
    }
  }

  lemma {:induction false} ChunkIndexBound(chk: nat, nChk: nat, lun: nat, nLun: nat, ch: nat, nCh: nat)
    requires chk < nChk && lun < nLun && ch < nCh
    ensures chk + lun * nChk + ch * (nChk * nLun) < nChk * nLun * nCh
  {
    MixedRadixBound(chk, nChk, lun, nLun);
    MixedRadixBound(chk + lun * nChk, nChk * nLun, ch, nCh);
  }

  /** lnvm_chunk_no_to_lba: the address of the first sector of chunk `cno`. */
  function ChunkNoToLba(ln: Lnvm, cno: nat): nat
    requires ln.chkPerLun >= 1 && ln.chkPerCh >= 1
  {
    var (ch, lun, chk) := ChunkComponents(cno, ln.chkPerLun, ln.chkPerCh);
    ChunkStart(ln.lbaf, ch, lun, chk)
  }

  /** `ch << ch_offset | lun << lun_offset | chk << chk_offset` on 64-bit operands. */
  function ChunkStart(f: Lbaf, ch: nat, lun: nat, chk: nat): nat
  {
    Or(Or(Shl64(ch, f.chOff), Shl64(lun, f.lunOff)), Shl64(chk, f.chkOff))
  }

  /** The group, LUN and chunk of chunk number `cno`, as lnvm_chunk_no_to_lba splits it. */
  function ChunkComponents(cno: nat, chkPerLun: nat, chkPerCh: nat): (nat, nat, nat)
    requires chkPerLun >= 1 && chkPerCh >= 1
  {
    (cno / chkPerCh, cno % chkPerCh / chkPerLun, cno % chkPerLun)
  }

  /**
   * get_chunk_meta_index: the chunk-table index of a (group, LUN, chunk) triple
   * named in a chunk-table text line, or -1 when one is out of range; with the
   * derived counts it is the chunk number of the triple.
   */
  function GetChunkMetaIndex(ln: Lnvm, ch: nat, lun: nat, chk: nat): (i: int)
    ensures i == -1 <==> !(chk < ln.geo.numChk && lun < ln.geo.numLun && ch < ln.geo.numCh)
    ensures i != -1 && ln.Derived() ==> i == ChunkNo(ln, ch, lun, chk) < ln.totalChks
  {
    if chk >= ln.geo.numChk || lun >= ln.geo.numLun || ch >= ln.geo.numCh then -1
    else
      ChunkIndexBound(chk, ln.geo.numChk, lun, ln.geo.numLun, ch, ln.geo.numCh);
      MetaIndexIsChunkNo(ln.geo.numChk, ln.geo.numLun, ch, lun, chk);
      ln.geo.numChk * (ch * ln.geo.numLun + lun) + chk
  }

  lemma {:induction false} MetaIndexIsChunkNo(nChk: nat, nLun: nat, ch: nat, lun: nat, chk: nat)
    ensures nChk * (ch * nLun + lun) + chk == chk + lun * nChk + ch * (nChk * nLun)
  {
  }

  /** The four components placed in their fields. */
  function Pack(f: Lbaf, ch: nat, lun: nat, chk: nat, sec: nat): nat
  {
    Place(Place(Place(ch, lun, f.lunLen), chk, f.chkLen), sec, f.secLen)
  }

  predicate ComponentsFit(f: Lbaf, ch: nat, lun: nat, chk: nat, sec: nat)
  {
    ch < Pow2(f.chLen) && lun < Pow2(f.lunLen) && chk < Pow2(f.chkLen) && sec < Pow2(f.secLen)
  }

  /** Unpacking a packed address gives back its components. */
  lemma {:induction false} PackFields(f: Lbaf, ch: nat, lun: nat, chk: nat, sec: nat)
    requires f.Packed() && ComponentsFit(f, ch, lun, chk, sec)
    ensures Pack(f, ch, lun, chk, sec) < Pow2(f.chOff + f.chLen)
    ensures Sector(f, Pack(f, ch, lun, chk, sec)) == sec
    ensures ChunkField(f, Pack(f, ch, lun, chk, sec)) == chk
    ensures LunField(f, Pack(f, ch, lun, chk, sec)) == lun
    ensures ChField(f, Pack(f, ch, lun, chk, sec)) == ch
  {
    var s, c, l, h := f.secLen, f.chkLen, f.lunLen, f.chLen;
    var x3 := Place(ch, lun, l);
    var x2 := Place(x3, chk, c);
    PlacedBound(ch, h, lun, l);
    PlacedBound(x3, l + h, chk, c);
    PlacedBound(x2, c + (l + h), sec, s);
    assert s + (c + (l + h)) == f.chOff + f.chLen;
    FieldBelow(x2, sec, s);
    FieldAbove(x2, sec, s, 0, c);
    FieldBelow(x3, chk, c);
    FieldAbove(x2, sec, s, c, l);
    FieldAbove(x3, chk, c, 0, l);
    FieldBelow(ch, lun, l);
    FieldAbove(x2, sec, s, c + l, h);
    FieldAbove(x3, chk, c, l, h);
    FieldAbove(ch, lun, l, 0, h);
    FieldBelow(0, ch, h);
  }

  /** Or-ing the four shifted components, sector first, gives the packed value. */
  lemma {:induction false} OrOfFields(f: Lbaf, a: nat, b: nat, c: nat, d: nat, ch: nat, lun: nat, chk: nat, sec: nat)
    requires f.Packed() && ComponentsFit(f, ch, lun, chk, sec)
    requires a == sec && b == chk * Pow2(f.chkOff) && c == lun * Pow2(f.lunOff) && d == ch * Pow2(f.chOff)
    ensures Or(Or(Or(a, b), c), d) == Pack(f, ch, lun, chk, sec)
  {
    var s, c', l := f.secLen, f.chkLen, f.lunLen;
    // sec | chk << s
    OrHigh(a, b, chk, s);
    var v1 := Place(chk, sec, s);
    PlacedBound(chk, c', sec, s);
    // ... | lun << (s + c)
    OrHigh(v1, c, lun, s + c');
    var v2 := Place(lun, v1, s + c');
    PlacedBound(lun, l, v1, s + c');
    // ... | ch << (s + c + l)
    OrHigh(v2, d, ch, s + c' + l);
    NestedIsFlat(f, ch, lun, chk, sec);
  }

  /** The packed value, written with each component shifted to its offset. */
  lemma {:induction false} NestedIsFlat(f: Lbaf, ch: nat, lun: nat, chk: nat, sec: nat)
    requires f.Packed()
    ensures Pack(f, ch, lun, chk, sec)
         == Place(ch, Place(lun, Place(chk, sec, f.secLen), f.lunOff), f.chOff)
  {
    var s, c, l := f.secLen, f.chkLen, f.lunLen;
    var ps, pc, pl := Pow2(s), Pow2(c), Pow2(l);
    Pow2Add(s, c);
    Pow2Add(s + c, l);
    RingNest(ch, lun, chk, sec, ps, pc, pl);
  }

  lemma {:induction false} RingNest(ch: nat, lun: nat, chk: nat, sec: nat, ps: nat, pc: nat, pl: nat)
    ensures ((ch * pl + lun) * pc + chk) * ps + sec == ch * ((ps * pc) * pl) + (lun * (ps * pc) + (chk * ps + sec))
  {
  }

  /** lnvm_lba_addr builds exactly the packed value when the whole address fits 31 bits. */
  lemma {:induction false} LbaAddrIsPack(f: Lbaf, ch: U32, lun: U32, chk: U32, sec: U32)
    requires f.Packed() && f.chOff + f.chLen <= 31 && ComponentsFit(f, ch, lun, chk, sec)
    ensures LbaAddr(f, ch, lun, chk, sec) == Pack(f, ch, lun, chk, sec)
  {
    Shl32Exact(sec, f.secLen, 0);
    Shl32Exact(chk, f.chkLen, f.chkOff);
    Shl32Exact(lun, f.lunLen, f.lunOff);
    Shl32Exact(ch, f.chLen, f.chOff);
    OrOfFields(f, Shl32(sec, 0), Shl32(chk, f.chkOff), Shl32(lun, f.lunOff), Shl32(ch, f.chOff),
               ch, lun, chk, sec);
  }

  /**
   * Decoding the address lnvm_lba_addr builds gives back its components, its
   * chunk number is the chunk-table index get_chunk_meta_index computes for the
   * same triple, and its linear offset is the sector within the chunk plus the
   * chunk's and the LUN's unit offsets.
   */
  lemma {:induction false} LbaAddrRoundTrip(ln: Lnvm, ch: U32, lun: U32, chk: U32, sec: U32)
    requires ln.Valid()
    requires ch < ln.geo.numCh && lun < ln.geo.numLun && chk < ln.geo.numChk && sec < ln.geo.secPerChk
    ensures var a := LbaToAddr(ln.lbaf, LbaAddr(ln.lbaf, ch, lun, chk, sec));
      a.sectr == sec && a.chunk == chk && a.punit == lun && a.pugrp == ch
    ensures LbaToChunkNo(ln, LbaAddr(ln.lbaf, ch, lun, chk, sec)) == GetChunkMetaIndex(ln, ch, lun, chk)
    ensures LbaToOff(ln, LbaAddr(ln.lbaf, ch, lun, chk, sec)) == sec + chk * ln.chkUnits + lun * ln.lunUnits
  {
    ValidWidths(ln);
    LbaAddrIsPack(ln.lbaf, ch, lun, chk, sec);
    DecodePacked(ln, LbaAddr(ln.lbaf, ch, lun, chk, sec), ch, lun, chk, sec);
  }

  /** Decoding a packed address of in-range components. */
  lemma {:induction false} DecodePacked(ln: Lnvm, x: nat, ch: nat, lun: nat, chk: nat, sec: nat)
    requires ln.Valid() && ComponentsFit(ln.lbaf, ch, lun, chk, sec) && x == Pack(ln.lbaf, ch, lun, chk, sec)
    requires ch < ln.geo.numCh && lun < ln.geo.numLun && chk < ln.geo.numChk && sec < ln.geo.secPerChk
    ensures var a := LbaToAddr(ln.lbaf, x);
      a.sectr == sec && a.chunk == chk && a.punit == lun && a.pugrp == ch
    ensures LbaToChunkNo(ln, x) == ChunkNo(ln, ch, lun, chk)
  {
    PackFields(ln.lbaf, ch, lun, chk, sec);
    InRangeAddr(ln, x);
  }

  /** An address whose chunk is in range loses nothing to the union members' widths. */
  lemma {:induction false} InRangeAddr(ln: Lnvm, lba: nat)
    requires ln.Valid()
    requires ChunkInRange(ln, ChField(ln.lbaf, lba), LunField(ln.lbaf, lba), ChunkField(ln.lbaf, lba))
    ensures var a := LbaToAddr(ln.lbaf, lba);
      a.sectr == Sector(ln.lbaf, lba) && a.chunk == ChunkField(ln.lbaf, lba)
      && a.punit == LunField(ln.lbaf, lba) && a.pugrp == ChField(ln.lbaf, lba)
  {
    var f := ln.lbaf;
    UnionMembersFit(ln);
    ModSmall(Sector(f, lba), 0x1_0000_0000);
    ModSmall(ChunkField(f, lba), 0x1_0000);
    ModSmall(LunField(f, lba), 0x100);
    ModSmall(ChField(f, lba), 0x100);
  }

  /** A valid configuration's counts and sector field fit the members of the address union. */
  lemma {:induction false} UnionMembersFit(ln: Lnvm)
    requires ln.Valid()
    ensures ln.geo.numCh <= 0x100 && ln.geo.numLun <= 0x100 && ln.geo.numChk <= 0x1_0000
    ensures Pow2(ln.lbaf.secLen) <= 0x8000_0000
  {
    ValidWidths(ln);
    WidthBound8(ln.geo.numCh, ln.lbaf.chLen);
    WidthBound8(ln.geo.numLun, ln.lbaf.lunLen);
    WidthBound16(ln.geo.numChk, ln.lbaf.chkLen);
    WidthBound31(Pow2(ln.lbaf.secLen), ln.lbaf.secLen);
  }

  lemma {:induction false} WidthBound8(n: nat, w: nat)
    requires n <= Pow2(w) && w <= 8
    ensures n <= 0x100
  {
    Pow2Monotone(w, 8);
    assert Pow2(8) == 0x100;
  }

  lemma {:induction false} WidthBound16(n: nat, w: nat)
    requires n <= Pow2(w) && w <= 16
    ensures n <= 0x1_0000
  {
    Pow2Monotone(w, 16);
    assert Pow2(8) == 0x100;
    Pow2Add(8, 8);
  }

  lemma {:induction false} WidthBound31(n: nat, w: nat)
    requires n <= Pow2(w) && w <= 31
    ensures n <= 0x8000_0000
  {
    Pow2Monotone(w, 31);
    Pow2_31();
  }

  /** The components of chunk `cno`, as lnvm_chunk_no_to_lba splits them, are in range and recombine to `cno`. */
  lemma {:induction false} ChunkComponentsInRange(cno: nat, nChk: nat, nLun: nat, nCh: nat)
    requires nChk >= 1 && nLun >= 1 && cno < nChk * nLun * nCh
    ensures nChk * nLun >= 1
    ensures var (ch, lun, chk) := ChunkComponents(cno, nChk, nChk * nLun);
      ch < nCh && lun < nLun && chk < nChk && chk + lun * nChk + ch * (nChk * nLun) == cno
  {
    MulPositive(nChk, nLun);
    var cpc := nChk * nLun;
    var r := cno % cpc;
    DivBelow(cno, cpc, nCh);
    DivBelow(r, nChk, nLun);
    ModOfMod(cno, nChk, nLun);
  }

  /** Or-ing the shifted group, LUN and chunk, group first, gives the packed value with sector 0. */
  lemma {:induction false} OrOfChunkFields(f: Lbaf, a: nat, b: nat, c: nat, ch: nat, lun: nat, chk: nat)
    requires f.Packed() && ComponentsFit(f, ch, lun, chk, 0)
    requires a == ch * Pow2(f.chOff) && b == lun * Pow2(f.lunOff) && c == chk * Pow2(f.chkOff)
    ensures Or(Or(a, b), c) == Pack(f, ch, lun, chk, 0)
  {
    var s, c', l := f.secLen, f.chkLen, f.lunLen;
    OrTwoFields(a, b, ch, lun, l, s + c');
    var x3 := Place(ch, lun, l);
    OrTwoFields(x3 * Pow2(s + c'), c, x3, chk, c', s);
  }

  /** lnvm_chunk_no_to_lba's shifts lose nothing when the whole address fits 31 bits. */
  lemma {:induction false} ChunkStartIsPack(f: Lbaf, ch: nat, lun: nat, chk: nat)
    requires f.Packed() && f.chOff + f.chLen <= 31 && ComponentsFit(f, ch, lun, chk, 0)
    ensures ChunkStart(f, ch, lun, chk) == Pack(f, ch, lun, chk, 0)
  {
    Shl64Exact(ch, f.chLen, f.chOff);
    Shl64Exact(lun, f.lunLen, f.lunOff);
    Shl64Exact(chk, f.chkLen, f.chkOff);
    OrOfChunkFields(f, Shl64(ch, f.chOff), Shl64(lun, f.lunOff), Shl64(chk, f.chkOff), ch, lun, chk);
  }

  /**
   * Every chunk number below total_chks survives the trip through its start
   * address: the address decodes to the same chunk and to sector 0.
   */
  lemma {:induction false} ChunkNoRoundTrip(ln: Lnvm, cno: nat)
    requires ln.Valid() && cno < ln.totalChks
    ensures ln.chkPerLun >= 1 && ln.chkPerCh >= 1
    ensures LbaToChunkNo(ln, ChunkNoToLba(ln, cno)) == cno
    ensures Sector(ln.lbaf, ChunkNoToLba(ln, cno)) == 0
    ensures ChunkNoToLba(ln, cno) < 0x8000_0000
  {
    ValidWidths(ln);
    ChunkComponentsInRange(cno, ln.geo.numChk, ln.geo.numLun, ln.geo.numCh);
    var (ch, lun, chk) := ChunkComponents(cno, ln.chkPerLun, ln.chkPerCh);
    ChunkStartDecodes(ln, ch, lun, chk);
  }

  /** The start address of an in-range chunk decodes to that chunk and sector 0, and fits 31 bits. */
  lemma {:induction false} ChunkStartDecodes(ln: Lnvm, ch: nat, lun: nat, chk: nat)
    requires ln.lbaf.Packed() && ln.lbaf.chOff + ln.lbaf.chLen <= 31
    requires ComponentsFit(ln.lbaf, ch, lun, chk, 0) && ChunkInRange(ln, ch, lun, chk)
    ensures LbaToChunkNo(ln, ChunkStart(ln.lbaf, ch, lun, chk)) == ChunkNo(ln, ch, lun, chk)
    ensures Sector(ln.lbaf, ChunkStart(ln.lbaf, ch, lun, chk)) == 0
    ensures ChunkStart(ln.lbaf, ch, lun, chk) < 0x8000_0000
  {
    var f := ln.lbaf;
    ChunkStartIsPack(f, ch, lun, chk);
    PackFields(f, ch, lun, chk, 0);
    WidthBound31(Pow2(f.chOff + f.chLen), f.chOff + f.chLen);
  }

  /**
   * With the single channel the controller supports, the linear offset of an
   * in-range address is its chunk number times the chunk size plus its sector.
   */
  lemma {:induction false} LbaToOffLinear(ln: Lnvm, lba: nat)
    requires ln.Valid() && ln.geo.numCh == 1 && LbaToChunkNo(ln, lba) != -1
    ensures LbaToOff(ln, lba) == LbaToChunkNo(ln, lba) * ln.geo.secPerChk + Sector(ln.lbaf, lba)
  {
    InRangeAddr(ln, lba);
    OffsetOfFields(ln, lba);
  }

  lemma {:induction false} OffsetOfFields(ln: Lnvm, lba: nat)
    requires ln.Derived() && ln.geo.numCh == 1
    requires ChunkInRange(ln, ChField(ln.lbaf, lba), LunField(ln.lbaf, lba), ChunkField(ln.lbaf, lba))
    requires var a := LbaToAddr(ln.lbaf, lba);
      a.sectr == Sector(ln.lbaf, lba) && a.chunk == ChunkField(ln.lbaf, lba)
      && a.punit == LunField(ln.lbaf, lba) && a.pugrp == ChField(ln.lbaf, lba)
    ensures LbaToOff(ln, lba) == LbaToChunkNo(ln, lba) * ln.geo.secPerChk + Sector(ln.lbaf, lba)
  {
    var f := ln.lbaf;
    OffsetIsLinear(ChunkField(f, lba), LunField(f, lba), ChField(f, lba), Sector(f, lba),
                   ln.geo.secPerChk, ln.geo.numChk, ln.geo.numLun);
  }

  lemma {:induction false} OffsetIsLinear(chk: nat, lun: nat, ch: nat, sec: nat, k: nat, n: nat, m: nat)
    requires ch == 0
    ensures sec + chk * k + lun * (k * n) == (chk + lun * n + ch * (n * m)) * k + sec
  {
  }
}

=== FILE: prp.dfy ===
/**
 * Physical Region Page lists (NVMe 1.2 section 4.3): nvme_map_prp and the
 * address helpers of queues that are not physically contiguous.
 *
 * A transfer of `len` bytes is described by PRP1 and PRP2. The first fragment
 * runs from PRP1 to the end of its memory page. When more than one further
 * page is needed, PRP2 points to a list of page addresses; the last slot of a
 * full list page holds the address of the next list page. Otherwise PRP2 is
 * the address of the second (last) page.
 */
module Prp {
  import opened Bits
  import opened Status
  import opened Wrappers

  /** Guest memory, as the 64-bit words stored at each address; a word never written reads as 0. */
  type Memory = map<nat, U64>

  function Word(mem: Memory, a: nat): U64
  {
    if a in mem then mem[a] else 0
  }

  /**
   * The controller fields nvme_map_prp reads: the memory page size
   * (`1 << page_bits`), the number of entries in a list page, and the
   * controller memory buffer window, if one is configured.
   */
  datatype PrpCtx = PrpCtx(pageBits: nat, pageSize: nat, maxPrpEnts: nat, cmbEnabled: bool, cmbBase: nat, cmbSize: nat)

  /**
   * As nvme_start_ctrl sets them up: pages of at least 4 KiB, eight bytes per
   * list entry, a list page holding `page_size / 8` entries. The code keeps
   * that count in a `uint16_t`, which holds it only up to CC.MPS 6
   * (Enable.StartedPrpEnts); this is the context as intended.
   */
  predicate ValidCtx(c: PrpCtx)
  {
    c.pageBits >= 12 && c.pageSize == Pow2(c.pageBits) && c.maxPrpEnts == c.pageSize / 8
  }

  /**
   * One piece of the scatter-gather list: guest memory reached by DMA, or
   * (when PRP1 lies in the controller memory buffer) an I/O vector into the
   * buffer at the same address.
   */
  datatype Frag = Frag(cmb: bool, addr: nat, len: nat)

  /** A PRP entry must be non-zero and page aligned (`prp & (page_size - 1)` is `prp % page_size`). */
  predicate ValidEntry(e: nat, ps: nat)
    requires ps >= 1
  {
    e != 0 && e % ps == 0
  }

  function Min(a: nat, b: nat): nat
  {
    if a <= b then a else b
  }

  function SumLens(fs: seq<Frag>): nat
    decreases |fs|
  {
    if |fs| == 0 then 0 else fs[0].len + SumLens(fs[1..])
  }

  /**
   * The list walk of nvme_map_prp from slot `i` of the list page at `list`
   * with `rem` bytes left: at the last slot of a page, with more than a page
   * left, the slot holds the next list page, which must itself be a valid
   * entry; every data entry must be valid and covers a page or the rest.
   */
  function Walk(mem: Memory, list: nat, i: nat, rem: nat, ps: nat, maxEnts: nat, cmb: bool): Option<seq<Frag>>
    requires ps >= 1 && maxEnts >= 2 && (i < maxEnts || rem == 0)
    decreases rem
  {
    if rem == 0 then Some([])
    else
      var chain := i == maxEnts - 1 && rem > ps;
      if chain && !ValidEntry(Word(mem, list + 8 * i), ps) then None
      else
        var list', i' := if chain then Word(mem, list + 8 * i) else list, if chain then 0 else i;
        var ent := Word(mem, list' + 8 * i');
        if !ValidEntry(ent, ps) then None
        else
          var n := Min(rem, ps);
          match Walk(mem, list', i' + 1, rem - n, ps, maxEnts, cmb)
          case None => None
          case Some(fs) => Some([Frag(cmb, ent, n)] + fs)
  }

  /**
   * nvme_map_prp: None stands for INVALID_FIELD with DNR. As written, a
   * second fragment in the controller memory buffer taken straight from PRP2
   * has the length of the first fragment; the intended length is what is left.
   */
  function MapPrp(c: PrpCtx, mem: Memory, prp1: U64, prp2: U64, len: U32, asWritten: bool): Option<seq<Frag>>
    requires ValidCtx(c)
  {
    PageFacts(c);
    var ps := c.pageSize;
    var first := Min(len, ps - prp1 % ps);
    if prp1 == 0 then None
    else
      var cmb := c.cmbEnabled && c.cmbBase <= prp1 < c.cmbBase + c.cmbSize;
      var head := [Frag(cmb, prp1, first)];
      var rem := len - first;
      if rem == 0 then Some(head)
      else if prp2 == 0 then None
      else if rem > ps then
        match Walk(mem, prp2, 0, rem, ps, c.maxPrpEnts, cmb)
        case None => None
        case Some(fs) => Some(head + fs)
      else if prp2 % ps != 0 then None
      else Some(head + [Frag(cmb, prp2, if cmb && asWritten then first else rem)])
  }

  lemma {:induction false} PageFacts(c: PrpCtx)
    requires ValidCtx(c)
    ensures c.pageSize >= 4096 && c.maxPrpEnts >= 512
  {
    Pow2Monotone(12, c.pageBits);
    assert Pow2(4) == 16;
    Pow2Add(4, 8);
    assert Pow2(8) == 256;
  }

  /**
   * nvme_map_prp: refuses a zero PRP1; with bytes left after the first
   * fragment, a zero PRP2; with at most a page left, a PRP2 that is not page
   * aligned.
   */
  lemma {:induction false} MapPrpRejects(c: PrpCtx, mem: Memory, prp1: U64, prp2: U64, len: U32, asWritten: bool)
    requires ValidCtx(c)
    ensures prp1 == 0 ==> MapPrp(c, mem, prp1, prp2, len, asWritten).None?
    ensures var rem := len - Min(len, c.pageSize - prp1 % c.pageSize);
      prp1 != 0 && rem > 0 && prp2 == 0 ==> MapPrp(c, mem, prp1, prp2, len, asWritten).None?
    ensures var rem := len - Min(len, c.pageSize - prp1 % c.pageSize);
      prp1 != 0 && 0 < rem <= c.pageSize && prp2 % c.pageSize != 0 ==> MapPrp(c, mem, prp1, prp2, len, asWritten).None?
  {
  }

  /**
   * nvme_map_prp refuses a list whose slot `k` is zero or not page aligned
   * when the walk reaches that slot (more than `k` pages left after the
   * first fragment), among them the last slot, which holds the next list
   * page when more than a page is left there.
   */
  lemma {:induction false} MapPrpRejectsList(c: PrpCtx, mem: Memory, prp1: U64, prp2: U64, len: U32, asWritten: bool, k: nat)
    requires ValidCtx(c) && k < c.maxPrpEnts
    ensures var rem := len - Min(len, c.pageSize - prp1 % c.pageSize);
      prp1 != 0 && rem > c.pageSize && rem > k * c.pageSize && !ValidEntry(Word(mem, prp2 + 8 * k), c.pageSize)
      ==> MapPrp(c, mem, prp1, prp2, len, asWritten).None?
  {
    PageFacts(c);
    var ps := c.pageSize;
    var rem := len - Min(len, ps - prp1 % ps);
    if prp1 != 0 && rem > ps && rem > k * ps && !ValidEntry(Word(mem, prp2 + 8 * k), ps) && prp2 != 0 {
      var cmb := c.cmbEnabled && c.cmbBase <= prp1 < c.cmbBase + c.cmbSize;
      WalkReadsPage(mem, prp2, 0, rem, ps, c.maxPrpEnts, k);
      WalkAccepts(mem, prp2, 0, rem, ps, c.maxPrpEnts, cmb);
    }
  }

  /**
   * What the list walk accepts: each fragment is a valid entry covering at
   * most a page and at least one byte, all of them in the same memory, and
   * together they cover exactly the bytes that were left.
   */
  lemma {:induction false} WalkCovers(mem: Memory, list: nat, i: nat, rem: nat, ps: nat, maxEnts: nat, cmb: bool)
    requires ps >= 1 && maxEnts >= 2 && (i < maxEnts || rem == 0)
    requires Walk(mem, list, i, rem, ps, maxEnts, cmb).Some?
    ensures var fs := Walk(mem, list, i, rem, ps, maxEnts, cmb).value;
      SumLens(fs) == rem
      && forall k :: 0 <= k < |fs| ==> fs[k].cmb == cmb && ValidEntry(fs[k].addr, ps) && 1 <= fs[k].len <= ps
    decreases rem
  {
    if rem > 0 {
      var chain := i == maxEnts - 1 && rem > ps;
      var list', i' := if chain then Word(mem, list + 8 * i) else list, if chain then 0 else i;
      var n := Min(rem, ps);
      WalkCovers(mem, list', i' + 1, rem - n, ps, maxEnts, cmb);
      var fs := Walk(mem, list', i' + 1, rem - n, ps, maxEnts, cmb).value;
      var all := Walk(mem, list, i, rem, ps, maxEnts, cmb).value;
      assert all == [all[0]] + fs;
      assert all[1..] == fs;
    }
  }

  /**
   * The guest addresses whose words the list walk reads, in order: at the
   * last slot of a page with more than a page left, the slot holding the
   * next list page, then the data entry itself.
   */
  function WalkReads(mem: Memory, list: nat, i: nat, rem: nat, ps: nat, maxEnts: nat): seq<nat>
    requires ps >= 1 && maxEnts >= 2 && (i < maxEnts || rem == 0)
    decreases rem
  {
    if rem == 0 then []
    else
      var chain := i == maxEnts - 1 && rem > ps;
      var list', i' := if chain then Word(mem, list + 8 * i) else list, if chain then 0 else i;
      (if chain then [list + 8 * i] else []) + [list' + 8 * i'] + WalkReads(mem, list', i' + 1, rem - Min(rem, ps), ps, maxEnts)
  }

  /** Every word read at `addrs` is a valid PRP entry. */
  predicate AllValid(mem: Memory, addrs: seq<nat>, ps: nat)
    requires ps >= 1
  {
    forall k :: 0 <= k < |addrs| ==> ValidEntry(Word(mem, addrs[k]), ps)
  }

  lemma AllValidAppend(mem: Memory, a: seq<nat>, b: seq<nat>, ps: nat)
    requires ps >= 1
    ensures AllValid(mem, a + b, ps) <==> AllValid(mem, a, ps) && AllValid(mem, b, ps)
  {
    if AllValid(mem, a, ps) && AllValid(mem, b, ps) {
      forall k | 0 <= k < |a + b|
        ensures ValidEntry(Word(mem, (a + b)[k]), ps)
      {
        if k >= |a| {
          assert (a + b)[k] == b[k - |a|];
        }
      }
    }
    if AllValid(mem, a + b, ps) {
      forall k | 0 <= k < |a|
        ensures ValidEntry(Word(mem, a[k]), ps)
      {
        assert (a + b)[k] == a[k];
      }
      forall k | 0 <= k < |b|
        ensures ValidEntry(Word(mem, b[k]), ps)
      {
        assert (a + b)[|a| + k] == b[k];
      }
    }
  }

  /**
   * The walk fails on a bad entry and on nothing else: it accepts exactly
   * when every word it reads, data entries and next-page pointers alike, is
   * non-zero and page aligned.
   */
  lemma {:induction false} WalkAccepts(mem: Memory, list: nat, i: nat, rem: nat, ps: nat, maxEnts: nat, cmb: bool)
    requires ps >= 1 && maxEnts >= 2 && (i < maxEnts || rem == 0)
    ensures Walk(mem, list, i, rem, ps, maxEnts, cmb).Some? <==> AllValid(mem, WalkReads(mem, list, i, rem, ps, maxEnts), ps)
    decreases rem, 1
  {
    if rem > 0 {
      if i == maxEnts - 1 && rem > ps {
        WalkAcceptsChain(mem, list, i, rem, ps, maxEnts, cmb);
      } else {
        WalkAcceptsData(mem, list, i, rem, ps, maxEnts, cmb);
      }
    }
  }

  /** A walk step at the last slot of a page with more than a page left: the slot names the next page. */
  lemma {:induction false} WalkAcceptsChain(mem: Memory, list: nat, i: nat, rem: nat, ps: nat, maxEnts: nat, cmb: bool)
    requires ps >= 1 && maxEnts >= 2 && i == maxEnts - 1 && rem > ps
    ensures Walk(mem, list, i, rem, ps, maxEnts, cmb).Some? <==> AllValid(mem, WalkReads(mem, list, i, rem, ps, maxEnts), ps)
    decreases rem, 0
  {
    var next := Word(mem, list + 8 * i);
    WalkAccepts(mem, next, 1, rem - ps, ps, maxEnts, cmb);
    var rest := WalkReads(mem, next, 1, rem - ps, ps, maxEnts);
    WalkChainUnfolds(mem, list, i, rem, ps, maxEnts, cmb);
    WalkAcceptsStep(mem, [list + 8 * i, next], rest, ps);
  }

  /** At the last slot with more than a page left, the walk checks the slot and the next page's first entry. */
  lemma WalkChainUnfolds(mem: Memory, list: nat, i: nat, rem: nat, ps: nat, maxEnts: nat, cmb: bool)
    requires ps >= 1 && maxEnts >= 2 && i == maxEnts - 1 && rem > ps
    ensures var next := Word(mem, list + 8 * i);
      && WalkReads(mem, list, i, rem, ps, maxEnts) == [list + 8 * i, next] + WalkReads(mem, next, 1, rem - ps, ps, maxEnts)
      && (Walk(mem, list, i, rem, ps, maxEnts, cmb).Some?
          <==> ValidEntry(next, ps) && ValidEntry(Word(mem, next), ps) && Walk(mem, next, 1, rem - ps, ps, maxEnts, cmb).Some?)
  {
    var next := Word(mem, list + 8 * i);
    assert WalkReads(mem, list, i, rem, ps, maxEnts) == [list + 8 * i, next] + WalkReads(mem, next, 1, rem - ps, ps, maxEnts);
  }

  /** A walk step at a data slot. */
  lemma {:induction false} WalkAcceptsData(mem: Memory, list: nat, i: nat, rem: nat, ps: nat, maxEnts: nat, cmb: bool)
    requires ps >= 1 && maxEnts >= 2 && i < maxEnts && rem > 0 && !(i == maxEnts - 1 && rem > ps)
    ensures Walk(mem, list, i, rem, ps, maxEnts, cmb).Some? <==> AllValid(mem, WalkReads(mem, list, i, rem, ps, maxEnts), ps)
    decreases rem, 0
  {
    var n := Min(rem, ps);
    WalkAccepts(mem, list, i + 1, rem - n, ps, maxEnts, cmb);
    var rest := WalkReads(mem, list, i + 1, rem - n, ps, maxEnts);
    assert WalkReads(mem, list, i, rem, ps, maxEnts) == [] + [list + 8 * i] + rest;
    assert [] + [list + 8 * i] + rest == [list + 8 * i] + rest;
    WalkAcceptsStep(mem, [list + 8 * i], rest, ps);
  }

  /** Validity of the words read before the rest of a walk, and of the rest. */
  lemma WalkAcceptsStep(mem: Memory, first: seq<nat>, rest: seq<nat>, ps: nat)
    requires ps >= 1
    ensures AllValid(mem, first + rest, ps) <==> AllValid(mem, first, ps) && AllValid(mem, rest, ps)
    ensures |first| == 1 ==> (AllValid(mem, first, ps) <==> ValidEntry(Word(mem, first[0]), ps))
    ensures |first| == 2 ==> (AllValid(mem, first, ps) <==> ValidEntry(Word(mem, first[0]), ps) && ValidEntry(Word(mem, first[1]), ps))
  {
    AllValidAppend(mem, first, rest, ps);
  }

  /**
   * Within one list page the walk reads the slots in order: the `k`-th word
   * it reads from slot `i` is slot `i + k`, the last slot included (whether
   * that slot turns out to hold data or the next list page), as long as more
   * than `k` pages are left.
   */
  lemma {:induction false} WalkReadsPage(mem: Memory, list: nat, i: nat, rem: nat, ps: nat, maxEnts: nat, k: nat)
    requires ps >= 1 && maxEnts >= 2 && i + k < maxEnts && rem > k * ps
    ensures var rd := WalkReads(mem, list, i, rem, ps, maxEnts);
      k < |rd| && rd[k] == list + 8 * (i + k)
    decreases k
  {
    if k > 0 {
      assert k * ps == (k - 1) * ps + ps;
      assert Min(rem, ps) == ps;
      WalkReadsPage(mem, list, i + 1, rem - ps, ps, maxEnts, k - 1);
    }
  }

  /**
   * With the intended length for the second fragment, an accepted transfer
   * starts with the fragment from PRP1 to the end of its page (or the whole
   * transfer when that is shorter), and its fragments cover exactly `len`
   * bytes.
   */
  lemma {:induction false} MapPrpCovers(c: PrpCtx, mem: Memory, prp1: U64, prp2: U64, len: U32)
    requires ValidCtx(c) && MapPrp(c, mem, prp1, prp2, len, false).Some?
    ensures var fs := MapPrp(c, mem, prp1, prp2, len, false).value;
      |fs| >= 1 && fs[0].addr == prp1 && fs[0].len == Min(len, c.pageSize - prp1 % c.pageSize)
      && SumLens(fs) == len
  {
    PageFacts(c);
    var ps := c.pageSize;
    var first := Min(len, ps - prp1 % ps);
    var cmb := c.cmbEnabled && c.cmbBase <= prp1 < c.cmbBase + c.cmbSize;
    var rem := len - first;
    var fs := MapPrp(c, mem, prp1, prp2, len, false).value;
    assert fs[1..] == fs[1..];
    if rem > ps {
      WalkCovers(mem, prp2, 0, rem, ps, c.maxPrpEnts, cmb);
      assert fs[1..] == Walk(mem, prp2, 0, rem, ps, c.maxPrpEnts, cmb).value;
    } else if rem > 0 {
      assert fs[1..] == [Frag(cmb, prp2, rem)];
      assert SumLens(fs[1..]) == rem + SumLens(fs[1..][1..]);
    }
  }

  /**
   * As written the two agree except for a second fragment in the controller
   * memory buffer taken straight from PRP2.
   */
  lemma {:induction false} MapPrpAsWrittenAgrees(c: PrpCtx, mem: Memory, prp1: U64, prp2: U64, len: U32)
    requires ValidCtx(c)
    requires !(c.cmbEnabled && c.cmbBase <= prp1 < c.cmbBase + c.cmbSize)
    ensures MapPrp(c, mem, prp1, prp2, len, true) == MapPrp(c, mem, prp1, prp2, len, false)
  {
  }

  /**
   * As written, a 4 KiB transfer starting 512 bytes before the end of a page
   * of the controller memory buffer is mapped as 512 bytes from PRP1 and
   * again only 512 bytes from PRP2: 3 KiB of the transfer are lost.
   */
  lemma {:induction false} CmbSecondFragmentShort()
    ensures var c := PrpCtx(12, 4096, 512, true, 0x10_0000, 0x10_0000);
      ValidCtx(c)
      && MapPrp(c, map[], 0x10_0000 + 3584, 0x10_1000, 4096, true) == Some([Frag(true, 0x10_0000 + 3584, 512), Frag(true, 0x10_1000, 512)])
      && SumLens(MapPrp(c, map[], 0x10_0000 + 3584, 0x10_1000, 4096, true).value) == 1024
      && MapPrp(c, map[], 0x10_0000 + 3584, 0x10_1000, 4096, false) == Some([Frag(true, 0x10_0000 + 3584, 512), Frag(true, 0x10_1000, 3584)])
  {
    Pow2Add(4, 8);
    assert Pow2(4) == 16 && Pow2(8) == 256;
    var c := PrpCtx(12, 4096, 512, true, 0x10_0000, 0x10_0000);
    var prp1 := 0x10_0000 + 3584;
    DivModUnique(prp1, 4096, 256, 3584);
    DivModUnique(0x10_1000, 4096, 257, 0);
    assert Min(4096, 4096 - prp1 % 4096) == 512;
    var head := [Frag(true, prp1, 512)];
    assert MapPrp(c, map[], prp1, 0x10_1000, 4096, true) == Some(head + [Frag(true, 0x10_1000, 512)]);
    assert MapPrp(c, map[], prp1, 0x10_1000, 4096, false) == Some(head + [Frag(true, 0x10_1000, 3584)]);
    assert head + [Frag(true, 0x10_1000, 512)] == [Frag(true, prp1, 512), Frag(true, 0x10_1000, 512)];
    assert head + [Frag(true, 0x10_1000, 3584)] == [Frag(true, prp1, 512), Frag(true, 0x10_1000, 3584)];
    var fs := head + [Frag(true, 0x10_1000, 512)];
    assert fs[1..][1..] == [];
  }

  /**
   * nvme_map_prp as the code runs it: the first fragment, then either the
   * single PRP2 page or the list walk, one entry per iteration.
   */
  method MapPrpLoop(c: PrpCtx, mem: Memory, prp1: U64, prp2: U64, len: U32) returns (status: U16, frags: seq<Frag>)
    requires ValidCtx(c)
    ensures MapPrp(c, mem, prp1, prp2, len, true).None? ==> status == WithDnr(INVALID_FIELD)
    ensures MapPrp(c, mem, prp1, prp2, len, true).Some? ==> status == SUCCESS && frags == MapPrp(c, mem, prp1, prp2, len, true).value
  {
    PageFacts(c);
    var ps := c.pageSize;
    var transLen := Min(len, ps - prp1 % ps);
    if prp1 == 0 {
      return WithDnr(INVALID_FIELD), [];
    }
    var cmb := c.cmbEnabled && c.cmbBase <= prp1 && prp1 < c.cmbBase + c.cmbSize;
    frags := [Frag(cmb, prp1, transLen)];
    var rem: nat := len - transLen;
    if rem == 0 {
      return SUCCESS, frags;
    }
    if prp2 == 0 {
      return WithDnr(INVALID_FIELD), [];
    }
    if rem <= ps {
      if prp2 % ps != 0 {
        return WithDnr(INVALID_FIELD), [];
      }
      frags := frags + [Frag(cmb, prp2, if cmb then transLen else rem)];
      return SUCCESS, frags;
    }
    var rest := WalkList(mem, prp2, rem, ps, c.maxPrpEnts, cmb);
    if rest.None? {
      return WithDnr(INVALID_FIELD), [];
    }
    return SUCCESS, frags + rest.value;
  }

  /** The list walk of nvme_map_prp, one entry per iteration. */
  method WalkList(mem: Memory, prp2: nat, len: nat, ps: nat, maxEnts: nat, cmb: bool) returns (r: Option<seq<Frag>>)
    requires ps >= 1 && maxEnts >= 2
    ensures r == Walk(mem, prp2, 0, len, ps, maxEnts, cmb)
  {
    var frags: seq<Frag> := [];
    var list: nat := prp2;
    var i: nat := 0;
    var rem: nat := len;
    assert Then([], Walk(mem, list, i, rem, ps, maxEnts, cmb)) == Walk(mem, list, i, rem, ps, maxEnts, cmb) by {
      if Walk(mem, list, i, rem, ps, maxEnts, cmb).Some? {
        assert [] + Walk(mem, list, i, rem, ps, maxEnts, cmb).value == Walk(mem, list, i, rem, ps, maxEnts, cmb).value;
      }
    }
    while rem != 0
      invariant i < maxEnts || rem == 0
      invariant Walk(mem, prp2, 0, len, ps, maxEnts, cmb) == Then(frags, Walk(mem, list, i, rem, ps, maxEnts, cmb))
      decreases rem
    {
      ghost var list0, i0 := list, i;
      var chain := i == maxEnts - 1 && rem > ps;
      if chain {
        var next := Word(mem, list + 8 * i);
        if !ValidEntry(next, ps) {
          return None;
        }
        list, i := next, 0;
      }
      var ent := Word(mem, list + 8 * i);
      if !ValidEntry(ent, ps) {
        return None;
      }
      var n := Min(rem, ps);
      assert Walk(mem, list0, i0, rem, ps, maxEnts, cmb) == Then([Frag(cmb, ent, n)], Walk(mem, list, i + 1, rem - n, ps, maxEnts, cmb));
      ThenStep(frags, Frag(cmb, ent, n), Walk(mem, list, i + 1, rem - n, ps, maxEnts, cmb));
      frags := frags + [Frag(cmb, ent, n)];
      rem := rem - n;
      i := i + 1;
    }
    assert frags + [] == frags;
    return Some(frags);
  }

  /** `done` followed by what the rest of a walk yields. */
  function Then<T>(done: seq<T>, rest: Option<seq<T>>): Option<seq<T>>
  {
    match rest
    case None => None
    case Some(fs) => Some(done + fs)
  }

  lemma ThenNil<T>(rest: Option<seq<T>>)
    ensures Then([], rest) == rest
  {
    if rest.Some? {
      assert [] + rest.value == rest.value;
    }
  }

  lemma {:induction false} ThenStep<T>(done: seq<T>, f: T, rest: Option<seq<T>>)
    ensures Then(done, Then([f], rest)) == Then(done + [f], rest)
  {
    if rest.Some? {
      assert done + ([f] + rest.value) == (done + [f]) + rest.value;
    }
  }

  /** `uint16_t prps_per_page = n->page_size >> 3`, also how `max_prp_ents` is stored */
  function PrpsPerPage(ps: nat): nat
  {
    (ps / 8) % 0x1_0000
  }

  /** `uint16_t total_prps = DIV_ROUND_UP(queue_depth * entry_size, n->page_size)` */
  function TotalPrps(depth: U16, entrySize: U16, ps: nat): nat
    requires ps >= 1
  {
    ((depth * entrySize + ps - 1) / ps) % 0x1_0000
  }

  /** The `ppp` entries of the PRP list page at `addr`. */
  function ListPage(mem: Memory, addr: nat, ppp: nat): (p: seq<U64>)
    ensures |p| == ppp && forall k :: 0 <= k < ppp ==> p[k] == Word(mem, addr + 8 * k)
  {
    seq(ppp, k requires 0 <= k < ppp => Word(mem, addr + 8 * k))
  }

  /** Guest memory after the entries of `buf` are stored from `addr` on. */
  function Store(mem: Memory, addr: nat, buf: seq<U64>): Memory
    decreases |buf|
  {
    if buf == [] then mem else Store(mem[addr := buf[0]], addr + 8, buf[1..])
  }

  /** What a run of nvme_setup_discontig leaves: the list built (None for NULL) and guest memory. */
  datatype Setup = Setup(list: Option<seq<U64>>, mem: Memory)

  function Cons<T>(e: T, rest: Option<seq<T>>): Option<seq<T>>
  {
    match rest
    case None => None
    case Some(l) => Some([e] + l)
  }

  /**
   * Entries `i` and on of the loop of nvme_setup_discontig, with `addr` the
   * address of the next list page and `buf` the on-stack page buffer `prp`.
   * At the start of each list page the page address must be non-zero and
   * page aligned, the page goes into the buffer and its last slot is the
   * address of the next page; every entry must be non-zero and page aligned.
   * The last slot of a page is also taken as an entry, in both versions.
   * `asWritten` follows the code, which skips the page at the last entry
   * (`i < total_prps - 1`) and stores the buffer to the page
   * (nvme_addr_write) instead of loading it, so the buffer keeps whatever it
   * held before; the intended version loads every page it enters.
   */
  function SetupFrom(mem: Memory, addr: nat, buf: seq<U64>, i: nat, total: nat, ps: nat, asWritten: bool): (s: Setup)
    requires ps >= 1 && |buf| >= 1
    decreases total - i
  {
    if i >= total then Setup(Some([]), mem)
    else
      var ppp := |buf|;
      var newPage := i % ppp == 0 && (asWritten ==> i < total - 1);
      if newPage && !ValidEntry(addr, ps) then Setup(None, mem)
      else
        var mem' := if newPage && asWritten then Store(mem, addr, buf) else mem;
        var buf' := if newPage && !asWritten then ListPage(mem, addr, ppp) else buf;
        var addr' := if newPage then buf'[ppp - 1] as nat else addr;
        var e := buf'[i % ppp];
        if !ValidEntry(e, ps) then Setup(None, mem')
        else
          var rest := SetupFrom(mem', addr', buf', i + 1, total, ps, asWritten);
          rest.(list := Cons(e, rest.list))
  }

  /**
   * nvme_setup_discontig, corrected to read the list pages: the queue's
   * page addresses, `total_prps` of them, or None where the code returns
   * NULL. `stale` is what the uninitialised buffer holds.
   */
  method SetupDiscontig(mem: Memory, prpAddr: U64, depth: U16, entrySize: U16, ps: nat, stale: seq<U64>) returns (r: Option<seq<U64>>)
    requires ps >= 1 && PrpsPerPage(ps) >= 1 && |stale| == PrpsPerPage(ps)
    ensures r == SetupFrom(mem, prpAddr, stale, 0, TotalPrps(depth, entrySize, ps), ps, false).list
  {
    var ppp := PrpsPerPage(ps);
    var total := TotalPrps(depth, entrySize, ps);
    var prp := stale;
    var addr: nat := prpAddr;
    var list: seq<U64> := [];
    var i := 0;
    ThenNil(SetupFrom(mem, addr, prp, i, total, ps, false).list);
    while i < total
      invariant i <= total && |prp| == ppp
      invariant Then(list, SetupFrom(mem, addr, prp, i, total, ps, false).list) == SetupFrom(mem, prpAddr, stale, 0, total, ps, false).list
      decreases total - i
    {
      ghost var addr0, prp0 := addr, prp;
      if i % ppp == 0 {
        if !ValidEntry(addr, ps) {
          return None;
        }
        prp := ListPage(mem, addr, ppp);
        addr := prp[ppp - 1];
      }
      var e := prp[i % ppp];
      if !ValidEntry(e, ps) {
        return None;
      }
      assert SetupFrom(mem, addr0, prp0, i, total, ps, false).list == Cons(e, SetupFrom(mem, addr, prp, i + 1, total, ps, false).list);
      ThenStep(list, e, SetupFrom(mem, addr, prp, i + 1, total, ps, false).list);
      list := list + [e];
      i := i + 1;
    }
    assert list + [] == list;
    return Some(list);
  }

  /**
   * The list built is `total - i` entries long, each non-zero and page
   * aligned; read from guest memory, the run leaves guest memory as it was.
   */
  lemma {:induction false} SetupFromShape(mem: Memory, addr: nat, buf: seq<U64>, i: nat, total: nat, ps: nat, asWritten: bool)
    requires ps >= 1 && |buf| >= 1 && i <= total
    ensures var s := SetupFrom(mem, addr, buf, i, total, ps, asWritten);
      (s.list.Some? ==> |s.list.value| == total - i && forall k :: 0 <= k < |s.list.value| ==> ValidEntry(s.list.value[k], ps))
      && (!asWritten ==> s.mem == mem)
    decreases total - i
  {
    if i < total {
      var ppp := |buf|;
      var newPage := i % ppp == 0 && (asWritten ==> i < total - 1);
      if !(newPage && !ValidEntry(addr, ps)) {
        var mem' := if newPage && asWritten then Store(mem, addr, buf) else mem;
        var buf' := if newPage && !asWritten then ListPage(mem, addr, ppp) else buf;
        var addr' := if newPage then buf'[ppp - 1] as nat else addr;
        var e := buf'[i % ppp];
        if ValidEntry(e, ps) {
          SetupFromShape(mem', addr', buf', i + 1, total, ps, asWritten);
          var rest := SetupFrom(mem', addr', buf', i + 1, total, ps, asWritten).list;
          assert SetupFrom(mem, addr, buf, i, total, ps, asWritten)
              == SetupFrom(mem', addr', buf', i + 1, total, ps, asWritten).(list := Cons(e, rest));
          if rest.Some? {
            var l := SetupFrom(mem, addr, buf, i, total, ps, asWritten).list.value;
            assert l == [e] + rest.value;
            assert forall k :: 1 <= k < |l| ==> l[k] == rest.value[k - 1];
          }
        } else {
          assert SetupFrom(mem, addr, buf, i, total, ps, asWritten) == Setup(None, mem');
        }
      } else {
        assert SetupFrom(mem, addr, buf, i, total, ps, asWritten) == Setup(None, mem);
      }
    }
  }

  /**
   * Read from guest memory, the entries of the first list page are the
   * queue's first page addresses: entry `k` is the word at `prp1 + 8k`.
   * (Entries in later pages follow the chain through each page's last slot.)
   */
  lemma {:induction false} SetupReadsFirstPage(mem: Memory, prpAddr: nat, stale: seq<U64>, total: nat, ps: nat, k: nat)
    requires ps >= 1 && |stale| >= 1 && k < total && k < |stale|
    requires SetupFrom(mem, prpAddr, stale, 0, total, ps, false).list.Some?
    ensures var l := SetupFrom(mem, prpAddr, stale, 0, total, ps, false).list.value;
      k < |l| && l[k] == Word(mem, prpAddr + 8 * k)
  {
    SetupFromShape(mem, prpAddr, stale, 0, total, ps, false);
    var page := ListPage(mem, prpAddr, |stale|);
    assert SetupFrom(mem, prpAddr, stale, 0, total, ps, false).list == Cons(page[0], SetupFrom(mem, page[|stale| - 1] as nat, page, 1, total, ps, false).list);
    if k > 0 {
      SetupWithinPage(mem, page[|stale| - 1], page, 1, total, ps, k);
    }
  }

  /**
   * The address of list page `p` of a chain starting at `first`: each page's
   * last slot names the next one.
   */
  function ListPageAddr(mem: Memory, first: nat, ppp: nat, p: nat): nat
    requires ppp >= 1
    decreases p
  {
    if p == 0 then first else Word(mem, ListPageAddr(mem, first, ppp, p - 1) + 8 * (ppp - 1))
  }

  /**
   * Read from guest memory, the whole list follows the chain: entry `k` is
   * slot `k % ppp` of list page `k / ppp`, for every entry of a queue of any
   * number of pages.
   */
  lemma {:induction false} SetupReadsList(mem: Memory, prpAddr: nat, stale: seq<U64>, total: nat, ps: nat, k: nat)
    requires ps >= 1 && |stale| >= 1 && k < total
    requires SetupFrom(mem, prpAddr, stale, 0, total, ps, false).list.Some?
    ensures var l := SetupFrom(mem, prpAddr, stale, 0, total, ps, false).list.value;
      k < |l| && l[k] == Word(mem, ListPageAddr(mem, prpAddr, |stale|, k / |stale|) + 8 * (k % |stale|))
  {
    var ppp := |stale|;
    var pk, jk := DivModOf(k, ppp);
    SetupReadsFrom(mem, prpAddr, prpAddr, stale, 0, 0, 0, total, ps, k, pk, jk);
  }

  /**
   * The step of SetupReadsList from entry `i`, slot `j` of page `p`: at a
   * page boundary `addr` is that page; inside a page the buffer holds it and
   * `addr` is the next. Entry `k` is slot `jk` of page `pk`.
   */
  lemma {:induction false} SetupReadsFrom(mem: Memory, first: nat, addr: nat, buf: seq<U64>, i: nat, p: nat, j: nat,
                                          total: nat, ps: nat, k: nat, pk: nat, jk: nat)
    requires ps >= 1 && |buf| >= 1 && i <= k < total
    requires i == p * |buf| + j && j < |buf| && k == pk * |buf| + jk && jk < |buf|
    requires j == 0 ==> addr == ListPageAddr(mem, first, |buf|, p)
    requires j != 0 ==> buf == ListPage(mem, ListPageAddr(mem, first, |buf|, p), |buf|)
                        && addr == ListPageAddr(mem, first, |buf|, p + 1)
    requires SetupFrom(mem, addr, buf, i, total, ps, false).list.Some?
    ensures var l := SetupFrom(mem, addr, buf, i, total, ps, false).list.value;
      k - i < |l| && l[k - i] == Word(mem, ListPageAddr(mem, first, |buf|, pk) + 8 * jk)
    decreases k - i, 1
  {
    DivModUnique(i, |buf|, p, j);
    SetupLoadsPage(mem, addr, buf, i, total, ps, ListPageAddr(mem, first, |buf|, p));
    if i < k {
      SetupReadsNext(mem, first, addr, buf, i, p, j, total, ps, k, pk, jk);
    } else {
      DivModUnique(k, |buf|, pk, jk);
    }
  }

  /** SetupReadsFrom past entry `i`: the rest of the run is in the same position one entry on. */
  lemma {:induction false} SetupReadsNext(mem: Memory, first: nat, addr: nat, buf: seq<U64>, i: nat, p: nat, j: nat,
                                          total: nat, ps: nat, k: nat, pk: nat, jk: nat)
    requires ps >= 1 && |buf| >= 1 && i < k < total
    requires i == p * |buf| + j && j < |buf| && k == pk * |buf| + jk && jk < |buf|
    requires j == 0 ==> addr == ListPageAddr(mem, first, |buf|, p)
    requires j != 0 ==> buf == ListPage(mem, ListPageAddr(mem, first, |buf|, p), |buf|)
                        && addr == ListPageAddr(mem, first, |buf|, p + 1)
    requires SetupFrom(mem, addr, buf, i, total, ps, false).list.Some?
    ensures var l := SetupFrom(mem, addr, buf, i, total, ps, false).list.value;
      k - i < |l| && l[k - i] == Word(mem, ListPageAddr(mem, first, |buf|, pk) + 8 * jk)
    decreases k - i, 0
  {
    var ppp := |buf|;
    var here := ListPageAddr(mem, first, ppp, p);
    var buf' := ListPage(mem, here, ppp);
    var addr' := Word(mem, here + 8 * (ppp - 1));
    assert addr' == ListPageAddr(mem, first, ppp, p + 1);
    DivModUnique(i, ppp, p, j);
    SetupLoadsPage(mem, addr, buf, i, total, ps, here);
    var rest := SetupFrom(mem, addr', buf', i + 1, total, ps, false).list;
    ConsSome(Word(mem, here + 8 * j), rest);
    if j + 1 == ppp {
      assert i + 1 == (p + 1) * ppp + 0;
      SetupReadsFrom(mem, first, addr', buf', i + 1, p + 1, 0, total, ps, k, pk, jk);
    } else {
      SetupReadsFrom(mem, first, addr', buf', i + 1, p, j + 1, total, ps, k, pk, jk);
    }
    ConsAt(Word(mem, here + 8 * j), rest, k - i);
  }

  /** Entry `k` is slot `k % ppp` of page `k / ppp`. */
  lemma DivModOf(k: nat, ppp: nat) returns (pk: nat, jk: nat)
    requires ppp >= 1
    ensures pk == k / ppp && jk == k % ppp && k == pk * ppp + jk && jk < ppp
  {
    pk, jk := k / ppp, k % ppp;
  }

  /** A list built by Cons is there only when its tail is. */
  lemma ConsSome<T>(e: T, rest: Option<seq<T>>)
    ensures Cons(e, rest).Some? <==> rest.Some?
  {
  }

  /** Entry `n` past the head of a list built by Cons is entry `n - 1` of its tail. */
  lemma ConsAt<T>(e: T, rest: Option<seq<T>>, n: nat)
    requires rest.Some? && 1 <= n <= |rest.value|
    ensures n < |Cons(e, rest).value| && Cons(e, rest).value[n] == rest.value[n - 1]
  {
  }

  /**
   * One entry of the intended run, with `here` the list page the entry lies
   * in: the entry is that page's slot `i % ppp`, and the run goes on with
   * the page in the buffer and the address its last slot names.
   */
  lemma {:induction false} SetupLoadsPage(mem: Memory, addr: nat, buf: seq<U64>, i: nat, total: nat, ps: nat, here: nat)
    requires ps >= 1 && |buf| >= 1 && i < total
    requires i % |buf| == 0 ==> addr == here
    requires i % |buf| != 0 ==> buf == ListPage(mem, here, |buf|) && addr == Word(mem, here + 8 * (|buf| - 1))
    requires SetupFrom(mem, addr, buf, i, total, ps, false).list.Some?
    ensures SetupFrom(mem, addr, buf, i, total, ps, false).list
      == Cons(Word(mem, here + 8 * (i % |buf|)),
              SetupFrom(mem, Word(mem, here + 8 * (|buf| - 1)), ListPage(mem, here, |buf|), i + 1, total, ps, false).list)
  {
  }

  /** Within a list page already in the buffer, entry `k` is the buffer's slot `k`. */
  lemma {:induction false} SetupWithinPage(mem: Memory, addr: nat, buf: seq<U64>, i: nat, total: nat, ps: nat, k: nat)
    requires ps >= 1 && 1 <= i <= k < |buf| && k < total
    requires SetupFrom(mem, addr, buf, i, total, ps, false).list.Some?
    ensures var l := SetupFrom(mem, addr, buf, i, total, ps, false).list.value;
      k - i < |l| && l[k - i] == buf[k]
    decreases k - i
  {
    SetupMidPage(mem, addr, buf, i, total, ps, false);
    var rest := SetupFrom(mem, addr, buf, i + 1, total, ps, false).list;
    assert rest.Some?;
    if i < k {
      SetupWithinPage(mem, addr, buf, i + 1, total, ps, k);
    }
  }

  /** Inside a list page (not at its first slot) an entry comes straight from the buffer. */
  lemma SetupMidPage(mem: Memory, addr: nat, buf: seq<U64>, i: nat, total: nat, ps: nat, asWritten: bool)
    requires ps >= 1 && 1 <= i < |buf| && i < total
    ensures SetupFrom(mem, addr, buf, i, total, ps, asWritten).list
      == if ValidEntry(buf[i], ps) then Cons(buf[i], SetupFrom(mem, addr, buf, i + 1, total, ps, asWritten).list) else None
  {
    assert i % |buf| == i by {
      DivModUnique(i, |buf|, 0, i);
    }
  }

  /**
   * As written, the list built does not depend on guest memory at all: two
   * guests with different PRP lists get the same queue pages, taken from
   * the uninitialised buffer.
   */
  lemma {:induction false} SetupAsWrittenIgnoresMemory(m1: Memory, m2: Memory, addr: nat, buf: seq<U64>, i: nat, total: nat, ps: nat)
    requires ps >= 1 && |buf| >= 1
    ensures SetupFrom(m1, addr, buf, i, total, ps, true).list == SetupFrom(m2, addr, buf, i, total, ps, true).list
    decreases total - i
  {
    if i < total {
      var ppp := |buf|;
      var newPage := i % ppp == 0 && i < total - 1;
      if !(newPage && !ValidEntry(addr, ps)) {
        var addr' := if newPage then buf[ppp - 1] as nat else addr;
        SetupAsWrittenIgnoresMemory(if newPage then Store(m1, addr, buf) else m1,
          if newPage then Store(m2, addr, buf) else m2, addr', buf, i + 1, total, ps);
      }
    }
  }

  /** Storing from `addr` on leaves the words below `addr` alone. */
  lemma {:induction false} StoreKeeps(mem: Memory, addr: nat, buf: seq<U64>, a: nat)
    requires a < addr
    ensures Word(Store(mem, addr, buf), a) == Word(mem, a)
    decreases |buf|
  {
    if buf != [] {
      StoreKeeps(mem[addr := buf[0]], addr + 8, buf[1..], a);
    }
  }

  /**
   * As written, a guest whose list page at 0x1000 names pages 0x2000 and
   * 0x3000 for a two-page queue gets the stale buffer's contents instead,
   * and finds its list page overwritten with them; read as intended, the
   * list is the guest's.
   */
  lemma SetupAsWrittenClobbers(stale: seq<U64>)
    requires |stale| == 512 && stale[0] == 0x7000 && stale[1] == 0x8000
    ensures var mem := map[0x1000 := 0x2000, 0x1008 := 0x3000];
      var s := SetupFrom(mem, 0x1000, stale, 0, 2, 4096, true);
      s.list == Some([0x7000, 0x8000]) && Word(s.mem, 0x1000) == 0x7000
      && SetupFrom(mem, 0x1000, stale, 0, 2, 4096, false).list == Some([0x2000, 0x3000])
  {
    var mem := map[0x1000 := 0x2000, 0x1008 := 0x3000];
    var m' := Store(mem, 0x1000, stale);
    assert Store(mem, 0x1000, stale) == Store(mem[0x1000 := 0x7000], 0x1008, stale[1..]);
    StoreKeeps(mem[0x1000 := 0x7000], 0x1008, stale[1..], 0x1000);
    assert 0x1000 % 4096 == 0 && 0x7000 % 4096 == 0 && 0x8000 % 4096 == 0;
    assert [stale[1]] + [] == [stale[1]];
    SetupMidPage(m', stale[511] as nat, stale, 1, 2, 4096, true);
    assert SetupFrom(m', stale[511] as nat, stale, 1, 2, 4096, true) == Setup(Some([stale[1]]), m');
    assert SetupFrom(mem, 0x1000, stale, 0, 2, 4096, true) == Setup(Cons(stale[0], Some([stale[1]])), m');
    var page := ListPage(mem, 0x1000, 512);
    assert page[0] == 0x2000 && page[1] == 0x3000;
    assert 0x2000 % 4096 == 0 && 0x3000 % 4096 == 0;
    assert [page[1]] + [] == [page[1]];
    SetupMidPage(mem, page[511] as nat, page, 1, 2, 4096, false);
    assert SetupFrom(mem, page[511] as nat, page, 1, 2, 4096, false).list == Some([page[1]]);
    assert SetupFrom(mem, 0x1000, stale, 0, 2, 4096, false).list == Cons(page[0], Some([page[1]]));
    assert [page[0]] + [page[1]] == [0x2000, 0x3000];
    assert [stale[0]] + [stale[1]] == [0x7000, 0x8000];
  }

  /**
   * nvme_discontig(dma_addr, page_size, queue_idx, entry_size): the address
   * of slot `queue_idx` of a queue whose pages are listed in `dma_addr`. The
   * quotients are `uint16_t`; a divisor of 0 is undefined behaviour, and so
   * is a page index past the list, which are None here.
   */
  function Discontig(prpList: seq<U64>, pageSize: U16, queueIdx: U16, entrySize: U16): (r: Option<nat>)
    ensures r.Some? ==> entrySize != 0 && pageSize / entrySize != 0
  {
    if entrySize == 0 || pageSize / entrySize == 0 then None
    else
      var perPage := pageSize / entrySize;
      var prpIndex := queueIdx / perPage;
      if prpIndex >= |prpList| then None
      else Some((prpList[prpIndex] + (queueIdx % perPage) * entrySize) % 0x1_0000_0000_0000_0000)
  }

  /**
   * The three callers (nvme_post_cqe, nvme_abort_req and nvme_process_sq)
   * pass the slot index as the page size and the page size as the slot
   * index; the page size is narrowed to 16 bits on the way.
   */
  function DiscontigAsCalled(prpList: seq<U64>, idx: U16, pageSize: nat, entrySize: U16): Option<nat>
  {
    Discontig(prpList, idx, pageSize % 0x1_0000, entrySize)
  }

  /**
   * As called, the first slot of every queue that is not physically
   * contiguous divides by zero: for slot 0 the "page size" is 0, so there are
   * no entries per page.
   */
  lemma {:induction false} DiscontigFirstSlotFails(prpList: seq<U64>, pageSize: nat, entrySize: U16)
    requires entrySize >= 1
    ensures DiscontigAsCalled(prpList, 0, pageSize, entrySize).None?
    ensures DiscontigAsCalled([0x2000, 0x5000], 1, 4096, 64).None?
  {
  }

  /**
   * With the intended argument order, slot `idx` is found at byte offset
   * `idx * entry_size` of the queue: in the page that offset falls in, at
   * the offset within that page.
   */
  lemma {:induction false} DiscontigSlot(prpList: seq<U64>, pageSize: U16, idx: U16, entrySize: U16)
    requires 1 <= entrySize <= pageSize && pageSize % entrySize == 0
    requires idx * entrySize / pageSize < |prpList|
    ensures Discontig(prpList, pageSize, idx, entrySize)
         == Some((prpList[idx * entrySize / pageSize] + (idx * entrySize) % pageSize) % 0x1_0000_0000_0000_0000)
  {
    var perPage := pageSize / entrySize;
    var q, r := idx / perPage, idx % perPage;
    assert pageSize == perPage * entrySize by { DivModUnique(pageSize, entrySize, perPage, 0); }
    assert perPage >= 1;
    assert idx == q * perPage + r;
    assert idx * entrySize == q * pageSize + r * entrySize by {
      assert idx * entrySize == (q * perPage + r) * entrySize;
      assert (q * perPage + r) * entrySize == q * (perPage * entrySize) + r * entrySize;
    }
    assert r * entrySize < pageSize by {
      assert r <= perPage - 1;
      MulMonotone(r, perPage - 1, entrySize);
      assert (perPage - 1) * entrySize == pageSize - entrySize;
    }
    DivModUnique(idx * entrySize, pageSize, q, r * entrySize);
  }
}

=== FILE: queues.dfy ===
/**
 * The queue engine: submission queues fetched in bursts, requests drawn from
 * a fixed per-queue pool, and completions posted into completion queues with
 * a FIFO backlog for when a completion queue is full (NVMe 1.2 sections 4.1,
 * 4.6 and 7.2).
 *
 * The controller's queue tables and request pool are the fields of the class
 * `Engine.Controller`; `QState` is the same state as a value, and the
 * operations are specified here as functions on it.
 */
module Queues {
  import opened Bits
  import opened Status
  import Ring

  /** A request of the fixed pool of submission queue `sqid`: `sq->io_req[slot]`. */
  datatype Req = Req(sqid: nat, slot: nat)

  /** The fields of a request that reach its completion entry. */
  datatype ReqData = ReqData(status: U16, cid: U16, opcode: U8, result: U32)

  /** A completion queue entry; bit 0 of `status` is the phase tag. */
  datatype Cqe = Cqe(result: U32, sqHead: U16, sqid: U16, cid: U16, status: U16)

  /** A submission queue entry: opcode, command identifier and the remaining dwords. */
  datatype Cmd = Cmd(opcode: U8, cid: U16, rest: seq<U32>)

  /** The opcode of an entry the host has aborted in place. */
  const OP_ABORTED: U8 := 0xff

  /**
   * NvmeSQueue: ring indices, the arbitration burst, the free list
   * `req_list` and the dispatched list `out_req_list` (as slots of the
   * queue's own pool), the shadow doorbell
   * and event index addresses (0 when unset), and the count of processed
   * entries.
   */
  datatype SQueue = SQueue(sqid: nat, cqid: nat, head: nat, tail: nat, size: nat, arbBurst: U8,
                           free: seq<nat>, out: seq<nat>, dbAddr: nat, eventIdxAddr: nat, completed: nat)

  /**
   * NvmeCQueue: ring indices and phase tag, the interrupt vector, the backlog
   * `req_list` of completions waiting for room, the ring's entries in guest
   * memory, the shadow doorbell and event index addresses (0 when unset; the
   * device never reads the event index of a completion queue) and whether
   * the coalescing timer is armed.
   */
  datatype CQueue = CQueue(cqid: nat, head: nat, tail: nat, size: nat, phase: bool, vector: nat,
                           backlog: seq<Req>, entries: seq<Cqe>, dbAddr: nat, eventIdxAddr: nat, timerPending: bool)

  /** What the queue engine asks of the rest of the emulator: interrupts, timers and event index writes. */
  datatype Effect =
    | IrqAssert(cqid: nat)
    | IrqDeassert(cqid: nat)
    | ArmCqTimer(cqid: nat)
    | CancelCqTimer(cqid: nat)
    | ArmSqTimer(sqid: nat)
    | WriteEventIdx(addr: nat, value: nat)

  /** The Interrupt Coalescing feature and the Interrupt Vector Configuration of every vector. */
  datatype Features = Features(intCoalescing: U32, intVectorConfig: seq<U32>)

  /** Guest memory holding shadow doorbells, as 32-bit words; a word never written reads as 0. */
  type Shadow = map<nat, U32>

  function ShadowWord(mem: Shadow, a: nat): U32
  {
    if a in mem then mem[a] else 0
  }

  datatype QState = QState(sq: map<nat, SQueue>, cq: map<nat, CQueue>, reqs: map<Req, ReqData>, effects: seq<Effect>)

  predicate SqWf(s: SQueue)
  {
    2 <= s.size <= 0x1_0000 && s.head < s.size
  }

  predicate CqWf(c: CQueue)
  {
    2 <= c.size <= 0x1_0000 && c.tail < c.size && |c.entries| == c.size
  }

  /** A request that may wait in the backlog of completion queue `cqid`: its queue completes there. */
  predicate Owned(sq: map<nat, SQueue>, r: Req, cqid: nat)
  {
    r.sqid in sq && sq[r.sqid].cqid == cqid
  }

  predicate CqOk(st: QState, cqid: nat)
  {
    cqid in st.cq && CqWf(st.cq[cqid])
  }

  predicate SqOk(st: QState, sqid: nat)
  {
    sqid in st.sq && sqid < 0x1_0000 && SqWf(st.sq[sqid])
  }

  /** Every request waiting in the backlog of `cqid` belongs to an existing submission queue. */
  predicate BacklogOk(st: QState, cqid: nat)
    requires cqid in st.cq
  {
    forall i :: 0 <= i < |st.cq[cqid].backlog| ==> SqOk(st, st.cq[cqid].backlog[i].sqid)
  }

  /**
   * The queue tables are consistent: queue ids are 16-bit and match their
   * slot, every submission queue's completion queue exists, and a backlog
   * holds only requests of the submission queues that complete into it.
   */
  predicate Wf(st: QState)
  {
    TablesWf(st.sq, st.cq)
  }

  predicate TablesWf(sq: map<nat, SQueue>, cq: map<nat, CQueue>)
  {
    (forall id :: id in sq ==> id < 0x1_0000 && SqWf(sq[id]) && sq[id].sqid == id && sq[id].cqid in cq && CqWf(cq[sq[id].cqid]))
    && (forall c :: c in cq ==> CqWf(cq[c]) && cq[c].cqid == c)
    && (forall c, i :: c in cq && 0 <= i < |cq[c].backlog| ==> Owned(sq, cq[c].backlog[i], c))
  }

  /** The queues' identities, sizes and links, which queue processing never changes. */
  predicate SameSq(a: SQueue, b: SQueue)
  {
    b.sqid == a.sqid && b.cqid == a.cqid && b.size == a.size && b.arbBurst == a.arbBurst && (SqWf(a) ==> SqWf(b))
  }

  predicate SameCq(a: CQueue, b: CQueue)
  {
    b.cqid == a.cqid && b.size == a.size && b.vector == a.vector && (CqWf(a) ==> CqWf(b))
  }

  /** Every queue of `st` is still there in `st'`, with the same identity, size and links. */
  predicate Keeps(st: QState, st': QState)
  {
    (forall id :: id in st.sq ==> id in st'.sq && SameSq(st.sq[id], st'.sq[id]))
    && (forall c :: c in st.cq ==> c in st'.cq && SameCq(st.cq[c], st'.cq[c]))
  }

  function ReqOf(st: QState, r: Req): ReqData
  {
    if r in st.reqs then st.reqs[r] else ReqData(0, 0, 0, 0)
  }

  /** nvme_update_cq_head: with a shadow doorbell, the head is whatever the host last stored there. */
  function RefreshHead(c: CQueue, mem: Shadow): CQueue
  {
    if c.dbAddr != 0 then c.(head := ShadowWord(mem, c.dbAddr)) else c
  }

  /** nvme_update_sq_tail. */
  function RefreshTail(s: SQueue, mem: Shadow): SQueue
  {
    if s.dbAddr != 0 then s.(tail := ShadowWord(mem, s.dbAddr)) else s
  }

  predicate Full(c: CQueue)
    requires c.size >= 1
  {
    Ring.CqFull(c.head, c.tail, c.size)
  }

  /**
   * The entry nvme_post_cqe writes for a request with data `d` of queue
   * `sqid`, whose head is `sqHead`, into a completion queue whose phase tag is `phase`: `(status << 1) |
   * phase` narrowed to 16 bits, and the submission queue's current head.
   */
  function CqeFor(d: ReqData, sqid: U16, sqHead: U16, phase: bool): Cqe
  {
    Cqe(d.result, sqHead, sqid, d.cid, (d.status * 2 + (if phase then 1 else 0)) % 0x1_0000)
  }

  /** The completion queue after an entry is written at its tail. */
  function Posted(c: CQueue, e: Cqe): CQueue
    requires CqWf(c)
  {
    var t := Ring.IncCqTail(c.tail, c.phase, c.size);
    c.(entries := c.entries[c.tail := e], tail := t.0, phase := t.1)
  }

  /**
   * nvme_post_cqe: write the entry at the tail, advance the tail (flipping
   * the phase on a wrap) and return the request to its queue's free list.
   */
  function PostCqe(st: QState, cqid: nat, r: Req): QState
    requires CqOk(st, cqid) && SqOk(st, r.sqid)
  {
    var s := st.sq[r.sqid];
    st.(cq := st.cq[cqid := Posted(st.cq[cqid], CqeFor(ReqOf(st, r), r.sqid, s.head, st.cq[cqid].phase))],
        sq := st.sq[r.sqid := s.(free := s.free + [r.slot])])
  }

  /** `QTAILQ_REMOVE`: the list without the first occurrence of `x`. */
  function Remove(xs: seq<nat>, x: nat): seq<nat>
    decreases |xs|
  {
    if xs == [] then []
    else if xs[0] == x then xs[1..]
    else [xs[0]] + Remove(xs[1..], x)
  }

  /** Bits 0-7 of the Interrupt Coalescing feature: the aggregation threshold. */
  function IntcThr(v: U32): U8
  {
    v % 0x100
  }

  /** Bits 8-15 of the Interrupt Coalescing feature: the aggregation time, in 100 microsecond units. */
  function IntcTime(v: U32): U8
  {
    (v / 0x100) % 0x100
  }

  /** Bit 16 of a vector's Interrupt Vector Configuration: coalescing disabled (0 for a vector beyond the table). */
  predicate CoalescingDisabled(f: Features, vector: nat)
  {
    vector < |f.intVectorConfig| && (f.intVectorConfig[vector] / 0x1_0000) % 2 == 1
  }

  /**
   * The interrupt decision of nvme_enqueue_req_completion. The threshold is
   * a `uint8_t` holding the 0's based field plus one, so a field of 255
   * makes it 0.
   */
  predicate Notify(f: Features, vector: nat, sqid: nat, status: U16, pending: int)
  {
    var timeNs := IntcTime(f.intCoalescing) * 100 * 1000;
    var thresh := (IntcThr(f.intCoalescing) + 1) % 0x100;
    CoalescingDisabled(f, vector) || sqid == 0 || timeNs == 0 || status != SUCCESS || pending >= thresh
  }

  /**
   * nvme_enqueue_req_completion for request `r` of a submission queue that
   * completes into `cqid`: the request leaves `out_req_list`; it joins the
   * backlog when the queue is full (after refreshing its head) or already
   * has a backlog; otherwise it is posted and the interrupt decision made.
   */
  function Enqueue(st: QState, f: Features, mem: Shadow, cqid: nat, r: Req): QState
    requires CqOk(st, cqid) && SqOk(st, r.sqid) && st.sq[r.sqid].cqid == cqid
  {
    var s := st.sq[r.sqid];
    var st1 := st.(sq := st.sq[r.sqid := s.(out := Remove(s.out, r.slot))]);
    var c := RefreshHead(st.cq[cqid], mem);
    if Full(c) || c.backlog != [] then st1.(cq := st1.cq[cqid := c.(backlog := c.backlog + [r])])
    else Interrupt(PostCqe(st1.(cq := st1.cq[cqid := c]), cqid, r), f, cqid, r.sqid, ReqOf(st, r).status)
  }

  /**
   * After posting a completion of submission queue `sqid` with `status`:
   * either raise the interrupt, cancelling a pending coalescing timer, or
   * arm the coalescing timer unless it is already pending.
   */
  function Interrupt(st: QState, f: Features, cqid: nat, sqid: nat, status: U16): (st': QState)
    requires cqid in st.cq
    ensures st'.sq == st.sq && st'.reqs == st.reqs && st'.cq.Keys == st.cq.Keys
    ensures forall c :: c in st.cq && c != cqid ==> st'.cq[c] == st.cq[c]
    ensures var c := st.cq[cqid];
      var notify := Notify(f, c.vector, sqid, status, Ring.CqesPending(c.head, c.tail, c.size));
      st'.cq[cqid] == c.(timerPending := !notify)
      && |st.effects| <= |st'.effects| && st'.effects[..|st.effects|] == st.effects
      && (IrqAssert(cqid) in st'.effects[|st.effects|..] <==> notify)
  {
    var c := st.cq[cqid];
    if !Notify(f, c.vector, sqid, status, Ring.CqesPending(c.head, c.tail, c.size)) then
      if c.timerPending then st
      else st.(cq := st.cq[cqid := c.(timerPending := true)], effects := st.effects + [ArmCqTimer(cqid)])
    else if c.timerPending then
      st.(cq := st.cq[cqid := c.(timerPending := false)], effects := st.effects + [IrqAssert(cqid), CancelCqTimer(cqid)])
    else st.(effects := st.effects + [IrqAssert(cqid)])
  }

  /** One step of the loop of nvme_post_cqes: the front of the backlog is posted. */
  function DrainStep(st: QState, mem: Shadow, cqid: nat): (st': QState)
    requires CqOk(st, cqid) && BacklogOk(st, cqid) && st.cq[cqid].backlog != []
    ensures CqOk(st', cqid) && BacklogOk(st', cqid) && st'.cq[cqid].backlog == st.cq[cqid].backlog[1..]
    ensures SameCq(st.cq[cqid], st'.cq[cqid])
    ensures (st'.cq[cqid].tail, st'.cq[cqid].phase) == Ring.IncCqTail(st.cq[cqid].tail, st.cq[cqid].phase, st.cq[cqid].size)
  {
    var c := st.cq[cqid];
    var st1 := Popped(st, mem, cqid);
    assert forall i :: 0 <= i < |st1.cq[cqid].backlog| ==> st1.cq[cqid].backlog[i] == c.backlog[i + 1];
    PostCqe(st1, cqid, c.backlog[0])
  }

  /** The state after the front of the backlog of `cqid` is taken off, the head refreshed. */
  function Popped(st: QState, mem: Shadow, cqid: nat): QState
    requires cqid in st.cq && st.cq[cqid].backlog != []
  {
    st.(cq := st.cq[cqid := RefreshHead(st.cq[cqid], mem).(backlog := st.cq[cqid].backlog[1..])])
  }

  /**
   * The loop of nvme_post_cqes: post backlog entries from the front until the
   * backlog is empty or the queue (its head refreshed) is full.
   */
  function Drain(st: QState, mem: Shadow, cqid: nat): (st': QState)
    requires CqOk(st, cqid) && BacklogOk(st, cqid)
    ensures CqOk(st', cqid) && SameCq(st.cq[cqid], st'.cq[cqid])
    decreases |st.cq[cqid].backlog|
  {
    var c := st.cq[cqid];
    if c.backlog == [] then st
    else
      var c1 := RefreshHead(c, mem);
      if Full(c1) then st.(cq := st.cq[cqid := c1])
      else Drain(DrainStep(st, mem, cqid), mem, cqid)
  }

  /** nvme_post_cqes: drain the backlog, then raise the queue's interrupt. */
  function PostBacklog(st: QState, mem: Shadow, cqid: nat): QState
    requires CqOk(st, cqid) && BacklogOk(st, cqid)
  {
    var d := Drain(st, mem, cqid);
    d.(effects := d.effects + [IrqAssert(cqid)])
  }

  lemma {:induction false} KeepsTrans(a: QState, b: QState, c: QState)
    requires Keeps(a, b) && Keeps(b, c)
    ensures Keeps(a, c)
  {
  }

  /** Posting a completion changes no queue's identity, size or links. */
  lemma {:induction false} PostCqeKeeps(st: QState, cqid: nat, r: Req)
    requires CqOk(st, cqid) && SqOk(st, r.sqid)
    ensures Keeps(st, PostCqe(st, cqid, r))
  {
  }

  lemma {:induction false} InterruptKeeps(st: QState, f: Features, cqid: nat, sqid: nat, status: U16)
    requires cqid in st.cq
    ensures Keeps(st, Interrupt(st, f, cqid, sqid, status))
  {
  }

  lemma {:induction false} EnqueueKeeps(st: QState, f: Features, mem: Shadow, cqid: nat, r: Req)
    requires CqOk(st, cqid) && SqOk(st, r.sqid) && st.sq[r.sqid].cqid == cqid
    ensures Keeps(st, Enqueue(st, f, mem, cqid, r))
  {
    var s := st.sq[r.sqid];
    var st1 := st.(sq := st.sq[r.sqid := s.(out := Remove(s.out, r.slot))]);
    var c := RefreshHead(st.cq[cqid], mem);
    assert Keeps(st, st1);
    if !(Full(c) || c.backlog != []) {
      var st2 := st1.(cq := st1.cq[cqid := c]);
      assert Keeps(st1, st2);
      PostCqeKeeps(st2, cqid, r);
      var st3 := PostCqe(st2, cqid, r);
      InterruptKeeps(st3, f, cqid, r.sqid, ReqOf(st, r).status);
      KeepsTrans(st1, st2, st3);
      KeepsTrans(st, st1, st3);
      KeepsTrans(st, st3, Interrupt(st3, f, cqid, r.sqid, ReqOf(st, r).status));
    }
  }

  /**
   * One iteration of the loop of nvme_process_sq: read the entry at the
   * head and advance the head; an aborted entry is skipped; otherwise the
   * first free request moves to `out_req_list`, takes the command's
   * identifier and opcode (its completion result cleared), and is executed;
   * a command that completes at once has its status recorded and its
   * completion enqueued. `exec` stands for nvme_admin_cmd or nvme_io_cmd.
   */
  function FetchOne(st: QState, f: Features, mem: Shadow, sqid: nat, ring: seq<Cmd>, exec: Cmd -> U16): (st': QState)
    requires SqOk(st, sqid) && CqOk(st, st.sq[sqid].cqid) && |ring| == st.sq[sqid].size && st.sq[sqid].free != []
    ensures Keeps(st, st')
    ensures st'.sq[sqid].head == Ring.IncSqHead(st.sq[sqid].head, st.sq[sqid].size)
    ensures st'.sq[sqid].tail == st.sq[sqid].tail && st'.sq[sqid].completed == st.sq[sqid].completed
    ensures st'.sq[sqid].size == st.sq[sqid].size
  {
    var s := st.sq[sqid];
    var cmd := ring[s.head];
    var st0 := st.(sq := st.sq[sqid := s.(head := Ring.IncSqHead(s.head, s.size))]);
    if cmd.opcode == OP_ABORTED then st0
    else
      var status := exec(cmd);
      var st1 := Taken(st0, sqid, cmd, status);
      assert Keeps(st, st1);
      if status == NO_COMPLETE then st1
      else
        var r := Req(sqid, s.free[0]);
        EnqueueKeeps(st1, f, mem, s.cqid, r);
        EnqueueSqIndices(st1, f, mem, s.cqid, r);
        KeepsTrans(st, st1, Enqueue(st1, f, mem, s.cqid, r));
        Enqueue(st1, f, mem, s.cqid, r)
  }

  /**
   * The first free request of `sqid` moves to `out_req_list` and is set up
   * for `cmd`; a command that completes at once leaves its status in it,
   * while one that completes later keeps the request's earlier status.
   */
  function Taken(st: QState, sqid: nat, cmd: Cmd, status: U16): (st': QState)
    requires sqid in st.sq && st.sq[sqid].free != []
    ensures Keeps(st, st')
    ensures st'.sq[sqid] == st.sq[sqid].(free := st.sq[sqid].free[1..], out := st.sq[sqid].out + [st.sq[sqid].free[0]])
    ensures st'.cq == st.cq && st'.effects == st.effects
    ensures ReqOf(st', Req(sqid, st.sq[sqid].free[0])).opcode == cmd.opcode
    ensures status != NO_COMPLETE ==> ReqOf(st', Req(sqid, st.sq[sqid].free[0])).status == status
  {
    var s := st.sq[sqid];
    var r := Req(sqid, s.free[0]);
    var d := ReqData(if status == NO_COMPLETE then ReqOf(st, r).status else status, cmd.cid, cmd.opcode, 0);
    st.(sq := st.sq[sqid := s.(free := s.free[1..], out := s.out + [r.slot])], reqs := st.reqs[r := d])
  }

  /**
   * The loop of nvme_process_sq once `processed` entries have been counted:
   * it runs while the queue is not empty and a request is free, and
   * `processed++ < burst` admits it. The count is bumped by that test
   * itself, so a loop ended by the burst counts one more than it fetched.
   * The count ends between `processed` and one past the burst, the tail
   * stays, and unless the burst ran out the loop stopped on an empty queue or
   * an empty free list.
   */
  function Burst(st: QState, f: Features, mem: Shadow, sqid: nat, ring: seq<Cmd>, exec: Cmd -> U16, processed: nat, burst: nat): (r: (QState, nat))
    requires SqOk(st, sqid) && CqOk(st, st.sq[sqid].cqid) && |ring| == st.sq[sqid].size
    ensures Keeps(st, r.0)
    ensures processed <= r.1 && (processed <= burst ==> r.1 <= burst + 1)
    ensures r.0.sq[sqid].tail == st.sq[sqid].tail && r.0.sq[sqid].completed == st.sq[sqid].completed
    ensures r.1 <= burst ==> Ring.SqEmpty(r.0.sq[sqid].head, r.0.sq[sqid].tail) || r.0.sq[sqid].free == []
    decreases burst - processed, 1
  {
    var s := st.sq[sqid];
    if Ring.SqEmpty(s.head, s.tail) || s.free == [] then (st, processed)
    else if processed >= burst then (st, processed + 1)
    else BurstBody(st, f, mem, sqid, ring, exec, processed, burst)
  }

  /** The body of that loop: fetch one entry, then test again. */
  function BurstBody(st: QState, f: Features, mem: Shadow, sqid: nat, ring: seq<Cmd>, exec: Cmd -> U16, processed: nat, burst: nat): (r: (QState, nat))
    requires SqOk(st, sqid) && CqOk(st, st.sq[sqid].cqid) && |ring| == st.sq[sqid].size
    requires !(Ring.SqEmpty(st.sq[sqid].head, st.sq[sqid].tail) || st.sq[sqid].free == []) && processed < burst
    ensures Keeps(st, r.0)
    ensures processed < r.1 <= burst + 1
    ensures r.0.sq[sqid].tail == st.sq[sqid].tail && r.0.sq[sqid].completed == st.sq[sqid].completed
    ensures r.1 <= burst ==> Ring.SqEmpty(r.0.sq[sqid].head, r.0.sq[sqid].tail) || r.0.sq[sqid].free == []
    decreases burst - processed, 0
  {
    var st1 := FetchOne(st, f, mem, sqid, ring, exec);
    var r := Burst(st1, f, mem, sqid, ring, exec, processed + 1, burst);
    KeepsTrans(st, st1, r.0);
    r
  }

  function Process(st: QState, f: Features, mem: Shadow, sqid: nat, ring: seq<Cmd>, exec: Cmd -> U16): QState
    requires SqOk(st, sqid) && CqOk(st, st.sq[sqid].cqid) && |ring| == st.sq[sqid].size
  {
    var r := Burst(Refreshed(st, mem, sqid), f, mem, sqid, ring, exec, 0, st.sq[sqid].arbBurst);
    Finish(r.0, mem, sqid, r.1)
  }

  /** The tables with nvme_update_sq_tail applied to queue `sqid`. */
  function Refreshed(st: QState, mem: Shadow, sqid: nat): (st': QState)
    requires sqid in st.sq
    ensures Keeps(st, st') && st'.cq == st.cq && st'.sq[sqid].head == st.sq[sqid].head
    ensures st'.sq[sqid].completed == st.sq[sqid].completed && st'.sq[sqid].size == st.sq[sqid].size
  {
    st.(sq := st.sq[sqid := RefreshTail(st.sq[sqid], mem)])
  }

  /**
   * The end of nvme_process_sq: publish the tail as the event index, refresh
   * the tail, add the loop's count to `completed`, and re-arm the queue's
   * timer if entries remain.
   */
  function Finish(st: QState, mem: Shadow, sqid: nat, processed: nat): (st': QState)
    requires sqid in st.sq
    ensures Keeps(st, st') && st'.cq == st.cq && st'.sq[sqid].head == st.sq[sqid].head
    ensures st'.sq[sqid].completed == st.sq[sqid].completed + processed
  {
    var s := st.sq[sqid];
    var st1 := if s.eventIdxAddr != 0 then st.(effects := st.effects + [WriteEventIdx(s.eventIdxAddr, s.tail)]) else st;
    var s' := RefreshTail(s, mem).(completed := s.completed + processed);
    var st2 := st1.(sq := st1.sq[sqid := s']);
    if Ring.SqEmpty(s'.head, s'.tail) then st2 else st2.(effects := st2.effects + [ArmSqTimer(sqid)])
  }

  // ----- The queue tables stay consistent -----

  /** Replacing a submission queue by one with the same identity, size and links keeps the tables consistent. */
  lemma {:induction false} WfSetSq(st: QState, id: nat, s: SQueue)
    requires Wf(st) && id in st.sq && SameSq(st.sq[id], s)
    ensures Wf(st.(sq := st.sq[id := s])) && Keeps(st, st.(sq := st.sq[id := s]))
  {
    var st' := st.(sq := st.sq[id := s]);
    forall c, i | c in st'.cq && 0 <= i < |st'.cq[c].backlog|
      ensures Owned(st'.sq, st'.cq[c].backlog[i], c)
    {
      assert Owned(st.sq, st.cq[c].backlog[i], c);
    }
  }

  /** Replacing a completion queue by one with the same identity and size whose backlog it owns. */
  lemma {:induction false} WfSetCq(st: QState, cqid: nat, c: CQueue)
    requires Wf(st) && cqid in st.cq && SameCq(st.cq[cqid], c)
    requires forall i :: 0 <= i < |c.backlog| ==> Owned(st.sq, c.backlog[i], cqid)
    ensures Wf(st.(cq := st.cq[cqid := c])) && Keeps(st, st.(cq := st.cq[cqid := c]))
  {
    var st' := st.(cq := st.cq[cqid := c]);
    forall c0, i | c0 in st'.cq && 0 <= i < |st'.cq[c0].backlog|
      ensures Owned(st'.sq, st'.cq[c0].backlog[i], c0)
    {
      if c0 != cqid {
        assert Owned(st.sq, st.cq[c0].backlog[i], c0);
      }
    }
  }

  /** The same, for a completion queue whose backlog is unchanged or has lost its first request. */
  lemma {:induction false} WfSetCqSuffix(st: QState, cqid: nat, c: CQueue, k: nat)
    requires Wf(st) && cqid in st.cq && SameCq(st.cq[cqid], c)
    requires k <= |st.cq[cqid].backlog| && c.backlog == st.cq[cqid].backlog[k..]
    ensures Wf(st.(cq := st.cq[cqid := c])) && Keeps(st, st.(cq := st.cq[cqid := c]))
  {
    forall i | 0 <= i < |c.backlog| ensures Owned(st.sq, c.backlog[i], cqid) {
      assert c.backlog[i] == st.cq[cqid].backlog[k + i];
    }
    WfSetCq(st, cqid, c);
  }

  lemma {:induction false} PostCqeWf(st: QState, cqid: nat, r: Req)
    requires Wf(st) && Owned(st.sq, r, cqid)
    ensures Wf(PostCqe(st, cqid, r))
  {
    var s := st.sq[r.sqid];
    var c := st.cq[cqid];
    var c' := Posted(c, CqeFor(ReqOf(st, r), r.sqid, s.head, c.phase));
    WfSetCqSuffix(st, cqid, c', 0);
    var st1 := st.(cq := st.cq[cqid := c']);
    WfSetSq(st1, r.sqid, s.(free := s.free + [r.slot]));
  }

  lemma {:induction false} InterruptWf(st: QState, f: Features, cqid: nat, sqid: nat, status: U16)
    requires Wf(st) && cqid in st.cq
    ensures Wf(Interrupt(st, f, cqid, sqid, status))
  {
    var c := st.cq[cqid];
    WfSetCqSuffix(st, cqid, c.(timerPending := true), 0);
    WfSetCqSuffix(st, cqid, c.(timerPending := false), 0);
  }

  lemma {:induction false} EnqueueWf(st: QState, f: Features, mem: Shadow, cqid: nat, r: Req)
    requires Wf(st) && Owned(st.sq, r, cqid)
    ensures Wf(Enqueue(st, f, mem, cqid, r))
  {
    var s := st.sq[r.sqid];
    var st1 := st.(sq := st.sq[r.sqid := s.(out := Remove(s.out, r.slot))]);
    WfSetSq(st, r.sqid, s.(out := Remove(s.out, r.slot)));
    var c := RefreshHead(st.cq[cqid], mem);
    if Full(c) || c.backlog != [] {
      var c' := c.(backlog := c.backlog + [r]);
      forall i | 0 <= i < |c'.backlog| ensures Owned(st1.sq, c'.backlog[i], cqid) {
        if i < |c.backlog| {
          assert c'.backlog[i] == st1.cq[cqid].backlog[i];
        }
      }
      WfSetCq(st1, cqid, c');
    } else {
      WfSetCqSuffix(st1, cqid, c, 0);
      var st2 := st1.(cq := st1.cq[cqid := c]);
      PostCqeWf(st2, cqid, r);
      InterruptWf(PostCqe(st2, cqid, r), f, cqid, r.sqid, ReqOf(st, r).status);
    }
  }

  lemma {:induction false} FetchOneWf(st: QState, f: Features, mem: Shadow, sqid: nat, ring: seq<Cmd>, exec: Cmd -> U16)
    requires Wf(st) && sqid in st.sq && |ring| == st.sq[sqid].size && st.sq[sqid].free != []
    ensures Wf(FetchOne(st, f, mem, sqid, ring, exec))
  {
    var s := st.sq[sqid];
    var cmd := ring[s.head];
    var s1 := s.(head := Ring.IncSqHead(s.head, s.size));
    WfSetSq(st, sqid, s1);
    var st0 := st.(sq := st.sq[sqid := s1]);
    if cmd.opcode != OP_ABORTED {
      var status := exec(cmd);
      var st1 := Taken(st0, sqid, cmd, status);
      WfSetSq(st0, sqid, st1.sq[sqid]);
      assert Wf(st1);
      if status != NO_COMPLETE {
        EnqueueWf(st1, f, mem, s.cqid, Req(sqid, s.free[0]));
      }
    }
  }

  lemma {:induction false} BurstWf(st: QState, f: Features, mem: Shadow, sqid: nat, ring: seq<Cmd>, exec: Cmd -> U16, processed: nat, burst: nat)
    requires Wf(st) && sqid in st.sq && |ring| == st.sq[sqid].size
    ensures Wf(Burst(st, f, mem, sqid, ring, exec, processed, burst).0)
    decreases burst - processed
  {
    var s := st.sq[sqid];
    if !(Ring.SqEmpty(s.head, s.tail) || s.free == []) && processed < burst {
      FetchOneWf(st, f, mem, sqid, ring, exec);
      BurstWf(FetchOne(st, f, mem, sqid, ring, exec), f, mem, sqid, ring, exec, processed + 1, burst);
    }
  }

  lemma {:induction false} DrainStepWf(st: QState, mem: Shadow, cqid: nat)
    requires Wf(st) && cqid in st.cq && st.cq[cqid].backlog != []
    ensures Wf(DrainStep(st, mem, cqid))
  {
    var c := st.cq[cqid];
    assert Owned(st.sq, c.backlog[0], cqid);
    WfSetCqSuffix(st, cqid, RefreshHead(c, mem).(backlog := c.backlog[1..]), 1);
    PostCqeWf(st.(cq := st.cq[cqid := RefreshHead(c, mem).(backlog := c.backlog[1..])]), cqid, c.backlog[0]);
  }

  lemma {:induction false} DrainWf(st: QState, mem: Shadow, cqid: nat)
    requires Wf(st) && cqid in st.cq
    ensures Wf(Drain(st, mem, cqid))
    decreases |st.cq[cqid].backlog|
  {
    var c := st.cq[cqid];
    if c.backlog != [] {
      var c1 := RefreshHead(c, mem);
      if Full(c1) {
        WfSetCqSuffix(st, cqid, c1, 0);
      } else {
        DrainStepWf(st, mem, cqid);
        DrainWf(DrainStep(st, mem, cqid), mem, cqid);
      }
    }
  }

  // ----- Requests are conserved -----

  /** The slots of the requests of submission queue `id` in a backlog, in order. */
  function SlotsOf(rs: seq<Req>, id: nat): seq<nat>
    decreases |rs|
  {
    if rs == [] then [] else (if rs[0].sqid == id then [rs[0].slot] else []) + SlotsOf(rs[1..], id)
  }

  lemma {:induction false} SlotsOfAppend(a: seq<Req>, b: seq<Req>, id: nat)
    ensures SlotsOf(a + b, id) == SlotsOf(a, id) + SlotsOf(b, id)
    decreases |a|
  {
    if a != [] {
      assert (a + b)[0] == a[0] && (a + b)[1..] == a[1..] + b;
      SlotsOfAppend(a[1..], b, id);
      var h := if a[0].sqid == id then [a[0].slot] else [];
      assert SlotsOf(a + b, id) == h + (SlotsOf(a[1..], id) + SlotsOf(b, id));
      assert h + (SlotsOf(a[1..], id) + SlotsOf(b, id)) == (h + SlotsOf(a[1..], id)) + SlotsOf(b, id);
    } else {
      assert a + b == b;
    }
  }

  /**
   * The requests of submission queue `id` the controller holds: free,
   * dispatched, or waiting in the backlog of the queue's completion queue.
   */
  function Held(st: QState, id: nat): multiset<nat>
  {
    if id in st.sq && st.sq[id].cqid in st.cq then
      multiset(st.sq[id].free) + multiset(st.sq[id].out) + multiset(SlotsOf(st.cq[st.sq[id].cqid].backlog, id))
    else multiset{}
  }

  lemma {:induction false} RemoveOne(xs: seq<nat>, x: nat)
    requires x in xs
    ensures multiset(Remove(xs, x)) + multiset{x} == multiset(xs)
    decreases |xs|
  {
    if xs[0] != x {
      assert xs == [xs[0]] + xs[1..];
      RemoveOne(xs[1..], x);
    } else {
      assert xs == [x] + xs[1..];
    }
  }

  lemma UnionAssoc(a: multiset<nat>, b: multiset<nat>, c: multiset<nat>)
    ensures a + (b + c) == (a + b) + c
  {
  }

  /** What is held depends only on the submission queues and the backlogs. */
  lemma {:induction false} HeldFrame(st: QState, st': QState, id: nat)
    requires st'.sq == st.sq && st'.cq.Keys == st.cq.Keys
    requires forall c :: c in st.cq ==> st'.cq[c].backlog == st.cq[c].backlog
    ensures Held(st', id) == Held(st, id)
  {
  }

  /** Posting returns the request to its queue's free list and leaves every other queue's requests alone. */
  lemma {:induction false} PostCqeHeld(st: QState, cqid: nat, r: Req, id: nat)
    requires CqOk(st, cqid) && SqOk(st, r.sqid) && Owned(st.sq, r, cqid)
    ensures Held(PostCqe(st, cqid, r), id) == Held(st, id) + (if id == r.sqid then multiset{r.slot} else multiset{})
  {
    var s := st.sq[r.sqid];
    var c' := Posted(st.cq[cqid], CqeFor(ReqOf(st, r), r.sqid, s.head, st.cq[cqid].phase));
    var stA := st.(cq := st.cq[cqid := c']);
    assert Held(stA, id) == Held(st, id) by {
      HeldFrame(st, stA, id);
    }
    var s' := s.(free := s.free + [r.slot]);
    assert Held(stA.(sq := stA.sq[r.sqid := s']), id) == Held(stA, id) + (if id == r.sqid then multiset{r.slot} else multiset{}) by {
      SetSqHeld(stA, r.sqid, s', id);
    }
    assert PostCqe(st, cqid, r) == stA.(sq := stA.sq[r.sqid := s']);
  }

  /** The interrupt decision touches no request. */
  lemma {:induction false} InterruptHeld(st: QState, f: Features, cqid: nat, sqid: nat, status: U16, id: nat)
    requires cqid in st.cq
    ensures Held(Interrupt(st, f, cqid, sqid, status), id) == Held(st, id)
  {
    HeldFrame(st, Interrupt(st, f, cqid, sqid, status), id);
  }

  /** Pool and backlog of submission queue `id`. */
  function Pool(s: SQueue): multiset<nat>
  {
    multiset(s.free) + multiset(s.out)
  }

  /** Replacing submission queue `k` by one with the same completion queue changes only its own pool. */
  lemma {:induction false} SetSqHeld(st: QState, k: nat, s': SQueue, id: nat)
    requires k in st.sq && st.sq[k].cqid in st.cq && s'.cqid == st.sq[k].cqid
    ensures Held(st.(sq := st.sq[k := s']), id)
         == if id == k then Pool(s') + multiset(SlotsOf(st.cq[s'.cqid].backlog, id)) else Held(st, id)
  {
  }

  /** Replacing the backlog of completion queue `cqid` changes what is held only through that backlog. */
  lemma {:induction false} SetCqHeld(st: QState, cqid: nat, c: CQueue, id: nat)
    requires cqid in st.cq
    ensures id in st.sq && st.sq[id].cqid == cqid ==>
      Held(st.(cq := st.cq[cqid := c]), id) == Pool(st.sq[id]) + multiset(SlotsOf(c.backlog, id))
    ensures !(id in st.sq && st.sq[id].cqid == cqid) ==> Held(st.(cq := st.cq[cqid := c]), id) == Held(st, id)
  {
  }

  /**
   * nvme_enqueue_req_completion loses and duplicates no request: the
   * request leaves `out_req_list` and either joins the backlog or, posted,
   * the free list.
   */
  lemma {:induction false} EnqueueHeld(st: QState, f: Features, mem: Shadow, cqid: nat, r: Req, id: nat)
    requires CqOk(st, cqid) && SqOk(st, r.sqid) && st.sq[r.sqid].cqid == cqid && r.slot in st.sq[r.sqid].out
    ensures Held(Enqueue(st, f, mem, cqid, r), id) == Held(st, id)
  {
    var c := RefreshHead(st.cq[cqid], mem);
    if Full(c) || c.backlog != [] {
      EnqueueBackloggedHeld(st, f, mem, cqid, r, id);
    } else {
      EnqueuePostedHeld(st, f, mem, cqid, r, id);
    }
  }

  /** The request after it has left `out_req_list`. */
  function Dispatched(st: QState, r: Req): QState
    requires r.sqid in st.sq
  {
    st.(sq := st.sq[r.sqid := st.sq[r.sqid].(out := Remove(st.sq[r.sqid].out, r.slot))])
  }

  lemma {:induction false} DispatchedHeld(st: QState, r: Req, id: nat)
    requires r.sqid in st.sq && st.sq[r.sqid].cqid in st.cq && r.slot in st.sq[r.sqid].out
    ensures Held(Dispatched(st, r), id) + (if id == r.sqid then multiset{r.slot} else multiset{}) == Held(st, id)
  {
    var s := st.sq[r.sqid];
    var s' := s.(out := Remove(s.out, r.slot));
    SetSqHeld(st, r.sqid, s', id);
    RemoveOne(s.out, r.slot);
    if id == r.sqid {
      assert Pool(s') + multiset{r.slot} == Pool(s);
    }
  }

  lemma {:induction false} EnqueueBackloggedHeld(st: QState, f: Features, mem: Shadow, cqid: nat, r: Req, id: nat)
    requires CqOk(st, cqid) && SqOk(st, r.sqid) && st.sq[r.sqid].cqid == cqid && r.slot in st.sq[r.sqid].out
    requires var c := RefreshHead(st.cq[cqid], mem); Full(c) || c.backlog != []
    ensures Held(Enqueue(st, f, mem, cqid, r), id) == Held(st, id)
  {
    var st1 := Dispatched(st, r);
    var c := RefreshHead(st.cq[cqid], mem);
    DispatchedHeld(st, r, id);
    EnqueueBacklogHeld(st1, cqid, c.(backlog := c.backlog + [r]), r, id);
    assert Enqueue(st, f, mem, cqid, r) == st1.(cq := st1.cq[cqid := c.(backlog := c.backlog + [r])]);
  }

  lemma {:induction false} EnqueuePostedHeld(st: QState, f: Features, mem: Shadow, cqid: nat, r: Req, id: nat)
    requires CqOk(st, cqid) && SqOk(st, r.sqid) && st.sq[r.sqid].cqid == cqid && r.slot in st.sq[r.sqid].out
    requires var c := RefreshHead(st.cq[cqid], mem); !(Full(c) || c.backlog != [])
    ensures Held(Enqueue(st, f, mem, cqid, r), id) == Held(st, id)
  {
    var st1 := Dispatched(st, r);
    var c := RefreshHead(st.cq[cqid], mem);
    var st2 := st1.(cq := st1.cq[cqid := c]);
    DispatchedHeld(st, r, id);
    HeldFrame(st1, st2, id);
    PostCqeHeld(st2, cqid, r, id);
    var st3 := PostCqe(st2, cqid, r);
    InterruptHeld(st3, f, cqid, r.sqid, ReqOf(st, r).status, id);
    assert Enqueue(st, f, mem, cqid, r) == Interrupt(st3, f, cqid, r.sqid, ReqOf(st, r).status);
  }

  /** A request appended to the backlog of its queue's completion queue is held there. */
  lemma {:induction false} EnqueueBacklogHeld(st1: QState, cqid: nat, c: CQueue, r: Req, id: nat)
    requires cqid in st1.cq && r.sqid in st1.sq && st1.sq[r.sqid].cqid == cqid
    requires c.backlog == st1.cq[cqid].backlog + [r]
    ensures Held(st1.(cq := st1.cq[cqid := c]), id) == Held(st1, id) + (if id == r.sqid then multiset{r.slot} else multiset{})
  {
    SetCqHeld(st1, cqid, c, id);
    if id in st1.sq && st1.sq[id].cqid == cqid {
      AppendSlots(st1.cq[cqid].backlog, r, id);
    }
  }

  /** The slots of queue `id` in a backlog with one more request. */
  lemma {:induction false} AppendSlots(b: seq<Req>, r: Req, id: nat)
    ensures multiset(SlotsOf(b + [r], id)) == multiset(SlotsOf(b, id)) + (if id == r.sqid then multiset{r.slot} else multiset{})
  {
    SlotsOfAppend(b, [r], id);
    assert SlotsOf([r], id) == (if id == r.sqid then [r.slot] else []) by {
      assert [r][1..] == [];
    }
  }

  /** Fetching one entry moves at most one request, from the free list to `out_req_list`, and enqueues its completion. */
  lemma {:induction false} FetchOneHeld(st: QState, f: Features, mem: Shadow, sqid: nat, ring: seq<Cmd>, exec: Cmd -> U16, id: nat)
    requires SqOk(st, sqid) && CqOk(st, st.sq[sqid].cqid) && |ring| == st.sq[sqid].size && st.sq[sqid].free != []
    ensures Held(FetchOne(st, f, mem, sqid, ring, exec), id) == Held(st, id)
  {
    var s := st.sq[sqid];
    var cmd := ring[s.head];
    var st0 := st.(sq := st.sq[sqid := s.(head := Ring.IncSqHead(s.head, s.size))]);
    if cmd.opcode != OP_ABORTED {
      var status := exec(cmd);
      var st1 := Taken(st0, sqid, cmd, status);
      assert Held(st0, id) == Held(st, id);
      TakenHeld(st0, sqid, cmd, status, id);
      if status != NO_COMPLETE {
        EnqueueHeld(st1, f, mem, s.cqid, Req(sqid, s.free[0]), id);
      }
    }
  }

  /**
   * What one fetch does to the queue it reads: the head always advances.
   * An aborted entry is skipped, nothing else changing. Otherwise the first
   * free request moves to `out_req_list` and takes the command's opcode; a
   * command that completes later leaves it there with the completion queues
   * and effects untouched, while one that completes at once has its status
   * recorded and leaves `out_req_list` again, back to the free list when
   * its completion is posted and onto the backlog when it must wait.
   */
  lemma {:induction false} FetchOneMoves(st: QState, f: Features, mem: Shadow, sqid: nat, ring: seq<Cmd>, exec: Cmd -> U16)
    requires SqOk(st, sqid) && CqOk(st, st.sq[sqid].cqid) && |ring| == st.sq[sqid].size && st.sq[sqid].free != []
    ensures var s := st.sq[sqid];
      var moved := s.(head := Ring.IncSqHead(s.head, s.size));
      ring[s.head].opcode == OP_ABORTED ==> FetchOne(st, f, mem, sqid, ring, exec) == st.(sq := st.sq[sqid := moved])
    ensures var s := st.sq[sqid];
      var cmd := ring[s.head];
      var st' := FetchOne(st, f, mem, sqid, ring, exec);
      cmd.opcode != OP_ABORTED && exec(cmd) == NO_COMPLETE ==>
        st'.sq[sqid] == s.(head := Ring.IncSqHead(s.head, s.size), free := s.free[1..], out := s.out + [s.free[0]])
        && st'.cq == st.cq && st'.effects == st.effects && ReqOf(st', Req(sqid, s.free[0])).opcode == cmd.opcode
    ensures var s := st.sq[sqid];
      var cmd := ring[s.head];
      var st' := FetchOne(st, f, mem, sqid, ring, exec);
      var c := RefreshHead(st.cq[s.cqid], mem);
      var posted := !(Full(c) || c.backlog != []);
      cmd.opcode != OP_ABORTED && exec(cmd) != NO_COMPLETE ==>
        st'.sq[sqid].head == Ring.IncSqHead(s.head, s.size)
        && st'.sq[sqid].out == Remove(s.out + [s.free[0]], s.free[0])
        && st'.sq[sqid].free == s.free[1..] + (if posted then [s.free[0]] else [])
        && ReqOf(st', Req(sqid, s.free[0])).status == exec(cmd)
        && ReqOf(st', Req(sqid, s.free[0])).opcode == cmd.opcode
        && st'.cq[s.cqid].backlog == (if posted then c.backlog else c.backlog + [Req(sqid, s.free[0])])
  {
    var s := st.sq[sqid];
    var cmd := ring[s.head];
    var st0 := st.(sq := st.sq[sqid := s.(head := Ring.IncSqHead(s.head, s.size))]);
    if cmd.opcode != OP_ABORTED && exec(cmd) != NO_COMPLETE {
      var st1 := Taken(st0, sqid, cmd, exec(cmd));
      EnqueueMoves(st1, f, mem, s.cqid, Req(sqid, s.free[0]));
    }
  }

  /**
   * nvme_enqueue_req_completion takes the request off `out_req_list`; a
   * posted request returns to its free list, a waiting one joins the end
   * of the backlog; request data is untouched.
   */
  lemma {:induction false} EnqueueMoves(st: QState, f: Features, mem: Shadow, cqid: nat, r: Req)
    requires CqOk(st, cqid) && SqOk(st, r.sqid) && st.sq[r.sqid].cqid == cqid
    ensures var s := st.sq[r.sqid];
      var c := RefreshHead(st.cq[cqid], mem);
      var posted := !(Full(c) || c.backlog != []);
      var st' := Enqueue(st, f, mem, cqid, r);
      st'.sq[r.sqid].head == s.head && st'.sq[r.sqid].out == Remove(s.out, r.slot)
      && st'.sq[r.sqid].free == s.free + (if posted then [r.slot] else [])
      && st'.reqs == st.reqs
      && st'.cq[cqid].backlog == (if posted then c.backlog else c.backlog + [r])
  {
  }

  /** Taking a request moves it from the free list to `out_req_list`. */
  lemma {:induction false} TakenHeld(st: QState, sqid: nat, cmd: Cmd, status: U16, id: nat)
    requires sqid in st.sq && st.sq[sqid].free != []
    ensures Held(Taken(st, sqid, cmd, status), id) == Held(st, id)
  {
    var s := st.sq[sqid];
    assert s.free == [s.free[0]] + s.free[1..];
    assert multiset(s.free) == multiset{s.free[0]} + multiset(s.free[1..]);
  }

  lemma {:induction false} BurstHeld(st: QState, f: Features, mem: Shadow, sqid: nat, ring: seq<Cmd>, exec: Cmd -> U16, processed: nat, burst: nat, id: nat)
    requires SqOk(st, sqid) && CqOk(st, st.sq[sqid].cqid) && |ring| == st.sq[sqid].size
    ensures Held(Burst(st, f, mem, sqid, ring, exec, processed, burst).0, id) == Held(st, id)
    decreases burst - processed
  {
    var s := st.sq[sqid];
    if !(Ring.SqEmpty(s.head, s.tail) || s.free == []) && processed < burst {
      var st1 := FetchOne(st, f, mem, sqid, ring, exec);
      FetchOneHeld(st, f, mem, sqid, ring, exec, id);
      BurstHeld(st1, f, mem, sqid, ring, exec, processed + 1, burst, id);
    }
  }

  /** Each step of the drain loop moves the front request from the backlog to its queue's free list. */
  lemma {:induction false} DrainStepHeld(st: QState, mem: Shadow, cqid: nat, id: nat)
    requires Wf(st) && cqid in st.cq && st.cq[cqid].backlog != []
    ensures Held(DrainStep(st, mem, cqid), id) == Held(st, id)
  {
    var c := st.cq[cqid];
    var r := c.backlog[0];
    assert Owned(st.sq, r, cqid);
    var st1 := Popped(st, mem, cqid);
    PoppedHeld(st, mem, cqid, id);
    PostCqeHeld(st1, cqid, r, id);
    DrainStepIsPost(st, mem, cqid);
  }

  lemma {:induction false} DrainStepIsPost(st: QState, mem: Shadow, cqid: nat)
    requires CqOk(st, cqid) && BacklogOk(st, cqid) && st.cq[cqid].backlog != []
    ensures CqOk(Popped(st, mem, cqid), cqid) && SqOk(Popped(st, mem, cqid), st.cq[cqid].backlog[0].sqid)
    ensures DrainStep(st, mem, cqid) == PostCqe(Popped(st, mem, cqid), cqid, st.cq[cqid].backlog[0])
  {
  }

  lemma {:induction false} PoppedHeld(st: QState, mem: Shadow, cqid: nat, id: nat)
    requires cqid in st.cq && st.cq[cqid].backlog != [] && Owned(st.sq, st.cq[cqid].backlog[0], cqid)
    ensures var r := st.cq[cqid].backlog[0];
      Held(Popped(st, mem, cqid), id) + (if id == r.sqid then multiset{r.slot} else multiset{}) == Held(st, id)
  {
    var c := st.cq[cqid];
    var c' := RefreshHead(c, mem).(backlog := c.backlog[1..]);
    SetCqHeld(st, cqid, c', id);
    assert c.backlog == [c.backlog[0]] + c'.backlog;
    AppendSlotsFront(c.backlog[0], c'.backlog, id);
  }

  /** The slots of queue `id` in a backlog with one more request at its front. */
  lemma {:induction false} AppendSlotsFront(r: Req, b: seq<Req>, id: nat)
    ensures multiset(SlotsOf([r] + b, id)) == multiset(SlotsOf(b, id)) + (if id == r.sqid then multiset{r.slot} else multiset{})
  {
    assert ([r] + b)[0] == r && ([r] + b)[1..] == b;
  }

  lemma {:induction false} DrainHeld(st: QState, mem: Shadow, cqid: nat, id: nat)
    requires Wf(st) && cqid in st.cq
    ensures Held(Drain(st, mem, cqid), id) == Held(st, id)
    decreases |st.cq[cqid].backlog|
  {
    var c := st.cq[cqid];
    if c.backlog != [] {
      var c1 := RefreshHead(c, mem);
      if Full(c1) {
        HeldFrame(st, st.(cq := st.cq[cqid := c1]), id);
      } else {
        DrainStepWf(st, mem, cqid);
        DrainStepHeld(st, mem, cqid, id);
        DrainHeld(DrainStep(st, mem, cqid), mem, cqid, id);
      }
    }
  }

  // ----- What completion posting and queue processing do -----

  /** No submission queue's head, tail or completion count moves. */
  predicate SqIndicesKept(st: QState, st': QState)
  {
    forall id :: id in st.sq ==>
      id in st'.sq && st'.sq[id].head == st.sq[id].head && st'.sq[id].tail == st.sq[id].tail
      && st'.sq[id].completed == st.sq[id].completed
  }

  lemma {:induction false} EnqueueSqIndices(st: QState, f: Features, mem: Shadow, cqid: nat, r: Req)
    requires CqOk(st, cqid) && SqOk(st, r.sqid) && st.sq[r.sqid].cqid == cqid
    ensures SqIndicesKept(st, Enqueue(st, f, mem, cqid, r))
  {
  }

  /**
   * nvme_post_cqe writes the request's completion at the old tail: bit 0 of
   * its status field is the queue's phase tag and bits 1-15 the request's
   * status, and it carries the command identifier, the submission queue id
   * and that queue's current head. No other entry changes, the tail moves one
   * slot on, and the request's slot returns to the back of its free list.
   */
  lemma {:induction false} PostCqeEntry(st: QState, cqid: nat, r: Req)
    requires CqOk(st, cqid) && SqOk(st, r.sqid)
    ensures var c, c' := st.cq[cqid], PostCqe(st, cqid, r).cq[cqid];
      var e := c'.entries[c.tail];
      |c'.entries| == c.size
      && e.status % 2 == (if c.phase then 1 else 0) && e.status / 2 == ReqOf(st, r).status % 0x8000
      && e.cid == ReqOf(st, r).cid && e.result == ReqOf(st, r).result
      && e.sqid == r.sqid && e.sqHead == st.sq[r.sqid].head
      && (forall i :: 0 <= i < c.size && i != c.tail ==> c'.entries[i] == c.entries[i])
      && c'.tail == (c.tail + 1) % c.size && c'.backlog == c.backlog
    ensures PostCqe(st, cqid, r).sq[r.sqid].free == st.sq[r.sqid].free + [r.slot]
  {
    var d := ReqOf(st, r);
    var p := if st.cq[cqid].phase then 1 else 0;
    var q, b := d.status / 0x8000, d.status % 0x8000;
    assert d.status * 2 + p == q * 0x1_0000 + (b * 2 + p);
    DivModUnique(d.status * 2 + p, 0x1_0000, q, b * 2 + p);
    DivModUnique(b * 2 + p, 2, b, p);
  }

  /**
   * nvme_enqueue_req_completion posts the completion at once exactly when
   * the completion queue, its head refreshed, is not full and has no
   * backlog; the entry is then the request's completion at the old tail.
   * Otherwise the request joins the back of the backlog and no entry is
   * written.
   */
  lemma {:induction false} EnqueuePostsIff(st: QState, f: Features, mem: Shadow, cqid: nat, r: Req)
    requires CqOk(st, cqid) && SqOk(st, r.sqid) && st.sq[r.sqid].cqid == cqid
    ensures cqid in Enqueue(st, f, mem, cqid, r).cq
    ensures var c, c' := RefreshHead(st.cq[cqid], mem), Enqueue(st, f, mem, cqid, r).cq[cqid];
      (c'.tail != c.tail <==> !Full(c) && c.backlog == [])
      && (c'.tail == c.tail ==> c'.backlog == c.backlog + [r] && c'.entries == c.entries)
      && (c'.tail != c.tail ==>
            c'.backlog == [] && |c'.entries| == c.size
            && c'.entries[c.tail] == CqeFor(ReqOf(st, r), r.sqid, st.sq[r.sqid].head, c.phase))
  {
    var c := RefreshHead(st.cq[cqid], mem);
    Ring.NextIndex(c.tail, c.size);
  }

  /**
   * nvme_post_cqes drains the backlog in FIFO order: what is left is a
   * suffix of the backlog, and the loop stopped only on an empty backlog or
   * a full queue.
   */
  lemma {:induction false} DrainFifo(st: QState, mem: Shadow, cqid: nat)
    requires CqOk(st, cqid) && BacklogOk(st, cqid)
    ensures var c, c' := st.cq[cqid], Drain(st, mem, cqid).cq[cqid];
      |c'.backlog| <= |c.backlog| && c'.backlog == c.backlog[|c.backlog| - |c'.backlog|..]
      && (c'.backlog == [] || Full(c'))
    decreases |st.cq[cqid].backlog|, 1
  {
    var c := st.cq[cqid];
    if c.backlog != [] && !Full(RefreshHead(c, mem)) {
      DrainFifoStep(st, mem, cqid);
    } else if c.backlog != [] {
      assert Drain(st, mem, cqid).cq[cqid] == RefreshHead(c, mem);
    }
  }

  /** The case of DrainFifo where the front request is posted. */
  lemma {:induction false} DrainFifoStep(st: QState, mem: Shadow, cqid: nat)
    requires CqOk(st, cqid) && BacklogOk(st, cqid)
    requires st.cq[cqid].backlog != [] && !Full(RefreshHead(st.cq[cqid], mem))
    ensures var c, c' := st.cq[cqid], Drain(st, mem, cqid).cq[cqid];
      |c'.backlog| <= |c.backlog| && c'.backlog == c.backlog[|c.backlog| - |c'.backlog|..]
      && (c'.backlog == [] || Full(c'))
    decreases |st.cq[cqid].backlog|, 0
  {
    var c := st.cq[cqid];
    var st1 := DrainStep(st, mem, cqid);
    assert Drain(st, mem, cqid) == Drain(st1, mem, cqid);
    DrainFifo(st1, mem, cqid);
    SuffixOfRest(c.backlog, Drain(st1, mem, cqid).cq[cqid].backlog);
  }

  /** A suffix of all but the first element is a suffix of the whole. */
  lemma {:induction false} SuffixOfRest<T>(s: seq<T>, t: seq<T>)
    requires s != [] && |t| <= |s| - 1 && t == s[1..][|s| - 1 - |t|..]
    ensures t == s[|s| - |t|..]
  {
    assert s[1..][|s| - 1 - |t|..] == s[|s| - |t|..];
  }

  /**
   * The tail and phase tag move one post for each request the drain posted;
   * Ring.AdvanceCqPosition gives them in closed form.
   */
  lemma {:induction false} DrainTail(st: QState, mem: Shadow, cqid: nat)
    requires CqOk(st, cqid) && BacklogOk(st, cqid)
    ensures var c, c' := st.cq[cqid], Drain(st, mem, cqid).cq[cqid];
      |c'.backlog| <= |c.backlog|
      && (c'.tail, c'.phase) == Ring.AdvanceCq(c.tail, c.phase, c.size, |c.backlog| - |c'.backlog|)
    decreases |st.cq[cqid].backlog|, 1
  {
    var c := st.cq[cqid];
    if c.backlog != [] && !Full(RefreshHead(c, mem)) {
      DrainTailStep(st, mem, cqid);
    }
  }

  /** The case of DrainTail where the front request is posted. */
  lemma {:induction false} DrainTailStep(st: QState, mem: Shadow, cqid: nat)
    requires CqOk(st, cqid) && BacklogOk(st, cqid)
    requires st.cq[cqid].backlog != [] && !Full(RefreshHead(st.cq[cqid], mem))
    ensures var c, c' := st.cq[cqid], Drain(st, mem, cqid).cq[cqid];
      |c'.backlog| <= |c.backlog|
      && (c'.tail, c'.phase) == Ring.AdvanceCq(c.tail, c.phase, c.size, |c.backlog| - |c'.backlog|)
    decreases |st.cq[cqid].backlog|, 0
  {
    var c := st.cq[cqid];
    var st1 := DrainStep(st, mem, cqid);
    assert Drain(st, mem, cqid) == Drain(st1, mem, cqid);
    DrainTail(st1, mem, cqid);
    var c1, c' := st1.cq[cqid], Drain(st1, mem, cqid).cq[cqid];
    TailStep(c.tail, c.phase, c.size, c1.tail, c1.phase, c'.tail, c'.phase, |c.backlog|, |c1.backlog|, |c'.backlog|);
  }

  /** One post and then `n1 - n2` more are `n - n2` posts, when one request went first. */
  lemma {:induction false} TailStep(t: nat, p: bool, size: nat, t1: nat, p1: bool, t2: nat, p2: bool, n: nat, n1: nat, n2: nat)
    requires t < size && (t1, p1) == Ring.IncCqTail(t, p, size) && n1 + 1 == n && n2 <= n1
    requires (t2, p2) == Ring.AdvanceCq(t1, p1, size, n1 - n2)
    ensures (t2, p2) == Ring.AdvanceCq(t, p, size, n - n2)
  {
    Ring.AdvanceCqFront(t, p, size, n1 - n2);
  }

  /**
   * The loop of nvme_process_sq moves the head one slot per entry it
   * fetches: a head `processed` slots past `h0` ends as many slots past it
   * as the loop's count, capped at the burst.
   */
  lemma {:induction false} BurstHead(st: QState, f: Features, mem: Shadow, sqid: nat, ring: seq<Cmd>, exec: Cmd -> U16, processed: nat, burst: nat, h0: nat)
    requires SqOk(st, sqid) && CqOk(st, st.sq[sqid].cqid) && |ring| == st.sq[sqid].size && processed <= burst
    requires h0 < st.sq[sqid].size && st.sq[sqid].head == Ring.AdvanceSq(h0, st.sq[sqid].size, processed)
    ensures var r := Burst(st, f, mem, sqid, ring, exec, processed, burst);
      r.0.sq[sqid].head == Ring.AdvanceSq(h0, st.sq[sqid].size, if r.1 > burst then burst else r.1)
    decreases burst - processed, 1
  {
    var s := st.sq[sqid];
    if !(Ring.SqEmpty(s.head, s.tail) || s.free == []) && processed < burst {
      BurstHeadStep(st, f, mem, sqid, ring, exec, processed, burst, h0);
    } else {
      BurstStop(st, f, mem, sqid, ring, exec, processed, burst);
      var n := if Ring.SqEmpty(s.head, s.tail) || s.free == [] then processed else processed + 1;
      assert (if n > burst then burst else n) == processed;
    }
  }

  /** The case of BurstHead where the loop fetches an entry. */
  lemma {:induction false} BurstHeadStep(st: QState, f: Features, mem: Shadow, sqid: nat, ring: seq<Cmd>, exec: Cmd -> U16, processed: nat, burst: nat, h0: nat)
    requires SqOk(st, sqid) && CqOk(st, st.sq[sqid].cqid) && |ring| == st.sq[sqid].size && processed < burst
    requires !(Ring.SqEmpty(st.sq[sqid].head, st.sq[sqid].tail) || st.sq[sqid].free == [])
    requires h0 < st.sq[sqid].size && st.sq[sqid].head == Ring.AdvanceSq(h0, st.sq[sqid].size, processed)
    ensures var r := Burst(st, f, mem, sqid, ring, exec, processed, burst);
      r.0.sq[sqid].head == Ring.AdvanceSq(h0, st.sq[sqid].size, if r.1 > burst then burst else r.1)
    decreases burst - processed, 0
  {
    var s := st.sq[sqid];
    var st1 := BurstNext(st, f, mem, sqid, ring, exec, processed, burst);
    Ring.AdvanceSqNext(h0, s.size, processed, s.head);
    BurstHead(st1, f, mem, sqid, ring, exec, processed + 1, burst, h0);
  }

  /** An iteration of the loop that runs: one fetch, then the rest of the loop. */
  lemma {:induction false} BurstStep(st: QState, f: Features, mem: Shadow, sqid: nat, ring: seq<Cmd>, exec: Cmd -> U16, processed: nat, burst: nat)
    requires SqOk(st, sqid) && CqOk(st, st.sq[sqid].cqid) && |ring| == st.sq[sqid].size && processed < burst
    requires !(Ring.SqEmpty(st.sq[sqid].head, st.sq[sqid].tail) || st.sq[sqid].free == [])
    ensures var st1 := FetchOne(st, f, mem, sqid, ring, exec);
      SqOk(st1, sqid) && CqOk(st1, st1.sq[sqid].cqid) && |ring| == st1.sq[sqid].size
      && Burst(st, f, mem, sqid, ring, exec, processed, burst) == Burst(st1, f, mem, sqid, ring, exec, processed + 1, burst)
  {
  }

  /** BurstStep, naming only what the fetch does to the queue's head and size. */
  lemma {:induction false} BurstNext(st: QState, f: Features, mem: Shadow, sqid: nat, ring: seq<Cmd>, exec: Cmd -> U16, processed: nat, burst: nat)
    returns (st1: QState)
    requires SqOk(st, sqid) && CqOk(st, st.sq[sqid].cqid) && |ring| == st.sq[sqid].size && processed < burst
    requires !(Ring.SqEmpty(st.sq[sqid].head, st.sq[sqid].tail) || st.sq[sqid].free == [])
    ensures SqOk(st1, sqid) && CqOk(st1, st1.sq[sqid].cqid) && |ring| == st1.sq[sqid].size
    ensures st1.sq[sqid].head == Ring.IncSqHead(st.sq[sqid].head, st.sq[sqid].size) && st1.sq[sqid].size == st.sq[sqid].size
    ensures Burst(st, f, mem, sqid, ring, exec, processed, burst) == Burst(st1, f, mem, sqid, ring, exec, processed + 1, burst)
  {
    st1 := FetchOne(st, f, mem, sqid, ring, exec);
    BurstStep(st, f, mem, sqid, ring, exec, processed, burst);
  }

  /** The loop ends on an empty queue or free list without counting, and on the burst with one count more. */
  lemma {:induction false} BurstStop(st: QState, f: Features, mem: Shadow, sqid: nat, ring: seq<Cmd>, exec: Cmd -> U16, processed: nat, burst: nat)
    requires SqOk(st, sqid) && CqOk(st, st.sq[sqid].cqid) && |ring| == st.sq[sqid].size
    requires Ring.SqEmpty(st.sq[sqid].head, st.sq[sqid].tail) || st.sq[sqid].free == [] || processed >= burst
    ensures Burst(st, f, mem, sqid, ring, exec, processed, burst)
      == (st, if Ring.SqEmpty(st.sq[sqid].head, st.sq[sqid].tail) || st.sq[sqid].free == [] then processed else processed + 1)
  {
  }

  /**
   * nvme_process_sq fetches at most `arb_burst` entries and moves the head
   * by exactly that many; `completed` grows by the loop's count, which is
   * one more than the entries fetched when the burst ran out.
   */
  lemma {:induction false} ProcessFetches(st: QState, f: Features, mem: Shadow, sqid: nat, ring: seq<Cmd>, exec: Cmd -> U16)
    requires SqOk(st, sqid) && CqOk(st, st.sq[sqid].cqid) && |ring| == st.sq[sqid].size
    ensures sqid in Process(st, f, mem, sqid, ring, exec).sq
    ensures var s, s' := st.sq[sqid], Process(st, f, mem, sqid, ring, exec).sq[sqid];
      var p := s'.completed - s.completed;
      0 <= p <= s.arbBurst + 1 && s'.head == Ring.AdvanceSq(s.head, s.size, if p > s.arbBurst then s.arbBurst else p)
  {
    var s, burst := st.sq[sqid], st.sq[sqid].arbBurst;
    var st0 := Refreshed(st, mem, sqid);
    var r := Burst(st0, f, mem, sqid, ring, exec, 0, burst);
    BurstHead(st0, f, mem, sqid, ring, exec, 0, burst, s.head);
    var s' := Process(st, f, mem, sqid, ring, exec).sq[sqid];
    assert s' == Finish(r.0, mem, sqid, r.1).sq[sqid];
    assert s'.head == r.0.sq[sqid].head && s'.completed == s.completed + r.1;
  }

  lemma {:induction false} ProcessWf(st: QState, f: Features, mem: Shadow, sqid: nat, ring: seq<Cmd>, exec: Cmd -> U16)
    requires Wf(st) && sqid in st.sq && |ring| == st.sq[sqid].size
    ensures Wf(Process(st, f, mem, sqid, ring, exec))
  {
    var st0 := Refreshed(st, mem, sqid);
    WfSetSq(st, sqid, RefreshTail(st.sq[sqid], mem));
    BurstWf(st0, f, mem, sqid, ring, exec, 0, st.sq[sqid].arbBurst);
    var r := Burst(st0, f, mem, sqid, ring, exec, 0, st.sq[sqid].arbBurst);
    FinishWf(r.0, mem, sqid, r.1);
  }

  lemma {:induction false} FinishWf(st: QState, mem: Shadow, sqid: nat, processed: nat)
    requires Wf(st) && sqid in st.sq
    ensures Wf(Finish(st, mem, sqid, processed))
  {
    var s := st.sq[sqid];
    var st1 := if s.eventIdxAddr != 0 then st.(effects := st.effects + [WriteEventIdx(s.eventIdxAddr, s.tail)]) else st;
    WfSetSq(st1, sqid, RefreshTail(s, mem).(completed := s.completed + processed));
  }

  /** nvme_process_sq loses and duplicates no request of any queue. */
  lemma {:induction false} ProcessHeld(st: QState, f: Features, mem: Shadow, sqid: nat, ring: seq<Cmd>, exec: Cmd -> U16, id: nat)
    requires SqOk(st, sqid) && CqOk(st, st.sq[sqid].cqid) && |ring| == st.sq[sqid].size
    ensures Held(Process(st, f, mem, sqid, ring, exec), id) == Held(st, id)
  {
    var st0 := Refreshed(st, mem, sqid);
    SetSqHeld(st, sqid, RefreshTail(st.sq[sqid], mem), id);
    BurstHeld(st0, f, mem, sqid, ring, exec, 0, st.sq[sqid].arbBurst, id);
    var r := Burst(st0, f, mem, sqid, ring, exec, 0, st.sq[sqid].arbBurst);
    FinishHeld(r.0, mem, sqid, r.1, id);
  }

  lemma {:induction false} FinishHeld(st: QState, mem: Shadow, sqid: nat, processed: nat, id: nat)
    requires sqid in st.sq && st.sq[sqid].cqid in st.cq
    ensures Held(Finish(st, mem, sqid, processed), id) == Held(st, id)
  {
    var s := st.sq[sqid];
    var s' := RefreshTail(s, mem).(completed := s.completed + processed);
    SetSqHeld(st, sqid, s', id);
    SameTablesHeld(Finish(st, mem, sqid, processed), st.(sq := st.sq[sqid := s']), id);
  }

  lemma {:induction false} SameTablesHeld(a: QState, b: QState, id: nat)
    requires a.sq == b.sq && a.cq == b.cq
    ensures Held(a, id) == Held(b, id)
  {
  }

}

=== FILE: ring.dfy ===
/**
 * Queue ring arithmetic (NVMe 1.2 sections 4.1 and 4.6).
 *
 * A queue of `size` entries is a ring: the producer writes at its tail, the
 * consumer reads at its head, and each index wraps to 0 after `size - 1`. A
 * completion queue also keeps the phase tag it writes into every entry; it
 * flips each time the tail wraps, so the host can tell new entries from old.
 */
module Ring {
  import opened Bits

  /** nvme_inc_cq_tail: the tail moves one slot, and wrapping to 0 flips the phase tag. */
  function IncCqTail(tail: nat, phase: bool, size: nat): (r: (nat, bool))
    requires tail < size
    ensures r.0 < size && r.0 == (tail + 1) % size
    ensures r.1 == (if r.0 == 0 then !phase else phase)
  {
    if tail + 1 >= size then (0, !phase) else (tail + 1, phase)
  }

  /** nvme_inc_sq_head. */
  function IncSqHead(head: nat, size: nat): (h: nat)
    requires size >= 1
    ensures h < size
  {
    (head + 1) % size
  }

  /** nvme_sq_empty. */
  predicate SqEmpty(head: nat, tail: nat)
  {
    head == tail
  }

  /** nvme_cq_full (after the head has been refreshed). */
  predicate CqFull(head: nat, tail: nat, size: nat)
    requires size >= 1
  {
    (tail + 1) % size == head
  }

  /** The entries between head and tail: those written and not yet consumed. */
  function Used(head: nat, tail: nat, size: nat): (u: nat)
    requires head < size && tail < size
    ensures u < size
  {
    if tail >= head then tail - head else size - head + tail
  }

  /**
   * nvme_cqes_pending as written: `head + (size - tail)` when the tail is
   * ahead of the head, otherwise `head - tail`, computed on the `uint32_t`
   * fields and returned as an `int`, so a difference of 2^31 or more reads
   * as negative.
   */
  function CqesPending(head: nat, tail: nat, size: nat): int
  {
    var u := (if tail > head then head + (size - tail) else head - tail) % 0x1_0000_0000;
    if u < 0x8000_0000 then u else u - 0x1_0000_0000
  }

  /**
   * A completion queue is empty exactly when its head and tail meet, and full
   * exactly when one entry short of its size is in use (one slot always stays
   * free, so that full and empty can be told apart).
   */
  lemma {:induction false} EmptyAndFull(head: nat, tail: nat, size: nat)
    requires head < size && tail < size
    ensures SqEmpty(head, tail) <==> Used(head, tail, size) == 0
    ensures CqFull(head, tail, size) <==> Used(head, tail, size) == size - 1
  {
    NextIndex(tail, size);
  }

  /**
   * Posting into a completion queue that is not full uses one more entry;
   * consuming from a submission queue that is not empty uses one fewer.
   */
  lemma {:induction false} IncUsesOneMore(head: nat, tail: nat, phase: bool, size: nat)
    requires head < size && tail < size && !CqFull(head, tail, size)
    ensures Used(head, IncCqTail(tail, phase, size).0, size) == Used(head, tail, size) + 1
  {
    NextIndex(tail, size);
  }

  lemma {:induction false} IncHeadUsesOneFewer(head: nat, tail: nat, size: nat)
    requires head < size && tail < size && !SqEmpty(head, tail)
    ensures Used(IncSqHead(head, size), tail, size) == Used(head, tail, size) - 1
  {
    NextIndex(head, size);
  }

  /** The slot after `i`. */
  lemma {:induction false} NextIndex(i: nat, size: nat)
    requires i < size
    ensures (i + 1) % size == if i + 1 == size then 0 else i + 1
  {
    if i + 1 == size {
      DivModUnique(i + 1, size, 1, 0);
    } else {
      DivModUnique(i + 1, size, 0, i + 1);
    }
  }

  /**
   * nvme_cqes_pending is not the number of entries in use: on a queue that
   * holds entries it is the number of free slots, and on an empty queue it is
   * 0 rather than the `size` free slots.
   */
  lemma {:induction false} PendingIsFreeSlots(head: nat, tail: nat, size: nat)
    requires head < size <= 0x8000_0000 && tail < size
    ensures head == tail ==> CqesPending(head, tail, size) == 0
    ensures head != tail ==> CqesPending(head, tail, size) == size - Used(head, tail, size)
  {
    var v := if tail > head then head + (size - tail) else head - tail;
    ModSmall(v, 0x1_0000_0000);
  }

  /**
   * A head read from a shadow doorbell is any 32-bit value: one at least
   * 2^31 past the tail gives a negative count, so no coalescing threshold
   * is ever reached.
   */
  lemma {:induction false} PendingNegative(head: U32, tail: nat, size: nat)
    requires tail < size && head >= tail + 0x8000_0000
    ensures CqesPending(head, tail, size) < 0
  {
    ModSmall(head - tail, 0x1_0000_0000);
  }

  /** The tail after `k` posts, counting wraps: the phase flips once per wrap. */
  function AdvanceCq(tail: nat, phase: bool, size: nat, k: nat): (r: (nat, bool))
    requires tail < size
    ensures r.0 < size
    decreases k
  {
    if k == 0 then (tail, phase)
    else
      var t := AdvanceCq(tail, phase, size, k - 1);
      IncCqTail(t.0, t.1, size)
  }

  /**
   * After `k` posts the tail is `k` slots on, and the phase tag has flipped
   * once for every wrap: it is the starting tag exactly when an even number of
   * wraps happened.
   */
  lemma {:induction false} AdvanceCqPosition(tail: nat, phase: bool, size: nat, k: nat)
    requires tail < size
    ensures AdvanceCq(tail, phase, size, k).0 == (tail + k) % size
    ensures AdvanceCq(tail, phase, size, k).1 == (if ((tail + k) / size) % 2 == 0 then phase else !phase)
    decreases k
  {
    if k > 0 {
      AdvanceCqPosition(tail, phase, size, k - 1);
      WrapStep(tail + k - 1, size);
    }
  }

  /** One more step either stays within a lap or starts the next one at slot 0. */
  lemma {:induction false} WrapStep(x: nat, size: nat)
    requires size >= 1
    ensures (x % size + 1 >= size) ==> (x + 1) % size == 0 && (x + 1) / size == x / size + 1
    ensures (x % size + 1 < size) ==> (x + 1) % size == x % size + 1 && (x + 1) / size == x / size
  {
    var q, r := x / size, x % size;
    assert x == q * size + r;
    if r + 1 >= size {
      assert x + 1 == (q + 1) * size + 0;
      DivModUnique(x + 1, size, q + 1, 0);
    } else {
      assert x + 1 == q * size + (r + 1);
      DivModUnique(x + 1, size, q, r + 1);
    }
  }

  /** `k + 1` posts are one post followed by `k` more. */
  lemma {:induction false} AdvanceCqFront(tail: nat, phase: bool, size: nat, k: nat)
    requires tail < size
    ensures var t := IncCqTail(tail, phase, size);
      AdvanceCq(tail, phase, size, k + 1) == AdvanceCq(t.0, t.1, size, k)
    decreases k
  {
    if k > 0 {
      AdvanceCqFront(tail, phase, size, k - 1);
    }
  }

  /** The head after `n` entries are consumed one slot at a time, wrapping after `size - 1`. */
  function AdvanceSq(head: nat, size: nat, n: nat): (h: nat)
    requires head < size
    ensures h < size
    decreases n
  {
    if n == 0 then head
    else
      var prev := AdvanceSq(head, size, n - 1);
      if prev + 1 == size then 0 else prev + 1
  }

  /** Consuming `n` entries moves the head `n` slots round the ring. */
  lemma {:induction false} AdvanceSqPosition(head: nat, size: nat, n: nat)
    requires head < size
    ensures AdvanceSq(head, size, n) == (head + n) % size
    decreases n
  {
    if n == 0 {
      ModSmall(head, size);
    } else {
      AdvanceSqPosition(head, size, n - 1);
      NextIndex(AdvanceSq(head, size, n - 1), size);
      ModAddLeft(head + (n - 1), 1, size);
    }
  }

  /** Consuming one more entry after `n` is nvme_inc_sq_head applied once more. */
  lemma {:induction false} AdvanceSqNext(head: nat, size: nat, n: nat, h: nat)
    requires head < size && h == AdvanceSq(head, size, n)
    ensures IncSqHead(h, size) == AdvanceSq(head, size, n + 1)
  {
    NextIndex(h, size);
  }
}

=== FILE: rw.dfy ===
/**
 * Admission of a read or write command (nvme_rw) on the Open-Channel
 * namespace: the request checks, the minimum write size, the chunk checks and
 * the write-pointer advance. What follows admission (metadata transfer, PRP
 * mapping, the backend call) is not part of this module.
 *
 * nvme_rw does not compare `slba + nlb` with the namespace size the way
 * nvme_write_zeros and nvme_dsm do. On this namespace `slba` is a packed
 * Open-Channel address, and the chunk checks bound the request instead: an
 * admitted write lies inside one existing chunk (RwWriteInChunk), hence
 * inside the namespace (RwWriteInNamespace), and a read outside every chunk
 * is answered with predefined data or refused.
 */
module Rw {
  import opened Bits
  import opened Status
  import opened LnvmAddr
  import opened Chunk

  datatype Admission = Refuse(status: U16) | Proceed(chunks: seq<ChunkDesc>, predefined: bool)

  /**
   * nvme_rw_check_req: a transfer larger than the page size times `2^mdts`
   * (when MDTS is set), or protection information asked of a namespace
   * formatted without it, is an invalid field. The page size is a
   * `uint32_t`, so the product is taken modulo 2^32.
   */
  function CheckReq(dataSize: nat, pageSize: nat, mdts: U8, pract: bool, dpsType: nat): (s: U16)
    ensures s == SUCCESS <==> (mdts == 0 || dataSize <= MdtsLimit(pageSize, mdts)) && (pract ==> dpsType != 0)
    ensures s != SUCCESS ==> s == WithDnr(INVALID_FIELD)
  {
    if mdts != 0 && dataSize > MdtsLimit(pageSize, mdts) then WithDnr(INVALID_FIELD)
    else if pract && dpsType == 0 then WithDnr(INVALID_FIELD)
    else SUCCESS
  }

  /** `n->page_size * (1 << mdts)`, computed in 32 bits. */
  function MdtsLimit(pageSize: nat, mdts: U8): U32
  {
    (pageSize * Pow2(mdts)) % 0x1_0000_0000
  }

  /** While the product fits in 32 bits the limit is the page size times `2^mdts`. */
  lemma {:induction false} CheckReqNoWrap(dataSize: nat, pageSize: nat, mdts: U8, pract: bool, dpsType: nat)
    requires pageSize * Pow2(mdts) < 0x1_0000_0000 && !pract
    ensures CheckReq(dataSize, pageSize, mdts, pract, dpsType) == SUCCESS <==> mdts == 0 || dataSize <= pageSize * Pow2(mdts)
  {
    ModSmall(pageSize * Pow2(mdts), 0x1_0000_0000);
  }

  /**
   * With 4 KiB pages and an MDTS of 20 the product is 2^32, which wraps to
   * 0: every transfer of at least one byte is refused.
   */
  lemma {:induction false} CheckReqMdtsWraps(dataSize: nat, pract: bool, dpsType: nat)
    requires dataSize > 0
    ensures CheckReq(dataSize, 4096, 20, pract, dpsType) == WithDnr(INVALID_FIELD)
  {
    assert Pow2(12) == 4096 by { assert Pow2(6) == 64; Pow2Add(6, 6); }
    Pow2Add(12, 20);
    Pow2_32();
  }

  /**
   * nvme_rw up to the data transfer, for `nlb` blocks (the command's 0-based
   * count plus one) at `slba`, given the result `req` of nvme_rw_check_req.
   * A write shorter than `ws_min` is an invalid field; then the chunk write
   * check decides; then the write pointer advances, and a refused advance is
   * an invalid field. A read the chunk check finds unreadable is refused with
   * DULB when DULBE is enabled, and otherwise served predefined data.
   */
  function RwAdmit(ln: Lnvm, chunks: seq<ChunkDesc>, req: U16, isWrite: bool, slba: U64, nlb: U32,
                   wsMin: nat, dulbe: bool, mwCunits: U32): Admission
    requires |chunks| == ln.totalChks && ln.Derived()
  {
    if req != SUCCESS then Refuse(req)
    else if isWrite then
      if nlb < wsMin then Refuse(WithDnr(INVALID_FIELD))
      else
        var st := CheckChunkWrite(ln, chunks, slba, nlb);
        if st != SUCCESS then Refuse(st)
        else
          var cno := LbaToChunkNo(ln, slba);
          match Advance(chunks[cno], nlb, ln.geo.secPerChk)
          case None => Refuse(WithDnr(INVALID_FIELD))
          case Some(c) => Proceed(chunks[cno := c], false)
    else
      var unreadable := CheckChunkRead(ln, chunks, slba, nlb, mwCunits) != 0;
      if unreadable && dulbe then Refuse(WithDnr(DULB))
      else Proceed(chunks, unreadable)
  }

  /**
   * An admitted write lies inside one existing chunk: it is at least
   * `ws_min` long, starts at the chunk's write pointer, ends within the
   * chunk's sector count, moves the write pointer to its end and changes no
   * other chunk. (Every valid address format has a sector field of at most
   * 31 bits.)
   */
  lemma {:induction false} RwWriteInChunk(ln: Lnvm, chunks: seq<ChunkDesc>, req: U16, slba: U64, nlb: U32,
                                          wsMin: nat, dulbe: bool, mwCunits: U32)
    requires |chunks| == ln.totalChks && ln.Derived() && ln.lbaf.secLen <= 31 && nlb <= 0x1_0000
    requires RwAdmit(ln, chunks, req, true, slba, nlb, wsMin, dulbe, mwCunits).Proceed?
    ensures var cno := LbaToChunkNo(ln, slba);
      var a := RwAdmit(ln, chunks, req, true, slba, nlb, wsMin, dulbe, mwCunits);
      req == SUCCESS && nlb >= wsMin && 0 <= cno < |chunks|
      && StartSector(ln, slba) == chunks[cno].wp
      && StartSector(ln, slba) + nlb <= chunks[cno].cnlb
      && |a.chunks| == |chunks| && a.chunks[cno].wp == StartSector(ln, slba) + nlb
      && (forall i :: 0 <= i < |chunks| && i != cno ==> a.chunks[i] == chunks[i])
      && !a.predefined
  {
    var cno := LbaToChunkNo(ln, slba);
    var start := StartSector(ln, slba);
    assert req == SUCCESS && nlb >= wsMin && CheckChunkWrite(ln, chunks, slba, nlb) == SUCCESS;
    assert 0 <= cno < |chunks|;
    var c := chunks[cno];
    var c' := Advance(c, nlb, ln.geo.secPerChk).value;
    assert RwAdmit(ln, chunks, req, true, slba, nlb, wsMin, dulbe, mwCunits) == Proceed(chunks[cno := c'], false);
    SectorFits(ln.lbaf, slba);
    WriteInChunk(c, start, nlb, ln.geo.secPerChk);
  }

  /** A write the chunk check admits starts at the write pointer, fits the chunk and moves the write pointer to its end. */
  lemma {:induction false} WriteInChunk(c: ChunkDesc, start: U32, nlb: U32, secPerChk: nat)
    requires start < 0x8000_0000 && nlb <= 0x1_0000
    requires WriteCheck(c, start, nlb) == SUCCESS && Advance(c, nlb, secPerChk).Some?
    ensures start == c.wp && start + nlb <= c.cnlb && Advance(c, nlb, secPerChk).value.wp == start + nlb
  {
    assert (start + nlb) % 0x1_0000_0000 == start + nlb;
  }

  /**
   * With the single channel the controller supports and chunks as
   * lnvm_chunk_meta_init sizes them, an admitted write touches only linear
   * sectors below the namespace's `total_chks * sec_per_chk`.
   */
  lemma {:induction false} RwWriteInNamespace(ln: Lnvm, chunks: seq<ChunkDesc>, req: U16, slba: U64, nlb: U32,
                                              wsMin: nat, dulbe: bool, mwCunits: U32)
    requires |chunks| == ln.totalChks && ln.Valid() && ln.geo.numCh == 1
    requires forall i :: 0 <= i < |chunks| ==> chunks[i].cnlb == ln.geo.secPerChk
    requires nlb <= 0x1_0000
    requires RwAdmit(ln, chunks, req, true, slba, nlb, wsMin, dulbe, mwCunits).Proceed?
    ensures LbaToOff(ln, slba) >= 0 && LbaToOff(ln, slba) + nlb <= ln.totalChks * ln.geo.secPerChk
  {
    assert ln.lbaf.secLen <= 31 by { assert ln.lbaf.Packed(); }
    RwWriteInChunk(ln, chunks, req, slba, nlb, wsMin, dulbe, mwCunits);
    var cno := LbaToChunkNo(ln, slba);
    LbaToOffLinear(ln, slba);
    SectorFits(ln.lbaf, slba);
    OffsetBelow(cno, ln.totalChks, ln.geo.secPerChk, Sector(ln.lbaf, slba), nlb);
  }

  /** Sectors `sec .. sec + nlb` of chunk `cno` of `n` chunks of `spc` sectors lie below `n * spc`. */
  lemma {:induction false} OffsetBelow(cno: nat, n: nat, spc: nat, sec: nat, nlb: nat)
    requires cno < n && sec + nlb <= spc
    ensures 0 <= cno * spc + sec && cno * spc + sec + nlb <= n * spc
  {
    MulMonotone(cno + 1, n, spc);
    assert (cno + 1) * spc == cno * spc + spc;
  }

  /** A sector field of at most 31 bits fits the `uint32_t` start sector unchanged. */
  lemma {:induction false} SectorFits(f: Lbaf, lba: nat)
    requires f.secLen <= 31
    ensures Sector(f, lba) < 0x8000_0000 && Sector(f, lba) % 0x1_0000_0000 == Sector(f, lba)
  {
    Pow2Monotone(f.secLen, 31);
    Pow2_31();
    var x := Sector(f, lba);
    DivModUnique(x, 0x1_0000_0000, 0, x);
  }

  /**
   * A read is never refused for its range: one outside every chunk, or past
   * what the chunk holds, is served predefined data unless DULBE is enabled;
   * a read of a readable range proceeds with the table unchanged.
   */
  lemma {:induction false} RwReadOutcome(ln: Lnvm, chunks: seq<ChunkDesc>, slba: U64, nlb: U32, wsMin: nat,
                                         dulbe: bool, mwCunits: U32)
    requires |chunks| == ln.totalChks && ln.Derived()
    ensures var a := RwAdmit(ln, chunks, SUCCESS, false, slba, nlb, wsMin, dulbe, mwCunits);
      var readable := CheckChunkRead(ln, chunks, slba, nlb, mwCunits) == 0;
      (readable ==> a == Proceed(chunks, false))
      && (!readable && dulbe ==> a == Refuse(WithDnr(DULB)))
      && (!readable && !dulbe ==> a == Proceed(chunks, true))
      && (LbaToChunkNo(ln, slba) == -1 ==> !readable)
  {
  }
}

=== FILE: status.dfy ===
/**
 * Completion status values (the Status Field of NVMe 1.2 section 4.6.1, with
 * the Status Code Type in bits 8-10 and Do Not Retry in bit 14), and the
 * Open-Channel SSD 2.0 media status codes the chunk checks return.
 */
module Status {
  import opened Bits

  const SUCCESS: U16 := 0x0000
  const INVALID_OPCODE: U16 := 0x0001
  const INVALID_FIELD: U16 := 0x0002
  const INVALID_NSID: U16 := 0x000b
  const LBA_RANGE: U16 := 0x0080
  /** A vendor code of this emulator for a bad shadow doorbell buffer address. */
  const INVALID_MEMORY_ADDRESS: U16 := 0x00c0
  const INVALID_CQID: U16 := 0x0100
  const INVALID_QID: U16 := 0x0101
  const MAX_QSIZE_EXCEEDED: U16 := 0x0102
  const AER_LIMIT_EXCEEDED: U16 := 0x0105
  const WRITE_FAULT: U16 := 0x0280
  const DULB: U16 := 0x0287
  /** Open-Channel SSD 2.0 "out of order write" (media error 0xF2). */
  const OUT_OF_ORDER_WRITE: U16 := 0x02f2
  const DNR: U16 := 0x4000
  /** Not a status the host sees: the command completes later, from a callback. */
  const NO_COMPLETE: U16 := 0xffff

  /** `code | NVME_DNR`: the codes above all leave bit 14 clear. */
  function WithDnr(code: U16): (s: U16)
    requires code < DNR
    ensures s != SUCCESS && s - DNR == code
  {
    code + DNR
  }
}

=== FILE: wrappers.dfy ===
/** Optional values, for C functions that return a pointer or a "not found" marker. */
module Wrappers {
  datatype Option<T> = None | Some(value: T)
}
